=== FILE: README.md ===
# ezjww in Dafny

A model of ezjww, a reader for JW_CAD `.jww` drawings that converts them
to ASCII DXF R2000 (`$ACADVER` = `AC1015`). The model follows the Rust
crate from the raw bytes to the DXF text, and the pure logic of the
Python package on top. Every operation is stated against a
specification, and the properties the code promises are proved about
that specification.

The model has four parts.

- **Reading a drawing.** This is the JW_CAD side.
  - `bytes.dfy`: little-endian integers.
  - `reader.dfy`: the bounds-checked `Reader` cursor, as a class. It covers the MFC `CString` with its 1/2/4-byte length prefix.
  - `header.dfy`: the signature probe, the fixed header layout, and the layer and group names with their defaults.
  - `layout.dfy`, `parser.dfy`: the `CArchive` entity and block-definition streams. `layout.dfy` gives the byte layout as pure functions; `parser.dfy` has the decoders that step a `Reader`, each proved to follow that layout.
  - `model.dfy`: the entity records, type tags, control points and bounding box.
  - `lookup.dfy`: entity counts, block-definition lookups and the validation of block references.
  - `errors.dfy`: the error set.
- **Converting to DXF records.**
  - `dxf_model.dfy`: the records.
  - `dxf_convert.dfy`: colour, line-type, layer and block-name tables, and the conversion of each entity.
  - `dxf_transform.dfy`: the `Transform2D` algebra and how a record is placed when a block is exploded.
  - `dxf_explode.dfy`: recursive insert explosion, guarded by the expanding stack, and the document-level conversion.
- **Writing the DXF text.**
  - `dxf_writer.dfy`: `AsciiDxfWriter`, as a class holding its output, handle counter and block-record registry. Its ghost state is the list of groups written so far, and it has an invariant: the output is the text of those groups, and no handle is written twice.
  - `dxf_groups.dfy`: the groups each write method appends.
  - `dxf_properties.dfy`: what the writer's bookkeeping guarantees.
  - `dxf_escape.dfy`: `escape_unicode`.
  - `format.dfy`: the integer renderings `{}`, `{:X}`, `{:04X}` and `{:>3}`.
  - `sorted.dfy`: the ordered sets and maps the writer iterates.
- **The Python package.**
  - `py_text.dfy`, `py_values.dfy`: the string and dictionary operations it relies on.
  - `selector.dfy`: the query-selector parser.
  - `facade.dfy`: `Modelspace.query`, the statistics, the `max_block_nesting` check, and `Drawing` with its per-option cache and audit.
  - `plot.dfy`: the plot helpers.

Where a reader might expect otherwise, the model follows the code.

- `unresolved_def_numbers` is built from a `BTreeSet`. It is therefore ascending and free of repeats, not one entry per unresolved reference (src/parser.rs:393-409).
- In exploded mode, an insert that hits the depth limit, closes a cycle or names an undefined block is dropped. It is reported as `BLOCK_DEPTH_LIMIT(n)`, `BLOCK_CYCLE(n)` or `UNRESOLVED_BLOCK(n)`, and no INSERT stands in for it (src/dxf.rs:781-793).
- An unknown entity class ends the whole parse with an error (src/parser.rs:114).
- There is no unsupported-version error (src/error.rs).
- `block_def_name_map` and `block_defs_by_number` fill a `HashMap`, so the last definition with a given number wins. `resolve_block_name` searches the list, so the first one wins.
- `max_block_nesting >= 1` is checked only in Python. The Rust conversion accepts 0.

Some things the model cannot compute itself, so it takes them as parameters.

- Binary64 values are carried as reals.
- The elementary functions (`cos`, `sin`, `sqrt`, `atan2`) and the arc and ellipse samplers used when exploding are fields of a `Numerics` value.
- Shift-JIS decoding, binary64 decoding and lossy UTF-8 decoding are fields of a `Codecs` value held by the reader.
- The `{:.12}` number formatter is a function the writer is given.
- `read_dxf_document`, the extension call the Python cache makes on a miss, is a `Reader` function parameter.

## Model

| member | source | states |
|---|---|---|
| Bytes.LeDigits | src/reader.rs:38-44 | the first byte of a little-endian u16 is its low-order base-256 digit; a u32 is its two u16 halves, low half first |
| Bytes.LeU16RoundTrip | src/reader.rs:38-40 | `u16::from_le_bytes` and `to_le_bytes` invert each other: the two-byte layout is a bijection |
| Bytes.LeU32RoundTrip | src/reader.rs:42-44 | `u32::from_le_bytes` and `to_le_bytes` invert each other: the four-byte layout is a bijection |
| Bytes.LeU32Example | src/reader.rs:104-116 | the unit test's bytes `02 00` read as u16 2 and `58 02 00 00` read as u32 600 |
| Format.HexDigit | src/dxf.rs:639-643 | one upper-case hexadecimal digit whose value is the given nibble |
| Format.HexDigitValue | src/dxf.rs:639-643 | the value of an upper-case hexadecimal digit is below 16 |
| Format.HexUpper | src/dxf.rs:639-643 | `{:X}` has at least one upper-case hex digit, starts with `0` exactly for zero, and is one digit exactly below 16 |
| Format.HexUpperRoundTrip | src/dxf.rs:639-643 | reading a `{:X}` rendering back as hexadecimal gives the number |
| Format.HexUpperInjective | src/dxf.rs:639-643 | distinct counters give distinct handle texts |
| Format.Zeros | src/dxf.rs:684 | the zero padding of `{:04X}` is `k` zeros |
| Format.ZerosValue | src/dxf.rs:684 | zero padding has value 0 |
| Format.HexValueLeadingZeros | src/dxf.rs:684 | leading zeros do not change a hexadecimal value |
| Format.Hex4 | src/dxf.rs:684 | `{:04X}` is at least four upper-case hex digits, exactly four when `{:X}` is shorter, with the same value |
| Format.NatToString | src/dxf.rs:626-628 | `{}` of a non-negative number: decimal digits only, a leading `0` exactly for zero |
| Format.NatToStringRoundTrip | src/dxf.rs:626-628 | reading the decimal rendering back gives the number |
| Format.IntToString | src/dxf.rs:626-628 | `{}` of an integer: a leading `-` exactly for negative values, followed by the digits of its magnitude |
| Format.IntToStringRoundTrip | src/dxf.rs:626-628 | parsing the decimal rendering of any integer gives it back |
| Format.IntToStringInjective | src/dxf.rs:626-628 | distinct integers render differently |
| Format.PadLeft | src/dxf.rs:622-632 | `{code:>3}` pads with spaces in front up to the width, never truncating, and ends with the text itself |
| Format.TrimStart | src/dxf.rs:1286 | `trim_start` leaves a suffix that does not start with white space, having cut only white space |
| Format.TrimEnd | src/dxf.rs:1286 | `trim_end` leaves a prefix that does not end with white space, having cut only white space |
| Format.Trim | src/dxf.rs:1286 | `trim` leaves text with no white space at either end, empty exactly when the input is all white space |
| JwwReader.CStringLength | src/reader.rs:57-67 | the CString length prefix fails only with an end-of-data error and otherwise ends after `p` within the data |
| JwwReader.TrimEndNulSpec | src/reader.rs:75 | `trim_end_matches('\0')` gives a prefix that does not end in NUL, and only NULs were cut |
| JwwReader.CStringBytesAt | src/reader.rs:56-76 | a CString read fails only with an end-of-data error and otherwise ends after `p` within the data |
| JwwReader.CStringAt | src/reader.rs:56-76 | decoding a CString fails exactly when its bytes cannot be read, only with an end-of-data error |
| JwwReader.CStringLengthPrefix | src/reader.rs:57-67 | the prefix is one byte below 0xFF, else a u16 below 0xFFFF after it, else a u32 after both; it succeeds exactly when those bytes exist and is 1, 3 or 7 bytes long |
| JwwReader.CStringAtLayout | src/reader.rs:56-76 | a CString is read exactly when its prefix and that many bytes exist; it consumes prefix plus length; length 0 is the empty string; the text never ends in NUL |
| JwwReader.CStringEmptyExample | src/reader.rs:125-130 | a zero length byte reads the empty string and uses one byte |
| JwwReader.Reader.constructor | src/reader.rs:12-16 | a new reader starts at position 0 over the given data |
| JwwReader.Reader.BytesRead | src/reader.rs:18-20 | the position is never past the end of the data |
| JwwReader.Reader.Skip | src/reader.rs:22-32 | advances by `len` when that stays within the data; otherwise an end-of-data error and the position unchanged |
| JwwReader.Reader.ReadExactInto | src/reader.rs:84-96 | fills the buffer with the next bytes and advances, or fails with end-of-data leaving buffer and position untouched |
| JwwReader.Reader.ReadExact | src/reader.rs:78-82 | the next `n` bytes and the position after them, or end-of-data and no move |
| JwwReader.Reader.ReadU8 | src/reader.rs:34-36 | the next byte, or end-of-data and no move |
| JwwReader.Reader.ReadU16 | src/reader.rs:38-40 | the little-endian u16 of the next two bytes, or end-of-data and no move |
| JwwReader.Reader.ReadU32 | src/reader.rs:42-44 | the little-endian u32 of the next four bytes, or end-of-data and no move |
| JwwReader.Reader.ReadF64 | src/reader.rs:46-48 | the binary64 value of the next eight bytes, or end-of-data and no move |
| JwwReader.Reader.ReadBytes | src/reader.rs:50-54 | the next `len` bytes, or end-of-data and no move |
| JwwReader.Reader.ReadCString | src/reader.rs:56-76 | the CString the pure description gives, and the position after it; on failure end-of-data, with the cursor where the partial read left it |
| JwwHeader.DefaultGroupName | src/header.rs:125 | the default group name `Group{g:X}` is never empty |
| JwwHeader.DefaultLayerName | src/header.rs:127 | the default layer name `{g:X}-{l:X}` is never empty |
| JwwHeader.DefaultLayerNamesDistinct | src/header.rs:123-130 | within the 16 x 16 table two layers with the same default name are the same layer |
| JwwHeader.GroupRecordAtSameTable | src/header.rs:56-66 | renaming a group does not change what its stored record says |
| JwwHeader.CStringsAt | src/header.rs:109-118 | a run of `n` CStrings has `n` stored names and ends within the data |
| JwwHeader.CStringsAtFailureSticks | src/header.rs:109-118 | once a run of names fails, every longer run fails too (the `?` abandons the section) |
| JwwHeader.CStringsPastEnd | src/header.rs:97-111 | no name can be read at a position past the end of the data |
| JwwHeader.CStringsAtStep | src/header.rs:109-118 | a run grows by one CString at a time |
| JwwHeader.CStringsAtStepFails | src/header.rs:109-118 | a CString that cannot be read ends every longer run |
| JwwHeader.ReadLayerTable | src/header.rs:56-66 | reads the 16 group records with their 16 layer records, exactly when 2368 bytes remain; the groups then hold the stored fields |
| JwwHeader.ReadLayerRecords | src/header.rs:62-65 | reads 16 (state, protect) pairs, exactly when 128 bytes remain, each the pair stored at its offset |
| JwwHeader.ReadGroupRecord | src/header.rs:57-65 | reads one 148-byte group record into entry `g`, leaving the other entries untouched |
| JwwHeader.DefaultLayerNamesOfGroup | src/header.rs:126-128 | sets every layer's name to `{g:X}-{l:X}` (or only the empty ones, as at lines 137-140), keeping the other fields |
| JwwHeader.ReadNextCString | src/header.rs:111 | reads the CString that extends a run by one, or fails so that every longer run fails |
| JwwHeader.LayerNamesAreExtend | src/header.rs:109-113 | extending the run of names keeps the names earlier groups took from it |
| JwwHeader.ReadGroupLayerNames | src/header.rs:110-112 | the 16 layer names of one group are the next 16 CStrings of the run, decoded; state and protect stay |
| JwwHeader.LayerNamesUpToStep | src/header.rs:109-113 | naming group `g` keeps the groups before it named |
| JwwHeader.ReadLayerNames | src/header.rs:109-113 | succeeds exactly when 256 CStrings can be read; layer `l` of group `g` then takes CString `16 g + l`; nothing but names changes |
| JwwHeader.ReadGroupNames | src/header.rs:115-118 | succeeds exactly when 16 CStrings can be read; group `g` then takes CString `g`; layers are untouched |
| JwwHeader.ParseLayerNames | src/header.rs:85-121 | version below 300 fails with `UnexpectedEof("layer names")`; otherwise succeeds exactly when the name section 156 bytes on can be read, naming layers and groups from it |
| JwwHeader.SameTablesTrans | src/header.rs:70-74 | agreeing on everything but names is transitive across the renaming steps |
| JwwHeader.ApplyDefaultLayerNames | src/header.rs:123-130 | every group is named `Group{g:X}` and every layer `{g:X}-{l:X}`; nothing else changes |
| JwwHeader.ApplyDefaultLayerNamesForBlanks | src/header.rs:132-143 | only empty names are replaced by their defaults; the others stay; nothing else changes |
| JwwHeader.ResolvedGroupName | src/header.rs:70-74 | a group's final name is never empty and is its default when no name section was read |
| JwwHeader.ResolvedLayerName | src/header.rs:70-74 | a layer's final name is never empty and is its default when no name section was read |
| JwwHeader.ReadNamesOrDefaults | src/header.rs:68-74 | after the layer table every name is the resolved one: all defaults when the section fails, otherwise the stored names with empty ones defaulted |
| JwwHeader.RenamedTableRecords | src/header.rs:56-74 | renaming the groups of a table keeps their stored records |
| JwwHeader.NewLayerGroups | src/header.rs:52-55 | a fresh table of 16 default groups, each with 16 default layers |
| JwwHeader.ReadLayerGroups | src/header.rs:52-74 | reads the layer table exactly when 2368 bytes remain; the result is 16 x 16, every name non-empty and resolved, records as stored |
| JwwHeader.IsJwwSignature | src/header.rs:35-37 | the signature test: data at least eight bytes long whose first eight bytes are `JwwData.`; ParseHeader answers `InvalidSignature` for anything else |
| JwwHeader.ParseHeader | src/header.rs:39-83 | a missing `JwwData.` signature is `InvalidSignature`; otherwise succeeds exactly when version, memo, paper size, write group and layer table fit (else end-of-data), and the header then holds the stored fields and resolved names |
| JwwLayout.Reals4At | src/parser.rs:149-152 | four consecutive f64 fields take 32 bytes; a short read is an end-of-data error |
| JwwLayout.RecordsDecode | src/parser.rs:106-115 | the record decoder of a version decodes each class exactly as its layout says |
| JwwLayout.PrependNothing | src/parser.rs:69-78 | nothing decoded before a run leaves the run as it is, and an empty rest leaves what was decoded |
| JwwLayout.EntityStepperSteps | src/parser.rs:69-76 | the entity-list loop's step decodes one tagged object exactly as the object layout says |
| JwwLayout.ListsDecode | src/parser.rs:336 | the nested-list decoder of a definition decodes entity lists exactly as the list layout says |
| JwwLayout.BlockDefStepperSteps | src/parser.rs:298-308 | the definition-list loop's step decodes one definition exactly as the definition layout says |
| JwwLayout.FirstMarkerFrom | src/parser.rs:42-59 | a marker found at or after `i` lies more than 20 bytes before the end |
| JwwLayout.EntityListOffset | src/parser.rs:36-60 | a located entity list starts more than 22 bytes before the end of the data |
| JwwLayout.BaseAtSize | src/parser.rs:121-143 | the common attributes take 13 bytes, or 15 from version 351 on (the pen width); they decode exactly when those bytes exist, else end-of-data |
| JwwLayout.LineAtSize | src/parser.rs:145-154 | a line decodes exactly when attributes and four coordinates fit, and ends right after them |
| JwwLayout.PointAtSize | src/parser.rs:171-192 | a point carries code, angle and scale (20 more bytes) exactly when its pen style is 100; short reads are end-of-data |
| JwwLayout.SolidAtSize | src/parser.rs:212-240 | a solid carries a colour (4 more bytes) exactly when its pen colour is 10; short reads are end-of-data |
| JwwLayout.RepeatAtCount | src/parser.rs:265-270 | repeated records come out exactly as many as asked for |
| JwwLayout.RepeatAtFailed | src/parser.rs:265-270 | once repeated records fail, reading more of them fails the same way |
| JwwLayout.DimensionAtShape | src/parser.rs:255-281 | from version 420 on a dimension has an SXF mode, 2 auxiliary lines and 4 auxiliary points; before, none |
| JwwLayout.EntityAtClassTracking | src/parser.rs:87-118 | a new-class tag registers its name at the next pid and uses two pids; a known pid uses one; the null tag yields nothing and changes nothing; an unknown pid is `UnknownClassPid` of its low 15 bits |
| JwwLayout.RecordAtClasses | src/parser.rs:106-115 | only the seven entity classes decode; any other name is `UnknownEntityClass` where its record would start |
| JwwLayout.RunAllCount | src/parser.rs:69-76 | a run yields at most one value per object, never more than announced |
| JwwLayout.RunAllStep | src/parser.rs:69-76 | one more object moves from the rest of the run into the values done; a failing object fails the run (`?`) |
| JwwLayout.RunUntilFailureStep | src/parser.rs:298-308 | in a run that stops at the first failure, a failure ends it and a success moves one object into the values done |
| JwwLayout.RunUntilFailurePrefix | src/parser.rs:298-308 | stopping earlier gives a prefix of the longer run |
| JwwLayout.RunUntilFailureCount | src/parser.rs:298-308 | a run that stops at the first failure yields at most `n` values |
| JwwLayout.EntityListAtCount | src/parser.rs:62-79 | an entity list never holds more entities than its u16 count |
| JwwLayout.BlockDefListAtBounds | src/parser.rs:283-311 | a definition list holds at most 10000 and at most its u32 count; fewer than 4 bytes or a count above 10000 give none |
| JwwLayout.FirstMarkerFromSpec | src/parser.rs:42-59 | the scan returns the first marker at or after `i`: none before it, and none at all when it returns nothing |
| JwwLayout.EntityListOffsetSpec | src/parser.rs:36-60 | the entity list starts two bytes before the first marker at or after byte 100; data shorter than 128 bytes has none |
| JwwParser.ParseEntityBase | src/parser.rs:121-143 | yields the common attributes the layout gives (pen width only from version 351) and the position after them, or the layout's error and stop |
| JwwParser.ParseReals4 | src/parser.rs:149-152 | four f64 reads yield the layout's four values, or its error and stop |
| JwwParser.ParseLine | src/parser.rs:145-154 | yields the line the layout gives and the position after it, or the layout's error and stop |
| JwwParser.ParseArc | src/parser.rs:156-169 | yields the arc the layout gives (full-circle flag: a non-zero u32), or the layout's error and stop |
| JwwParser.ParsePoint | src/parser.rs:171-192 | yields the point the layout gives, with code, angle and scale read only for pen style 100, or the layout's error and stop |
| JwwParser.ParseTextFixed | src/parser.rs:195-206 | yields the fixed-size text fields the layout gives, or its error and stop |
| JwwParser.ParseText | src/parser.rs:194-210 | yields the text the layout gives, font name and content read as CStrings, or its error and stop |
| JwwParser.ParseSolid | src/parser.rs:212-240 | yields the solid the layout gives (corners stored 1, 4, 2, 3; colour only for pen colour 10), or its error and stop |
| JwwParser.ParseBlock | src/parser.rs:242-253 | yields the block reference the layout gives, or its error and stop |
| JwwParser.ParseLines | src/parser.rs:265-267 | the loop yields `n` lines as the layout gives, or the first error and its stop |
| JwwParser.ParsePoints | src/parser.rs:268-270 | the loop yields `n` points as the layout gives, or the first error and its stop |
| JwwParser.ParseDimension | src/parser.rs:255-281 | yields the dimension the layout gives (SXF mode and auxiliaries from version 420), or its error and stop |
| JwwParser.ParseRecord | src/parser.rs:106-115 | the class-name dispatch follows the record decoder: the seven classes decode, any other is `UnknownEntityClass` |
| JwwParser.ParseClassName | src/parser.rs:90-92 | a new-class announcement: schema, name length, then the name bytes as lossy UTF-8, as the layout gives |
| JwwParser.ParseClassOfTag | src/parser.rs:89-104 | the class of a tag, registering a new one at the next pid, none for the null tag, `UnknownClassPid` for an unregistered pid |
| JwwParser.ParseEntityWithPidTracking | src/parser.rs:81-119 | one tagged object and the updated pid table, exactly as the object layout gives, or its error and stop |
| JwwParser.ParseEntityList | src/parser.rs:62-79 | a u16 count and that many tagged objects with a fresh pid table, as the list layout gives; any object's error fails the list |
| JwwParser.ParseEntityRun | src/parser.rs:69-76 | the loop yields the objects of the run in order, skipping null objects, or the first error and its stop |
| JwwParser.ParseBlockDefBody | src/parser.rs:330-347 | attributes, number, referenced flag, a skipped time stamp, name, then the nested list, a broken one read as empty |
| JwwParser.ParseBlockDefWithTracking | src/parser.rs:313-348 | one definition as the definition layout gives: a new-class tag registers at the next id (saturating), the null tag yields nothing |
| JwwParser.ParseBlockDefList | src/parser.rs:283-311 | the definitions are exactly those the list layout gives: none when the count is unreadable or above 10000, else up to the first failure |
| JwwParser.ParseBlockDefRun | src/parser.rs:298-308 | the loop yields the definitions of a run that stops quietly at the first failure |
| JwwParser.FindEntityListOffset | src/parser.rs:36-60 | the scan answers exactly the offset the layout defines: two bytes before the first marker from byte 100, none in data under 128 bytes |
| JwwParser.ParseDocument | src/parser.rs:12-29 | no signature is `InvalidSignature`, a short header is end-of-data; otherwise the header read as stored, then the entities and definitions of the two streams, or the streams' error (`EntityListNotFound` when no marker) |
| JwwModel.EntityType | src/model.rs:148-164 | the tag is one of the eight; CIRCLE exactly for a full-circle arc, ARC for any other arc, and one fixed tag per other kind |
| JwwModel.LinePoints | src/model.rs:204-207 | two points per auxiliary line, start then end, in order |
| JwwModel.PointPositions | src/model.rs:208-210 | one position per auxiliary point, in order |
| JwwModel.CommonCoordinates | src/model.rs:180-216 | each kind carries its fixed number of control points; a dimension's are its line, its text, then two per auxiliary line and one per auxiliary point |
| JwwModel.FirstCoordinate | src/model.rs:218-220 | every entity has a first point: a line's start, an arc's centre, a block's reference point, a dimension's line start |
| JwwModel.AllCoordinatesPrefix | src/model.rs:234-240 | the collected points of a prefix of the entities are a prefix of all collected points |
| JwwModel.EntityCoordinatesInPlace | src/model.rs:234-240 | each entity's points follow, in order, right after those of the entities before it |
| JwwModel.AllCoordinatesCount | src/model.rs:234-240 | the collected points are exactly as many as the entities carry |
| JwwModel.CollectEntityCoordinates | src/model.rs:234-240 | the loop extends one vector with each entity's points, giving their in-order concatenation |
| JwwModel.CoordinatesBbox | src/model.rs:26-41 | none exactly for no points; otherwise a box whose corners bound every point and are each attained |
| JwwModel.CommonCoordinateBbox | src/model.rs:222-224 | every entity has the bounding box of its own control points |
| JwwModel.LineBboxExample | src/model.rs:250-265 | the unit test's line from (1, 2) to (4, 6) has exactly that box |
| JwwLookup.EntityCounts | src/parser.rs:350-356 | a tag is a key exactly when some entity carries it, and its value is how many do |
| JwwLookup.CountsSumToLength | src/parser.rs:350-356 | the counts of the eight tags add up to the number of entities |
| JwwLookup.CountOfOtherTag | src/parser.rs:350-356 | a tag that is none of the eight is never counted |
| JwwLookup.LastDefOf | src/parser.rs:358-364 | the last definition carrying a number, none exactly when no definition carries it |
| JwwLookup.BlockDefNameMap | src/parser.rs:358-364 | the keys are exactly the defined numbers, each mapped to the name of its last definition (later inserts overwrite) |
| JwwLookup.ResolveBlockName | src/parser.rs:366-371 | none exactly when no definition carries the number, else the name of one that does (the first) |
| JwwLookup.ResolveAgreesWithNameMap | src/parser.rs:358-371 | with unique numbers, `resolve_block_name` and `block_def_name_map` agree |
| JwwLookup.LookupExample | src/parser.rs:554-576 | the unit test: numbers 3 and 7 map to A and B, and 10 does not resolve |
| JwwLookup.BlockRefNumbers | src/parser.rs:413-419 | the collected numbers are at most one per entity |
| JwwLookup.BlockRefNumbersFromBlocks | src/parser.rs:413-419 | exactly one number per block reference (the BLOCK count), and a number is collected exactly when some reference carries it |
| JwwLookup.CollectBlockRefNumbers | src/parser.rs:413-419 | appends the block references' numbers, in order, to what was there |
| JwwLookup.InsertSorted | src/parser.rs:397-402 | `BTreeSet::insert` keeps the set ascending, holds exactly the old elements and `x`, growing by at most one |
| JwwLookup.CollectDocumentRefs | src/parser.rs:387-391 | the top-level references, then those of each definition in order |
| JwwLookup.TallyReferences | src/parser.rs:393-404 | counts the references whose number is defined; collects the others once each, ascending |
| JwwLookup.ValidateBlockReferences | src/parser.rs:386-411 | total is every reference, resolved those naming a defined number, unresolved the other numbers once each in ascending order; `has_unresolved` exactly when such a number exists |
| DxfModel.EntityType | src/dxf.rs:128-141 | the DXF name is one of the eight the writer emits, INSERT exactly for an insert, LINE for a line, TEXT for a text |
| DxfConvert.MapColor | src/dxf.rs:1294-1306 | always an ACI colour 1 to 254; the nine pens give colours up to 8; other pens give their number modulo 255, 0 raised to 1 |
| DxfConvert.MapColorPalette | src/dxf.rs:1294-1306 | among pens 1 to 9 two pens share a colour exactly when they are pens 1 and 8 |
| DxfConvert.MapLineType | src/dxf.rs:1308-1317 | BYLAYER exactly for pen styles above 4, CONTINUOUS exactly for style 0, otherwise one of the four patterns |
| DxfConvert.MapLineTypeInjective | src/dxf.rs:1308-1317 | the five patterned styles 0 to 4 get five different names |
| DxfConvert.GroupLayerCode | src/dxf.rs:1291 | the fallback name `{:X}-{:X}` is non-empty with no white space at either end |
| DxfConvert.LayerName | src/dxf.rs:1282-1292 | the trimmed table name when the indices are below 16 and it is not empty, the hex code when an index is out of range; never empty or padded |
| DxfConvert.BlockDefName | src/dxf.rs:1274-1280 | a non-empty raw name is kept; an empty one becomes `BLOCK_` and decimal digits |
| DxfConvert.BlockDefNameUnnamedInjective | src/dxf.rs:1274-1280 | unnamed definitions with different numbers get different names |
| DxfConvert.DefNumbersDefined | src/dxf.rs:1263-1272 | a number is a key of the name map exactly when some definition carries it |
| DxfConvert.BlockNameMap | src/dxf.rs:1263-1272 | the loop builds each defined number's `block_def_name`, a later definition overwriting an earlier one |
| DxfConvert.BlockDefsByNumber | src/dxf.rs:691-698 | the loop maps each defined number to its last definition |
| DxfConvert.DefMapNumbers | src/dxf.rs:691-698 | the definition a number maps to carries that number and is one of the definitions |
| DxfConvert.ConvertText | src/dxf.rs:1249-1261 | position, angle, content and style kept, style STANDARD; a height that is not positive becomes 2.5, so the height is always positive |
| DxfConvert.ConvertArc | src/dxf.rs:1187-1247 | one record: a circle exactly for a full arc of flatness 1, an ellipse exactly for flatness not 1 (ratio brought into (0, 1], parameters 0 to 2 pi for a full one), otherwise an arc whose span is the arc angle in degrees |
| DxfConvert.StyledRecords | src/dxf.rs:1115-1184 | the records of an entity: only a block reference becomes an INSERT, named from the map or `BLOCK_<n>`; a dimension becomes its line then its text; a temporary point nothing; all carry the style |
| DxfConvert.ConvertEntity | src/dxf.rs:1105-1185 | every entity converts (never None) into its record count, all carrying its layer name, mapped colour and line type; only block references give INSERTs |
| DxfConvert.ConvertedAppend | src/dxf.rs:1092-1101 | converting a concatenation converts each part in turn: input order is kept |
| DxfConvert.InsertCountNone | src/dxf.rs:1092-1101 | records without INSERTs count none |
| DxfConvert.InsertCountAppend | src/dxf.rs:1092-1101 | INSERTs of a concatenation add up |
| DxfConvert.ConverterLength | src/dxf.rs:1092-1101 | converting a list gives one record per entity, one more per dimension, one fewer per temporary point |
| DxfConvert.ConverterInserts | src/dxf.rs:1092-1101 | converting a list gives exactly one INSERT per block reference |
| DxfConvert.ConvertedCounts | src/dxf.rs:1085-1103 | the converted list's length and INSERT count, in terms of the `entity_counts` tags |
| DxfConvert.ConvertEntities | src/dxf.rs:1085-1103 | the records of every entity, in order; the unsupported list is unchanged since no entity fails to convert |
| DxfConvert.ConvertBlocks | src/dxf.rs:1061-1083 | one block per definition, in order, named by `block_def_name`, base (0, 0), its entities converted; nothing is reported |
| DxfConvert.ConvertBlock | src/dxf.rs:1067-1080 | one definition's block, as the loop body builds it |
| DxfConvert.LayerFor | src/dxf.rs:1043-1055 | a layer's colour is in 1 to 255 and its name is never empty |
| DxfConvert.LayerColors | src/dxf.rs:1051 | among the 256 layers two share a colour exactly when they are the first and the last |
| DxfConvert.LayerForColor | src/dxf.rs:1051 | layer `i` (group-major) gets colour `i mod 255 + 1` |
| DxfConvert.ConvertLayers | src/dxf.rs:1039-1059 | exactly 256 layers, layer `i` being group `i / 16`, layer `i mod 16`'s |
| DxfTransform.RowCompose | src/dxf.rs:734-750 | one coordinate of a composition is the row of `t` applied after `rhs` |
| DxfTransform.ApplyCompose | src/dxf.rs:734-750 | applying `compose(t, rhs)` to a point is applying `rhs`, then `t` |
| DxfTransform.ApplyVectorIsDifference | src/dxf.rs:745-754 | `apply_vector` moves a vector as the difference of two moved points: translation cancels |
| DxfTransform.IdentityNeutral | src/dxf.rs:710-719 | `identity` is neutral on both sides of `compose` and fixes every point |
| DxfTransform.FromInsert | src/dxf.rs:721-732 | the insert's transform sends the block's origin to the reference point |
| DxfTransform.TransformCircle | src/dxf.rs:902-954 | a circle becomes one point, circle or full ellipse (parameters 0 to 2 pi), keeping its layer, colour and line type |
| DxfTransform.PolylineLines | src/dxf.rs:1009-1033 | one line per pair of neighbouring points, in order, none for fewer than two points |
| DxfTransform.PointsToLines | src/dxf.rs:1009-1033 | the loop over the windows of two points gives exactly those lines |
| DxfTransform.PolylineLinesStyled | src/dxf.rs:1022-1030 | every line of a polyline carries its style, and none is an INSERT |
| DxfTransform.TransformEntityForExplode | src/dxf.rs:823-900 | every result keeps the record's style; only an INSERT yields an INSERT; lines, points, texts, solids and inserts stay one record of their kind; a text keeps its content and has height at least 0.1 |
| DxfTransform.TransformIdentity | src/dxf.rs:825-884 | lines, points and solids come through the identity transform unchanged |
| DxfExplode.Converter | src/dxf.rs:810 | the converter the explode loop calls is `convert_entity` for the document and name map |
| DxfExplode.Placer | src/dxf.rs:813 | the placer the explode loop calls is `transform_entity_for_explode` |
| DxfExplode.ExplodeAll | src/dxf.rs:767-821 | the explode loop as a function: the records and tags of the entities exploded one after the other, in order; the lemmas below state what it yields |
| DxfExplode.ExplodeOne | src/dxf.rs:779-818 | one entity: an insert is dropped with a depth-limit, cycle or unresolved tag, checked in that order, or expanded under the composed transform with its block pushed on the stack; any other entity is converted and placed, or tagged with its type |
| DxfExplode.ExplodeAllStep | src/dxf.rs:778-819 | exploding one more entity appends its records and tags to those of the entities before it |
| DxfExplode.TransformRecords | src/dxf.rs:812-814 | the inner loop appends each converted record, transformed, in order |
| DxfExplode.ConvertEntitiesExploded | src/dxf.rs:767-821 | the stack comes back as it went in; the records and the appended tags are those of the explode specification |
| DxfExplode.ExplodeInsert | src/dxf.rs:780-809 | the insert arm, entered with a stack of distinct numbers no longer than the limit: depth limit, then cycle, then unresolved checks, each dropping the insert with its tag; otherwise push, explode the block under the composed transform, pop |
| DxfExplode.ExplodeOther | src/dxf.rs:810-817 | any other entity is converted and each record placed by the current transform |
| DxfExplode.PlaceAllNoInserts | src/dxf.rs:812-814 | placing records without INSERTs leaves none |
| DxfExplode.ExplodeAllNoInserts | src/dxf.rs:767-821 | exploded output holds no INSERT: every reference is expanded or dropped |
| DxfExplode.ExplodeOneNoInserts | src/dxf.rs:779-818 | one exploded entity yields no INSERT |
| DxfExplode.ExplodeAllTags | src/dxf.rs:767-821 | every entry the explode pass reports is `BLOCK_DEPTH_LIMIT(n)`, `BLOCK_CYCLE(n)` or `UNRESOLVED_BLOCK(n)` |
| DxfExplode.ExplodeOneTags | src/dxf.rs:779-818 | one exploded entity reports only the three insert tags |
| DxfExplode.ExplodeAtDepthLimit | src/dxf.rs:781-784 | at the nesting limit every insert is dropped with its depth-limit tag, in order, and nothing else is reported |
| DxfExplode.ExplodeCycleExample | src/dxf.rs:785-788 | block 1 inserting block 2 inserting block 1 reports `BLOCK_CYCLE(1)` |
| DxfExplode.ExplodeUnresolvedExample | src/dxf.rs:790-793 | an insert of an undefined number 999 reports `UNRESOLVED_BLOCK(999)` and yields nothing |
| DxfExplode.ExplodeDepthLimitExample | src/dxf.rs:781-784 | with a limit of 1 the insert inside block 1 reports `BLOCK_DEPTH_LIMIT(2)` |
| DxfExplode.ConvertDocumentWithOptions | src/dxf.rs:178-215 | always the 256 layers; exploding gives the exploded entities, no blocks and the explode tags; otherwise the converted entities, one block per definition and no unsupported entries |
| DxfExplode.ConvertDocument | src/dxf.rs:165-176 | the default options keep inserts: 256 layers, one block per definition, the converted entities, nothing unsupported |
| DxfExplode.ExplodedDocument | src/dxf.rs:184-207 | an exploded document holds no INSERT and reports only insert tags |
| DxfGroups.GroupText | src/dxf.rs:622-624 | the text of one group: the code right-aligned in three columns, a newline, the value, a newline |
| DxfGroups.LineTypePattern | src/dxf.rs:299-308 | every pattern is whole dash-gap pairs: positive lengths at even positions, negative at odd, none zero; only the five known names get a description |
| DxfGroups.LtypeNames | src/dxf.rs:287-291 | the LTYPE names: the collected line types with BYLAYER, BYBLOCK and CONTINUOUS added, in sorted order without repeats |
| DxfGroups.LayerKeys | src/dxf.rs:327-332 | the keys of the layer map: every layer name, sorted, each once |
| DxfGroups.FirstLayers | src/dxf.rs:327-332 | the entries of the layer map: each name bound to the first layer that carries it |
| DxfGroups.Register | src/dxf.rs:498-505 | afterwards the name has a handle; handles already given never change; the order grows by the name exactly when it was new |
| DxfGroups.EnsureRegistry | src/dxf.rs:487-496 | an existing registry is left alone; an empty one registers `*Model_Space`, `*Paper_Space`, then every block, in that order |
| DxfGroups.DocumentGroups | src/dxf.rs:249-257 | the groups of the whole document: the registry ensured, then the HEADER, TABLES, BLOCKS, ENTITIES and OBJECTS sections and the closing EOF |
| DxfGroups.LayerKeysInEntries | src/dxf.rs:327-332 | every key of the layer map has an entry, and the keys are exactly the map's names |
| DxfGroups.RenderFlat | src/dxf.rs:622-624 | the output is the concatenation of each written group's text, in order |
| DxfGroups.RenderAppend | src/dxf.rs:622-624 | the text of two runs of groups written one after the other is the first text followed by the second |
| DxfGroups.CodeTexts | src/dxf.rs:622-624 | a group with code 0 or 2 is written as two spaces, the digit, a line break, the value and a line break |
| DxfGroups.HeaderStartText | src/dxf.rs:259-260 | the HEADER section opens with the text `  0\nSECTION\n  2\nHEADER\n` |
| DxfGroups.RenderEnd | src/dxf.rs:256 | groups ending with (0, EOF) render to text ending in `  0\nEOF\n` |
| DxfGroups.EnsureRegistryKeys | src/dxf.rs:487-505 | after `ensure_block_record_table` every registered name has a handle, so the lookup at 392-396 never fails |
| DxfWriter.AppendConsistent | src/dxf.rs:622-624 | writing a group keeps the writer invariant (the output is the text of the groups, no handle is repeated, every handle is below the counter), provided a code-5 group carries a fresh handle |
| DxfWriter.AllocConsistent | src/dxf.rs:639-643 | the counter's value in hexadecimal is a handle not written before, and moving the counter on keeps the invariant |
| DxfWriter.RegisterConsistent | src/dxf.rs:498-505 | registering a new name with the next handle keeps the invariant, and its handle stays reserved until its record is written |
| DxfWriter.MarkConsistent | src/dxf.rs:397-398 | a registered block record's handle has not been written before its record is |
| DxfWriter.SectionOpened | src/dxf.rs:613-616 | each opened section is a (0, SECTION) group directly followed by its name at code 2 |
| DxfWriter.CollectLineTypes | src/dxf.rs:646-660 | the three loops give the ordered set of the layers', entities' and block entities' line types |
| DxfWriter.IndexLayers | src/dxf.rs:327-332 | the layer map built by `or_insert_with`: keys in ascending order, each bound to its first layer |
| DxfWriter.AsciiDxfWriter.constructor | src/dxf.rs:236-243 | empty output, the handle counter at 1, an empty block-record registry |
| DxfWriter.AsciiDxfWriter.Finish | src/dxf.rs:245-247 | the output is the text of every group written; handles written are distinct and below the counter |
| DxfWriter.AsciiDxfWriter.GroupStr | src/dxf.rs:622-624 | appends one group and keeps the invariant; a handle group must carry a fresh handle; a code-2 group after (0, SECTION) opens a section |
| DxfWriter.AsciiDxfWriter.GroupI32 | src/dxf.rs:626-628 | appends one group with the decimal value, leaving sections, counter and registry alone |
| DxfWriter.AsciiDxfWriter.GroupF64 | src/dxf.rs:630-632 | appends one group with the value through the number formatter |
| DxfWriter.AsciiDxfWriter.AllocHandle | src/dxf.rs:639-643 | returns the counter in upper-case hexadecimal, a handle not yet written, and moves the counter on by one |
| DxfWriter.AsciiDxfWriter.WriteHandle | src/dxf.rs:634-637 | appends a code-5 group with the next handle; the counter moves on by one |
| DxfWriter.AsciiDxfWriter.SectionStart | src/dxf.rs:613-616 | appends (0, SECTION) and (2, name) and records the section as opened there |
| DxfWriter.AsciiDxfWriter.SectionEnd | src/dxf.rs:618-620 | appends (0, ENDSEC), opening nothing |
| DxfWriter.AsciiDxfWriter.RegisterBlockRecord | src/dxf.rs:498-505 | a new name takes the next handle at the end of the order; a known name changes nothing; no output |
| DxfWriter.AsciiDxfWriter.EnsureBlockRecordTable | src/dxf.rs:487-496 | an empty registry gets `*Model_Space`, `*Paper_Space` and each block name; a non-empty one is left alone; no output |
| DxfWriter.AsciiDxfWriter.MarkRecordWritten | src/dxf.rs:391-398 | the next block record's handle may now be written exactly once |
| DxfWriter.AsciiDxfWriter.WriteHeader | src/dxf.rs:259-276 | appends the HEADER section (AC1015, ANSI_1252, metric, STANDARD, layer 0, BYLAYER) and opens it |
| DxfWriter.AsciiDxfWriter.TableStart | src/dxf.rs:293-296 | appends TABLE, the table name, a fresh handle and the declared record count |
| DxfWriter.AsciiDxfWriter.WriteStyleTable | src/dxf.rs:365-382 | appends the STYLE table with its one STANDARD record, taking two handles |
| DxfWriter.AsciiDxfWriter.WriteStyleRecord | src/dxf.rs:370-380 | appends the STANDARD record with a fresh handle |
| DxfWriter.AsciiDxfWriter.WriteLtypeRecord | src/dxf.rs:299-320 | appends one LTYPE record: the name, its description, the sum of absolute element lengths and one code-49 group per element |
| DxfWriter.AsciiDxfWriter.WriteLtypeTable | src/dxf.rs:287-324 | appends the LTYPE table over the collected line types and the three standard ones, in name order, one handle each plus one |
| DxfWriter.AsciiDxfWriter.WriteLtypeRecords | src/dxf.rs:298-321 | appends one record per name, in order, the k-th with the k-th next handle |
| DxfWriter.AsciiDxfWriter.WriteLayerRecord | src/dxf.rs:346-360 | appends one LAYER record: the escaped name, flag 1 when frozen plus 4 when locked, colour and line type |
| DxfWriter.AsciiDxfWriter.WriteLayerTable | src/dxf.rs:326-363 | appends the LAYER table: count one more than the map, layer 0, then the first layer of each name in name order |
| DxfWriter.AsciiDxfWriter.WriteLayerZero | src/dxf.rs:339-344 | appends layer 0 with colour 7 and CONTINUOUS |
| DxfWriter.AsciiDxfWriter.WriteLayerRecords | src/dxf.rs:346-360 | appends one record per map key, in key order, one handle each |
| DxfWriter.AsciiDxfWriter.WriteBlockRecordTable | src/dxf.rs:384-406 | appends the BLOCK_RECORD table, one record per registered name with its registered handle; every reserved handle is then written once |
| DxfWriter.AsciiDxfWriter.WriteBlockRecords | src/dxf.rs:390-403 | one record per registered name, in registration order, with the handle the registry gave it |
| DxfWriter.AsciiDxfWriter.WriteBlockRecord | src/dxf.rs:392-402 | one BLOCK_RECORD with the name's registered handle, owner 0 and the escaped name |
| DxfWriter.AsciiDxfWriter.EntityHeader | src/dxf.rs:595-611 | appends type, fresh handle, the owner when there is one, the escaped layer, colour and line type |
| DxfWriter.AsciiDxfWriter.WriteLine | src/dxf.rs:513-521 | appends a LINE with both end points at z 0 |
| DxfWriter.AsciiDxfWriter.WriteCircle | src/dxf.rs:522-528 | appends a CIRCLE with centre and radius |
| DxfWriter.AsciiDxfWriter.WriteArc | src/dxf.rs:529-537 | appends an ARC with centre, radius and the two angles in degrees |
| DxfWriter.AsciiDxfWriter.WriteEllipse | src/dxf.rs:538-549 | appends an ELLIPSE with centre, major axis end, ratio and parameters |
| DxfWriter.AsciiDxfWriter.WritePoint | src/dxf.rs:550-555 | appends a POINT |
| DxfWriter.AsciiDxfWriter.WriteText | src/dxf.rs:556-565 | appends a TEXT with position, height, escaped content and rotation |
| DxfWriter.AsciiDxfWriter.WriteSolid | src/dxf.rs:566-580 | appends a SOLID with its four corners |
| DxfWriter.AsciiDxfWriter.WriteInsert | src/dxf.rs:581-591 | appends an INSERT with the escaped block name, position, scales and rotation |
| DxfWriter.AsciiDxfWriter.WriteEntity | src/dxf.rs:511-594 | appends the record's groups under its own DXF name, taking one handle |
| DxfWriter.AsciiDxfWriter.WriteEntityList | src/dxf.rs:432-434 | appends the records in order, the k-th taking the k-th next handle |
| DxfWriter.AsciiDxfWriter.WriteEntities | src/dxf.rs:429-436 | appends the ENTITIES section, each record owned by the model space's record |
| DxfWriter.AsciiDxfWriter.WriteBlockDefinition | src/dxf.rs:448-485 | appends BLOCK, the records and ENDBLK, all owned by the given owner, taking two handles plus one per record |
| DxfWriter.AsciiDxfWriter.WriteBlockRest | src/dxf.rs:473-484 | appends the records, then the ENDBLK entity |
| DxfWriter.AsciiDxfWriter.WriteBlockBegin | src/dxf.rs:456-471 | appends the BLOCK entity: handle, owner, escaped name twice, base point |
| DxfWriter.AsciiDxfWriter.WriteBlockEnd | src/dxf.rs:477-484 | appends the ENDBLK entity |
| DxfWriter.AsciiDxfWriter.WriteBlockDefs | src/dxf.rs:416-425 | appends each block of the document, owned by its own block record |
| DxfWriter.AsciiDxfWriter.WriteBlocks | src/dxf.rs:408-427 | appends the BLOCKS section: model space, paper space, then every block |
| DxfWriter.AsciiDxfWriter.WriteObjects | src/dxf.rs:438-446 | appends the OBJECTS section with the root dictionary |
| DxfWriter.AsciiDxfWriter.WriteTables | src/dxf.rs:278-285 | appends the TABLES section: LTYPE, LAYER, STYLE, BLOCK_RECORD; every block record written |
| DxfWriter.AsciiDxfWriter.WriteDocumentTables | src/dxf.rs:280-281 | appends the LTYPE and LAYER tables |
| DxfWriter.AsciiDxfWriter.WriteFixedTables | src/dxf.rs:282-283 | appends the STYLE and BLOCK_RECORD tables |
| DxfWriter.AsciiDxfWriter.WriteDocument | src/dxf.rs:249-257 | registry filled first; then HEADER, TABLES, BLOCKS, ENTITIES and OBJECTS open in that order and the last group is EOF |
| DxfWriter.DocumentToString | src/dxf.rs:217-221 | the text starts with the opened HEADER section, ends with EOF, opens exactly the five sections in order, and no handle appears twice |
| DxfWriter.FiveSections | src/dxf.rs:249-256 | the five sections opened in turn are named HEADER, TABLES, BLOCKS, ENTITIES, OBJECTS |
| DxfWriter.DocumentText | src/dxf.rs:217-221 | a text whose groups open HEADER first and end with EOF starts and ends as a DXF file does |
| DxfProperties.CodeColumns | src/dxf.rs:622-624 | `{code:>3}` for a code below 1000 is spaces then the code's decimal digits, three columns in all |
| DxfProperties.GroupTextLayout | src/dxf.rs:622-624 | every group is three columns of padded code whose digits read back as the code, a line break, the value and a line break |
| DxfProperties.InsertAllMembers | src/dxf.rs:646-660 | inserting names in turn into the ordered set gives exactly the old elements and the names |
| DxfProperties.InsertAllIncreasing | src/dxf.rs:646-660 | the set stays strictly increasing |
| DxfProperties.LayerLineTypesMembers | src/dxf.rs:648-650 | the first loop collects exactly the layers' line types |
| DxfProperties.EntityLineTypesMembers | src/dxf.rs:651-653 | the second loop collects exactly the entities' line types |
| DxfProperties.BlockLineTypesMembers | src/dxf.rs:654-658 | the third loop collects exactly the block entities' line types |
| DxfProperties.LtypeNamesContents | src/dxf.rs:287-298 | the LTYPE names are strictly ascending and are exactly BYLAYER, BYBLOCK, CONTINUOUS and the used line types |
| DxfProperties.LayerKeysContents | src/dxf.rs:327-346 | the layer records come in strictly ascending name order, one per distinct layer name |
| DxfProperties.FirstLayerWins | src/dxf.rs:329-331 | the first layer of a name is the one written; later layers with that name are ignored |
| DxfProperties.FirstLayersNames | src/dxf.rs:327-332 | every key of the layer map is some layer's name |
| DxfProperties.RegisterAllMembers | src/dxf.rs:498-505 | after registering names the registry knows exactly the old and new names, old handles unchanged, order only extended |
| DxfProperties.RegisterAllKnown | src/dxf.rs:499-501 | registering known names changes nothing |
| DxfProperties.RegisterAllIdempotent | src/dxf.rs:498-505 | registering the same names twice is registering them once |
| DxfProperties.RegisterAllHandles | src/dxf.rs:498-505 | each new name is appended with the next counter value in hexadecimal, in order |
| DxfProperties.FreshRegistry | src/dxf.rs:487-496 | on a fresh writer the layouts get handles 1 and 2, then the block names; running it again changes nothing |
| DxfEscape.Escape | src/dxf.rs:675-689 | the escape of a text: the escapes of its characters, in order |
| DxfEscape.EscapeChar | src/dxf.rs:675-689 | a character's escape is printable ASCII: CR dropped, LF is `\P`, backslash doubled, printable ASCII kept |
| DxfEscape.EscapeCodePoint | src/dxf.rs:684 | any other character is `\U+` and at least four upper-case hex digits whose value is its code point |
| DxfEscape.EscapeUnicode | src/dxf.rs:675-689 | the loop appends each character's escape, in order |
| DxfEscape.EscapePrintable | src/dxf.rs:675-689 | escaped text is printable ASCII, so it never breaks a group's value line |
| DxfEscape.UnescapeChar | src/dxf.rs:675-689 | the escape of one BMP character other than CR reads back as that character |
| DxfEscape.DropCr | src/dxf.rs:679 | the text with its carriage returns removed holds no CR and is no longer than the text |
| DxfEscape.UnescapeEscape | src/dxf.rs:675-689 | for any text in the Basic Multilingual Plane, carriage returns included, reading the escape back gives exactly `DropCr` of the text |
| DxfEscape.EscapeAmbiguousAboveBmp | src/dxf.rs:684 | above U+FFFF the escape is ambiguous: U+10000 and U+1000 followed by `0` escape to the same text |
| Sorted.Insert | src/dxf.rs:646-660 | `BTreeSet::insert` adds at most one element |
| Sorted.InsertMembers | src/dxf.rs:646-660 | after inserting, the set holds exactly the old elements and `x` |
| Sorted.InsertIncreasing | src/dxf.rs:646-660 | inserting keeps the set strictly increasing |
| Sorted.IncreasingUnique | src/dxf.rs:287-298 | an ordered set is determined by its elements: two strictly increasing sequences with the same elements are equal |
| PyText.Strip | src/ezjww/__init__.py:574-575 | `str.strip()`: neither end of the result is white space, and the result is empty exactly when the text is all white space |
| PyText.StripIdempotent | src/ezjww/__init__.py:582 | stripping twice strips nothing more |
| PyText.WordsSpec | src/ezjww/__init__.py:596 | `str.split()`: the words are non-empty, hold no white space, and together are the text with its white space removed |
| PyText.CommasToSpaces | src/ezjww/__init__.py:596 | `replace(",", " ")`: same length, each comma a space, every other character kept |
| PyText.Upper | src/ezjww/__init__.py:602 | `str.upper()`: same length, each character upper-cased |
| PyText.UpperOfLower | src/ezjww/plot.py:47-57 | upper-casing forgets what lower-casing did |
| PyText.UpperIdempotent | src/ezjww/__init__.py:602 | upper-casing twice changes nothing more |
| PyText.UpperStar | src/ezjww/__init__.py:602-603 | only `*` upper-cases to `*` |
| PyText.IntLiteralRoundTrip | src/ezjww/__init__.py:635 | `int(str(i))` is `i` |
| PyValues.Get | src/ezjww/__init__.py:71-75 | `dict.get`: the entry when the key is present, the default otherwise |
| PyValues.Int | src/ezjww/__init__.py:75 | `int(v)`: an integer is itself, `None` raises `TypeError` |
| PyValues.IntOfStr | src/ezjww/__init__.py:687 | an integer written as text converts back to itself |
| Selector.ParseSelectorTypes | src/ezjww/__init__.py:592-610 | the token loop answers what `_parse_selector_types` specifies: none for blank or `*`, `ValueError` for `*` among other tokens or a non-identifier, else the upper-cased tokens |
| Selector.SelectorTypes | src/ezjww/__init__.py:592-610 | the only error is `ValueError` for an invalid selector, and a set of types, when there is one, is never empty |
| Selector.SelectorTypesUpper | src/ezjww/__init__.py:600-610 | every type answered is an upper-case identifier, the upper-casing of one of the tokens |
| Selector.SeparatorAt | src/ezjww/__init__.py:565 | a separator found at a position fits in the rest of the text |
| Selector.SplitFrom | src/ezjww/__init__.py:619 | splitting always gives at least one piece; SplitFromCovers and SplitFromClean state what the pieces are |
| Selector.NonBlankStripped | src/ezjww/__init__.py:619 | the parts kept are non-empty and already stripped |
| Selector.SplitFromClean | src/ezjww/__init__.py:619 | every piece is a slice of the text in which no separator starts |
| Selector.PiecesHaveNoSeparators | src/ezjww/__init__.py:619 | no piece holds a comma or `&&` |
| Selector.Separators | src/ezjww/__init__.py:565 | the separators the split meets, in order; none is empty |
| Selector.SplitFromCovers | src/ezjww/__init__.py:619 | the pieces with the separators put back between them give the text from the start of the current piece: the split loses nothing |
| Selector.PiecesCover | src/ezjww/__init__.py:619 | `_FILTER_SPLIT_RE.split` has one piece more than separators, and the pieces interleaved with the separators are the whole expression |
| Selector.SkipSpaces | src/ezjww/__init__.py:563-564 | `\s*`: the first position at or after `i` that is not white space |
| Selector.ValueStart | src/ezjww/__init__.py:563-564 | where the value after `KEY\s*==\s*` starts lies inside the part |
| Selector.LayerNotColor | src/ezjww/__init__.py:624-636 | no part is both a layer filter and a colour filter |
| Selector.LayerFilterRoundTrip | src/ezjww/__init__.py:563 | `layer=='name'` (either quote) reads back as the name |
| Selector.SignedDecimalRoundTrip | src/ezjww/__init__.py:564 | an integer written out is read back by `-?\d+` |
| Selector.ColorValueStart | src/ezjww/__init__.py:564 | in `color==` followed by a non-space, the value starts right after `==` |
| Selector.ColorFilterRoundTrip | src/ezjww/__init__.py:564 | `color==N` reads back as `N` |
| Selector.SelectorFilters | src/ezjww/__init__.py:613-640 | every failure is a `ValueError`, and the invalid-selector one comes only when the expression splits into blanks |
| Selector.ParseSelectorFilters | src/ezjww/__init__.py:613-640 | the part loop answers what `_parse_selector_filters` specifies |
| Selector.FiltersFrom | src/ezjww/__init__.py:623-638 | the loop fails only with a duplicate layer filter, a duplicate colour filter or an unsupported filter, each a `ValueError` |
| Selector.FiltersFromOk | src/ezjww/__init__.py:623-638 | the loop succeeds exactly when every part is a filter and neither kind occurs twice |
| Selector.FiltersFromKeeps | src/ezjww/__init__.py:623-638 | a layer or colour already found is kept to the end |
| Selector.FiltersFromValues | src/ezjww/__init__.py:623-640 | on success the answer is the value of the layer part and of the colour part, or none when there is none |
| Selector.Count | src/ezjww/__init__.py:579 | `text.count("[")` is zero exactly when there is no `[` |
| Selector.IndexOf | src/ezjww/__init__.py:581 | `split("[", 1)` splits at the first `[` |
| Selector.QuerySelector | src/ezjww/__init__.py:568-589 | every failure of the selector parse is a `ValueError` |
| Selector.QueryText | src/ezjww/__init__.py:574-589 | every failure is a `ValueError`; without a `[` no layer or colour filter is answered |
| Selector.BracketQuery | src/ezjww/__init__.py:581-589 | for one `[` and a final `]`, the types come from before the bracket and the filters from inside it; every failure is a `ValueError` |
| Selector.QuerySelectorBlank | src/ezjww/__init__.py:569-576 | no selector, or a blank one, asks for nothing |
| Selector.QuerySelectorBadBrackets | src/ezjww/__init__.py:578-580 | more than one `[`, or a `[` not closed by a final `]`, raises `ValueError` |
| Selector.QuerySelectorTypesOnly | src/ezjww/__init__.py:583-589 | without a bracket the selector names types only |
| Facade.Matching | src/ezjww/__init__.py:69-76 | one pass over the entities keeps a subsequence of them |
| Facade.KeepColorSpec | src/ezjww/__init__.py:74-75 | the colour pass raises exactly when some remaining entity's colour is not an integer, and otherwise keeps exactly the matching colours |
| Facade.FirstTwoMatching | src/ezjww/__init__.py:70-73 | the type and layer passes keep exactly the entities passing both filters |
| Facade.MatchingColor | src/ezjww/__init__.py:69-76 | filtering by colour after the others is filtering by all three |
| Facade.FiltersMatching | src/ezjww/__init__.py:69-76 | the three passes keep exactly the entities passing every filter, in order, and raise exactly when a colour is asked for and a surviving entity has no integer colour |
| Facade.MatchingMembers | src/ezjww/__init__.py:69-76 | an entity is kept exactly when it is one of the entities and passes every filter |
| Facade.Query | src/ezjww/__init__.py:56-76 | the selector is parsed before anything is filtered: a selector that raises makes the query raise the same error |
| Facade.QueryResult | src/ezjww/__init__.py:56-76 | `query` answers, in order, exactly the entities with a selected type, the effective layer and colour, where an argument overrides the selector's filter |
| Facade.TypeKey | src/ezjww/__init__.py:680 | the `by_type` key is never empty |
| Facade.LayerKey | src/ezjww/__init__.py:683 | the `by_layer` key is never empty |
| Facade.KeysOf | src/ezjww/__init__.py:679-690 | one key per entity, in order |
| Facade.MapSumRemove | src/ezjww/__init__.py:681 | a counter's total is any key's count plus the total of the rest |
| Facade.BumpSum | src/ezjww/__init__.py:681 | `counter[key] += 1` adds one to the counter's total |
| Facade.Tally | src/ezjww/__init__.py:679-690 | every key a `Counter` holds has a count between 1 and the number of keys fed |
| Facade.TallySpec | src/ezjww/__init__.py:679-690 | a `Counter` fed keys one by one counts each key's occurrences, and its total is the number of keys |
| Facade.TallyKeys | src/ezjww/__init__.py:679-690 | a `Counter` holds exactly the keys it was fed |
| Facade.DxfStats | src/ezjww/__init__.py:673-700 | the loop computes the statistics of the entities |
| Facade.StatsOf | src/ezjww/__init__.py:673-700 | `_dxf_stats`: the entity count, the counters by type, layer and colour and their sizes |
| Facade.StatsCounts | src/ezjww/__init__.py:673-700 | each entity is counted once by type, once by layer and once by colour; `entity_count` is the number of entities |
| Facade.StatsTypeKeys | src/ezjww/__init__.py:680-681 | no entity counts under an empty type; a missing or empty type counts as `UNKNOWN` |
| Facade.StatsLayerKeys | src/ezjww/__init__.py:683-684 | no entity counts under an empty layer; a missing or empty layer counts as `0` |
| Facade.StatsColorKeys | src/ezjww/__init__.py:686-690 | a missing or non-integer colour counts as 256 |
| Facade.NormalizeMaxBlockNesting | src/ezjww/__init__.py:821-825 | the value is accepted exactly when it is at least 1, unchanged; otherwise `ValueError` |
| Facade.CacheLookup | src/ezjww/__init__.py:132-154 | the cache step of `to_dxf`: the nesting is checked first; a cached key answers its entry; otherwise the empty document without a source, or the conversion, which is cached only when it succeeds |
| Facade.CacheLookupKeeps | src/ezjww/__init__.py:132-154 | a lookup keeps every cached entry, adds at most its own key (with nesting at least 1) and on success answers what the cache then holds there |
| Facade.CacheLookupRepeat | src/ezjww/__init__.py:140-154 | asking again with the same options answers the same document from the cache, without converting |
| Facade.CacheLookupNoSource | src/ezjww/__init__.py:141-147 | without a source every valid request answers the empty document, and an invalid nesting raises `ValueError` |
| Facade.AuditOf | src/ezjww/__init__.py:179-210 | issues exist exactly when some reference is unresolved or some entity unsupported; one code and one warning per kind, unresolved first; counts match the lists |
| Facade.Drawing.constructor | src/ezjww/__init__.py:86-97 | a given converted document is cached under the default options (no explode, nesting 32) |
| Facade.Drawing.New | src/ezjww/__init__.py:105-116 | no source, no JW_CAD document, and the empty document cached under the default options |
| Facade.Drawing.ToDxf | src/ezjww/__init__.py:132-154 | answers and updates the cache as the cache lookup specifies |
| Facade.Drawing.Modelspace | src/ezjww/__init__.py:156-166 | the entities of the document the lookup answers |
| Facade.Drawing.Audit | src/ezjww/__init__.py:169-210 | the audit report of the document the lookup answers |
| Facade.Drawing.Stats | src/ezjww/__init__.py:224-234 | the statistics of the document the lookup answers |
| Facade.NewDrawingEmpty | src/ezjww/__init__.py:105-154 | a new drawing answers the empty document, with no issues and no statistics, for every valid option, however often asked |
| Plot.NormalizeLayerFilter | src/ezjww/plot.py:19-23 | no filter for none; a filter, when there is one, is never empty |
| Plot.StrippedNamesMembers | src/ezjww/plot.py:22 | a name is kept exactly when it is non-empty and is what some given name strips to |
| Plot.NormalizeLayerFilterMembers | src/ezjww/plot.py:19-23 | the filter holds exactly the non-empty stripped names, none with white space at either end |
| Plot.NormalizeLayerFilterNone | src/ezjww/plot.py:22-23 | there is no filter exactly when every given name is blank |
| Plot.NormalizeLayerFilterIdempotent | src/ezjww/plot.py:19-23 | normalising a filter's names again gives the same filter |
| Plot.StandardColor | src/ezjww/plot.py:27-39 | the fixed table has an entry exactly for indices 1 to 9, each a `#rrggbb` colour |
| Plot.AciToColor | src/ezjww/plot.py:26-44 | an index in the fixed table gives that entry, so 1 to 9 except 7 give non-black colours; 0 or less and 256 give black; every other index, and only those, the 3-tuple `((aci % 255)/255, 0.7, 0.9)` that matplotlib reads as RGB |
| Plot.AciToColorWellFormed | src/ezjww/plot.py:26-44 | every colour is a `#rrggbb` string or an RGB 3-tuple with red `(aci % 255) / 255` in [0, 1), green 0.7 and blue 0.9 |
| Plot.AciToColorPeriodic | src/ezjww/plot.py:42-44 | generated RGB tuples repeat every 255 indices |
| Plot.AciToColorExamples | tests/python/test_plot_helpers.py:42-47 | index 1 is `#ff0000`, index 7 `#000000`, index 200 an RGB 3-tuple |
| Plot.LineStyle | src/ezjww/plot.py:47-57 | after upper-casing, CONTINUOUS is `-`, DASHED and DASHED2 are `--`, DASHDOT is `-.`, DOT is `:`, and every other name is `-` |
| Plot.LineStyleIgnoresCase | src/ezjww/plot.py:48 | the style does not depend on the case of the name |
| Plot.LineStyleSolid | src/ezjww/plot.py:47-57 | anything but the dashed, dash-dot and dotted names gives a solid line |
| Plot.LineStyleLowerCaseExample | tests/python/test_plot_helpers.py:31 | `dashed` in lower case is `--` |
| Plot.LineStyleUnknownExample | tests/python/test_plot_helpers.py:34 | an unknown name is a solid line |

## Left out

- File I/O is not modelled: `read_document_from_file`, `read_header_from_file`, `write_document_to_file`, `is_jww_file`, `Drawing.from_file`, `saveas` and `to_dxf_string` on a path. The model starts from bytes in memory and ends with the DXF text.
- `src/lib.rs` is not modelled. It is PyO3 glue turning Rust values into Python dictionaries. The facade's input is modelled directly as rows of Python values.
- The command line (`_build_parser`, `_run`, `_emit_report`, `_print_json`, `_collect_jww_files`), `Drawing.report` and the matplotlib rendering in `plot.py` are I/O and user interface.
- `_dxf_bbox`, `Drawing.bbox` and their arc and ellipse sampling are not modelled. They are floating-point geometry over Python dictionaries. The Rust bounding box (`coordinates_bbox`) is modelled.
- Floating point is modelled as real arithmetic. Rounding, NaN and infinities are not modelled.
- Trigonometry and square roots (`from_insert`, `average_scale`, `rotation_deg`, the arc end points in `convert_arc`, `rad_to_deg`) go through uninterpreted `Numerics` functions. Their numeric values are not modelled; only the branch structure around them is.
- Shift-JIS decoding, `f64::from_le_bytes` and `String::from_utf8_lossy` are uninterpreted `Codecs` functions.
- The `{:.12}` formatter is an uninterpreted function. What a real looks like in the output is not modelled.
- The handle counter is an unbounded natural. A u32 counter would overflow after about four billion handles; that overflow is not modelled.
- JwwReader.Reader.Skip and JwwReader.Reader.ReadExactInto: positions are unbounded, so the `UnexpectedEof("offset")` answer for a `usize` overflow of position plus length (src/reader.rs:24-26 and 86-88) is not modelled; every out-of-range request answers `UnexpectedEof("bytes")`. On a 32-bit target a CString with a length near 4 GiB would take the overflow arm.
- The `as i32` casts of record counts in `group_i32` are not modelled. Counts are written as unbounded integers.
- Python's `str.upper`, `str.lower` and the regex classes `\w` and `\d` are modelled on ASCII only. `int()` of a string takes ASCII digits with an optional sign; underscores and non-ASCII digits are not modelled. Facade.NormalizeMaxBlockNesting takes an integer: the `int()` coercion at src/ezjww/__init__.py:822 of a float (2.7 becomes 2), a numeric string or a non-numeric one (a `ValueError` with another message) is not modelled.
- Exception messages are modelled by kind (`Reason`), not by their text.
- The key order of the statistics dictionaries (`dict(sorted(...))`) is not modelled. The counters are maps.
- The `TypeError` for a non-string selector is not modelled. The selector is typed as an optional string.
- A validation dictionary with missing keys is not modelled. The audit takes the three validation values as a record.
- `Modelspace.__iter__`, `__len__` and the `Drawing` properties only return stored values, so they are not modelled separately.
- The sample-file tests and `convert_and_write_all_official_samples` need files that are not part of this model.
- DxfEscape.UnescapeEscape: the round trip is proved only for text inside the Basic Multilingual Plane. Above U+FFFF, `\U+` takes five or six digits and the text is ambiguous; `DxfEscape.EscapeAmbiguousAboveBmp` exhibits this.

=== FILE: bytes.dfy ===
/**
 * Fixed-width unsigned integers and their little-endian byte layout, as the
 * JWW reader decodes them (Rust `u16::from_le_bytes`, `u32::from_le_bytes`).
 */
module Bytes {

  type u8 = x: int | 0 <= x < 0x100
  type u16 = x: int | 0 <= x < 0x1_0000
  type u32 = x: int | 0 <= x < 0x1_0000_0000

  /** Little-endian decoding of two bytes. */
  function LeU16(s: seq<u8>): u16
    requires |s| == 2
  {
    s[0] as int + 0x100 * (s[1] as int)
  }

  /** Little-endian decoding of four bytes. */
  function LeU32(s: seq<u8>): u32
    requires |s| == 4
  {
    s[0] as int + 0x100 * (s[1] as int) + 0x1_0000 * (s[2] as int) + 0x100_0000 * (s[3] as int)
  }

  /** `u16::to_le_bytes`. */
  function ToLe16(v: u16): (s: seq<u8>)
    ensures |s| == 2
  {
    [v % 0x100, v / 0x100]
  }

  /** `u32::to_le_bytes`. */
  function ToLe32(v: u32): (s: seq<u8>)
    ensures |s| == 4
  {
    ToLe16(v % 0x1_0000) + ToLe16(v / 0x1_0000)
  }

  /** The first byte is the low-order digit base 256; a u32 is two u16 halves, low half first. */
  lemma LeDigits(s2: seq<u8>, s4: seq<u8>)
    requires |s2| == 2 && |s4| == 4
    ensures LeU16(s2) % 0x100 == s2[0] && LeU16(s2) / 0x100 == s2[1]
    ensures LeU32(s4) % 0x1_0000 == LeU16(s4[..2]) && LeU32(s4) / 0x1_0000 == LeU16(s4[2..])
  {
  }

  /** Decoding inverts encoding, and encoding inverts decoding: the layout is a bijection. */
  lemma LeU16RoundTrip(v: u16, s: seq<u8>)
    requires |s| == 2
    ensures LeU16(ToLe16(v)) == v
    ensures ToLe16(LeU16(s)) == s
  {
  }

  lemma LeU32RoundTrip(v: u32, s: seq<u8>)
    requires |s| == 4
    ensures LeU32(ToLe32(v)) == v
    ensures ToLe32(LeU32(s)) == s
  {
    LeU32OfToLe32(v);
    ToLe32OfLeU32(s);
  }

  lemma LeU32OfToLe32(v: u32)
    ensures LeU32(ToLe32(v)) == v
  {
    var lo, hi := ToLe16(v % 0x1_0000), ToLe16(v / 0x1_0000);
    LeU16RoundTrip(v % 0x1_0000, lo);
    LeU16RoundTrip(v / 0x1_0000, hi);
    assert LeU32(lo + hi) == LeU16(lo) + 0x1_0000 * LeU16(hi);
  }

  lemma ToLe32OfLeU32(s: seq<u8>)
    requires |s| == 4
    ensures ToLe32(LeU32(s)) == s
  {
    LeDigits(s[..2], s);
    LeU16RoundTrip(0, s[..2]);
    LeU16RoundTrip(0, s[2..]);
    assert s[..2] + s[2..] == s;
  }

  /** The reader's unit test: bytes 58 02 00 00 decode to 600. */
  lemma LeU32Example()
    ensures LeU32([0x58, 0x02, 0x00, 0x00]) == 600
    ensures LeU16([0x02, 0x00]) == 2
  {
  }
}

=== FILE: dxf_convert.dfy ===
/**
 * Converting a decoded drawing to DXF records without expanding block
 * references (src/dxf.rs:1039-1320): colour and line type tables, layer
 * and block names, one entity at a time, entity lists, block definitions
 * and the 256 layers.
 */
module DxfConvert {
  import opened Bytes
  import opened Wrappers
  import opened DxfModel
  import J = JwwModel
  import JwwHeader
  import JwwLookup
  import Format
  import Seqs

  /** `std::f64::consts::PI`. */
  const Pi: real := 3.141592653589793

  /** `rad_to_deg`. */
  function RadToDeg(rad: real): real {
    rad * 180.0 / Pi
  }

  // ---------------------------------------------------------------------
  // Colours, line types and names
  // ---------------------------------------------------------------------

  /**
   * `map_color`: the nine JW_CAD pens go to fixed ACI colours; any other
   * pen number is taken modulo 255, with 0 raised to 1.
   */
  function MapColor(penColor: u16): (r: int)
    ensures 1 <= r <= 254
    ensures 1 <= penColor <= 9 ==> r <= 8
    ensures penColor >= 10 ==> r == if penColor as int % 255 == 0 then 1 else penColor as int % 255
    ensures penColor == 0 ==> r == 1
  {
    match penColor
    case 1 => 7
    case 8 => 7
    case 2 => 5
    case 3 => 1
    case 4 => 6
    case 5 => 3
    case 6 => 4
    case 7 => 2
    case 9 => 8
    case _ => if penColor as int % 255 < 1 then 1 else penColor as int % 255
  }

  /** Pens 1 to 7 and 9 land on eight different colours; only pen 8 shares one (with pen 1). */
  lemma MapColorPalette(p: u16, q: u16)
    requires 1 <= p <= 9 && 1 <= q <= 9 && p != q
    ensures MapColor(p) == MapColor(q) <==> {p, q} == {1, 8}
  {
  }

  /** The line type names `map_line_type` can produce. */
  predicate IsMappedLineType(s: string) {
    s in {"CONTINUOUS", "DASHED", "DASHDOT", "DOT", "DASHED2", "BYLAYER"}
  }

  /** `map_line_type`: pen styles 0 to 4 name a pattern, any other style falls back to BYLAYER. */
  function MapLineType(penStyle: u8): (r: string)
    ensures IsMappedLineType(r)
    ensures r == "BYLAYER" <==> penStyle > 4
    ensures r == "CONTINUOUS" <==> penStyle == 0
  {
    match penStyle
    case 0 => "CONTINUOUS"
    case 1 => "DASHED"
    case 2 => "DASHDOT"
    case 3 => "DOT"
    case 4 => "DASHED2"
    case _ => "BYLAYER"
  }

  /** The five patterned styles get five different names. */
  lemma MapLineTypeInjective(p: u8, q: u8)
    requires p <= 4 && q <= 4 && MapLineType(p) == MapLineType(q)
    ensures p == q
  {
  }

  /** `format!("{:X}-{:X}", group, layer)`: the fallback layer name. */
  function GroupLayerCode(g: nat, l: nat): (r: string)
    ensures |r| > 0 && !Format.IsWhitespace(r[0]) && !Format.IsWhitespace(r[|r| - 1])
  {
    Format.HexUpper(g) + "-" + Format.HexUpper(l)
  }

  /**
   * `layer_name`: the layer's name without surrounding white space when
   * the indices are in the table and the trimmed name is not empty,
   * otherwise the group and layer numbers in hex.
   */
  function LayerName(doc: J.JwwDocument, layerGroup: u16, layer: u16): (r: string)
    requires JwwHeader.WellShaped(doc.header.layerGroups)
    ensures |r| > 0 && !Format.IsWhitespace(r[0]) && !Format.IsWhitespace(r[|r| - 1])
    ensures layerGroup < 16 && layer < 16
            && Format.Trim(doc.header.layerGroups[layerGroup].layers[layer].name) != []
            ==> r == Format.Trim(doc.header.layerGroups[layerGroup].layers[layer].name)
    ensures layerGroup >= 16 || layer >= 16 ==> r == GroupLayerCode(layerGroup as nat, layer as nat)
  {
    if layerGroup < 16 && layer < 16 && Format.Trim(doc.header.layerGroups[layerGroup].layers[layer].name) != [] then
      Format.Trim(doc.header.layerGroups[layerGroup].layers[layer].name)
    else
      GroupLayerCode(layerGroup as nat, layer as nat)
  }

  /** `block_def_name`: the raw name, or `BLOCK_<number>` when it is empty. */
  function BlockDefName(number: u32, raw: string): (r: string)
    ensures |r| > 0
    ensures raw != [] ==> r == raw
    ensures raw == [] ==> |r| > 6 && r[..6] == "BLOCK_" && (forall i :: 6 <= i < |r| ==> Format.IsDigit(r[i]))
                          && Format.DecimalValue(r[6..]) == number as nat
  {
    Format.NatToStringRoundTrip(number as nat);
    if raw == [] then "BLOCK_" + Format.NatToString(number as nat) else raw
  }

  /** Unnamed definitions with different numbers get different names. */
  lemma BlockDefNameUnnamedInjective(m: u32, n: u32)
    requires BlockDefName(m, []) == BlockDefName(n, [])
    ensures m == n
  {
    var r := BlockDefName(m, []);
    assert r[6..] == BlockDefName(n, [])[6..];
  }

  /** The definition numbers present in `defs`. */
  ghost function DefNumbers(defs: seq<J.BlockDef>): set<u32> {
    set i | 0 <= i < |defs| :: defs[i].number
  }

  /** What `block_name_map` builds: each defined number, named after its last definition. */
  ghost function NameMapOf(defs: seq<J.BlockDef>): map<u32, string> {
    map n | n in DefNumbers(defs) :: BlockDefName(n, JwwLookup.LastDefOf(defs, n).value.name)
  }

  /** What `block_defs_by_number` builds: each defined number, mapped to its last definition. */
  ghost function DefMapOf(defs: seq<J.BlockDef>): map<u32, J.BlockDef> {
    map n | n in DefNumbers(defs) :: JwwLookup.LastDefOf(defs, n).value
  }

  lemma DefNumbersDefined(defs: seq<J.BlockDef>, n: u32)
    ensures n in DefNumbers(defs) <==> JwwLookup.Defined(defs, n)
  {
    if JwwLookup.Defined(defs, n) {
      var i :| 0 <= i < |defs| && defs[i].number == n;
      assert defs[i].number in DefNumbers(defs);
    }
  }

  /** `block_name_map`: one entry per defined number; a later definition overwrites an earlier one. */
  method BlockNameMap(defs: seq<J.BlockDef>) returns (names: map<u32, string>)
    ensures names == NameMapOf(defs)
  {
    names := map[];
    for i := 0 to |defs|
      invariant forall n :: n in names <==> JwwLookup.Defined(defs[..i], n)
      invariant forall n :: n in names ==> names[n] == BlockDefName(n, JwwLookup.LastDefOf(defs[..i], n).value.name)
    {
      assert defs[..i + 1][..i] == defs[..i];
      assert defs[..i + 1][i] == defs[i];
      names := names[defs[i].number := BlockDefName(defs[i].number, defs[i].name)];
    }
    assert defs[..|defs|] == defs;
    forall n ensures n in names <==> n in NameMapOf(defs) {
      DefNumbersDefined(defs, n);
    }
  }

  /** `block_defs_by_number`: the same keys, mapped to the definitions themselves. */
  method BlockDefsByNumber(defs: seq<J.BlockDef>) returns (byNumber: map<u32, J.BlockDef>)
    ensures byNumber == DefMapOf(defs)
  {
    byNumber := map[];
    for i := 0 to |defs|
      invariant forall n :: n in byNumber <==> JwwLookup.Defined(defs[..i], n)
      invariant forall n :: n in byNumber ==> byNumber[n] == JwwLookup.LastDefOf(defs[..i], n).value
    {
      assert defs[..i + 1][..i] == defs[..i];
      assert defs[..i + 1][i] == defs[i];
      byNumber := byNumber[defs[i].number := defs[i]];
    }
    assert defs[..|defs|] == defs;
    forall n ensures n in byNumber <==> n in DefMapOf(defs) {
      DefNumbersDefined(defs, n);
    }
  }

  /** The definition a reference resolves to carries the number the reference names. */
  lemma DefMapNumbers(defs: seq<J.BlockDef>, n: u32)
    requires n in DefMapOf(defs)
    ensures DefMapOf(defs)[n].number == n
    ensures DefMapOf(defs)[n] in defs
  {
    DefNumbersDefined(defs, n);
  }

  // ---------------------------------------------------------------------
  // One entity
  // ---------------------------------------------------------------------

  /** `convert_text`: position, angle and content kept; a height that is not positive becomes 2.5. */
  function ConvertText(text: J.Text, layer: string, color: int, lineType: string): (r: DxfText)
    ensures r.height > 0.0
    ensures text.sizeY > 0.0 ==> r.height == text.sizeY
    ensures r.x == text.startX && r.y == text.startY && r.rotation == text.angle
    ensures r.content == text.content && r.style == "STANDARD"
    ensures r.layer == layer && r.color == color && r.lineType == lineType
  {
    DxfText(layer, color, lineType, text.startX, text.startY,
            if text.sizeY <= 0.0 then 2.5 else text.sizeY, text.angle, text.content, "STANDARD")
  }

  /**
   * `convert_arc`: a full, round arc is a circle; a flattened one an
   * ellipse whose axis ratio is brought to at most 1; anything else an arc
   * in degrees.
   */
  function ConvertArc(num: Numerics, arc: J.Arc, layer: string, color: int, lineType: string): (r: seq<DxfEntity>)
    ensures |r| == 1 && !r[0].Insert?
    ensures r[0].Circle? <==> arc.isFullCircle && arc.flatness == 1.0
    ensures r[0].Ellipse? <==> arc.flatness != 1.0
    ensures r[0].Arc? <==> !arc.isFullCircle && arc.flatness == 1.0
    ensures r[0].Circle? ==> r[0].circle.radius == arc.radius
    ensures r[0].Ellipse? && arc.flatness > 0.0 ==> 0.0 < r[0].ellipse.minorRatio <= 1.0
    ensures r[0].Ellipse? && arc.isFullCircle ==> r[0].ellipse.startParam == 0.0 && r[0].ellipse.endParam == 2.0 * Pi
    ensures r[0].Ellipse? && !arc.isFullCircle ==> r[0].ellipse.endParam - r[0].ellipse.startParam == arc.arcAngle
    ensures r[0].Arc? ==> r[0].arc.endAngle - r[0].arc.startAngle == RadToDeg(arc.arcAngle)
    ensures StyleOf(r[0]) == Style(layer, color, lineType)
  {
    if arc.isFullCircle && arc.flatness == 1.0 then
      [Circle(DxfCircle(layer, color, lineType, arc.centerX, arc.centerY, arc.radius))]
    else if arc.flatness != 1.0 then
      var majorRadius := if arc.flatness > 1.0 then arc.radius * arc.flatness else arc.radius;
      var minorRatio := if arc.flatness > 1.0 then 1.0 / arc.flatness else arc.flatness;
      var tiltAngle := if arc.flatness > 1.0 then arc.tiltAngle + Pi / 2.0 else arc.tiltAngle;
      var startParam := if arc.isFullCircle then 0.0 else arc.startAngle;
      var endParam := if arc.isFullCircle then 2.0 * Pi else arc.startAngle + arc.arcAngle;
      [Ellipse(DxfEllipse(layer, color, lineType, arc.centerX, arc.centerY,
                          majorRadius * num.cos(tiltAngle), majorRadius * num.sin(tiltAngle),
                          minorRatio, startParam, endParam))]
    else
      [Arc(DxfArc(layer, color, lineType, arc.centerX, arc.centerY, arc.radius,
                  RadToDeg(arc.startAngle), RadToDeg(arc.startAngle + arc.arcAngle)))]
  }

  /** A temporary point, which `convert_entity` drops. */
  predicate IsTemporaryPoint(e: J.Entity) {
    e.PointEntity? && e.point.isTemporary
  }

  /** The records `convert_entity` makes of one entity: none for a temporary point, two for a dimension, one otherwise. */
  function ConvertedCount(e: J.Entity): nat {
    if IsTemporaryPoint(e) then 0 else if e.DimensionEntity? then 2 else 1
  }

  /** The style `convert_entity` gives every record of `e`: its layer name, mapped colour and mapped line type. */
  function EntityStyle(doc: J.JwwDocument, e: J.Entity): Style
    requires JwwHeader.WellShaped(doc.header.layerGroups)
  {
    var base := J.Base(e);
    Style(LayerName(doc, base.layerGroup, base.layer), MapColor(base.penColor), MapLineType(base.penStyle))
  }

  /** The name an INSERT of definition `number` gets: the mapped name, else `BLOCK_<number>`. */
  function BlockNameFor(number: u32, names: map<u32, string>): string {
    if number in names then names[number] else BlockDefName(number, [])
  }

  /**
   * The records of `e` once its style is known: a block reference, and
   * only a block reference, becomes an INSERT, named from the map or
   * `BLOCK_<number>`; a dimension becomes its line then its text; a
   * temporary point becomes nothing.
   */
  function StyledRecords(num: Numerics, e: J.Entity, style: Style, names: map<u32, string>): (r: seq<DxfEntity>)
    ensures |r| == ConvertedCount(e) && AllStyled(r, style)
    ensures !e.BlockEntity? ==> NoInserts(r)
    ensures e.BlockEntity? ==> r[0].Insert?
    ensures e.BlockEntity? ==> r[0].insert.blockName == BlockNameFor(e.block.defNumber, names)
    ensures e.DimensionEntity? ==> r[0].Line? && r[1].Text? && r[1].text.content == e.dimension.text.content
  {
    var Style(layer, color, lineType) := style;
    match e
    case LineEntity(v) =>
      [Line(DxfLine(layer, color, lineType, v.startX, v.startY, v.endX, v.endY))]
    case ArcEntity(v) =>
      ConvertArc(num, v, layer, color, lineType)
    case PointEntity(v) =>
      if v.isTemporary then [] else [Point(DxfPoint(layer, color, lineType, v.x, v.y))]
    case TextEntity(v) =>
      [Text(ConvertText(v, layer, color, lineType))]
    case SolidEntity(v) =>
      [Solid(DxfSolid(layer, color, lineType, v.point1X, v.point1Y, v.point2X, v.point2Y,
                      v.point3X, v.point3Y, v.point4X, v.point4Y))]
    case BlockEntity(v) =>
      [Insert(DxfInsert(layer, color, lineType, BlockNameFor(v.defNumber, names), v.refX, v.refY, v.scaleX, v.scaleY, RadToDeg(v.rotation)))]
    case DimensionEntity(v) =>
      [Line(DxfLine(layer, color, lineType, v.line.startX, v.line.startY, v.line.endX, v.line.endY)),
       Text(ConvertText(v.text, layer, color, lineType))]
  }

  /**
   * `convert_entity`: every variant converts (it never gives None), and
   * every record made carries the entity's layer name, colour and line
   * type.
   */
  function ConvertEntity(num: Numerics, doc: J.JwwDocument, e: J.Entity, names: map<u32, string>): (r: Option<seq<DxfEntity>>)
    requires JwwHeader.WellShaped(doc.header.layerGroups)
    ensures r.Some? && |r.value| == ConvertedCount(e)
    ensures AllStyled(r.value, EntityStyle(doc, e))
    ensures !e.BlockEntity? ==> NoInserts(r.value)
    ensures e.BlockEntity? ==> r.value[0].Insert?
  {
    Some(StyledRecords(num, e, EntityStyle(doc, e), names))
  }

  // ---------------------------------------------------------------------
  // Entity lists, block definitions, layers
  // ---------------------------------------------------------------------

  /** The records of a whole list: each entity's records, in list order. */
  ghost function Converted(num: Numerics, doc: J.JwwDocument, entities: seq<J.Entity>, names: map<u32, string>): seq<DxfEntity>
    requires JwwHeader.WellShaped(doc.header.layerGroups)
  {
    Seqs.FlatMap((e: J.Entity) => ConvertEntity(num, doc, e, names).value, entities)
  }

  /** Converting a concatenation converts each part in turn: the input order is kept. */
  lemma ConvertedAppend(num: Numerics, doc: J.JwwDocument, xs: seq<J.Entity>, ys: seq<J.Entity>, names: map<u32, string>)
    requires JwwHeader.WellShaped(doc.header.layerGroups)
    ensures Converted(num, doc, xs + ys, names) == Converted(num, doc, xs, names) + Converted(num, doc, ys, names)
  {
    Seqs.FlatMapAppend((e: J.Entity) => ConvertEntity(num, doc, e, names).value, xs, ys);
  }

  /** How many temporary points a list holds. */
  function TemporaryPoints(entities: seq<J.Entity>): nat {
    if entities == [] then 0
    else TemporaryPoints(entities[..|entities| - 1]) + if IsTemporaryPoint(entities[|entities| - 1]) then 1 else 0
  }

  /** How many INSERT records a list holds. */
  function InsertCount(records: seq<DxfEntity>): nat {
    if records == [] then 0
    else InsertCount(records[..|records| - 1]) + if records[|records| - 1].Insert? then 1 else 0
  }

  lemma {:induction false} InsertCountNone(records: seq<DxfEntity>)
    requires NoInserts(records)
    ensures InsertCount(records) == 0
  {
    if records != [] {
      InsertCountNone(records[..|records| - 1]);
    }
  }

  lemma {:induction false} InsertCountAppend(xs: seq<DxfEntity>, ys: seq<DxfEntity>)
    ensures InsertCount(xs + ys) == InsertCount(xs) + InsertCount(ys)
    decreases |ys|
  {
    if ys == [] {
      assert xs + ys == xs;
    } else {
      assert (xs + ys)[..|xs + ys| - 1] == xs + ys[..|ys| - 1];
      assert (xs + ys)[|xs + ys| - 1] == ys[|ys| - 1];
      InsertCountAppend(xs, ys[..|ys| - 1]);
    }
  }

  /** `f` gives, for every entity, the records `convert_entity` makes of it. */
  ghost predicate ConvertsEntities(f: J.Entity -> seq<DxfEntity>, num: Numerics, doc: J.JwwDocument, names: map<u32, string>)
    requires JwwHeader.WellShaped(doc.header.layerGroups)
  {
    forall e {:trigger ConvertEntity(num, doc, e, names)} :: f(e) == ConvertEntity(num, doc, e, names).value
  }

  lemma {:induction false} ConverterLength(f: J.Entity -> seq<DxfEntity>, num: Numerics, doc: J.JwwDocument,
                                           entities: seq<J.Entity>, names: map<u32, string>)
    requires JwwHeader.WellShaped(doc.header.layerGroups)
    requires ConvertsEntities(f, num, doc, names)
    ensures |Seqs.FlatMap(f, entities)| + TemporaryPoints(entities) == |entities| + JwwLookup.CountOf(entities, "DIMENSION")
  {
    if entities != [] {
      var last := entities[|entities| - 1];
      assert f(last) == ConvertEntity(num, doc, last, names).value;
      ConverterLength(f, num, doc, entities[..|entities| - 1], names);
    }
  }

  lemma {:induction false} ConverterInserts(f: J.Entity -> seq<DxfEntity>, num: Numerics, doc: J.JwwDocument,
                                            entities: seq<J.Entity>, names: map<u32, string>)
    requires JwwHeader.WellShaped(doc.header.layerGroups)
    requires ConvertsEntities(f, num, doc, names)
    ensures InsertCount(Seqs.FlatMap(f, entities)) == JwwLookup.CountOf(entities, "BLOCK")
  {
    if entities != [] {
      var prefix := entities[..|entities| - 1];
      var last := entities[|entities| - 1];
      var recs := f(last);
      assert recs == ConvertEntity(num, doc, last, names).value;
      ConverterInserts(f, num, doc, prefix, names);
      InsertCountAppend(Seqs.FlatMap(f, prefix), recs);
      if last.BlockEntity? {
        assert recs[..0] == [];
      } else {
        InsertCountNone(recs);
      }
    }
  }

  /**
   * Counting the converted list: one record per entity, one more per
   * dimension, one fewer per temporary point; and exactly one INSERT per
   * block reference, as many as `entity_counts` gives for BLOCK.
   */
  lemma ConvertedCounts(num: Numerics, doc: J.JwwDocument, entities: seq<J.Entity>, names: map<u32, string>)
    requires JwwHeader.WellShaped(doc.header.layerGroups)
    ensures |Converted(num, doc, entities, names)| + TemporaryPoints(entities)
            == |entities| + JwwLookup.CountOf(entities, "DIMENSION")
    ensures InsertCount(Converted(num, doc, entities, names)) == JwwLookup.CountOf(entities, "BLOCK")
  {
    ConverterLength((e: J.Entity) => ConvertEntity(num, doc, e, names).value, num, doc, entities, names);
    ConverterInserts((e: J.Entity) => ConvertEntity(num, doc, e, names).value, num, doc, entities, names);
  }

  /**
   * `convert_entities`: the records of every entity, in order. Since
   * `convert_entity` always converts, no entity is ever reported as
   * unsupported.
   */
  method ConvertEntities(num: Numerics, doc: J.JwwDocument, entities: seq<J.Entity>, names: map<u32, string>,
                         unsupported: seq<string>)
    returns (out: seq<DxfEntity>, unsupportedAfter: seq<string>)
    requires JwwHeader.WellShaped(doc.header.layerGroups)
    ensures out == Converted(num, doc, entities, names)
    ensures unsupportedAfter == unsupported
  {
    out := [];
    unsupportedAfter := unsupported;
    for i := 0 to |entities|
      invariant out == Converted(num, doc, entities[..i], names)
      invariant unsupportedAfter == unsupported
    {
      assert entities[..i + 1][..i] == entities[..i];
      match ConvertEntity(num, doc, entities[i], names)
      case Some(converted) =>
        out := out + converted;
      case None =>
        assert false;
    }
    assert entities[..|entities|] == entities;
  }

  /** The block a definition becomes: its name, base point (0, 0) and converted entities. */
  ghost function BlockOf(num: Numerics, doc: J.JwwDocument, def: J.BlockDef, names: map<u32, string>): DxfBlock
    requires JwwHeader.WellShaped(doc.header.layerGroups)
  {
    DxfBlock(BlockDefName(def.number, def.name), 0.0, 0.0, Converted(num, doc, def.entities, names))
  }

  /** `convert_blocks`: one block per definition, in order, each under its `block_def_name`. */
  method ConvertBlocks(num: Numerics, doc: J.JwwDocument, names: map<u32, string>, unsupported: seq<string>)
    returns (blocks: seq<DxfBlock>, unsupportedAfter: seq<string>)
    requires JwwHeader.WellShaped(doc.header.layerGroups)
    ensures |blocks| == |doc.blockDefs|
    ensures forall i :: 0 <= i < |blocks| ==> blocks[i] == BlockOf(num, doc, doc.blockDefs[i], names)
    ensures unsupportedAfter == unsupported
  {
    blocks := [];
    unsupportedAfter := unsupported;
    for i := 0 to |doc.blockDefs|
      invariant |blocks| == i
      invariant forall k :: 0 <= k < i ==> blocks[k] == BlockOf(num, doc, doc.blockDefs[k], names)
      invariant unsupportedAfter == unsupported
    {
      var block;
      block, unsupportedAfter := ConvertBlock(num, doc, doc.blockDefs[i], names, unsupportedAfter);
      blocks := blocks + [block];
    }
  }

  /** The body of the loop in `convert_blocks`: one definition's block. */
  method ConvertBlock(num: Numerics, doc: J.JwwDocument, def: J.BlockDef, names: map<u32, string>, unsupported: seq<string>)
    returns (block: DxfBlock, unsupportedAfter: seq<string>)
    requires JwwHeader.WellShaped(doc.header.layerGroups)
    ensures block == BlockOf(num, doc, def, names)
    ensures unsupportedAfter == unsupported
  {
    var entities;
    entities, unsupportedAfter := ConvertEntities(num, doc, def.entities, names, unsupported);
    block := DxfBlock(BlockDefName(def.number, def.name), 0.0, 0.0, entities);
  }

  /**
   * The layer `convert_layers` makes for group `g`, layer `l`: the raw
   * name (or the hex code when it is empty), colour (16 g + l) mod 255 + 1,
   * continuous lines, frozen when the state is 0, locked when protected.
   */
  function LayerFor(doc: J.JwwDocument, g: nat, l: nat): (r: DxfLayer)
    requires JwwHeader.WellShaped(doc.header.layerGroups) && g < 16 && l < 16
    ensures 1 <= r.color <= 255 && |r.name| > 0
  {
    var layer := doc.header.layerGroups[g].layers[l];
    DxfLayer(if layer.name == [] then GroupLayerCode(g, l) else layer.name,
             (g * 16 + l) % 255 + 1, "CONTINUOUS", layer.state == 0, layer.protect != 0)
  }

  /** The first 255 layers get 255 different colours; the last one wraps around to the colour of the first. */
  lemma LayerColors(doc: J.JwwDocument, i: nat, k: nat)
    requires JwwHeader.WellShaped(doc.header.layerGroups) && i < k < 256
    ensures LayerFor(doc, i / 16, i % 16).color == LayerFor(doc, k / 16, k % 16).color <==> i == 0 && k == 255
  {
    LayerForColor(doc, i);
    LayerForColor(doc, k);
  }

  lemma LayerForColor(doc: J.JwwDocument, i: nat)
    requires JwwHeader.WellShaped(doc.header.layerGroups) && i < 256
    ensures LayerFor(doc, i / 16, i % 16).color == i % 255 + 1
  {
    assert (i / 16) * 16 + i % 16 == i;
  }

  /** `convert_layers`: all 16 x 16 layers, group by group. */
  method ConvertLayers(doc: J.JwwDocument) returns (layers: seq<DxfLayer>)
    requires JwwHeader.WellShaped(doc.header.layerGroups)
    ensures |layers| == 256
    ensures forall i :: 0 <= i < 256 ==> layers[i] == LayerFor(doc, i / 16, i % 16)
  {
    layers := [];
    for g := 0 to 16
      invariant |layers| == 16 * g
      invariant forall i :: 0 <= i < 16 * g ==> layers[i] == LayerFor(doc, i / 16, i % 16)
    {
      for l := 0 to 16
        invariant |layers| == 16 * g + l
        invariant forall i :: 0 <= i < 16 * g + l ==> layers[i] == LayerFor(doc, i / 16, i % 16)
      {
        var layer := doc.header.layerGroups[g].layers[l];
        var name := if layer.name == [] then GroupLayerCode(g, l) else layer.name;
        assert (16 * g + l) / 16 == g && (16 * g + l) % 16 == l;
        layers := layers + [DxfLayer(name, (g * 16 + l) % 255 + 1, "CONTINUOUS", layer.state == 0, layer.protect != 0)];
      }
    }
  }
}

=== FILE: dxf_escape.dfy ===
/**
 * `escape_unicode` (src/dxf.rs:675-689): how the writer makes a layer
 * name, a block name or a text value safe for one DXF value line.
 * Carriage returns are dropped, a line feed becomes the MTEXT paragraph
 * code `\P`, a backslash is doubled, printable ASCII stays as it is and
 * every other character becomes `\U+` and its code point in at least four
 * upper-case hexadecimal digits.
 */
module DxfEscape {
  import Format
  import Seqs

  /** Rust's `is_ascii() && !is_ascii_control()`: space through tilde. */
  predicate IsPrintableAscii(c: char) {
    ' ' <= c <= '~'
  }

  predicate AllPrintable(s: string) {
    forall k :: 0 <= k < |s| ==> IsPrintableAscii(s[k])
  }

  /** The escape of one character. */
  function EscapeChar(c: char): (r: string)
    ensures AllPrintable(r)
    ensures c == '\r' ==> r == ""
    ensures c == '\n' ==> r == "\\P"
    ensures c == '\\' ==> r == "\\\\"
    ensures c != '\\' && IsPrintableAscii(c) ==> r == [c]
  {
    if c == '\r' then ""
    else if c == '\n' then "\\P"
    else if c == '\\' then "\\\\"
    else if IsPrintableAscii(c) then [c]
    else "\\U+" + Format.Hex4(c as nat)
  }

  /** Any other character: `\U+` and at least four hexadecimal digits whose value is the code point. */
  lemma EscapeCodePoint(c: char)
    requires c != '\r' && c != '\n' && !IsPrintableAscii(c)
    ensures var r := EscapeChar(c);
      && |r| >= 7 && r[..3] == "\\U+"
      && (forall k :: 3 <= k < |r| ==> Format.IsHexUpperDigit(r[k]))
      && Format.HexValue(r[3..]) == c as int
  {
    var digits := Format.Hex4(c as nat);
    assert EscapeChar(c)[3..] == digits;
  }

  /** The whole escape: each character's escape, in order. */
  function Escape(s: string): string {
    Seqs.FlatMap(EscapeChar, s)
  }

  /** `escape_unicode`: the loop over the characters, appending each one's escape. */
  method EscapeUnicode(value: string) returns (out: string)
    ensures out == Escape(value)
  {
    out := "";
    for i := 0 to |value|
      invariant out == Escape(value[..i])
    {
      var ch := value[i];
      assert value[..i + 1][..i] == value[..i];
      if ch == '\r' {
      } else if ch == '\n' {
        out := out + "\\P";
      } else if ch == '\\' {
        out := out + "\\\\";
      } else if IsPrintableAscii(ch) {
        out := out + [ch];
      } else {
        out := out + "\\U+" + Format.Hex4(ch as nat);
      }
    }
    assert value[..|value|] == value;
  }

  /** The escaped text is printable ASCII only, so it never holds a line break. */
  lemma EscapePrintable(s: string)
    ensures AllPrintable(Escape(s))
    ensures forall k :: 0 <= k < |Escape(s)| ==> Escape(s)[k] != '\r' && Escape(s)[k] != '\n'
  {
    Seqs.FlatMapAll(EscapeChar, s, IsPrintableAscii);
  }

  // ---------------------------------------------------------------------
  // Reading the escapes back
  // ---------------------------------------------------------------------

  predicate AllHex(s: string) {
    forall k :: 0 <= k < |s| ==> Format.IsHexUpperDigit(s[k])
  }

  /** A Unicode scalar value, the range of Dafny's `char`. */
  predicate IsScalar(n: int) {
    0 <= n < 0xD800 || 0xE000 <= n < 0x11_0000
  }

  lemma {:induction false} HexValueBound(s: string)
    requires AllHex(s) && |s| <= 4
    ensures Format.HexValue(s) < 0x1_0000
    ensures |s| <= 3 ==> Format.HexValue(s) < 0x1000
    ensures |s| <= 2 ==> Format.HexValue(s) < 0x100
    ensures |s| <= 1 ==> Format.HexValue(s) < 0x10
  {
    if s != [] {
      HexValueBound(s[..|s| - 1]);
    }
  }

  /**
   * The reading a DXF consumer applies: `\P`, `\\` and `\U+` with four
   * hexadecimal digits are decoded, anything else stands for itself.
   */
  function Unescape(s: string): string
    decreases |s|
  {
    if s == [] then []
    else if |s| >= 2 && s[0] == '\\' && s[1] == 'P' then "\n" + Unescape(s[2..])
    else if |s| >= 2 && s[0] == '\\' && s[1] == '\\' then "\\" + Unescape(s[2..])
    else if |s| >= 7 && s[0] == '\\' && s[1] == 'U' && s[2] == '+' && AllHex(s[3..7])
            && IsScalar(Format.HexValue(s[3..7]))
    then [Format.HexValue(s[3..7]) as char] + Unescape(s[7..])
    else [s[0]] + Unescape(s[1..])
  }

  lemma HexUpperShort(n: nat)
    requires n < 0x1_0000
    ensures |Format.HexUpper(n)| <= 4
  {
    if n >= 16 {
      var h := Format.HexUpper(n);
      assert h == Format.HexUpper(n / 16) + [Format.HexDigit(n % 16)];
      if n / 16 >= 16 {
        assert Format.HexUpper(n / 16) == Format.HexUpper(n / 256) + [Format.HexDigit(n / 16 % 16)];
        if n / 256 >= 16 {
          assert n / 256 / 16 < 16;
          assert Format.HexUpper(n / 256) == Format.HexUpper(n / 256 / 16) + [Format.HexDigit(n / 256 % 16)];
        }
      }
    }
  }

  /** A `\U+` escape with four digits, then anything, reads back as its character first. */
  lemma UnescapeCodePoint(c: char, rest: string)
    requires c as int < 0x1_0000
    ensures Unescape("\\U+" + Format.Hex4(c as nat) + rest) == [c] + Unescape(rest)
  {
    var digits := Format.Hex4(c as nat);
    var s := "\\U+" + digits + rest;
    HexUpperShort(c as nat);
    assert s[3..7] == digits;
    assert s[7..] == rest;
    assert s[0] == '\\' && s[1] == 'U' && s[2] == '+';
  }

  /** The escape of one character, then anything, reads back as that character first. */
  lemma UnescapeChar(c: char, rest: string)
    requires c != '\r' && c as int < 0x1_0000
    ensures Unescape(EscapeChar(c) + rest) == [c] + Unescape(rest)
  {
    var s := EscapeChar(c) + rest;
    if c == '\n' || c == '\\' {
      assert s[2..] == rest;
    } else if IsPrintableAscii(c) {
      assert s[1..] == rest;
    } else {
      UnescapeCodePoint(c, rest);
    }
  }

  /** The text with every carriage return removed and the rest in order. */
  function DropCr(s: string): (r: string)
    ensures forall k :: 0 <= k < |r| ==> r[k] != '\r'
    ensures |r| <= |s|
    decreases |s|
  {
    if s == [] then []
    else if s[0] == '\r' then DropCr(s[1..])
    else [s[0]] + DropCr(s[1..])
  }

  /**
   * For text whose characters all lie in the Basic Multilingual Plane,
   * reading the escape back gives the text without its carriage returns.
   */
  lemma {:induction false} UnescapeEscape(s: string)
    requires forall k :: 0 <= k < |s| ==> s[k] as int < 0x1_0000
    ensures Unescape(Escape(s)) == DropCr(s)
    decreases |s|
  {
    if s != [] {
      Seqs.FlatMapAppend(EscapeChar, [s[0]], s[1..]);
      assert [s[0]] + s[1..] == s;
      assert Seqs.FlatMap(EscapeChar, [s[0]]) == EscapeChar(s[0]) by {
        assert [s[0]][..0] == [];
      }
      assert Escape(s) == EscapeChar(s[0]) + Escape(s[1..]);
      UnescapeEscape(s[1..]);
      if s[0] == '\r' {
        assert EscapeChar(s[0]) == "";
        assert Escape(s) == Escape(s[1..]);
      } else {
        UnescapeChar(s[0], Escape(s[1..]));
      }
    }
  }

  lemma EscapeSingle(c: char)
    ensures Escape([c]) == EscapeChar(c)
  {
    assert [c][..0] == [];
    assert Seqs.FlatMap(EscapeChar, []) == [];
  }

  lemma EscapePair(c: char, d: char)
    ensures Escape([c, d]) == EscapeChar(c) + EscapeChar(d)
  {
    assert [c, d][..1] == [c];
    EscapeSingle(c);
  }

  lemma HexUpperPowers()
    ensures Format.HexUpper(4096) == "1000"
    ensures Format.HexUpper(65536) == "10000"
  {
    assert Format.HexUpper(1) == "1";
    assert Format.HexUpper(16) == Format.HexUpper(1) + "0";
    assert Format.HexUpper(256) == Format.HexUpper(16) + "0";
    assert Format.HexUpper(4096) == Format.HexUpper(256) + "0";
    assert Format.HexUpper(65536) == Format.HexUpper(4096) + "0";
  }

  lemma Hex4Powers()
    ensures Format.Hex4(65536) == "10000"
    ensures Format.Hex4(4096) == "1000"
  {
    HexUpperPowers();
  }

  lemma EscapeAboveBmpChars()
    ensures EscapeChar('\U{10000}') == "\\U+10000"
    ensures EscapeChar('\U{1000}') == "\\U+1000"
  {
    Hex4Powers();
  }

  /**
   * Above U+FFFF the four-digit convention breaks: U+10000 is written with
   * five digits, the same text as U+1000 followed by the digit 0.
   */
  lemma EscapeAmbiguousAboveBmp()
    ensures Escape("\U{10000}") == Escape("\U{1000}0")
    ensures "\U{10000}" != "\U{1000}0"
  {
    EscapeAboveBmpChars();
    EscapeSingle('\U{10000}');
    EscapePair('\U{1000}', '0');
    assert "\U{1000}0" == ['\U{1000}', '0'];
  }
}

=== FILE: dxf_explode.dfy ===
/**
 * Exploding block inserts (src/dxf.rs:767-821) and the document-level
 * conversion that chooses between exploded output and kept references
 * (src/dxf.rs:174-215).
 */
module DxfExplode {
  import opened Bytes
  import opened Wrappers
  import opened DxfModel
  import J = JwwModel
  import JwwHeader
  import JwwLookup
  import Format
  import Seqs
  import opened DxfTransform
  import opened DxfConvert

  // ---------------------------------------------------------------------
  // Tags recorded for inserts that are dropped
  // ---------------------------------------------------------------------

  function DepthLimitTag(n: u32): string {
    "BLOCK_DEPTH_LIMIT(" + Format.NatToString(n) + ")"
  }

  function CycleTag(n: u32): string {
    "BLOCK_CYCLE(" + Format.NatToString(n) + ")"
  }

  function UnresolvedTag(n: u32): string {
    "UNRESOLVED_BLOCK(" + Format.NatToString(n) + ")"
  }

  /** One of the three reasons an insert can be dropped while exploding, with its block number. */
  ghost predicate IsExplodeTag(s: string) {
    exists n: u32 :: s == DepthLimitTag(n) || s == CycleTag(n) || s == UnresolvedTag(n)
  }

  // ---------------------------------------------------------------------
  // The specification of `convert_entities_exploded`
  // ---------------------------------------------------------------------

  /** What an explode pass yields: the placed records and the tags of what it dropped. */
  datatype Exploded = Exploded(records: seq<DxfEntity>, unsupported: seq<string>)

  /** How many more block levels may still be opened below `stack`. */
  function Room(stack: seq<u32>, options: ConvertOptions): nat {
    if |stack| < options.maxBlockNesting then options.maxBlockNesting - |stack| else 0
  }

  /** The expanding stack: distinct definition numbers, never more of them than the nesting limit. */
  predicate StackOk(stack: seq<u32>, options: ConvertOptions) {
    |stack| <= options.maxBlockNesting && forall i, j :: 0 <= i < j < |stack| ==> stack[i] != stack[j]
  }

  /** `convert` is `convert_entity` for this document and block name map. */
  ghost predicate IsConverter(convert: J.Entity -> Option<seq<DxfEntity>>, num: Numerics, doc: J.JwwDocument,
                              names: map<u32, string>)
    requires JwwHeader.WellShaped(doc.header.layerGroups)
  {
    forall e {:trigger ConvertEntity(num, doc, e, names)} :: convert(e) == ConvertEntity(num, doc, e, names)
  }

  /** `place` is `transform_entity_for_explode`. */
  ghost predicate IsPlacer(place: (DxfEntity, Transform2D) -> seq<DxfEntity>, num: Numerics) {
    forall x, t {:trigger TransformEntityForExplode(num, x, t)} :: place(x, t) == TransformEntityForExplode(num, x, t)
  }

  function Converter(num: Numerics, doc: J.JwwDocument, names: map<u32, string>): (f: J.Entity -> Option<seq<DxfEntity>>)
    requires JwwHeader.WellShaped(doc.header.layerGroups)
    ensures IsConverter(f, num, doc, names)
  {
    (e: J.Entity) => ConvertEntity(num, doc, e, names)
  }

  function Placer(num: Numerics): (f: (DxfEntity, Transform2D) -> seq<DxfEntity>)
    ensures IsPlacer(f, num)
  {
    (x: DxfEntity, t: Transform2D) => TransformEntityForExplode(num, x, t)
  }

  /** Each record placed by `t`, results in order. */
  function PlaceAll(place: (DxfEntity, Transform2D) -> seq<DxfEntity>, records: seq<DxfEntity>, t: Transform2D): seq<DxfEntity> {
    Seqs.FlatMap((x: DxfEntity) => place(x, t), records)
  }

  /**
   * The entities of a list exploded one after the other, results in
   * order. `convert` turns one non-insert entity into DXF records and
   * `place` moves one record by a transform; the document conversion
   * instantiates them with `Converter` and `Placer`.
   */
  function ExplodeAll(convert: J.Entity -> Option<seq<DxfEntity>>, place: (DxfEntity, Transform2D) -> seq<DxfEntity>,
                      num: Numerics, entities: seq<J.Entity>, defs: map<u32, J.BlockDef>, t: Transform2D,
                      stack: seq<u32>, options: ConvertOptions): Exploded
    decreases Room(stack, options), |entities|
  {
    if entities == [] then Exploded([], [])
    else
      var done := ExplodeAll(convert, place, num, entities[..|entities| - 1], defs, t, stack, options);
      var last := ExplodeOne(convert, place, num, entities[|entities| - 1], defs, t, stack, options);
      Exploded(done.records + last.records, done.unsupported + last.unsupported)
  }

  /**
   * One entity under the transform `t`, with `stack` the block numbers
   * being expanded: an insert is dropped with a tag when the nesting
   * limit is reached, when its block is already being expanded, or when
   * its block is not defined (checked in that order); otherwise the
   * block's entities are exploded under `t` composed with the insert's
   * placement. Any other entity is converted and its records placed by `t`.
   */
  function ExplodeOne(convert: J.Entity -> Option<seq<DxfEntity>>, place: (DxfEntity, Transform2D) -> seq<DxfEntity>,
                      num: Numerics, e: J.Entity, defs: map<u32, J.BlockDef>, t: Transform2D,
                      stack: seq<u32>, options: ConvertOptions): Exploded
    decreases Room(stack, options), 0
  {
    match e
    case BlockEntity(block) =>
      var n := block.defNumber;
      if |stack| >= options.maxBlockNesting then Exploded([], [DepthLimitTag(n)])
      else if n in stack then Exploded([], [CycleTag(n)])
      else if n !in defs then Exploded([], [UnresolvedTag(n)])
      else ExplodeAll(convert, place, num, defs[n].entities, defs, Compose(t, FromInsert(num, block)), stack + [n], options)
    case _ =>
      match convert(e)
      case Some(converted) => Exploded(PlaceAll(place, converted, t), [])
      case None => Exploded([], [J.EntityType(e)])
  }

  lemma ExplodeAllStep(convert: J.Entity -> Option<seq<DxfEntity>>, place: (DxfEntity, Transform2D) -> seq<DxfEntity>,
                       num: Numerics, entities: seq<J.Entity>, i: nat, defs: map<u32, J.BlockDef>, t: Transform2D,
                       stack: seq<u32>, options: ConvertOptions)
    requires i < |entities|
    ensures ExplodeAll(convert, place, num, entities[..i + 1], defs, t, stack, options)
         == Exploded(ExplodeAll(convert, place, num, entities[..i], defs, t, stack, options).records
                       + ExplodeOne(convert, place, num, entities[i], defs, t, stack, options).records,
                     ExplodeAll(convert, place, num, entities[..i], defs, t, stack, options).unsupported
                       + ExplodeOne(convert, place, num, entities[i], defs, t, stack, options).unsupported)
  {
    assert entities[..i + 1][..i] == entities[..i];
  }

  // ---------------------------------------------------------------------
  // The recursive pass
  // ---------------------------------------------------------------------

  /** The inner loop: each converted record, transformed, appended in order. */
  method TransformRecords(num: Numerics, ghost place: (DxfEntity, Transform2D) -> seq<DxfEntity>,
                          records: seq<DxfEntity>, t: Transform2D, out: seq<DxfEntity>)
    returns (outAfter: seq<DxfEntity>)
    requires IsPlacer(place, num)
    ensures outAfter == out + PlaceAll(place, records, t)
  {
    outAfter := out;
    for k := 0 to |records|
      invariant outAfter == out + PlaceAll(place, records[..k], t)
    {
      Seqs.FlatMapAppend((x: DxfEntity) => place(x, t), records[..k], [records[k]]);
      assert records[..k + 1] == records[..k] + [records[k]];
      var placed := TransformEntityForExplode(num, records[k], t);
      assert placed == place(records[k], t);
      outAfter := outAfter + placed;
    }
    assert records[..|records|] == records;
  }

  /**
   * `convert_entities_exploded`: the expansion stack is pushed before a
   * block's entities are exploded and popped after, so it comes back as
   * it went in; the records and tags are those the specification gives.
   */
  method ConvertEntitiesExploded(num: Numerics, doc: J.JwwDocument, entities: seq<J.Entity>, names: map<u32, string>,
                                 defs: map<u32, J.BlockDef>, t: Transform2D, stack: seq<u32>,
                                 unsupported: seq<string>, options: ConvertOptions,
                                 ghost convert: J.Entity -> Option<seq<DxfEntity>>,
                                 ghost place: (DxfEntity, Transform2D) -> seq<DxfEntity>)
    returns (out: seq<DxfEntity>, stackAfter: seq<u32>, unsupportedAfter: seq<string>)
    requires JwwHeader.WellShaped(doc.header.layerGroups)
    requires IsConverter(convert, num, doc, names) && IsPlacer(place, num)
    requires StackOk(stack, options)
    ensures stackAfter == stack
    ensures out == ExplodeAll(convert, place, num, entities, defs, t, stack, options).records
    ensures unsupportedAfter == unsupported + ExplodeAll(convert, place, num, entities, defs, t, stack, options).unsupported
    decreases Room(stack, options), 1
  {
    out, stackAfter, unsupportedAfter := [], stack, unsupported;
    for i := 0 to |entities|
      invariant stackAfter == stack
      invariant out == ExplodeAll(convert, place, num, entities[..i], defs, t, stack, options).records
      invariant unsupportedAfter == unsupported + ExplodeAll(convert, place, num, entities[..i], defs, t, stack, options).unsupported
    {
      ExplodeAllStep(convert, place, num, entities, i, defs, t, stack, options);
      ghost var done := ExplodeAll(convert, place, num, entities[..i], defs, t, stack, options);
      ghost var one := ExplodeOne(convert, place, num, entities[i], defs, t, stack, options);
      Seqs.AppendAssoc(unsupported, done.unsupported, one.unsupported);
      if entities[i].BlockEntity? {
        out, stackAfter, unsupportedAfter := ExplodeInsert(
          num, doc, entities[i].block, names, defs, t, stackAfter, out, unsupportedAfter, options, convert, place);
      } else {
        out, unsupportedAfter := ExplodeOther(num, doc, entities[i], names, t, out, unsupportedAfter, convert, place);
      }
    }
    assert entities[..|entities|] == entities;
  }

  /** The insert arm of the loop: the three checks, then push, explode the block's entities, pop. */
  method ExplodeInsert(num: Numerics, doc: J.JwwDocument, block: J.Block, names: map<u32, string>,
                       defs: map<u32, J.BlockDef>, t: Transform2D, stack: seq<u32>, out: seq<DxfEntity>,
                       unsupported: seq<string>, options: ConvertOptions,
                       ghost convert: J.Entity -> Option<seq<DxfEntity>>,
                       ghost place: (DxfEntity, Transform2D) -> seq<DxfEntity>)
    returns (outAfter: seq<DxfEntity>, stackAfter: seq<u32>, unsupportedAfter: seq<string>)
    requires JwwHeader.WellShaped(doc.header.layerGroups)
    requires IsConverter(convert, num, doc, names) && IsPlacer(place, num)
    requires StackOk(stack, options)
    ensures stackAfter == stack
    ensures outAfter == out + ExplodeOne(convert, place, num, J.BlockEntity(block), defs, t, stack, options).records
    ensures unsupportedAfter == unsupported + ExplodeOne(convert, place, num, J.BlockEntity(block), defs, t, stack, options).unsupported
    decreases Room(stack, options), 0
  {
    var n := block.defNumber;
    outAfter, stackAfter := out, stack;
    if |stackAfter| >= options.maxBlockNesting {
      unsupportedAfter := unsupported + [DepthLimitTag(n)];
    } else if n in stackAfter {
      unsupportedAfter := unsupported + [CycleTag(n)];
    } else if n !in defs {
      unsupportedAfter := unsupported + [UnresolvedTag(n)];
    } else {
      var def := defs[n];
      stackAfter := stackAfter + [n];
      assert StackOk(stackAfter, options);
      var child := Compose(t, FromInsert(num, block));
      var expanded;
      expanded, stackAfter, unsupportedAfter := ConvertEntitiesExploded(
        num, doc, def.entities, names, defs, child, stackAfter, unsupported, options, convert, place);
      stackAfter := stackAfter[..|stackAfter| - 1];
      outAfter := out + expanded;
    }
  }

  /** The arm for any other entity: convert it, then place each record. */
  method ExplodeOther(num: Numerics, doc: J.JwwDocument, e: J.Entity, names: map<u32, string>, t: Transform2D,
                      out: seq<DxfEntity>, unsupported: seq<string>,
                      ghost convert: J.Entity -> Option<seq<DxfEntity>>,
                      ghost place: (DxfEntity, Transform2D) -> seq<DxfEntity>)
    returns (outAfter: seq<DxfEntity>, unsupportedAfter: seq<string>)
    requires JwwHeader.WellShaped(doc.header.layerGroups) && !e.BlockEntity?
    requires IsConverter(convert, num, doc, names) && IsPlacer(place, num)
    ensures forall defs, stack, options {:trigger ExplodeOne(convert, place, num, e, defs, t, stack, options)} ::
      && outAfter == out + ExplodeOne(convert, place, num, e, defs, t, stack, options).records
      && unsupportedAfter == unsupported + ExplodeOne(convert, place, num, e, defs, t, stack, options).unsupported
  {
    unsupportedAfter := unsupported;
    match ConvertEntity(num, doc, e, names)
    case Some(converted) =>
      outAfter := TransformRecords(num, place, converted, t, out);
    case None =>
      outAfter := out;
      unsupportedAfter := unsupported + [J.EntityType(e)];
  }

  // ---------------------------------------------------------------------
  // Properties of exploding
  // ---------------------------------------------------------------------

  /** Placing records without INSERTs leaves none. */
  lemma PlaceAllNoInserts(place: (DxfEntity, Transform2D) -> seq<DxfEntity>, num: Numerics, records: seq<DxfEntity>, t: Transform2D)
    requires IsPlacer(place, num) && NoInserts(records)
    ensures NoInserts(PlaceAll(place, records, t))
  {
    var f := (x: DxfEntity) => place(x, t);
    forall i | 0 <= i < |records|
      ensures NoInserts(f(records[i]))
    {
      assert f(records[i]) == TransformEntityForExplode(num, records[i], t);
    }
    Seqs.FlatMapAll(f, records, (x: DxfEntity) => !x.Insert?);
  }

  /** Exploded output holds no INSERT: every reference is expanded or dropped. */
  lemma {:induction false} ExplodeAllNoInserts(convert: J.Entity -> Option<seq<DxfEntity>>,
                                               place: (DxfEntity, Transform2D) -> seq<DxfEntity>,
                                               num: Numerics, doc: J.JwwDocument, names: map<u32, string>,
                                               entities: seq<J.Entity>, defs: map<u32, J.BlockDef>, t: Transform2D,
                                               stack: seq<u32>, options: ConvertOptions)
    requires JwwHeader.WellShaped(doc.header.layerGroups)
    requires IsConverter(convert, num, doc, names) && IsPlacer(place, num)
    ensures NoInserts(ExplodeAll(convert, place, num, entities, defs, t, stack, options).records)
    decreases Room(stack, options), |entities|
  {
    if entities != [] {
      ExplodeAllNoInserts(convert, place, num, doc, names, entities[..|entities| - 1], defs, t, stack, options);
      ExplodeOneNoInserts(convert, place, num, doc, names, entities[|entities| - 1], defs, t, stack, options);
    }
  }

  lemma {:induction false} ExplodeOneNoInserts(convert: J.Entity -> Option<seq<DxfEntity>>,
                                               place: (DxfEntity, Transform2D) -> seq<DxfEntity>,
                                               num: Numerics, doc: J.JwwDocument, names: map<u32, string>,
                                               e: J.Entity, defs: map<u32, J.BlockDef>, t: Transform2D,
                                               stack: seq<u32>, options: ConvertOptions)
    requires JwwHeader.WellShaped(doc.header.layerGroups)
    requires IsConverter(convert, num, doc, names) && IsPlacer(place, num)
    ensures NoInserts(ExplodeOne(convert, place, num, e, defs, t, stack, options).records)
    decreases Room(stack, options), 0
  {
    match e
    case BlockEntity(block) =>
      var n := block.defNumber;
      if |stack| < options.maxBlockNesting && n !in stack && n in defs {
        ExplodeAllNoInserts(convert, place, num, doc, names, defs[n].entities, defs,
                            Compose(t, FromInsert(num, block)), stack + [n], options);
      }
    case _ =>
      var converted := ConvertEntity(num, doc, e, names);
      PlaceAllNoInserts(place, num, converted.value, t);
  }

  /**
   * Every entry exploding adds to the unsupported list is one of the three
   * insert tags: no other entity is ever reported.
   */
  lemma {:induction false} ExplodeAllTags(convert: J.Entity -> Option<seq<DxfEntity>>,
                                          place: (DxfEntity, Transform2D) -> seq<DxfEntity>,
                                          num: Numerics, doc: J.JwwDocument, names: map<u32, string>,
                                          entities: seq<J.Entity>, defs: map<u32, J.BlockDef>, t: Transform2D,
                                          stack: seq<u32>, options: ConvertOptions)
    requires JwwHeader.WellShaped(doc.header.layerGroups)
    requires IsConverter(convert, num, doc, names)
    ensures forall k :: 0 <= k < |ExplodeAll(convert, place, num, entities, defs, t, stack, options).unsupported| ==>
              IsExplodeTag(ExplodeAll(convert, place, num, entities, defs, t, stack, options).unsupported[k])
    decreases Room(stack, options), |entities|
  {
    if entities != [] {
      ExplodeAllTags(convert, place, num, doc, names, entities[..|entities| - 1], defs, t, stack, options);
      ExplodeOneTags(convert, place, num, doc, names, entities[|entities| - 1], defs, t, stack, options);
    }
  }

  lemma {:induction false} ExplodeOneTags(convert: J.Entity -> Option<seq<DxfEntity>>,
                                          place: (DxfEntity, Transform2D) -> seq<DxfEntity>,
                                          num: Numerics, doc: J.JwwDocument, names: map<u32, string>,
                                          e: J.Entity, defs: map<u32, J.BlockDef>, t: Transform2D,
                                          stack: seq<u32>, options: ConvertOptions)
    requires JwwHeader.WellShaped(doc.header.layerGroups)
    requires IsConverter(convert, num, doc, names)
    ensures forall k :: 0 <= k < |ExplodeOne(convert, place, num, e, defs, t, stack, options).unsupported| ==>
              IsExplodeTag(ExplodeOne(convert, place, num, e, defs, t, stack, options).unsupported[k])
    decreases Room(stack, options), 0
  {
    match e
    case BlockEntity(block) =>
      var n := block.defNumber;
      if |stack| >= options.maxBlockNesting {
        assert IsExplodeTag(DepthLimitTag(n));
      } else if n in stack {
        assert IsExplodeTag(CycleTag(n));
      } else if n !in defs {
        assert IsExplodeTag(UnresolvedTag(n));
      } else {
        ExplodeAllTags(convert, place, num, doc, names, defs[n].entities, defs,
                       Compose(t, FromInsert(num, block)), stack + [n], options);
      }
    case _ =>
      var converted := ConvertEntity(num, doc, e, names);
      assert converted.Some?;
  }

  /** The depth-limit tag of every insert among `entities`, in order. */
  function DepthLimitTags(entities: seq<J.Entity>): seq<string> {
    if entities == [] then []
    else
      DepthLimitTags(entities[..|entities| - 1])
        + match entities[|entities| - 1]
          case BlockEntity(block) => [DepthLimitTag(block.defNumber)]
          case _ => []
  }

  /**
   * At the nesting limit no insert is expanded: each one is dropped with
   * its depth-limit tag, and nothing else is reported.
   */
  lemma {:induction false} ExplodeAtDepthLimit(convert: J.Entity -> Option<seq<DxfEntity>>,
                                               place: (DxfEntity, Transform2D) -> seq<DxfEntity>,
                                               num: Numerics, doc: J.JwwDocument, names: map<u32, string>,
                                               entities: seq<J.Entity>, defs: map<u32, J.BlockDef>, t: Transform2D,
                                               stack: seq<u32>, options: ConvertOptions)
    requires JwwHeader.WellShaped(doc.header.layerGroups)
    requires IsConverter(convert, num, doc, names)
    requires options.maxBlockNesting <= |stack|
    ensures ExplodeAll(convert, place, num, entities, defs, t, stack, options).unsupported == DepthLimitTags(entities)
  {
    if entities != [] {
      ExplodeAtDepthLimit(convert, place, num, doc, names, entities[..|entities| - 1], defs, t, stack, options);
      var e := entities[|entities| - 1];
      if !e.BlockEntity? {
        var converted := ConvertEntity(num, doc, e, names);
        assert converted.Some?;
      }
    }
  }

  /** An insert placed with no rotation, unit scale, at the origin. */
  function PlainInsert(n: u32): J.Entity {
    J.BlockEntity(J.Block(J.DefaultBase, 0.0, 0.0, 1.0, 1.0, 0.0, n))
  }

  /** A block definition numbered `n` holding `entities`. */
  function DefWith(n: u32, name: string, entities: seq<J.Entity>): J.BlockDef {
    J.BlockDef(J.DefaultBase, n, true, name, entities)
  }

  /** Block 1 inserts block 2, which inserts block 1 again: the second visit of 1 is cut with a cycle tag. */
  lemma ExplodeCycleExample(convert: J.Entity -> Option<seq<DxfEntity>>, place: (DxfEntity, Transform2D) -> seq<DxfEntity>,
                            num: Numerics)
    ensures ExplodeAll(convert, place, num, [PlainInsert(1)],
                       map[1 := DefWith(1, "B1", [PlainInsert(2)]), 2 := DefWith(2, "B2", [PlainInsert(1)])],
                       Identity, [], ConvertOptions(true, 32))
         == Exploded([], ["BLOCK_CYCLE(1)"])
  {
    var defs := map[1 := DefWith(1, "B1", [PlainInsert(2)]), 2 := DefWith(2, "B2", [PlainInsert(1)])];
    var options := ConvertOptions(true, 32);
    var t1 := Compose(Identity, FromInsert(num, PlainInsert(1).block));
    var t2 := Compose(t1, FromInsert(num, PlainInsert(2).block));
    var cycle := Exploded([], ["BLOCK_CYCLE(1)"]);
    assert CycleTag(1) == "BLOCK_CYCLE(1)" by {
      assert Format.NatToString(1) == "1";
    }
    assert ExplodeAll(convert, place, num, [PlainInsert(1)], defs, t2, [1, 2], options) == cycle by {
      assert ExplodeOne(convert, place, num, PlainInsert(1), defs, t2, [1, 2], options) == cycle;
    }
    assert ExplodeAll(convert, place, num, [PlainInsert(2)], defs, t1, [1], options) == cycle by {
      assert [1] + [2] == [1, 2];
      assert ExplodeOne(convert, place, num, PlainInsert(2), defs, t1, [1], options) == cycle;
    }
    assert ExplodeOne(convert, place, num, PlainInsert(1), defs, Identity, [], options) == cycle by {
      assert [] + [1] == [1];
    }
  }

  /** An insert of a number no block carries is dropped with an unresolved tag. */
  lemma ExplodeUnresolvedExample(convert: J.Entity -> Option<seq<DxfEntity>>,
                                 place: (DxfEntity, Transform2D) -> seq<DxfEntity>, num: Numerics)
    ensures ExplodeAll(convert, place, num, [PlainInsert(999)], map[], Identity, [], ConvertOptions(true, 32))
         == Exploded([], ["UNRESOLVED_BLOCK(999)"])
  {
    assert UnresolvedTag(999) == "UNRESOLVED_BLOCK(999)" by {
      assert Format.NatToString(999) == "999";
    }
    assert ExplodeOne(convert, place, num, PlainInsert(999), map[], Identity, [], ConvertOptions(true, 32))
        == Exploded([], ["UNRESOLVED_BLOCK(999)"]);
  }

  /** With a nesting limit of 1, block 1 opens but the insert of block 2 inside it is dropped. */
  lemma ExplodeDepthLimitExample(convert: J.Entity -> Option<seq<DxfEntity>>,
                                 place: (DxfEntity, Transform2D) -> seq<DxfEntity>, num: Numerics, inner: seq<J.Entity>)
    ensures ExplodeAll(convert, place, num, [PlainInsert(1)],
                       map[1 := DefWith(1, "B1", [PlainInsert(2)]), 2 := DefWith(2, "B2", inner)],
                       Identity, [], ConvertOptions(true, 1))
         == Exploded([], ["BLOCK_DEPTH_LIMIT(2)"])
  {
    var defs := map[1 := DefWith(1, "B1", [PlainInsert(2)]), 2 := DefWith(2, "B2", inner)];
    var options := ConvertOptions(true, 1);
    var t1 := Compose(Identity, FromInsert(num, PlainInsert(1).block));
    var limit := Exploded([], ["BLOCK_DEPTH_LIMIT(2)"]);
    assert DepthLimitTag(2) == "BLOCK_DEPTH_LIMIT(2)" by {
      assert Format.NatToString(2) == "2";
    }
    assert ExplodeAll(convert, place, num, [PlainInsert(2)], defs, t1, [1], options) == limit by {
      assert ExplodeOne(convert, place, num, PlainInsert(2), defs, t1, [1], options) == limit;
    }
    assert ExplodeOne(convert, place, num, PlainInsert(1), defs, Identity, [], options) == limit by {
      assert [] + [1] == [1];
    }
  }

  // ---------------------------------------------------------------------
  // The document
  // ---------------------------------------------------------------------

  /**
   * `convert_document_with_options`: the 256 layers always; then either
   * the exploded entities, no blocks and the explode tags, or the
   * converted entities with their inserts kept and one block per
   * definition.
   */
  method ConvertDocumentWithOptions(num: Numerics, doc: J.JwwDocument, options: ConvertOptions) returns (dxf: DxfDocument)
    requires JwwHeader.WellShaped(doc.header.layerGroups)
    ensures |dxf.layers| == 256
    ensures forall i :: 0 <= i < 256 ==> dxf.layers[i] == LayerFor(doc, i / 16, i % 16)
    ensures options.explodeInserts ==>
      && dxf.blocks == []
      && dxf.entities == ExplodeAll(Converter(num, doc, NameMapOf(doc.blockDefs)), Placer(num), num, doc.entities,
                                    DefMapOf(doc.blockDefs), Identity, [], options).records
      && dxf.unsupportedEntities == ExplodeAll(Converter(num, doc, NameMapOf(doc.blockDefs)), Placer(num), num, doc.entities,
                                               DefMapOf(doc.blockDefs), Identity, [], options).unsupported
    ensures !options.explodeInserts ==>
      && dxf.entities == Converted(num, doc, doc.entities, NameMapOf(doc.blockDefs))
      && dxf.unsupportedEntities == []
      && |dxf.blocks| == |doc.blockDefs|
      && forall i :: 0 <= i < |doc.blockDefs| ==> dxf.blocks[i] == BlockOf(num, doc, doc.blockDefs[i], NameMapOf(doc.blockDefs))
  {
    var layers := ConvertLayers(doc);
    var names := BlockNameMap(doc.blockDefs);
    var defs := BlockDefsByNumber(doc.blockDefs);
    var unsupported: seq<string> := [];
    var entities, blocks;
    if options.explodeInserts {
      var stack;
      entities, stack, unsupported := ConvertEntitiesExploded(
        num, doc, doc.entities, names, defs, Identity, [], unsupported, options, Converter(num, doc, names), Placer(num));
      blocks := [];
    } else {
      entities, unsupported := ConvertEntities(num, doc, doc.entities, names, unsupported);
      blocks, unsupported := ConvertBlocks(num, doc, names, unsupported);
    }
    dxf := DxfDocument(layers, entities, blocks, unsupported);
  }

  /** `convert_document`: the default options, so inserts stay references to blocks. */
  method ConvertDocument(num: Numerics, doc: J.JwwDocument) returns (dxf: DxfDocument)
    requires JwwHeader.WellShaped(doc.header.layerGroups)
    ensures |dxf.layers| == 256 && |dxf.blocks| == |doc.blockDefs|
    ensures dxf.entities == Converted(num, doc, doc.entities, NameMapOf(doc.blockDefs))
    ensures dxf.unsupportedEntities == []
  {
    dxf := ConvertDocumentWithOptions(num, doc, DefaultOptions);
  }

  /** An exploded document references no block, and every unsupported entry is an insert tag. */
  lemma ExplodedDocument(num: Numerics, doc: J.JwwDocument, options: ConvertOptions)
    requires JwwHeader.WellShaped(doc.header.layerGroups)
    ensures NoInserts(ExplodeAll(Converter(num, doc, NameMapOf(doc.blockDefs)), Placer(num), num, doc.entities,
                                 DefMapOf(doc.blockDefs), Identity, [], options).records)
    ensures forall k :: 0 <= k < |ExplodeAll(Converter(num, doc, NameMapOf(doc.blockDefs)), Placer(num), num, doc.entities,
                                             DefMapOf(doc.blockDefs), Identity, [], options).unsupported| ==>
              IsExplodeTag(ExplodeAll(Converter(num, doc, NameMapOf(doc.blockDefs)), Placer(num), num, doc.entities,
                                      DefMapOf(doc.blockDefs), Identity, [], options).unsupported[k])
  {
    var names := NameMapOf(doc.blockDefs);
    ExplodeAllNoInserts(Converter(num, doc, names), Placer(num), num, doc, names, doc.entities, DefMapOf(doc.blockDefs),
                        Identity, [], options);
    ExplodeAllTags(Converter(num, doc, names), Placer(num), num, doc, names, doc.entities, DefMapOf(doc.blockDefs),
                   Identity, [], options);
  }
}

=== FILE: dxf_groups.dfy ===
/**
 * The groups of an ASCII DXF R2000 file as `AsciiDxfWriter`
 * (src/dxf.rs:228-644) writes them, and, for every writer method, the
 * groups it appends: `XOnto(gs, ...)` is `gs` followed by what method X
 * writes, with the handle counter starting at `h`. Handle groups carry
 * the upper-case hexadecimal text of the counter value they consume.
 */
module DxfGroups {
  import opened Wrappers
  import opened DxfModel
  import Format
  import Seqs
  import Sorted
  import DxfEscape

  /** One group: a code and the value line that follows it. */
  datatype Group = Group(code: int, value: string)

  /** `"{code:>3}\n{value}\n"`. */
  function GroupText(g: Group): string {
    Format.PadLeft(Format.IntToString(g.code), 3) + "\n" + g.value + "\n"
  }

  /** The text of a run of groups: each group's text, in order. */
  function Render(groups: seq<Group>): string {
    if groups == [] then [] else Render(groups[..|groups| - 1]) + GroupText(groups[|groups| - 1])
  }

  const SectionOpener := Group(0, "SECTION")

  /** The last group opens a section, so a code-2 group next names it. */
  predicate EndsWithOpener(groups: seq<Group>) {
    |groups| > 0 && groups[|groups| - 1] == SectionOpener
  }

  /**
   * The sections opened in `groups`: the position of each (0, SECTION)
   * group that is followed by a code-2 group, with that group's value.
   */
  ghost function SectionsOf(groups: seq<Group>): seq<(nat, string)> {
    if |groups| < 2 then []
    else
      SectionsOf(groups[..|groups| - 1])
      + (if groups[|groups| - 2] == SectionOpener && groups[|groups| - 1].code == 2
         then [(|groups| - 2, groups[|groups| - 1].value)] else [])
  }

  /** The names of the opened sections, in order. */
  ghost function SectionNames(ss: seq<(nat, string)>): seq<string> {
    if ss == [] then [] else SectionNames(ss[..|ss| - 1]) + [ss[|ss| - 1].1]
  }

  lemma SectionNamesAppend(ss: seq<(nat, string)>, s: (nat, string))
    ensures SectionNames(ss + [s]) == SectionNames(ss) + [s.1]
  {
    assert (ss + [s])[..|ss|] == ss;
  }

  /** The values of the code-5 (handle) groups, in order. */
  ghost function HandlesOf(groups: seq<Group>): seq<string> {
    if groups == [] then []
    else
      HandlesOf(groups[..|groups| - 1])
      + (if groups[|groups| - 1].code == 5 then [groups[|groups| - 1].value] else [])
  }

  /** The text of `format!("{:X}", n)`, read back to `n`. */
  ghost predicate IsHandleText(v: string) {
    && (forall k :: 0 <= k < |v| ==> Format.IsHexUpperDigit(v[k]))
    && Format.HexUpper(Format.HexValue(v)) == v
  }

  /** Every value is a handle the counter has already passed. */
  ghost predicate HandlesBelow(handles: seq<string>, next: nat) {
    forall i :: 0 <= i < |handles| ==> IsHandleText(handles[i]) && Format.HexValue(handles[i]) < next
  }

  predicate Distinct<T(==)>(xs: seq<T>) {
    forall i, j :: 0 <= i < j < |xs| ==> xs[i] != xs[j]
  }

  /** Every key listed has an entry. */
  predicate KeysIn<K, V>(keys: seq<K>, m: map<K, V>) {
    forall k :: k in keys ==> k in m
  }

  /** The handle group of counter value `h`. */
  function HandleGroup(h: nat): Group {
    Group(5, Format.HexUpper(h))
  }

  /** `group_i32`: the decimal text of the value. */
  function IntGroup(code: int, value: int): Group {
    Group(code, Format.IntToString(value))
  }

  /** The owner group (code 330) is written only when there is an owner. */
  function OwnerOnto(gs: seq<Group>, owner: Option<string>): seq<Group> {
    if owner.Some? then gs + [Group(330, owner.value)] else gs
  }

  // ---------------------------------------------------------------------
  // Fixed sections and tables
  // ---------------------------------------------------------------------

  function SectionStartOnto(gs: seq<Group>, name: string): seq<Group> {
    gs + [SectionOpener] + [Group(2, name)]
  }

  function HeaderOnto(gs: seq<Group>): seq<Group> {
    SectionStartOnto(gs, "HEADER")
    + [Group(9, "$ACADVER")] + [Group(1, "AC1015")]
    + [Group(9, "$DWGCODEPAGE")] + [Group(3, "ANSI_1252")]
    + [Group(9, "$MEASUREMENT")] + [IntGroup(70, 1)]
    + [Group(9, "$TEXTSTYLE")] + [Group(7, "STANDARD")]
    + [Group(9, "$CLAYER")] + [Group(8, "0")]
    + [Group(9, "$CELTYPE")] + [Group(6, "BYLAYER")]
    + [Group(9, "$CECOLOR")] + [IntGroup(62, 256)]
    + [Group(0, "ENDSEC")]
  }

  /** The head every table starts with: its name, its handle h and the record count it declares. */
  function TableStartOnto(gs: seq<Group>, name: string, h: nat, count: int): seq<Group> {
    gs + [Group(0, "TABLE")] + [Group(2, name)] + [HandleGroup(h)] + [IntGroup(70, count)]
  }

  /** The STANDARD text style record, with handle h. */
  function StyleRecordOnto(gs: seq<Group>, fmt: real -> string, h: nat): seq<Group> {
    gs + [Group(0, "STYLE")] + [HandleGroup(h)] + [Group(2, "STANDARD")] + [IntGroup(70, 0)]
    + [Group(40, fmt(0.0))] + [Group(41, fmt(1.0))] + [Group(50, fmt(0.0))] + [IntGroup(71, 0)]
    + [Group(42, fmt(2.5))] + [Group(3, "txt")] + [Group(4, "")]
  }

  function StyleTableOnto(gs: seq<Group>, fmt: real -> string, h: nat): seq<Group> {
    StyleRecordOnto(TableStartOnto(gs, "STYLE", h, 1), fmt, h + 1) + [Group(0, "ENDTAB")]
  }

  function ObjectsOnto(gs: seq<Group>, h: nat): seq<Group> {
    SectionStartOnto(gs, "OBJECTS")
    + [Group(0, "DICTIONARY")] + [HandleGroup(h)] + [Group(330, "0")] + [Group(100, "AcDbDictionary")]
    + [IntGroup(281, 1)]
    + [Group(0, "ENDSEC")]
  }

  // ---------------------------------------------------------------------
  // Line types
  // ---------------------------------------------------------------------

  /** The description and the dash pattern of a line type name; unknown names have neither. */
  function LineTypePattern(name: string): (p: (string, seq<real>))
    ensures |p.1| % 2 == 0
    ensures forall k :: 0 <= k < |p.1| ==> (p.1[k] > 0.0 <==> k % 2 == 0) && p.1[k] != 0.0
    ensures p.0 == "" <==> name !in {"CONTINUOUS", "DASHED", "DASHED2", "DASHDOT", "DOT"}
  {
    if name == "CONTINUOUS" then ("Solid line", [])
    else if name == "DASHED" then ("Dashed line", [0.6, -0.3])
    else if name == "DASHED2" then ("Dashed line x2", [1.2, -0.6])
    else if name == "DASHDOT" then ("Dash dot", [0.6, -0.2, 0.1, -0.2])
    else if name == "DOT" then ("Dotted line", [0.1, -0.1])
    else ("", [])
  }

  function Abs(x: real): real {
    if x < 0.0 then -x else x
  }

  /** The total pattern length: the sum of the absolute element lengths. */
  function AbsSum(pattern: seq<real>): real {
    if pattern == [] then 0.0 else AbsSum(pattern[..|pattern| - 1]) + Abs(pattern[|pattern| - 1])
  }

  /** One (49, element) group per pattern element, in order. */
  function PatternOnto(gs: seq<Group>, fmt: real -> string, pattern: seq<real>): seq<Group> {
    if pattern == [] then gs
    else PatternOnto(gs, fmt, pattern[..|pattern| - 1]) + [Group(49, fmt(pattern[|pattern| - 1]))]
  }

  function LtypeRecordOnto(gs: seq<Group>, fmt: real -> string, name: string, h: nat): seq<Group> {
    var description := LineTypePattern(name).0;
    var pattern := LineTypePattern(name).1;
    PatternOnto(
      gs + [Group(0, "LTYPE")] + [HandleGroup(h)] + [Group(2, name)] + [IntGroup(70, 0)]
      + [Group(3, description)] + [IntGroup(72, 65)] + [IntGroup(73, |pattern|)]
      + [Group(40, fmt(AbsSum(pattern)))],
      fmt, pattern)
  }

  /** One LTYPE record per name, in order, each taking one handle. */
  function LtypeRecordsOnto(gs: seq<Group>, fmt: real -> string, names: seq<string>, h: nat): seq<Group> {
    if names == [] then gs
    else LtypeRecordOnto(LtypeRecordsOnto(gs, fmt, names[..|names| - 1], h), fmt, names[|names| - 1], h + |names| - 1)
  }

  function LtypeTableOnto(gs: seq<Group>, fmt: real -> string, names: seq<string>, h: nat): seq<Group> {
    LtypeRecordsOnto(TableStartOnto(gs, "LTYPE", h, |names|), fmt, names, h + 1) + [Group(0, "ENDTAB")]
  }

  /** Each name added to an ordered set, in turn. */
  function InsertAll(acc: seq<string>, names: seq<string>): seq<string> {
    if names == [] then acc else Sorted.Insert(InsertAll(acc, names[..|names| - 1]), names[|names| - 1])
  }

  function LayerLineTypes(layers: seq<DxfLayer>): seq<string> {
    if layers == [] then [] else LayerLineTypes(layers[..|layers| - 1]) + [layers[|layers| - 1].lineType]
  }

  /** `entity_line_type` of each record, in order. */
  function EntityLineTypes(entities: seq<DxfEntity>): seq<string> {
    if entities == [] then [] else EntityLineTypes(entities[..|entities| - 1]) + [StyleOf(entities[|entities| - 1]).lineType]
  }

  function BlockLineTypes(blocks: seq<DxfBlock>): seq<string> {
    if blocks == [] then [] else BlockLineTypes(blocks[..|blocks| - 1]) + EntityLineTypes(blocks[|blocks| - 1].entities)
  }

  /** `collect_line_types`: the layers' line types, then the entities', then the block entities'. */
  function LineTypesOf(doc: DxfDocument): seq<string> {
    InsertAll(InsertAll(InsertAll([], LayerLineTypes(doc.layers)), EntityLineTypes(doc.entities)), BlockLineTypes(doc.blocks))
  }

  /** The LTYPE table's names: the collected ones and the three standard ones. */
  function LtypeNames(doc: DxfDocument): seq<string> {
    Sorted.Insert(Sorted.Insert(Sorted.Insert(LineTypesOf(doc), "BYLAYER"), "BYBLOCK"), "CONTINUOUS")
  }

  // ---------------------------------------------------------------------
  // Layers
  // ---------------------------------------------------------------------

  /** The keys of the layer map: each layer name, kept in order. */
  function LayerKeys(layers: seq<DxfLayer>): seq<string> {
    if layers == [] then [] else Sorted.Insert(LayerKeys(layers[..|layers| - 1]), layers[|layers| - 1].name)
  }

  /** The entries of the layer map: a name is bound to its first layer (`or_insert_with`). */
  function FirstLayers(layers: seq<DxfLayer>): map<string, DxfLayer> {
    if layers == [] then map[]
    else
      var m := FirstLayers(layers[..|layers| - 1]);
      var layer := layers[|layers| - 1];
      if layer.name in m then m else m[layer.name := layer]
  }

  /** The flags of a layer record: 1 when frozen, 4 when locked. */
  function LayerFlags(layer: DxfLayer): int {
    (if layer.frozen then 1 else 0) + (if layer.locked then 4 else 0)
  }

  function LayerRecordOnto(gs: seq<Group>, layer: DxfLayer, h: nat): seq<Group> {
    gs + [Group(0, "LAYER")] + [HandleGroup(h)] + [Group(2, DxfEscape.Escape(layer.name))]
    + [IntGroup(70, LayerFlags(layer))] + [IntGroup(62, layer.color)] + [Group(6, layer.lineType)]
  }

  /** One LAYER record per key, in key order, each taking one handle. */
  function LayerRecordsOnto(gs: seq<Group>, keys: seq<string>, entries: map<string, DxfLayer>, h: nat): seq<Group>
    requires KeysIn(keys, entries)
  {
    if keys == [] then gs
    else
      LayerRecordOnto(LayerRecordsOnto(gs, keys[..|keys| - 1], entries, h), entries[keys[|keys| - 1]], h + |keys| - 1)
  }

  /** The record of layer 0, which every file has: colour 7, CONTINUOUS, with handle h. */
  function LayerZeroOnto(gs: seq<Group>, h: nat): seq<Group> {
    gs + [Group(0, "LAYER")] + [HandleGroup(h)] + [Group(2, "0")] + [IntGroup(70, 0)]
    + [IntGroup(62, 7)] + [Group(6, "CONTINUOUS")]
  }

  function LayerTableOnto(gs: seq<Group>, keys: seq<string>, entries: map<string, DxfLayer>, h: nat): seq<Group>
    requires KeysIn(keys, entries)
  {
    LayerRecordsOnto(LayerZeroOnto(TableStartOnto(gs, "LAYER", h, |keys| + 1), h + 1), keys, entries, h + 2)
    + [Group(0, "ENDTAB")]
  }

  // ---------------------------------------------------------------------
  // Block records
  // ---------------------------------------------------------------------

  /** The block-record registry: names in registration order, their handles, the counter. */
  datatype Registry = Registry(order: seq<string>, handles: map<string, string>, next: nat)

  /** `register_block_record`: a name already registered is left alone; a new one takes the next handle. */
  function Register(r: Registry, name: string): (r': Registry)
    ensures name in r'.handles
    ensures forall k :: k in r.handles ==> k in r'.handles && r'.handles[k] == r.handles[k]
    ensures r'.order == if name in r.handles then r.order else r.order + [name]
  {
    if name in r.handles then r
    else Registry(r.order + [name], r.handles[name := Format.HexUpper(r.next)], r.next + 1)
  }

  function RegisterAll(r: Registry, names: seq<string>): Registry {
    if names == [] then r else Register(RegisterAll(r, names[..|names| - 1]), names[|names| - 1])
  }

  function BlockNames(blocks: seq<DxfBlock>): seq<string> {
    if blocks == [] then [] else BlockNames(blocks[..|blocks| - 1]) + [blocks[|blocks| - 1].name]
  }

  /** `ensure_block_record_table`: the two layouts, then every block, unless records exist already. */
  function EnsureRegistry(r: Registry, doc: DxfDocument): Registry {
    if r.order != [] then r
    else RegisterAll(Register(Register(r, "*Model_Space"), "*Paper_Space"), BlockNames(doc.blocks))
  }

  /** `block_record_handle`. */
  function OwnerOf(handles: map<string, string>, name: string): Option<string> {
    if name in handles then Some(handles[name]) else None
  }

  function BlockRecordOnto(gs: seq<Group>, name: string, handle: string): seq<Group> {
    gs + [Group(0, "BLOCK_RECORD")] + [Group(5, handle)] + [Group(330, "0")]
    + [Group(100, "AcDbSymbolTableRecord")] + [Group(100, "AcDbBlockTableRecord")]
    + [Group(2, DxfEscape.Escape(name))]
  }

  /** One BLOCK_RECORD per registered name, in registration order, with its registered handle. */
  function BlockRecordsOnto(gs: seq<Group>, order: seq<string>, handles: map<string, string>): seq<Group>
    requires KeysIn(order, handles)
  {
    if order == [] then gs
    else
      var name := order[|order| - 1];
      BlockRecordOnto(BlockRecordsOnto(gs, order[..|order| - 1], handles), name, handles[name])
  }

  function BlockRecordTableOnto(gs: seq<Group>, order: seq<string>, handles: map<string, string>, h: nat): seq<Group>
    requires KeysIn(order, handles)
  {
    BlockRecordsOnto(TableStartOnto(gs, "BLOCK_RECORD", h, |order|), order, handles) + [Group(0, "ENDTAB")]
  }

  /** The tables whose records come from the document: LTYPE over `names`, then LAYER over `keys`. */
  function DocumentTablesOnto(gs: seq<Group>, fmt: real -> string, names: seq<string>,
                              keys: seq<string>, entries: map<string, DxfLayer>, h: nat): seq<Group>
    requires KeysIn(keys, entries)
  {
    LayerTableOnto(LtypeTableOnto(gs, fmt, names, h), keys, entries, LayerTableStart(h, names))
  }

  /** The first handle of the LAYER table: the LTYPE table takes one for itself and one per name. */
  function LayerTableStart(h: nat, names: seq<string>): nat {
    h + 1 + |names|
  }

  lemma DocumentTablesParts(g0: seq<Group>, fmt: real -> string, names: seq<string>, keys: seq<string>,
                            entries: map<string, DxfLayer>, h0: nat, g1: seq<Group>, h1: nat, g2: seq<Group>)
    requires KeysIn(keys, entries)
    requires g1 == LtypeTableOnto(g0, fmt, names, h0) && h1 == LayerTableStart(h0, names)
    requires g2 == LayerTableOnto(g1, keys, entries, h1)
    ensures g2 == DocumentTablesOnto(g0, fmt, names, keys, entries, h0)
  {
  }

  /** The tables every file has: STYLE, then BLOCK_RECORD from the registry. */
  function FixedTablesOnto(gs: seq<Group>, fmt: real -> string, order: seq<string>, handles: map<string, string>, h: nat): seq<Group>
    requires KeysIn(order, handles)
  {
    BlockRecordTableOnto(StyleTableOnto(gs, fmt, h), order, handles, h + 2)
  }

  /** The TABLES section: LTYPE, LAYER, STYLE and BLOCK_RECORD. */
  function TablesOnto(gs: seq<Group>, fmt: real -> string, names: seq<string>, keys: seq<string>,
                      entries: map<string, DxfLayer>, order: seq<string>, handles: map<string, string>, h: nat): seq<Group>
    requires KeysIn(keys, entries) && KeysIn(order, handles)
  {
    FixedTablesOnto(DocumentTablesOnto(SectionStartOnto(gs, "TABLES"), fmt, names, keys, entries, h),
                    fmt, order, handles, FixedTablesStart(h, names, keys))
    + [Group(0, "ENDSEC")]
  }

  /** The first handle of the STYLE table: the LTYPE table takes one per name and one more, LAYER two more than its keys. */
  function FixedTablesStart(h: nat, names: seq<string>, keys: seq<string>): nat {
    h + (1 + |names|) + (2 + |keys|)
  }

  lemma TablesParts(g0: seq<Group>, fmt: real -> string, names: seq<string>, keys: seq<string>,
                    entries: map<string, DxfLayer>, order: seq<string>, handles: map<string, string>, h0: nat,
                    g1: seq<Group>, g2: seq<Group>, h2: nat, g3: seq<Group>, g4: seq<Group>)
    requires KeysIn(keys, entries) && KeysIn(order, handles)
    requires g1 == SectionStartOnto(g0, "TABLES")
    requires g2 == DocumentTablesOnto(g1, fmt, names, keys, entries, h0) && h2 == FixedTablesStart(h0, names, keys)
    requires g3 == FixedTablesOnto(g2, fmt, order, handles, h2)
    requires g4 == g3 + [Group(0, "ENDSEC")]
    ensures g4 == TablesOnto(g0, fmt, names, keys, entries, order, handles, h0)
  {
  }

  lemma {:induction false} LayerKeysInEntries(layers: seq<DxfLayer>)
    ensures KeysIn(LayerKeys(layers), FirstLayers(layers))
    ensures forall k :: k in LayerKeys(layers) <==> k in FirstLayers(layers)
  {
    if layers != [] {
      LayerKeysInEntries(layers[..|layers| - 1]);
      Sorted.InsertMembers(LayerKeys(layers[..|layers| - 1]), layers[|layers| - 1].name);
    }
  }

  // ---------------------------------------------------------------------
  // Entities
  // ---------------------------------------------------------------------

  /** `entity_header`: type, handle, owner, escaped layer, colour and line type. */
  function EntityHeaderOnto(gs: seq<Group>, entityType: string, style: Style, owner: Option<string>, h: nat): seq<Group> {
    OwnerOnto(gs + [Group(0, entityType)] + [HandleGroup(h)], owner)
    + [Group(8, DxfEscape.Escape(style.layer))] + [IntGroup(62, style.color)] + [Group(6, style.lineType)]
  }

  function LineOnto(gs: seq<Group>, fmt: real -> string, v: DxfLine, owner: Option<string>, h: nat): seq<Group> {
    EntityHeaderOnto(gs, "LINE", Style(v.layer, v.color, v.lineType), owner, h)
    + [Group(10, fmt(v.x1))] + [Group(20, fmt(v.y1))] + [Group(30, fmt(0.0))]
    + [Group(11, fmt(v.x2))] + [Group(21, fmt(v.y2))] + [Group(31, fmt(0.0))]
  }

  function CircleOnto(gs: seq<Group>, fmt: real -> string, v: DxfCircle, owner: Option<string>, h: nat): seq<Group> {
    EntityHeaderOnto(gs, "CIRCLE", Style(v.layer, v.color, v.lineType), owner, h)
    + [Group(10, fmt(v.centerX))] + [Group(20, fmt(v.centerY))] + [Group(30, fmt(0.0))]
    + [Group(40, fmt(v.radius))]
  }

  function ArcOnto(gs: seq<Group>, fmt: real -> string, v: DxfArc, owner: Option<string>, h: nat): seq<Group> {
    EntityHeaderOnto(gs, "ARC", Style(v.layer, v.color, v.lineType), owner, h)
    + [Group(10, fmt(v.centerX))] + [Group(20, fmt(v.centerY))] + [Group(30, fmt(0.0))]
    + [Group(40, fmt(v.radius))] + [Group(50, fmt(v.startAngle))] + [Group(51, fmt(v.endAngle))]
  }

  function EllipseOnto(gs: seq<Group>, fmt: real -> string, v: DxfEllipse, owner: Option<string>, h: nat): seq<Group> {
    EntityHeaderOnto(gs, "ELLIPSE", Style(v.layer, v.color, v.lineType), owner, h)
    + [Group(10, fmt(v.centerX))] + [Group(20, fmt(v.centerY))] + [Group(30, fmt(0.0))]
    + [Group(11, fmt(v.majorAxisX))] + [Group(21, fmt(v.majorAxisY))] + [Group(31, fmt(0.0))]
    + [Group(40, fmt(v.minorRatio))] + [Group(41, fmt(v.startParam))] + [Group(42, fmt(v.endParam))]
  }

  function PointOnto(gs: seq<Group>, fmt: real -> string, v: DxfPoint, owner: Option<string>, h: nat): seq<Group> {
    EntityHeaderOnto(gs, "POINT", Style(v.layer, v.color, v.lineType), owner, h)
    + [Group(10, fmt(v.x))] + [Group(20, fmt(v.y))] + [Group(30, fmt(0.0))]
  }

  function TextOnto(gs: seq<Group>, fmt: real -> string, v: DxfText, owner: Option<string>, h: nat): seq<Group> {
    EntityHeaderOnto(gs, "TEXT", Style(v.layer, v.color, v.lineType), owner, h)
    + [Group(10, fmt(v.x))] + [Group(20, fmt(v.y))] + [Group(30, fmt(0.0))]
    + [Group(40, fmt(v.height))] + [Group(1, DxfEscape.Escape(v.content))]
    + [Group(50, fmt(v.rotation))] + [Group(7, DxfEscape.Escape(v.style))]
  }

  function SolidOnto(gs: seq<Group>, fmt: real -> string, v: DxfSolid, owner: Option<string>, h: nat): seq<Group> {
    EntityHeaderOnto(gs, "SOLID", Style(v.layer, v.color, v.lineType), owner, h)
    + [Group(10, fmt(v.x1))] + [Group(20, fmt(v.y1))] + [Group(30, fmt(0.0))]
    + [Group(11, fmt(v.x2))] + [Group(21, fmt(v.y2))] + [Group(31, fmt(0.0))]
    + [Group(12, fmt(v.x3))] + [Group(22, fmt(v.y3))] + [Group(32, fmt(0.0))]
    + [Group(13, fmt(v.x4))] + [Group(23, fmt(v.y4))] + [Group(33, fmt(0.0))]
  }

  function InsertOnto(gs: seq<Group>, fmt: real -> string, v: DxfInsert, owner: Option<string>, h: nat): seq<Group> {
    EntityHeaderOnto(gs, "INSERT", Style(v.layer, v.color, v.lineType), owner, h)
    + [Group(2, DxfEscape.Escape(v.blockName))]
    + [Group(10, fmt(v.x))] + [Group(20, fmt(v.y))] + [Group(30, fmt(0.0))]
    + [Group(41, fmt(v.scaleX))] + [Group(42, fmt(v.scaleY))] + [Group(43, fmt(1.0))]
    + [Group(50, fmt(v.rotation))]
  }

  /** `write_entity`: the record's groups under its own DXF name, taking one handle. */
  function EntityOnto(gs: seq<Group>, fmt: real -> string, e: DxfEntity, owner: Option<string>, h: nat): seq<Group> {
    match e
    case Line(v) => LineOnto(gs, fmt, v, owner, h)
    case Circle(v) => CircleOnto(gs, fmt, v, owner, h)
    case Arc(v) => ArcOnto(gs, fmt, v, owner, h)
    case Ellipse(v) => EllipseOnto(gs, fmt, v, owner, h)
    case Point(v) => PointOnto(gs, fmt, v, owner, h)
    case Text(v) => TextOnto(gs, fmt, v, owner, h)
    case Solid(v) => SolidOnto(gs, fmt, v, owner, h)
    case Insert(v) => InsertOnto(gs, fmt, v, owner, h)
  }

  /**
   * How one record is appended. The sections below take it as a parameter,
   * so that a proof about a list of records never looks inside a record.
   */
  type EntityWriter = (seq<Group>, DxfEntity, Option<string>, nat) -> seq<Group>

  /** `write` applied; proofs name the application through this function, which reads no state. */
  function EntityBy(write: EntityWriter, gs: seq<Group>, e: DxfEntity, owner: Option<string>, h: nat): seq<Group> {
    write(gs, e, owner, h)
  }

  /** `write_entity` with the number format fixed. */
  function EntityWriterOf(fmt: real -> string): EntityWriter {
    (gs: seq<Group>, e: DxfEntity, owner: Option<string>, h: nat) => EntityOnto(gs, fmt, e, owner, h)
  }

  /** `write` appends every kind of record as `write_entity` does with the number format `fmt`. */
  ghost predicate WritesEntities(write: EntityWriter, fmt: real -> string) {
    && (forall gs, v, owner, h {:trigger EntityBy(write, gs, Line(v), owner, h)} :: EntityBy(write, gs, Line(v), owner, h) == LineOnto(gs, fmt, v, owner, h))
    && (forall gs, v, owner, h {:trigger EntityBy(write, gs, Circle(v), owner, h)} :: EntityBy(write, gs, Circle(v), owner, h) == CircleOnto(gs, fmt, v, owner, h))
    && (forall gs, v, owner, h {:trigger EntityBy(write, gs, Arc(v), owner, h)} :: EntityBy(write, gs, Arc(v), owner, h) == ArcOnto(gs, fmt, v, owner, h))
    && (forall gs, v, owner, h {:trigger EntityBy(write, gs, Ellipse(v), owner, h)} :: EntityBy(write, gs, Ellipse(v), owner, h) == EllipseOnto(gs, fmt, v, owner, h))
    && (forall gs, v, owner, h {:trigger EntityBy(write, gs, Point(v), owner, h)} :: EntityBy(write, gs, Point(v), owner, h) == PointOnto(gs, fmt, v, owner, h))
    && (forall gs, v, owner, h {:trigger EntityBy(write, gs, Text(v), owner, h)} :: EntityBy(write, gs, Text(v), owner, h) == TextOnto(gs, fmt, v, owner, h))
    && (forall gs, v, owner, h {:trigger EntityBy(write, gs, Solid(v), owner, h)} :: EntityBy(write, gs, Solid(v), owner, h) == SolidOnto(gs, fmt, v, owner, h))
    && (forall gs, v, owner, h {:trigger EntityBy(write, gs, Insert(v), owner, h)} :: EntityBy(write, gs, Insert(v), owner, h) == InsertOnto(gs, fmt, v, owner, h))
  }

  lemma EntityWriterOfWrites(fmt: real -> string)
    ensures WritesEntities(EntityWriterOf(fmt), fmt)
  {
    EntityWriterOfLine(fmt);
    EntityWriterOfCircle(fmt);
    EntityWriterOfArc(fmt);
    EntityWriterOfEllipse(fmt);
    EntityWriterOfPoint(fmt);
    EntityWriterOfText(fmt);
    EntityWriterOfSolid(fmt);
    EntityWriterOfInsert(fmt);
  }

  lemma EntityWriterOfLine(fmt: real -> string)
    ensures forall gs, v, owner, h {:trigger EntityBy(EntityWriterOf(fmt), gs, Line(v), owner, h)} :: EntityBy(EntityWriterOf(fmt), gs, Line(v), owner, h) == LineOnto(gs, fmt, v, owner, h)
  {
  }

  lemma EntityWriterOfCircle(fmt: real -> string)
    ensures forall gs, v, owner, h {:trigger EntityBy(EntityWriterOf(fmt), gs, Circle(v), owner, h)} :: EntityBy(EntityWriterOf(fmt), gs, Circle(v), owner, h) == CircleOnto(gs, fmt, v, owner, h)
  {
  }

  lemma EntityWriterOfArc(fmt: real -> string)
    ensures forall gs, v, owner, h {:trigger EntityBy(EntityWriterOf(fmt), gs, Arc(v), owner, h)} :: EntityBy(EntityWriterOf(fmt), gs, Arc(v), owner, h) == ArcOnto(gs, fmt, v, owner, h)
  {
  }

  lemma EntityWriterOfEllipse(fmt: real -> string)
    ensures forall gs, v, owner, h {:trigger EntityBy(EntityWriterOf(fmt), gs, Ellipse(v), owner, h)} :: EntityBy(EntityWriterOf(fmt), gs, Ellipse(v), owner, h) == EllipseOnto(gs, fmt, v, owner, h)
  {
  }

  lemma EntityWriterOfPoint(fmt: real -> string)
    ensures forall gs, v, owner, h {:trigger EntityBy(EntityWriterOf(fmt), gs, Point(v), owner, h)} :: EntityBy(EntityWriterOf(fmt), gs, Point(v), owner, h) == PointOnto(gs, fmt, v, owner, h)
  {
  }

  lemma EntityWriterOfText(fmt: real -> string)
    ensures forall gs, v, owner, h {:trigger EntityBy(EntityWriterOf(fmt), gs, Text(v), owner, h)} :: EntityBy(EntityWriterOf(fmt), gs, Text(v), owner, h) == TextOnto(gs, fmt, v, owner, h)
  {
  }

  lemma EntityWriterOfSolid(fmt: real -> string)
    ensures forall gs, v, owner, h {:trigger EntityBy(EntityWriterOf(fmt), gs, Solid(v), owner, h)} :: EntityBy(EntityWriterOf(fmt), gs, Solid(v), owner, h) == SolidOnto(gs, fmt, v, owner, h)
  {
  }

  lemma EntityWriterOfInsert(fmt: real -> string)
    ensures forall gs, v, owner, h {:trigger EntityBy(EntityWriterOf(fmt), gs, Insert(v), owner, h)} :: EntityBy(EntityWriterOf(fmt), gs, Insert(v), owner, h) == InsertOnto(gs, fmt, v, owner, h)
  {
  }

  /** The records in order, the k-th taking handle h + k. */
  function EntitiesOnto(gs: seq<Group>, write: EntityWriter, es: seq<DxfEntity>, owner: Option<string>, h: nat): seq<Group> {
    if es == [] then gs
    else EntityBy(write, EntitiesOnto(gs, write, es[..|es| - 1], owner, h), es[|es| - 1], owner, h + |es| - 1)
  }

  function EntitiesSectionOnto(gs: seq<Group>, write: EntityWriter, entities: seq<DxfEntity>, handles: map<string, string>, h: nat): seq<Group> {
    EntitiesOnto(SectionStartOnto(gs, "ENTITIES"), write, entities, OwnerOf(handles, "*Model_Space"), h)
    + [Group(0, "ENDSEC")]
  }

  // ---------------------------------------------------------------------
  // Blocks
  // ---------------------------------------------------------------------

  /** The BLOCK entity that opens a block definition, with handle h. */
  function BlockBeginOnto(gs: seq<Group>, fmt: real -> string, name: string, baseX: real, baseY: real,
                          owner: Option<string>, h: nat): seq<Group>
  {
    var blockName := DxfEscape.Escape(name);
    OwnerOnto(gs + [Group(0, "BLOCK")] + [HandleGroup(h)], owner)
    + [Group(100, "AcDbEntity")] + [Group(8, "0")] + [Group(100, "AcDbBlockBegin")]
    + [Group(2, blockName)] + [IntGroup(70, 0)]
    + [Group(10, fmt(baseX))] + [Group(20, fmt(baseY))] + [Group(30, fmt(0.0))]
    + [Group(3, blockName)] + [Group(1, "")]
  }

  /** The ENDBLK entity that closes a block definition, with handle h. */
  function BlockEndOnto(gs: seq<Group>, owner: Option<string>, h: nat): seq<Group> {
    OwnerOnto(gs + [Group(0, "ENDBLK")] + [HandleGroup(h)], owner)
    + [Group(100, "AcDbEntity")] + [Group(8, "0")] + [Group(100, "AcDbBlockEnd")]
  }

  /** The records of a block with handles from h, then its ENDBLK with the handle after them. */
  function BlockRestOnto(gs: seq<Group>, write: EntityWriter, es: seq<DxfEntity>, owner: Option<string>, h: nat): seq<Group> {
    BlockEndOnto(EntitiesOnto(gs, write, es, owner, h), owner, h + |es|)
  }

  /** `write_block_definition`: BLOCK with handle h, the records with h + 1 onwards, ENDBLK with the handle after them. */
  function BlockOnto(gs: seq<Group>, fmt: real -> string, write: EntityWriter, b: DxfBlock, owner: Option<string>, h: nat): seq<Group> {
    BlockRestOnto(BlockBeginOnto(gs, fmt, b.name, b.baseX, b.baseY, owner, h), write, b.entities, owner, h + 1)
  }

  lemma BlockParts(g0: seq<Group>, fmt: real -> string, write: EntityWriter, b: DxfBlock, owner: Option<string>, h: nat,
                   gB: seq<Group>, gR: seq<Group>)
    requires gB == BlockBeginOnto(g0, fmt, b.name, b.baseX, b.baseY, owner, h)
    requires gR == BlockRestOnto(gB, write, b.entities, owner, h + 1)
    ensures gR == BlockOnto(g0, fmt, write, b, owner, h)
  {
  }

  /** How one block definition is appended; like EntityWriter, it keeps a block's groups out of proofs about lists of blocks. */
  type BlockWriter = (seq<Group>, DxfBlock, Option<string>, nat) -> seq<Group>

  /** `writeBlock` applied, as EntityBy. */
  function BlockBy(writeBlock: BlockWriter, gs: seq<Group>, b: DxfBlock, owner: Option<string>, h: nat): seq<Group> {
    writeBlock(gs, b, owner, h)
  }

  /** `write_block_definition` with the number format and the record writer fixed. */
  function BlockWriterOf(fmt: real -> string, write: EntityWriter): BlockWriter {
    (gs: seq<Group>, b: DxfBlock, owner: Option<string>, h: nat) => BlockOnto(gs, fmt, write, b, owner, h)
  }

  /** `writeBlock` appends every block definition as BlockOnto does. */
  ghost predicate WritesBlocks(writeBlock: BlockWriter, fmt: real -> string, write: EntityWriter) {
    forall gs, b, owner, h {:trigger BlockOnto(gs, fmt, write, b, owner, h)} :: BlockBy(writeBlock, gs, b, owner, h) == BlockOnto(gs, fmt, write, b, owner, h)
  }

  lemma BlockWriterOfWrites(fmt: real -> string, write: EntityWriter)
    ensures WritesBlocks(BlockWriterOf(fmt, write), fmt, write)
  {
  }

  /** Each block definition takes two handles and one per record. */
  function BlocksHandleCount(blocks: seq<DxfBlock>): nat {
    if blocks == [] then 0 else BlocksHandleCount(blocks[..|blocks| - 1]) + 2 + |blocks[|blocks| - 1].entities|
  }

  /** The document's blocks in order, each owned by its own block record. */
  function BlockDefsOnto(gs: seq<Group>, writeBlock: BlockWriter, blocks: seq<DxfBlock>, handles: map<string, string>, h: nat): seq<Group> {
    if blocks == [] then gs
    else
      var b := blocks[|blocks| - 1];
      var rest := blocks[..|blocks| - 1];
      BlockBy(writeBlock, BlockDefsOnto(gs, writeBlock, rest, handles, h), b, OwnerOf(handles, b.name), h + BlocksHandleCount(rest))
  }

  /** The two layout blocks, then every block of the document. */
  function BlocksSectionOnto(gs: seq<Group>, writeBlock: BlockWriter, blocks: seq<DxfBlock>, handles: map<string, string>, h: nat): seq<Group> {
    var model := BlockBy(writeBlock, SectionStartOnto(gs, "BLOCKS"), DxfBlock("*Model_Space", 0.0, 0.0, []), OwnerOf(handles, "*Model_Space"), h);
    var paper := BlockBy(writeBlock, model, DxfBlock("*Paper_Space", 0.0, 0.0, []), OwnerOf(handles, "*Paper_Space"), h + 2);
    BlockDefsOnto(paper, writeBlock, blocks, handles, h + 4) + [Group(0, "ENDSEC")]
  }

  lemma BlocksParts(g0: seq<Group>, writeBlock: BlockWriter, blocks: seq<DxfBlock>, handles: map<string, string>, h: nat,
                    gS: seq<Group>, gM: seq<Group>, gP: seq<Group>, gD: seq<Group>, gF: seq<Group>)
    requires gS == SectionStartOnto(g0, "BLOCKS")
    requires gM == BlockBy(writeBlock, gS, DxfBlock("*Model_Space", 0.0, 0.0, []), OwnerOf(handles, "*Model_Space"), h)
    requires gP == BlockBy(writeBlock, gM, DxfBlock("*Paper_Space", 0.0, 0.0, []), OwnerOf(handles, "*Paper_Space"), h + 2)
    requires gD == BlockDefsOnto(gP, writeBlock, blocks, handles, h + 4)
    requires gF == gD + [Group(0, "ENDSEC")]
    ensures gF == BlocksSectionOnto(g0, writeBlock, blocks, handles, h)
  {
  }

  // ---------------------------------------------------------------------
  // The document
  // ---------------------------------------------------------------------

  /** The five sections and EOF; the tables take handles from h, the blocks from h1, the entities from h2, the dictionary h3. */
  function SectionsOnto(gs: seq<Group>, fmt: real -> string, write: EntityWriter, writeBlock: BlockWriter, names: seq<string>, keys: seq<string>,
                        entries: map<string, DxfLayer>, blocks: seq<DxfBlock>, entities: seq<DxfEntity>,
                        order: seq<string>, handles: map<string, string>, h: nat, h1: nat, h2: nat, h3: nat): seq<Group>
    requires KeysIn(keys, entries) && KeysIn(order, handles)
  {
    ObjectsOnto(
      EntitiesSectionOnto(
        BlocksSectionOnto(TablesOnto(HeaderOnto(gs), fmt, names, keys, entries, order, handles, h), writeBlock, blocks, handles, h1),
        write, entities, handles, h2),
      h3)
    + [Group(0, "EOF")]
  }

  /** How many handles the TABLES section takes. */
  function TablesHandles(names: seq<string>, keys: seq<string>): nat {
    (1 + |names|) + (2 + |keys|) + 3
  }

  /** The first handle of the BLOCKS section when the tables start at h. */
  function BlocksStart(doc: DxfDocument, h: nat): nat {
    h + TablesHandles(LtypeNames(doc), LayerKeys(doc.layers))
  }

  /** The first handle of the ENTITIES section. */
  function EntitiesStart(doc: DxfDocument, h: nat): nat {
    BlocksStart(doc, h) + 4 + BlocksHandleCount(doc.blocks)
  }

  /** The handle of the root dictionary in the OBJECTS section. */
  function ObjectsStart(doc: DxfDocument, h: nat): nat {
    EntitiesStart(doc, h) + |doc.entities|
  }

  /** `write_document` after the registry is filled: the document's line types, layers, blocks and records. */
  function DocumentOnto(gs: seq<Group>, fmt: real -> string, write: EntityWriter, writeBlock: BlockWriter, doc: DxfDocument, r: Registry): seq<Group>
    requires KeysIn(r.order, r.handles)
  {
    LayerKeysInEntries(doc.layers);
    SectionsOnto(gs, fmt, write, writeBlock, LtypeNames(doc), LayerKeys(doc.layers), FirstLayers(doc.layers), doc.blocks, doc.entities,
                 r.order, r.handles, r.next, BlocksStart(doc, r.next), EntitiesStart(doc, r.next), ObjectsStart(doc, r.next))
  }

  lemma SectionsParts(g0: seq<Group>, fmt: real -> string, write: EntityWriter, writeBlock: BlockWriter, names: seq<string>, keys: seq<string>,
                      entries: map<string, DxfLayer>, blocks: seq<DxfBlock>, entities: seq<DxfEntity>,
                      order: seq<string>, handles: map<string, string>, h0: nat,
                      gH: seq<Group>, gT: seq<Group>, hT: nat, gB: seq<Group>, hB: nat, gE: seq<Group>, hE: nat,
                      gO: seq<Group>, gF: seq<Group>)
    requires KeysIn(keys, entries) && KeysIn(order, handles)
    requires gH == HeaderOnto(g0)
    requires gT == TablesOnto(gH, fmt, names, keys, entries, order, handles, h0)
    requires gB == BlocksSectionOnto(gT, writeBlock, blocks, handles, hT)
    requires gE == EntitiesSectionOnto(gB, write, entities, handles, hB)
    requires gO == ObjectsOnto(gE, hE)
    requires gF == gO + [Group(0, "EOF")]
    ensures gF == SectionsOnto(g0, fmt, write, writeBlock, names, keys, entries, blocks, entities, order, handles, h0, hT, hB, hE)
  {
  }

  /** The groups `document_to_string` writes with a fresh writer, whose counter starts at 1. */
  function DocumentGroups(fmt: real -> string, doc: DxfDocument): seq<Group> {
    EnsureRegistryKeys(Registry([], map[], 1), doc);
    DocumentOnto([], fmt, EntityWriterOf(fmt), BlockWriterOf(fmt, EntityWriterOf(fmt)), doc, EnsureRegistry(Registry([], map[], 1), doc))
  }

  /** The text every document starts with: the HEADER section opened. */
  const HeaderStart := "  0\nSECTION\n  2\nHEADER\n"

  /** The text every document ends with. */
  const EofEnd := "  0\nEOF\n"

  /** One more group adds its own text. */
  lemma RenderLast(gs: seq<Group>, g: Group)
    ensures Render(gs + [g]) == Render(gs) + GroupText(g)
  {
    assert (gs + [g])[..|gs|] == gs;
  }

  /** The text of a group with code 0 or 2: the code right-aligned in three columns. */
  lemma CodeTexts(v: string)
    ensures GroupText(Group(0, v)) == "  0\n" + v + "\n"
    ensures GroupText(Group(2, v)) == "  2\n" + v + "\n"
  {
    assert Format.NatToString(0) == "0";
    assert Format.NatToString(2) == "2";
    assert Format.PadLeft("0", 3) == "  0";
    assert Format.PadLeft("2", 3) == "  2";
  }

  /** Render is the concatenation of each group's text. */
  lemma {:induction false} RenderFlat(gs: seq<Group>)
    ensures Render(gs) == Seqs.FlatMap(GroupText, gs)
    decreases |gs|
  {
    if gs != [] {
      RenderFlat(gs[..|gs| - 1]);
    }
  }

  /** The text of a run of groups is the text of its two parts. */
  lemma RenderAppend(a: seq<Group>, b: seq<Group>)
    ensures Render(a + b) == Render(a) + Render(b)
  {
    RenderFlat(a + b);
    RenderFlat(a);
    RenderFlat(b);
    Seqs.FlatMapAppend(GroupText, a, b);
  }

  lemma RenderTwo(gs: seq<Group>)
    requires |gs| >= 2
    ensures Render(gs[..2]) == GroupText(gs[0]) + GroupText(gs[1])
  {
    assert gs[..2] == [gs[0]] + [gs[1]];
    RenderLast([gs[0]], gs[1]);
    RenderOne(gs[0]);
  }

  lemma RenderOne(g: Group)
    ensures Render([g]) == GroupText(g)
  {
    assert [g][..0] == [];
  }

  lemma RenderSplit(gs: seq<Group>, k: nat)
    requires k <= |gs|
    ensures Render(gs) == Render(gs[..k]) + Render(gs[k..])
  {
    assert gs == gs[..k] + gs[k..];
    RenderAppend(gs[..k], gs[k..]);
  }

  /** The text of a run starts with the text of its first two groups. */
  lemma RenderStart(gs: seq<Group>)
    requires |gs| >= 2
    ensures GroupText(gs[0]) + GroupText(gs[1]) <= Render(gs)
  {
    RenderTwo(gs);
    RenderSplit(gs, 2);
  }

  /** The text of the groups that open the HEADER section. */
  lemma HeaderStartText()
    ensures GroupText(SectionOpener) + GroupText(Group(2, "HEADER")) == HeaderStart
  {
    CodeTexts("SECTION");
    CodeTexts("HEADER");
  }

  /** Groups that end with EOF render to text that ends so. */
  lemma RenderEnd(gs: seq<Group>)
    requires |gs| >= 1 && gs[|gs| - 1] == Group(0, "EOF")
    ensures var text := Render(gs);
      |text| >= |EofEnd| && text[|text| - |EofEnd|..] == EofEnd
  {
    assert gs == gs[..|gs| - 1] + [gs[|gs| - 1]];
    RenderLast(gs[..|gs| - 1], gs[|gs| - 1]);
    CodeTexts("EOF");
  }

  lemma RegisterHasKeys(r: Registry, name: string)
    requires KeysIn(r.order, r.handles)
    ensures KeysIn(Register(r, name).order, Register(r, name).handles)
    ensures name in Register(r, name).handles
  {
  }

  lemma {:induction false} RegisterAllKeys(r: Registry, names: seq<string>)
    requires KeysIn(r.order, r.handles)
    ensures KeysIn(RegisterAll(r, names).order, RegisterAll(r, names).handles)
    decreases |names|
  {
    if names != [] {
      RegisterAllKeys(r, names[..|names| - 1]);
      RegisterHasKeys(RegisterAll(r, names[..|names| - 1]), names[|names| - 1]);
    }
  }

  /** Every registered name has a handle. */
  lemma EnsureRegistryKeys(r: Registry, doc: DxfDocument)
    requires KeysIn(r.order, r.handles)
    ensures KeysIn(EnsureRegistry(r, doc).order, EnsureRegistry(r, doc).handles)
  {
    if r.order == [] {
      RegisterHasKeys(r, "*Model_Space");
      RegisterHasKeys(Register(r, "*Model_Space"), "*Paper_Space");
      RegisterAllKeys(Register(Register(r, "*Model_Space"), "*Paper_Space"), BlockNames(doc.blocks));
    }
  }

  // ---------------------------------------------------------------------
  // One more element of a run
  // ---------------------------------------------------------------------

  lemma KeysInPrefix<K, V>(keys: seq<K>, m: map<K, V>, i: nat)
    requires KeysIn(keys, m) && i <= |keys|
    ensures KeysIn(keys[..i], m)
  {
    forall k | k in keys[..i] ensures k in m {
      var j :| 0 <= j < i && keys[..i][j] == k;
      assert keys[j] == k;
    }
  }

  lemma PatternStep(gs: seq<Group>, fmt: real -> string, pattern: seq<real>, k: nat)
    requires k < |pattern|
    ensures PatternOnto(gs, fmt, pattern[..k + 1]) == PatternOnto(gs, fmt, pattern[..k]) + [Group(49, fmt(pattern[k]))]
  {
    assert pattern[..k + 1][..k] == pattern[..k];
  }

  lemma LtypeRecordsStep(gs: seq<Group>, fmt: real -> string, names: seq<string>, h: nat, i: nat)
    requires i < |names|
    ensures LtypeRecordsOnto(gs, fmt, names[..i + 1], h) == LtypeRecordOnto(LtypeRecordsOnto(gs, fmt, names[..i], h), fmt, names[i], h + i)
  {
    assert names[..i + 1][..i] == names[..i];
  }

  lemma LayerRecordsStep(gs: seq<Group>, keys: seq<string>, entries: map<string, DxfLayer>, h: nat, i: nat)
    requires KeysIn(keys, entries) && i < |keys|
    ensures KeysIn(keys[..i], entries) && KeysIn(keys[..i + 1], entries) && keys[i] in entries
    ensures LayerRecordsOnto(gs, keys[..i + 1], entries, h) == LayerRecordOnto(LayerRecordsOnto(gs, keys[..i], entries, h), entries[keys[i]], h + i)
  {
    KeysInPrefix(keys, entries, i);
    KeysInPrefix(keys, entries, i + 1);
    assert keys[i] in keys;
    assert keys[..i + 1][..i] == keys[..i];
  }

  lemma BlockRecordsStep(gs: seq<Group>, order: seq<string>, handles: map<string, string>, i: nat)
    requires i < |order| && KeysIn(order[..i], handles) && order[i] in handles
    ensures KeysIn(order[..i + 1], handles)
    ensures BlockRecordsOnto(gs, order[..i + 1], handles) == BlockRecordOnto(BlockRecordsOnto(gs, order[..i], handles), order[i], handles[order[i]])
  {
    assert order[..i + 1] == order[..i] + [order[i]];
    assert order[..i + 1][..i] == order[..i];
  }

  lemma EntitiesStep(gs: seq<Group>, write: EntityWriter, es: seq<DxfEntity>, owner: Option<string>, h: nat, i: nat)
    requires i < |es|
    ensures EntitiesOnto(gs, write, es[..i + 1], owner, h) == EntityBy(write, EntitiesOnto(gs, write, es[..i], owner, h), es[i], owner, h + i)
  {
    assert es[..i + 1][..i] == es[..i];
  }

  lemma BlocksCountStep(blocks: seq<DxfBlock>, i: nat)
    requires i < |blocks|
    ensures BlocksHandleCount(blocks[..i + 1]) == BlocksHandleCount(blocks[..i]) + 2 + |blocks[i].entities|
  {
    assert blocks[..i + 1][..i] == blocks[..i];
  }

  lemma BlockDefsStep(gs: seq<Group>, writeBlock: BlockWriter, blocks: seq<DxfBlock>, handles: map<string, string>, h: nat, i: nat)
    requires i < |blocks|
    ensures BlocksHandleCount(blocks[..i + 1]) == BlocksHandleCount(blocks[..i]) + 2 + |blocks[i].entities|
    ensures BlockDefsOnto(gs, writeBlock, blocks[..i + 1], handles, h)
         == BlockBy(writeBlock, BlockDefsOnto(gs, writeBlock, blocks[..i], handles, h), blocks[i], OwnerOf(handles, blocks[i].name),
                       h + BlocksHandleCount(blocks[..i]))
  {
    BlocksCountStep(blocks, i);
    var prefix := blocks[..i + 1];
    assert prefix[..|prefix| - 1] == blocks[..i];
    assert prefix[|prefix| - 1] == blocks[i];
  }
}

=== FILE: dxf_model.dfy ===
/**
 * The DXF side of the converter (src/dxf.rs:10-175): layers, the eight
 * entity records the writer knows, block definitions, the converted
 * document and the conversion options. Every record carries its layer
 * name, its ACI colour and its line type name; binary64 values are reals.
 */
module DxfModel {

  datatype DxfLayer = DxfLayer(name: string, color: int, lineType: string, frozen: bool, locked: bool)

  datatype DxfLine = DxfLine(layer: string, color: int, lineType: string, x1: real, y1: real, x2: real, y2: real)

  datatype DxfCircle = DxfCircle(layer: string, color: int, lineType: string, centerX: real, centerY: real, radius: real)

  datatype DxfArc = DxfArc(
    layer: string,
    color: int,
    lineType: string,
    centerX: real,
    centerY: real,
    radius: real,
    startAngle: real,
    endAngle: real)

  datatype DxfEllipse = DxfEllipse(
    layer: string,
    color: int,
    lineType: string,
    centerX: real,
    centerY: real,
    majorAxisX: real,
    majorAxisY: real,
    minorRatio: real,
    startParam: real,
    endParam: real)

  datatype DxfPoint = DxfPoint(layer: string, color: int, lineType: string, x: real, y: real)

  datatype DxfText = DxfText(
    layer: string,
    color: int,
    lineType: string,
    x: real,
    y: real,
    height: real,
    rotation: real,
    content: string,
    style: string)

  datatype DxfSolid = DxfSolid(
    layer: string,
    color: int,
    lineType: string,
    x1: real,
    y1: real,
    x2: real,
    y2: real,
    x3: real,
    y3: real,
    x4: real,
    y4: real)

  datatype DxfInsert = DxfInsert(
    layer: string,
    color: int,
    lineType: string,
    blockName: string,
    x: real,
    y: real,
    scaleX: real,
    scaleY: real,
    rotation: real)

  datatype DxfEntity =
    | Line(line: DxfLine)
    | Circle(circle: DxfCircle)
    | Arc(arc: DxfArc)
    | Ellipse(ellipse: DxfEllipse)
    | Point(point: DxfPoint)
    | Text(text: DxfText)
    | Solid(solid: DxfSolid)
    | Insert(insert: DxfInsert)

  datatype DxfBlock = DxfBlock(name: string, baseX: real, baseY: real, entities: seq<DxfEntity>)

  datatype DxfDocument = DxfDocument(
    layers: seq<DxfLayer>,
    entities: seq<DxfEntity>,
    blocks: seq<DxfBlock>,
    unsupportedEntities: seq<string>)

  datatype ConvertOptions = ConvertOptions(explodeInserts: bool, maxBlockNesting: nat)

  /** Inserts kept as references, up to 32 nested block levels. */
  const DefaultOptions := ConvertOptions(false, 32)

  /** The DXF entity names the writer emits. */
  predicate IsDxfTypeName(s: string) {
    s in {"LINE", "CIRCLE", "ARC", "ELLIPSE", "POINT", "TEXT", "SOLID", "INSERT"}
  }

  /** `entity_type`: the DXF name of a record, one name per variant. */
  function EntityType(e: DxfEntity): (t: string)
    ensures IsDxfTypeName(t)
    ensures t == "INSERT" <==> e.Insert?
    ensures t == "LINE" <==> e.Line?
    ensures t == "TEXT" <==> e.Text?
  {
    match e
    case Line(_) => "LINE"
    case Circle(_) => "CIRCLE"
    case Arc(_) => "ARC"
    case Ellipse(_) => "ELLIPSE"
    case Point(_) => "POINT"
    case Text(_) => "TEXT"
    case Solid(_) => "SOLID"
    case Insert(_) => "INSERT"
  }

  /** The layer name, ACI colour and line type name every record carries. */
  datatype Style = Style(layer: string, color: int, lineType: string)

  /** The style of a record; its line type is what `entity_line_type` reads. */
  function StyleOf(e: DxfEntity): Style {
    match e
    case Line(v) => Style(v.layer, v.color, v.lineType)
    case Circle(v) => Style(v.layer, v.color, v.lineType)
    case Arc(v) => Style(v.layer, v.color, v.lineType)
    case Ellipse(v) => Style(v.layer, v.color, v.lineType)
    case Point(v) => Style(v.layer, v.color, v.lineType)
    case Text(v) => Style(v.layer, v.color, v.lineType)
    case Solid(v) => Style(v.layer, v.color, v.lineType)
    case Insert(v) => Style(v.layer, v.color, v.lineType)
  }

  /** Every record of `records` carries `style`. */
  predicate AllStyled(records: seq<DxfEntity>, style: Style) {
    forall k :: 0 <= k < |records| ==> StyleOf(records[k]) == style
  }

  /** No block reference left among `entities`. */
  predicate NoInserts(entities: seq<DxfEntity>) {
    forall i :: 0 <= i < |entities| ==> !entities[i].Insert?
  }

  /** An affine map (x, y) |-> (a x + c y + tx, b x + d y + ty), as a block insert places its contents. */
  datatype Transform2D = Transform2D(a: real, b: real, c: real, d: real, tx: real, ty: real)

  /**
   * The floating-point operations the converter calls but this model does
   * not define: cosine, sine, square root and two-argument arctangent, and
   * the point samplers that turn a transformed arc or ellipse into a
   * polyline. The samplers take their segment count from the sweep by a
   * ceiling and a clamp (8 to 192 for an arc, 12 to 256 for an ellipse);
   * only the sample angles and points go through cosine and sine.
   */
  datatype Numerics = Numerics(
    cos: real -> real,
    sin: real -> real,
    sqrt: real -> real,
    atan2: (real, real) -> real,
    arcPolyline: (DxfArc, Transform2D) -> seq<(real, real)>,
    ellipsePolyline: (DxfEllipse, Transform2D) -> seq<(real, real)>)
}

=== FILE: dxf_properties.dfy ===
/**
 * What the writer's bookkeeping guarantees, stated over the functions
 * that specify it: the LTYPE table names every line type the document
 * uses and the three standard ones, in order and once each; the layer
 * map keeps the first layer of each name; the block-record registry
 * gives each name one handle and registering again changes nothing; and
 * every group is laid out as its code right-aligned in three columns,
 * a line break, the value and a line break.
 */
module DxfProperties {
  import opened DxfModel
  import opened DxfGroups
  import Format
  import Sorted

  // ---------------------------------------------------------------------
  // Group layout
  // ---------------------------------------------------------------------

  lemma {:induction false} NatToStringShort(n: nat)
    requires n < 1000
    ensures |Format.NatToString(n)| <= 3
  {
    if n >= 10 {
      NatToStringShort(n / 10);
      assert |Format.NatToString(n)| == |Format.NatToString(n / 10)| + 1;
      if n / 10 < 10 {
        assert |Format.NatToString(n / 10)| == 1;
      } else {
        assert |Format.NatToString(n / 10)| == |Format.NatToString(n / 100)| + 1;
        assert |Format.NatToString(n / 100)| == 1;
      }
    }
  }

  /** `{code:>3}`: spaces, then the decimal digits of the code, which read back as the code. */
  lemma CodeColumns(code: int)
    requires 0 <= code < 1000
    ensures var pad := Format.PadLeft(Format.IntToString(code), 3); var d := Format.NatToString(code);
      && |pad| == 3 && |d| <= 3
      && (forall i :: 0 <= i < 3 - |d| ==> pad[i] == ' ')
      && pad[3 - |d|..] == d
      && Format.ParseInt(d) == code
  {
    NatToStringShort(code);
    Format.IntToStringRoundTrip(code);
  }

  /**
   * `"{code:>3}\n{value}\n"` for every code the writer uses (0 to 999):
   * three columns of spaces and then the decimal digits that read back
   * as the code, a line break, the value, a line break.
   */
  lemma GroupTextLayout(g: Group)
    requires 0 <= g.code < 1000
    ensures var t := GroupText(g); var d := Format.NatToString(g.code);
      && |t| == |g.value| + 5 && |d| <= 3
      && (forall i :: 0 <= i < 3 - |d| ==> t[i] == ' ')
      && t[3 - |d|..3] == d && Format.ParseInt(d) == g.code
      && t[3] == '\n' && t[4..|t| - 1] == g.value && t[|t| - 1] == '\n'
  {
    var d := Format.NatToString(g.code);
    CodeColumns(g.code);
    var pad := Format.PadLeft(Format.IntToString(g.code), 3);
    var t := GroupText(g);
    assert t == pad + ("\n" + g.value + "\n");
    assert t[..3] == pad;
    assert t[3 - |d|..3] == pad[3 - |d|..];
    assert t[4..|t| - 1] == g.value;
  }

  // ---------------------------------------------------------------------
  // Ordered sets of line types
  // ---------------------------------------------------------------------

  /** After inserting each name in turn, the set holds the old elements and the names. */
  lemma {:induction false} InsertAllMembers(acc: seq<string>, names: seq<string>)
    ensures forall x :: x in InsertAll(acc, names) <==> x in acc || x in names
    decreases |names|
  {
    if names != [] {
      var init := names[..|names| - 1];
      InsertAllMembers(acc, init);
      Sorted.InsertMembers(InsertAll(acc, init), names[|names| - 1]);
      assert names == init + [names[|names| - 1]];
    }
  }

  /** Inserting each name in turn keeps the set strictly increasing. */
  lemma {:induction false} InsertAllIncreasing(acc: seq<string>, names: seq<string>)
    requires Sorted.Increasing(acc)
    ensures Sorted.Increasing(InsertAll(acc, names))
    decreases |names|
  {
    if names != [] {
      InsertAllIncreasing(acc, names[..|names| - 1]);
      Sorted.InsertIncreasing(InsertAll(acc, names[..|names| - 1]), names[|names| - 1]);
    }
  }

  lemma {:induction false} LayerLineTypesMembers(layers: seq<DxfLayer>)
    ensures forall x :: x in LayerLineTypes(layers) <==> exists i :: 0 <= i < |layers| && layers[i].lineType == x
    decreases |layers|
  {
    if layers != [] {
      var init := layers[..|layers| - 1];
      LayerLineTypesMembers(init);
      forall x ensures x in LayerLineTypes(layers) <==> exists i :: 0 <= i < |layers| && layers[i].lineType == x {
        if x in LayerLineTypes(init) {
          var i :| 0 <= i < |init| && init[i].lineType == x;
          assert layers[i] == init[i];
        }
        if exists i :: 0 <= i < |layers| && layers[i].lineType == x {
          var i :| 0 <= i < |layers| && layers[i].lineType == x;
          if i < |init| {
            assert init[i] == layers[i];
          }
        }
      }
    }
  }

  lemma {:induction false} EntityLineTypesMembers(entities: seq<DxfEntity>)
    ensures forall x :: x in EntityLineTypes(entities) <==> exists i :: 0 <= i < |entities| && StyleOf(entities[i]).lineType == x
    decreases |entities|
  {
    if entities != [] {
      var init := entities[..|entities| - 1];
      EntityLineTypesMembers(init);
      forall x ensures x in EntityLineTypes(entities) <==> exists i :: 0 <= i < |entities| && StyleOf(entities[i]).lineType == x {
        if x in EntityLineTypes(init) {
          var i :| 0 <= i < |init| && StyleOf(init[i]).lineType == x;
          assert entities[i] == init[i];
        }
        if exists i :: 0 <= i < |entities| && StyleOf(entities[i]).lineType == x {
          var i :| 0 <= i < |entities| && StyleOf(entities[i]).lineType == x;
          if i < |init| {
            assert init[i] == entities[i];
          }
        }
      }
    }
  }

  /** Block `b`'s entity `j` has line type `x`. */
  ghost predicate BlockUses(blocks: seq<DxfBlock>, b: int, j: int, x: string) {
    0 <= b < |blocks| && 0 <= j < |blocks[b].entities| && StyleOf(blocks[b].entities[j]).lineType == x
  }

  lemma {:induction false} BlockLineTypesMembers(blocks: seq<DxfBlock>)
    ensures forall x :: x in BlockLineTypes(blocks) <==> exists b, j :: BlockUses(blocks, b, j, x)
    decreases |blocks|
  {
    if blocks != [] {
      var init := blocks[..|blocks| - 1];
      var last := blocks[|blocks| - 1];
      BlockLineTypesMembers(init);
      EntityLineTypesMembers(last.entities);
      forall x ensures x in BlockLineTypes(blocks) <==> exists b, j :: BlockUses(blocks, b, j, x) {
        if x in BlockLineTypes(init) {
          var b, j :| BlockUses(init, b, j, x);
          assert blocks[b] == init[b];
          assert BlockUses(blocks, b, j, x);
        }
        if x in EntityLineTypes(last.entities) {
          var j :| 0 <= j < |last.entities| && StyleOf(last.entities[j]).lineType == x;
          assert BlockUses(blocks, |blocks| - 1, j, x);
        }
        if exists b, j :: BlockUses(blocks, b, j, x) {
          var b, j :| BlockUses(blocks, b, j, x);
          if b < |init| {
            assert init[b] == blocks[b];
            assert BlockUses(init, b, j, x);
          } else {
            assert blocks[b] == last;
          }
        }
      }
    }
  }

  /** The line types every LTYPE table lists whatever the document uses. */
  const StandardLineTypes: seq<string> := ["BYLAYER", "BYBLOCK", "CONTINUOUS"]

  /**
   * The LTYPE table's names are in ascending order without repeats, and
   * they are exactly the three standard line types and those of the
   * layers, the entities and the block entities.
   */
  lemma LtypeNamesContents(doc: DxfDocument)
    ensures Sorted.Increasing(LtypeNames(doc))
    ensures forall x :: x in LtypeNames(doc) <==>
      || x in StandardLineTypes
      || (exists i :: 0 <= i < |doc.layers| && doc.layers[i].lineType == x)
      || (exists i :: 0 <= i < |doc.entities| && StyleOf(doc.entities[i]).lineType == x)
      || (exists b, j :: BlockUses(doc.blocks, b, j, x))
  {
    var a := InsertAll([], LayerLineTypes(doc.layers));
    var b := InsertAll(a, EntityLineTypes(doc.entities));
    var c := InsertAll(b, BlockLineTypes(doc.blocks));
    InsertAllMembers([], LayerLineTypes(doc.layers));
    InsertAllMembers(a, EntityLineTypes(doc.entities));
    InsertAllMembers(b, BlockLineTypes(doc.blocks));
    InsertAllIncreasing([], LayerLineTypes(doc.layers));
    InsertAllIncreasing(a, EntityLineTypes(doc.entities));
    InsertAllIncreasing(b, BlockLineTypes(doc.blocks));
    LayerLineTypesMembers(doc.layers);
    EntityLineTypesMembers(doc.entities);
    BlockLineTypesMembers(doc.blocks);
    var d := Sorted.Insert(c, "BYLAYER");
    var e := Sorted.Insert(d, "BYBLOCK");
    Sorted.InsertMembers(c, "BYLAYER");
    Sorted.InsertMembers(d, "BYBLOCK");
    Sorted.InsertMembers(e, "CONTINUOUS");
    Sorted.InsertIncreasing(c, "BYLAYER");
    Sorted.InsertIncreasing(d, "BYBLOCK");
    Sorted.InsertIncreasing(e, "CONTINUOUS");
  }

  // ---------------------------------------------------------------------
  // The layer map
  // ---------------------------------------------------------------------

  /**
   * The layer map's keys are in ascending order without repeats and are
   * exactly the layer names.
   */
  lemma {:induction false} LayerKeysContents(layers: seq<DxfLayer>)
    ensures Sorted.Increasing(LayerKeys(layers))
    ensures forall k :: k in LayerKeys(layers) <==> exists i :: 0 <= i < |layers| && layers[i].name == k
    decreases |layers|
  {
    if layers != [] {
      var init := layers[..|layers| - 1];
      LayerKeysContents(init);
      Sorted.InsertIncreasing(LayerKeys(init), layers[|layers| - 1].name);
      Sorted.InsertMembers(LayerKeys(init), layers[|layers| - 1].name);
      forall k ensures k in LayerKeys(layers) <==> exists i :: 0 <= i < |layers| && layers[i].name == k {
        if k in LayerKeys(init) {
          var i :| 0 <= i < |init| && init[i].name == k;
          assert layers[i] == init[i];
        }
        if exists i :: 0 <= i < |layers| && layers[i].name == k {
          var i :| 0 <= i < |layers| && layers[i].name == k;
          if i < |init| {
            assert init[i] == layers[i];
          }
        }
      }
    }
  }

  /**
   * `or_insert_with`: a layer whose name no earlier layer has is the
   * one the map keeps for that name; later layers with the same name are
   * ignored.
   */
  lemma {:induction false} FirstLayerWins(layers: seq<DxfLayer>, i: nat)
    requires i < |layers|
    requires forall j :: 0 <= j < i ==> layers[j].name != layers[i].name
    ensures layers[i].name in FirstLayers(layers)
    ensures FirstLayers(layers)[layers[i].name] == layers[i]
    decreases |layers|
  {
    var init := layers[..|layers| - 1];
    if i < |init| {
      assert forall j :: 0 <= j < i ==> init[j] == layers[j];
      FirstLayerWins(init, i);
      assert init[i] == layers[i];
    } else {
      FirstLayersNames(init);
    }
  }

  lemma {:induction false} FirstLayersNames(layers: seq<DxfLayer>)
    ensures forall k :: k in FirstLayers(layers) ==> exists j :: 0 <= j < |layers| && layers[j].name == k
    decreases |layers|
  {
    if layers != [] {
      var init := layers[..|layers| - 1];
      FirstLayersNames(init);
      forall k | k in FirstLayers(layers) ensures exists j :: 0 <= j < |layers| && layers[j].name == k {
        if k in FirstLayers(init) {
          var j :| 0 <= j < |init| && init[j].name == k;
          assert layers[j] == init[j];
        } else {
          assert layers[|layers| - 1].name == k;
        }
      }
    }
  }

  // ---------------------------------------------------------------------
  // The block-record registry
  // ---------------------------------------------------------------------

  /**
   * Registering names in turn: the registry then knows exactly the old
   * names and the new ones, old names keep their handles, and the order
   * only grows at its end.
   */
  lemma {:induction false} RegisterAllMembers(r: Registry, names: seq<string>)
    ensures forall n :: n in RegisterAll(r, names).handles <==> n in r.handles || n in names
    ensures forall n :: n in r.handles ==> RegisterAll(r, names).handles[n] == r.handles[n]
    ensures r.order <= RegisterAll(r, names).order
    decreases |names|
  {
    if names != [] {
      var init := names[..|names| - 1];
      RegisterAllMembers(r, init);
      assert names == init + [names[|names| - 1]];
    }
  }

  /** Registering names the registry already knows changes nothing. */
  lemma {:induction false} RegisterAllKnown(r: Registry, names: seq<string>)
    requires forall n :: n in names ==> n in r.handles
    ensures RegisterAll(r, names) == r
    decreases |names|
  {
    if names != [] {
      RegisterAllKnown(r, names[..|names| - 1]);
      assert names[|names| - 1] in names;
    }
  }

  /** `register_block_record` is idempotent: registering the same names again changes nothing. */
  lemma RegisterAllIdempotent(r: Registry, names: seq<string>)
    ensures RegisterAll(RegisterAll(r, names), names) == RegisterAll(r, names)
  {
    RegisterAllMembers(r, names);
    RegisterAllKnown(RegisterAll(r, names), names);
  }

  /** Registering only ever appends new names, each with the counter's next handle. */
  lemma {:induction false} RegisterAllHandles(r: Registry, names: seq<string>)
    ensures var r' := RegisterAll(r, names);
      && r'.next == r.next + (|r'.order| - |r.order|)
      && forall k :: |r.order| <= k < |r'.order| ==>
           r'.order[k] in r'.handles && r'.handles[r'.order[k]] == Format.HexUpper(r.next + (k - |r.order|))
    decreases |names|
  {
    if names != [] {
      var init := names[..|names| - 1];
      RegisterAllHandles(r, init);
      RegisterAllMembers(r, init);
      var p := RegisterAll(r, init);
      var name := names[|names| - 1];
      if name !in p.handles {
        var q := Register(p, name);
        forall k | |r.order| <= k < |q.order|
          ensures q.order[k] in q.handles && q.handles[q.order[k]] == Format.HexUpper(r.next + (k - |r.order|))
        {
          if k < |p.order| {
            assert q.order[k] == p.order[k];
            assert p.order[k] != name;
          }
        }
      }
    }
  }

  /**
   * `ensure_block_record_table` on a fresh writer: `*Model_Space` and
   * `*Paper_Space` come first with handles 1 and 2, then the blocks'
   * names; the registry knows exactly these names; and running it again
   * changes nothing.
   */
  lemma FreshRegistry(doc: DxfDocument)
    ensures var r := EnsureRegistry(Registry([], map[], 1), doc);
      && |r.order| >= 2 && r.order[0] == "*Model_Space" && r.order[1] == "*Paper_Space"
      && (forall n :: n in r.handles <==> n == "*Model_Space" || n == "*Paper_Space" || n in BlockNames(doc.blocks))
      && r.handles["*Model_Space"] == "1" && r.handles["*Paper_Space"] == "2"
      && EnsureRegistry(r, doc) == r
  {
    var r0 := Registry([], map[], 1);
    var r2 := Register(Register(r0, "*Model_Space"), "*Paper_Space");
    assert r2.order == ["*Model_Space", "*Paper_Space"];
    assert Format.HexUpper(1) == "1" && Format.HexUpper(2) == "2";
    RegisterAllMembers(r2, BlockNames(doc.blocks));
  }
}

=== FILE: dxf_transform.dfy ===
/**
 * Placing block contents when inserts are exploded (src/dxf.rs:698-1037):
 * the affine `Transform2D` algebra, the transform of one DXF record, and
 * the polyline a sampled arc or ellipse becomes.
 */
module DxfTransform {
  import opened DxfModel
  import J = JwwModel

  // ---------------------------------------------------------------------
  // Transform2D
  // ---------------------------------------------------------------------

  const Identity := Transform2D(1.0, 0.0, 0.0, 1.0, 0.0, 0.0)

  /** `compose`: the transform that applies `rhs` first, then `t`. */
  function Compose(t: Transform2D, rhs: Transform2D): Transform2D {
    Transform2D(
      t.a * rhs.a + t.c * rhs.b,
      t.b * rhs.a + t.d * rhs.b,
      t.a * rhs.c + t.c * rhs.d,
      t.b * rhs.c + t.d * rhs.d,
      t.a * rhs.tx + t.c * rhs.ty + t.tx,
      t.b * rhs.tx + t.d * rhs.ty + t.ty)
  }

  /** `apply_point`. */
  function ApplyPoint(t: Transform2D, x: real, y: real): (real, real) {
    (t.a * x + t.c * y + t.tx, t.b * x + t.d * y + t.ty)
  }

  /** `apply_vector`: the linear part only, no translation. */
  function ApplyVector(t: Transform2D, x: real, y: real): (real, real) {
    (t.a * x + t.c * y, t.b * x + t.d * y)
  }

  // MulAssoc, AddMul and MulAdd3 are steps of the real arithmetic in RowCompose,
  // stated apart so the solver sees one rewrite at a time.

  lemma MulAssoc(x: real, y: real, z: real)
    ensures (x * y) * z == x * (y * z)
  {
  }

  lemma AddMul(x: real, y: real, z: real)
    ensures (x + y) * z == x * z + y * z
  {
  }

  lemma MulAdd3(x: real, p: real, q: real, r: real)
    ensures x * (p + q + r) == x * p + x * q + x * r
  {
  }

  /** One coordinate of a composition: the row (p, q, s) of `t` after the map `rhs`. */
  lemma RowCompose(p: real, q: real, s: real, rhs: Transform2D, x: real, y: real)
    ensures (p * rhs.a + q * rhs.b) * x + (p * rhs.c + q * rhs.d) * y + (p * rhs.tx + q * rhs.ty + s)
         == p * (rhs.a * x + rhs.c * y + rhs.tx) + q * (rhs.b * x + rhs.d * y + rhs.ty) + s
  {
    AddMul(p * rhs.a, q * rhs.b, x);
    AddMul(p * rhs.c, q * rhs.d, y);
    MulAssoc(p, rhs.a, x);
    MulAssoc(q, rhs.b, x);
    MulAssoc(p, rhs.c, y);
    MulAssoc(q, rhs.d, y);
    MulAdd3(p, rhs.a * x, rhs.c * y, rhs.tx);
    MulAdd3(q, rhs.b * x, rhs.d * y, rhs.ty);
  }

  /** Applying a composition is applying its parts in turn, `rhs` first. */
  lemma ApplyCompose(t: Transform2D, rhs: Transform2D, x: real, y: real)
    ensures ApplyPoint(Compose(t, rhs), x, y) == ApplyPoint(t, ApplyPoint(rhs, x, y).0, ApplyPoint(rhs, x, y).1)
  {
    RowCompose(t.a, t.c, t.tx, rhs, x, y);
    RowCompose(t.b, t.d, t.ty, rhs, x, y);
    var c := Compose(t, rhs);
    var (u, v) := ApplyPoint(rhs, x, y);
    assert ApplyPoint(c, x, y).0 == ApplyPoint(t, u, v).0;
    assert ApplyPoint(c, x, y).1 == ApplyPoint(t, u, v).1;
  }

  /** A vector moves like the difference of two points: translation cancels out. */
  lemma ApplyVectorIsDifference(t: Transform2D, x: real, y: real)
    ensures ApplyVector(t, x, y).0 == ApplyPoint(t, x, y).0 - ApplyPoint(t, 0.0, 0.0).0
    ensures ApplyVector(t, x, y).1 == ApplyPoint(t, x, y).1 - ApplyPoint(t, 0.0, 0.0).1
  {
  }

  /** `identity` is neutral on both sides of `compose`, and leaves every point where it is. */
  lemma IdentityNeutral(t: Transform2D, x: real, y: real)
    ensures Compose(Identity, t) == t && Compose(t, Identity) == t
    ensures ApplyPoint(Identity, x, y) == (x, y)
  {
  }

  /** `from_insert`: rotate and scale about the origin, then move to the reference point. */
  function FromInsert(num: Numerics, block: J.Block): (t: Transform2D)
    ensures ApplyPoint(t, 0.0, 0.0) == (block.refX, block.refY)
  {
    var cos, sin := num.cos(block.rotation), num.sin(block.rotation);
    Transform2D(cos * block.scaleX, sin * block.scaleX, -sin * block.scaleY, cos * block.scaleY, block.refX, block.refY)
  }

  /** `average_scale`: the mean length of the images of the two unit vectors. */
  function AverageScale(num: Numerics, t: Transform2D): real {
    (num.sqrt(t.a * t.a + t.b * t.b) + num.sqrt(t.c * t.c + t.d * t.d)) / 2.0
  }

  /** `rotation_deg`: the angle of the image of the x axis, in degrees. */
  function RotationDeg(num: Numerics, t: Transform2D): real {
    num.atan2(t.b, t.a) * 180.0 / 3.141592653589793
  }

  // ---------------------------------------------------------------------
  // One record
  // ---------------------------------------------------------------------

  function Abs(x: real): real { if x < 0.0 then -x else x }

  function MaxReal(a: real, b: real): real { if a < b then b else a }

  /** `nearly_equal`: equal up to a relative tolerance of 1e-9 (absolute below 1). */
  predicate NearlyEqual(a: real, b: real) {
    Abs(a - b) <= 0.000000001 * MaxReal(MaxReal(Abs(a), Abs(b)), 1.0)
  }

  const Tiny: real := 0.000000000001

  /**
   * `transform_circle_for_explode`: a circle shrunk to nothing becomes a
   * point at the moved centre; one whose two radii stay equal and
   * perpendicular stays a circle; any other becomes a full ellipse along
   * the longer radius.
   */
  function TransformCircle(num: Numerics, circle: DxfCircle, t: Transform2D): (r: seq<DxfEntity>)
    ensures |r| == 1 && (r[0].Point? || r[0].Circle? || r[0].Ellipse?)
    ensures StyleOf(r[0]) == Style(circle.layer, circle.color, circle.lineType)
    ensures r[0].Ellipse? ==> r[0].ellipse.startParam == 0.0 && r[0].ellipse.endParam == 2.0 * 3.141592653589793
  {
    var (centerX, centerY) := ApplyPoint(t, circle.centerX, circle.centerY);
    var (ux, uy) := ApplyVector(t, circle.radius, 0.0);
    var (vx, vy) := ApplyVector(t, 0.0, circle.radius);
    var lu := num.sqrt(ux * ux + uy * uy);
    var lv := num.sqrt(vx * vx + vy * vy);
    if lu <= Tiny && lv <= Tiny then
      [Point(DxfPoint(circle.layer, circle.color, circle.lineType, centerX, centerY))]
    else
      var denom := lu * lv;
      var dot := if denom <= Tiny then 0.0 else (ux * vx + uy * vy) / denom;
      if NearlyEqual(lu, lv) && Abs(dot) < 0.000001 then
        [Circle(DxfCircle(circle.layer, circle.color, circle.lineType, centerX, centerY, (lu + lv) / 2.0))]
      else
        var majorX := if lu >= lv then ux else vx;
        var majorY := if lu >= lv then uy else vy;
        var minorRatio := if lu >= lv then (if lu <= Tiny then 1.0 else lv / lu) else (if lv <= Tiny then 1.0 else lu / lv);
        [Ellipse(DxfEllipse(circle.layer, circle.color, circle.lineType, centerX, centerY,
                            majorX, majorY, minorRatio, 0.0, 2.0 * 3.141592653589793))]
  }

  /** The line from point `i` to point `i + 1`. */
  function Segment(points: seq<(real, real)>, i: nat, style: Style): DxfEntity
    requires i + 1 < |points|
  {
    Line(DxfLine(style.layer, style.color, style.lineType, points[i].0, points[i].1, points[i + 1].0, points[i + 1].1))
  }

  /**
   * What `points_to_lines` makes of a polyline: one line per pair of
   * neighbouring points, in order, each ending where the next starts.
   */
  function PolylineLines(points: seq<(real, real)>, style: Style): (r: seq<DxfEntity>)
    ensures |r| == if |points| < 2 then 0 else |points| - 1
    ensures forall i :: 0 <= i < |r| ==> r[i] == Segment(points, i, style)
  {
    if |points| < 2 then []
    else
      var prefix := points[..|points| - 1];
      var r := PolylineLines(prefix, style);
      assert forall i :: 0 <= i < |r| ==> Segment(prefix, i, style) == Segment(points, i, style);
      r + [Segment(points, |points| - 2, style)]
  }

  /** `points_to_lines`: the loop over the windows of two points. */
  method PointsToLines(points: seq<(real, real)>, layer: string, color: int, lineType: string) returns (out: seq<DxfEntity>)
    ensures out == PolylineLines(points, Style(layer, color, lineType))
  {
    if |points| < 2 {
      return [];
    }
    out := [];
    for i := 0 to |points| - 1
      invariant |out| == i
      invariant forall k :: 0 <= k < i ==> out[k] == Segment(points, k, Style(layer, color, lineType))
    {
      var (x1, y1) := points[i];
      var (x2, y2) := points[i + 1];
      out := out + [Line(DxfLine(layer, color, lineType, x1, y1, x2, y2))];
    }
  }

  /** The lines of a polyline carry its style, and none of them is an INSERT. */
  lemma PolylineLinesStyled(points: seq<(real, real)>, style: Style)
    ensures AllStyled(PolylineLines(points, style), style) && NoInserts(PolylineLines(points, style))
  {
  }

  /**
   * `transform_entity_for_explode`: positions go through the transform,
   * text heights scale (never below 0.1) and angles turn with it; circles,
   * arcs and ellipses become what their transform gives. Every result
   * keeps the record's style, and only an INSERT yields an INSERT.
   */
  function TransformEntityForExplode(num: Numerics, e: DxfEntity, t: Transform2D): (r: seq<DxfEntity>)
    ensures AllStyled(r, StyleOf(e))
    ensures !e.Insert? ==> NoInserts(r)
    ensures (e.Line? || e.Point? || e.Text? || e.Solid? || e.Insert?) ==> |r| == 1 && EntityType(r[0]) == EntityType(e)
    ensures e.Text? ==> r[0].text.height >= 0.1 && r[0].text.content == e.text.content
  {
    match e
    case Line(v) =>
      var (x1, y1) := ApplyPoint(t, v.x1, v.y1);
      var (x2, y2) := ApplyPoint(t, v.x2, v.y2);
      [Line(DxfLine(v.layer, v.color, v.lineType, x1, y1, x2, y2))]
    case Circle(v) =>
      TransformCircle(num, v, t)
    case Arc(v) =>
      PolylineLinesStyled(num.arcPolyline(v, t), Style(v.layer, v.color, v.lineType));
      PolylineLines(num.arcPolyline(v, t), Style(v.layer, v.color, v.lineType))
    case Ellipse(v) =>
      PolylineLinesStyled(num.ellipsePolyline(v, t), Style(v.layer, v.color, v.lineType));
      PolylineLines(num.ellipsePolyline(v, t), Style(v.layer, v.color, v.lineType))
    case Point(v) =>
      var (x, y) := ApplyPoint(t, v.x, v.y);
      [Point(DxfPoint(v.layer, v.color, v.lineType, x, y))]
    case Text(v) =>
      var (x, y) := ApplyPoint(t, v.x, v.y);
      var height := MaxReal(v.height * Abs(AverageScale(num, t)), 0.1);
      [Text(DxfText(v.layer, v.color, v.lineType, x, y, height, v.rotation + RotationDeg(num, t), v.content, v.style))]
    case Solid(v) =>
      var (x1, y1) := ApplyPoint(t, v.x1, v.y1);
      var (x2, y2) := ApplyPoint(t, v.x2, v.y2);
      var (x3, y3) := ApplyPoint(t, v.x3, v.y3);
      var (x4, y4) := ApplyPoint(t, v.x4, v.y4);
      [Solid(DxfSolid(v.layer, v.color, v.lineType, x1, y1, x2, y2, x3, y3, x4, y4))]
    case Insert(v) =>
      var (x, y) := ApplyPoint(t, v.x, v.y);
      [Insert(DxfInsert(v.layer, v.color, v.lineType, v.blockName, x, y, v.scaleX, v.scaleY, v.rotation + RotationDeg(num, t)))]
  }

  /** Lines, points and solids come through the identity unchanged. */
  lemma TransformIdentity(num: Numerics, e: DxfEntity)
    requires e.Line? || e.Point? || e.Solid?
    ensures TransformEntityForExplode(num, e, Identity) == [e]
  {
  }
}

=== FILE: dxf_writer.dfy ===
/**
 * `AsciiDxfWriter` (src/dxf.rs:228-644): the ASCII DXF R2000 text of a
 * converted document, written as group pairs — the group code
 * right-aligned to width three on one line, the value on the next — into
 * one output string. The writer keeps a handle counter (every handle is
 * the upper-case hexadecimal of the counter's next value) and a registry
 * of block records, filled before anything is written.
 *
 * Besides the output string the model keeps, as ghost state, the groups
 * written so far, the sections opened so far and how many block records
 * have been written; `Valid` ties the output to the groups and states
 * that every handle written at code 5 is distinct from every other.
 */
module DxfWriter {
  import opened Wrappers
  import opened DxfModel
  import opened DxfGroups
  import Format
  import Seqs
  import Sorted
  import DxfEscape

  // ---------------------------------------------------------------------
  // The writer's state and its invariant
  // ---------------------------------------------------------------------

  /** Everything the writer holds, the ghost views included. */
  datatype Snapshot = Snapshot(
    out: string,
    groups: seq<Group>,
    sections: seq<(nat, string)>,
    nextHandle: nat,
    order: seq<string>,
    handles: map<string, string>,
    recordsWritten: nat)

  /** The registered names are distinct and are exactly the keys of the handle map. */
  ghost predicate RegistryKeys(order: seq<string>, handles: map<string, string>) {
    (forall name :: name in handles <==> name in order) && Distinct(order)
  }

  /** Every registered handle is a handle text the counter has passed. */
  ghost predicate RegistryBelow(handles: map<string, string>, next: nat) {
    forall name :: name in handles ==> IsHandleText(handles[name]) && Format.HexValue(handles[name]) < next
  }

  /** No two registered names share a handle. */
  ghost predicate RegistryDistinct(order: seq<string>, handles: map<string, string>)
    requires KeysIn(order, handles)
  {
    forall i, j :: 0 <= i < j < |order| ==> handles[order[i]] != handles[order[j]]
  }

  /** The records not yet written (from index `written` on) hold handles not written so far. */
  ghost predicate Reserved(order: seq<string>, handles: map<string, string>, written: nat, used: seq<string>)
    requires KeysIn(order, handles)
  {
    written <= |order| && forall j :: written <= j < |order| ==> handles[order[j]] !in used
  }

  /**
   * The registry maps each registered name, and only those, to its own
   * handle below the counter; the records not yet written (the tail of
   * the registry order) hold handles not written so far.
   */
  ghost predicate RegistryOk(s: Snapshot) {
    && RegistryKeys(s.order, s.handles)
    && KeysIn(s.order, s.handles)
    && RegistryBelow(s.handles, s.nextHandle)
    && RegistryDistinct(s.order, s.handles)
    && Reserved(s.order, s.handles, s.recordsWritten, HandlesOf(s.groups))
  }

  /**
   * The writer's invariant: the output is the text of the groups, the
   * sections are those the groups open, every handle written is distinct
   * and below the counter, and the registry is in order.
   */
  ghost predicate Consistent(s: Snapshot) {
    && s.out == Render(s.groups)
    && s.sections == SectionsOf(s.groups)
    && HandlesBelow(HandlesOf(s.groups), s.nextHandle)
    && Distinct(HandlesOf(s.groups))
    && RegistryOk(s)
  }

  /** `inv` is the invariant; it is unfolded only where a proof names `Consistent`. */
  ghost predicate IsConsistency(inv: Snapshot -> bool) {
    forall s {:trigger Consistent(s)} :: inv(s) == Consistent(s)
  }

  /** A handle value that may be written in state `s` without repeating one. */
  ghost predicate FreshIn(s: Snapshot, v: string) {
    && IsHandleText(v)
    && Format.HexValue(v) < s.nextHandle
    && v !in HandlesOf(s.groups)
    && forall j :: s.recordsWritten <= j < |s.order| && s.order[j] in s.handles ==> s.handles[s.order[j]] != v
  }

  /** The state after writing group `g`. */
  ghost function Appended(s: Snapshot, g: Group): Snapshot {
    s.(out := s.out + GroupText(g), groups := s.groups + [g], sections := SectionsOf(s.groups + [g]))
  }

  /** A group opens no section; a code-2 group right after (0, SECTION) names one. */
  lemma SectionsAppend(gs: seq<Group>, g: Group)
    ensures SectionsOf(gs + [g]) == SectionsOf(gs) + (if g.code == 2 && EndsWithOpener(gs) then [(|gs| - 1, g.value)] else [])
  {
    var r := gs + [g];
    assert r[..|r| - 1] == gs;
  }

  lemma HandlesAppend(gs: seq<Group>, g: Group)
    ensures HandlesOf(gs + [g]) == HandlesOf(gs) + (if g.code == 5 then [g.value] else [])
  {
    var r := gs + [g];
    assert r[..|r| - 1] == gs;
  }

  /** Writing a group keeps the invariant, provided a handle group carries a fresh handle. */
  lemma AppendConsistent(s: Snapshot, g: Group)
    requires Consistent(s)
    requires g.code == 5 ==> FreshIn(s, g.value)
    ensures Consistent(Appended(s, g))
  {
    var r := s.groups + [g];
    assert r[..|r| - 1] == s.groups;
    HandlesAppend(s.groups, g);
  }

  /** The state after the counter moved on by one. */
  ghost function Allocated(s: Snapshot): Snapshot {
    s.(nextHandle := s.nextHandle + 1)
  }

  /** The counter's current value, in hexadecimal, is a fresh handle once the counter has passed it. */
  lemma AllocConsistent(s: Snapshot)
    requires Consistent(s)
    ensures Consistent(Allocated(s))
    ensures FreshIn(Allocated(s), Format.HexUpper(s.nextHandle))
  {
    Format.HexUpperRoundTrip(s.nextHandle);
  }

  /** The state after `name` joined the registry with handle `v`. */
  ghost function Registered(s: Snapshot, name: string, v: string): Snapshot {
    s.(order := s.order + [name], handles := s.handles[name := v])
  }

  lemma RegisterKeys(order: seq<string>, handles: map<string, string>, name: string, v: string)
    requires RegistryKeys(order, handles) && name !in handles
    ensures RegistryKeys(order + [name], handles[name := v]) && KeysIn(order + [name], handles[name := v])
  {
  }

  lemma RegisterBelow(handles: map<string, string>, next: nat, name: string)
    requires RegistryBelow(handles, next)
    ensures RegistryBelow(handles[name := Format.HexUpper(next)], next + 1)
  {
    Format.HexUpperRoundTrip(next);
  }

  lemma RegisterDistinct(order: seq<string>, handles: map<string, string>, next: nat, name: string)
    requires RegistryKeys(order, handles) && KeysIn(order, handles) && RegistryBelow(handles, next)
    requires RegistryDistinct(order, handles) && name !in handles
    ensures KeysIn(order + [name], handles[name := Format.HexUpper(next)])
    ensures RegistryDistinct(order + [name], handles[name := Format.HexUpper(next)])
  {
    var v := Format.HexUpper(next);
    Format.HexUpperRoundTrip(next);
    var order' := order + [name];
    var handles' := handles[name := v];
    forall i, j | 0 <= i < j < |order'| ensures handles'[order'[i]] != handles'[order'[j]] {
      assert order'[i] == order[i] && order[i] in order;
      if j == |order| {
        assert Format.HexValue(handles[order[i]]) < next;
      } else {
        assert order'[j] == order[j] && order[j] in order;
      }
    }
  }

  lemma RegisterReserved(order: seq<string>, handles: map<string, string>, written: nat, used: seq<string>, next: nat, name: string)
    requires KeysIn(order, handles) && Reserved(order, handles, written, used) && HandlesBelow(used, next) && name !in handles
    ensures KeysIn(order + [name], handles[name := Format.HexUpper(next)])
    ensures Reserved(order + [name], handles[name := Format.HexUpper(next)], written, used)
  {
    Format.HexUpperRoundTrip(next);
    var order' := order + [name];
    var handles' := handles[name := Format.HexUpper(next)];
    forall j | written <= j < |order'| ensures handles'[order'[j]] !in used {
      if j < |order| {
        assert order'[j] == order[j] && order[j] in order;
      }
    }
  }

  /** A name not yet registered may take the handle the counter allocates next. */
  lemma RegisterConsistent(s: Snapshot, name: string)
    requires Consistent(s) && name !in s.handles
    ensures Consistent(Registered(Allocated(s), name, Format.HexUpper(s.nextHandle)))
  {
    RegisterKeys(s.order, s.handles, name, Format.HexUpper(s.nextHandle));
    RegisterBelow(s.handles, s.nextHandle, name);
    RegisterDistinct(s.order, s.handles, s.nextHandle, name);
    RegisterReserved(s.order, s.handles, s.recordsWritten, HandlesOf(s.groups), s.nextHandle, name);
  }

  /** The state after one more block record was written. */
  ghost function RecordMarked(s: Snapshot): Snapshot {
    s.(recordsWritten := s.recordsWritten + 1)
  }

  /** The next record's handle is fresh once it no longer counts as unwritten. */
  lemma MarkConsistent(s: Snapshot)
    requires Consistent(s) && s.recordsWritten < |s.order|
    ensures s.order[s.recordsWritten] in s.handles
    ensures Consistent(RecordMarked(s))
    ensures FreshIn(RecordMarked(s), s.handles[s.order[s.recordsWritten]])
  {
    assert s.order[s.recordsWritten] in s.order;
  }

  /** What an opened section looks like: (0, SECTION) and then its name at code 2. */
  lemma {:induction false} SectionOpened(gs: seq<Group>, k: nat)
    requires k < |SectionsOf(gs)|
    ensures SectionsOf(gs)[k].0 + 1 < |gs|
    ensures gs[SectionsOf(gs)[k].0] == SectionOpener
    ensures gs[SectionsOf(gs)[k].0 + 1] == Group(2, SectionsOf(gs)[k].1)
    decreases |gs|
  {
    var init := gs[..|gs| - 1];
    if k < |SectionsOf(init)| {
      assert SectionsOf(gs)[k] == SectionsOf(init)[k];
      SectionOpened(init, k);
    }
  }

  // ---------------------------------------------------------------------
  // Collecting line types and layers
  // ---------------------------------------------------------------------

  /** `collect_line_types`: the three loops, each inserting into an ordered set. */
  method CollectLineTypes(doc: DxfDocument) returns (out: seq<string>)
    ensures out == LineTypesOf(doc)
  {
    out := [];
    for i := 0 to |doc.layers|
      invariant out == InsertAll([], LayerLineTypes(doc.layers[..i]))
    {
      Seqs.TakeStep(doc.layers, i);
      out := Sorted.Insert(out, doc.layers[i].lineType);
    }
    Seqs.TakeAll(doc.layers);
    ghost var base := out;
    for i := 0 to |doc.entities|
      invariant out == InsertAll(base, EntityLineTypes(doc.entities[..i]))
    {
      Seqs.TakeStep(doc.entities, i);
      out := Sorted.Insert(out, StyleOf(doc.entities[i]).lineType);
    }
    Seqs.TakeAll(doc.entities);
    base := out;
    for i := 0 to |doc.blocks|
      invariant out == InsertAll(base, BlockLineTypes(doc.blocks[..i]))
    {
      var es := doc.blocks[i].entities;
      ghost var before := out;
      for j := 0 to |es|
        invariant out == InsertAll(before, EntityLineTypes(es[..j]))
      {
        Seqs.TakeStep(es, j);
        out := Sorted.Insert(out, StyleOf(es[j]).lineType);
      }
      Seqs.TakeAll(es);
      Seqs.TakeStep(doc.blocks, i);
      InsertAllAppend(base, BlockLineTypes(doc.blocks[..i]), EntityLineTypes(es));
    }
    Seqs.TakeAll(doc.blocks);
  }

  lemma {:induction false} InsertAllAppend(acc: seq<string>, xs: seq<string>, ys: seq<string>)
    ensures InsertAll(acc, xs + ys) == InsertAll(InsertAll(acc, xs), ys)
    decreases |ys|
  {
    if ys != [] {
      var zs := xs + ys;
      assert zs[..|zs| - 1] == xs + ys[..|ys| - 1];
      InsertAllAppend(acc, xs, ys[..|ys| - 1]);
    } else {
      assert xs + ys == xs;
    }
  }

  /** The layer map of `write_layer_table`: each name bound to its first layer, keys in order. */
  method IndexLayers(layers: seq<DxfLayer>) returns (keys: seq<string>, entries: map<string, DxfLayer>)
    ensures keys == LayerKeys(layers) && entries == FirstLayers(layers)
  {
    keys := [];
    entries := map[];
    for i := 0 to |layers|
      invariant keys == LayerKeys(layers[..i])
      invariant entries == FirstLayers(layers[..i])
    {
      var layer := layers[i];
      Seqs.TakeStep(layers, i);
      assert FirstLayers(layers[..i + 1]) == if layer.name in entries then entries else entries[layer.name := layer];
      assert LayerKeys(layers[..i + 1]) == Sorted.Insert(keys, layer.name);
      if layer.name !in entries {
        entries := entries[layer.name := layer];
      }
      keys := Sorted.Insert(keys, layer.name);
    }
    Seqs.TakeAll(layers);
  }

  // ---------------------------------------------------------------------
  // The writer
  // ---------------------------------------------------------------------

  class AsciiDxfWriter {
    var out: string
    var nextHandle: nat
    var blockRecordOrder: seq<string>
    var blockRecordHandles: map<string, string>
    /** `{value:.12}`, the fixed-point rendering of a binary64 value. */
    const formatReal: real -> string
    /** `write_entity` as a value: the sections' specifications take it as a parameter. */
    ghost const writeEntity: EntityWriter
    /** `write_block_definition` as a value, for the same reason. */
    ghost const writeBlock: BlockWriter

    /** The groups written so far, in order. */
    ghost var groups: seq<Group>
    /** The sections opened so far: where each opener stands and the section's name. */
    ghost var sections: seq<(nat, string)>
    /** How many block records have been written, in registry order. */
    ghost var recordsWritten: nat
    /** The invariant, held as a value so that it unfolds only where a proof asks. */
    ghost const inv: Snapshot -> bool

    ghost function State(): Snapshot
      reads this
    {
      Snapshot(out, groups, sections, nextHandle, blockRecordOrder, blockRecordHandles, recordsWritten)
    }

    /** The writer's invariant holds (see `Consistent`). */
    ghost predicate Valid()
      reads this
    {
      IsConsistency(inv) && inv(State())
      && WritesEntities(writeEntity, formatReal) && WritesBlocks(writeBlock, formatReal, writeEntity)
    }

    /** The registry as a value. */
    function Records(): Registry
      reads this
    {
      Registry(blockRecordOrder, blockRecordHandles, nextHandle)
    }

    /** The registry and the count of written records are as they were. */
    twostate predicate RegistryKept()
      reads this
    {
      && blockRecordOrder == old(blockRecordOrder)
      && blockRecordHandles == old(blockRecordHandles)
      && recordsWritten == old(recordsWritten)
    }

    /** `AsciiDxfWriter::new`: empty output, the counter at 1, no block records. */
    constructor (formatReal: real -> string)
      ensures Valid()
      ensures out == "" && groups == [] && sections == []
      ensures nextHandle == 1 && blockRecordOrder == [] && blockRecordHandles == map[] && recordsWritten == 0
      ensures this.formatReal == formatReal && writeEntity == EntityWriterOf(formatReal)
      ensures writeBlock == BlockWriterOf(formatReal, EntityWriterOf(formatReal))
    {
      out := "";
      nextHandle := 1;
      blockRecordOrder := [];
      blockRecordHandles := map[];
      this.formatReal := formatReal;
      groups := [];
      sections := [];
      recordsWritten := 0;
      inv := Consistent;
      writeEntity := EntityWriterOf(formatReal);
      writeBlock := BlockWriterOf(formatReal, EntityWriterOf(formatReal));
      new;
      EntityWriterOfWrites(formatReal);
      BlockWriterOfWrites(formatReal, writeEntity);
      assert Consistent(State());
    }

    /** `finish`: the output written so far, with what the invariant says of it. */
    method Finish() returns (text: string)
      requires Valid()
      ensures text == Render(groups)
      ensures sections == SectionsOf(groups)
      ensures Distinct(HandlesOf(groups)) && HandlesBelow(HandlesOf(groups), nextHandle)
    {
      assert Consistent(State());
      text := out;
    }

    // -------------------------------------------------------------------
    // Groups, handles and sections
    // -------------------------------------------------------------------

    /** `group_str`: one group; a handle group must carry a handle not written before. */
    method GroupStr(code: int, value: string)
      requires Valid()
      requires code == 5 ==> FreshIn(State(), value)
      modifies this
      ensures Valid()
      ensures groups == old(groups) + [Group(code, value)]
      ensures code != 2 ==> sections == old(sections)
      ensures code == 2 ==> sections == old(sections) + (if EndsWithOpener(old(groups)) then [(|old(groups)| - 1, value)] else [])
      ensures EndsWithOpener(groups) <==> code == 0 && value == "SECTION"
      ensures nextHandle == old(nextHandle) && RegistryKept()
    {
      ghost var before := State();
      assert Consistent(before);
      var g := Group(code, value);
      AppendConsistent(before, g);
      SectionsAppend(groups, g);
      out := out + GroupText(g);
      groups := groups + [g];
      sections := SectionsOf(groups);
      assert State() == Appended(before, g);
    }

    /** `group_i32`: the value in decimal (never a handle nor a section name here). */
    method GroupI32(code: int, value: int)
      requires Valid() && code != 0 && code != 2 && code != 5
      modifies this
      ensures Valid()
      ensures groups == old(groups) + [IntGroup(code, value)]
      ensures sections == old(sections) && !EndsWithOpener(groups)
      ensures nextHandle == old(nextHandle) && RegistryKept()
    {
      GroupStr(code, Format.IntToString(value));
    }

    /** `group_f64`: the value through the fixed-point formatter. */
    method GroupF64(code: int, value: real)
      requires Valid() && code != 0 && code != 2 && code != 5
      modifies this
      ensures Valid()
      ensures groups == old(groups) + [Group(code, formatReal(value))]
      ensures sections == old(sections) && !EndsWithOpener(groups)
      ensures nextHandle == old(nextHandle) && RegistryKept()
    {
      GroupStr(code, formatReal(value));
    }

    /** `alloc_handle`: the counter in upper-case hexadecimal, then the counter moves on. */
    method AllocHandle() returns (handle: string)
      requires Valid()
      modifies this
      ensures Valid() && FreshIn(State(), handle)
      ensures handle == Format.HexUpper(old(nextHandle))
      ensures nextHandle == old(nextHandle) + 1
      ensures groups == old(groups) && sections == old(sections) && out == old(out) && RegistryKept()
    {
      ghost var before := State();
      assert Consistent(before);
      AllocConsistent(before);
      handle := Format.HexUpper(nextHandle);
      nextHandle := nextHandle + 1;
      assert State() == Allocated(before);
    }

    /** `write_handle`: a fresh handle as a code-5 group. */
    method WriteHandle()
      requires Valid()
      modifies this
      ensures Valid()
      ensures groups == old(groups) + [HandleGroup(old(nextHandle))]
      ensures sections == old(sections) && !EndsWithOpener(groups)
      ensures nextHandle == old(nextHandle) + 1 && RegistryKept()
    {
      var handle := AllocHandle();
      GroupStr(5, handle);
    }

    /** `section_start`: (0, SECTION) then the section's name at code 2. */
    method SectionStart(name: string)
      requires Valid()
      modifies this
      ensures Valid()
      ensures groups == SectionStartOnto(old(groups), name)
      ensures sections == old(sections) + [(|old(groups)|, name)] && !EndsWithOpener(groups)
      ensures nextHandle == old(nextHandle) && RegistryKept()
    {
      GroupStr(0, "SECTION");
      GroupStr(2, name);
    }

    /** `section_end`. */
    method SectionEnd()
      requires Valid()
      modifies this
      ensures Valid()
      ensures groups == old(groups) + [Group(0, "ENDSEC")]
      ensures sections == old(sections) && !EndsWithOpener(groups)
      ensures nextHandle == old(nextHandle) && RegistryKept()
    {
      GroupStr(0, "ENDSEC");
    }

    // -------------------------------------------------------------------
    // The block-record registry
    // -------------------------------------------------------------------

    /** `register_block_record`: a new name takes the next handle; a known name changes nothing. */
    method RegisterBlockRecord(name: string)
      requires Valid()
      modifies this
      ensures Valid()
      ensures Records() == Register(old(Records()), name)
      ensures groups == old(groups) && sections == old(sections) && recordsWritten == old(recordsWritten)
    {
      if name in blockRecordHandles {
        return;
      }
      ghost var before := State();
      assert Consistent(before);
      RegisterConsistent(before, name);
      var handle := AllocHandle();
      blockRecordOrder := blockRecordOrder + [name];
      blockRecordHandles := blockRecordHandles[name := handle];
      assert State() == Registered(Allocated(before), name, handle);
    }

    /** `ensure_block_record_table`: the layouts and every block, unless records exist already. */
    method EnsureBlockRecordTable(doc: DxfDocument)
      requires Valid()
      modifies this
      ensures Valid()
      ensures Records() == EnsureRegistry(old(Records()), doc)
      ensures groups == old(groups) && sections == old(sections) && recordsWritten == old(recordsWritten)
    {
      if blockRecordOrder != [] {
        return;
      }
      RegisterBlockRecord("*Model_Space");
      RegisterBlockRecord("*Paper_Space");
      ghost var start := Records();
      for i := 0 to |doc.blocks|
        invariant Valid()
        invariant Records() == RegisterAll(start, BlockNames(doc.blocks[..i]))
        invariant groups == old(groups) && sections == old(sections) && recordsWritten == old(recordsWritten)
      {
        Seqs.TakeStep(doc.blocks, i);
        RegisterBlockRecord(doc.blocks[i].name);
      }
      Seqs.TakeAll(doc.blocks);
    }

    /** The next block record is about to be written: its handle stops counting as reserved. */
    ghost method MarkRecordWritten()
      requires Valid() && recordsWritten < |blockRecordOrder|
      modifies this
      ensures Valid()
      ensures recordsWritten == old(recordsWritten) + 1
      ensures blockRecordOrder[old(recordsWritten)] in blockRecordHandles
      ensures FreshIn(State(), blockRecordHandles[blockRecordOrder[old(recordsWritten)]])
      ensures groups == old(groups) && sections == old(sections) && nextHandle == old(nextHandle)
      ensures blockRecordOrder == old(blockRecordOrder) && blockRecordHandles == old(blockRecordHandles)
    {
      ghost var before := State();
      assert Consistent(before);
      MarkConsistent(before);
      recordsWritten := recordsWritten + 1;
      assert State() == RecordMarked(before);
    }

    // -------------------------------------------------------------------
    // Fixed sections and tables
    // -------------------------------------------------------------------

    /** `write_header`: the HEADER section, naming AutoCAD R2000 (AC1015). */
    method WriteHeader()
      requires Valid()
      modifies this
      ensures Valid()
      ensures groups == HeaderOnto(old(groups))
      ensures sections == old(sections) + [(|old(groups)|, "HEADER")] && !EndsWithOpener(groups)
      ensures nextHandle == old(nextHandle) && RegistryKept()
    {
      SectionStart("HEADER");
      GroupStr(9, "$ACADVER");
      GroupStr(1, "AC1015");
      GroupStr(9, "$DWGCODEPAGE");
      GroupStr(3, "ANSI_1252");
      GroupStr(9, "$MEASUREMENT");
      GroupI32(70, 1);
      GroupStr(9, "$TEXTSTYLE");
      GroupStr(7, "STANDARD");
      GroupStr(9, "$CLAYER");
      GroupStr(8, "0");
      GroupStr(9, "$CELTYPE");
      GroupStr(6, "BYLAYER");
      GroupStr(9, "$CECOLOR");
      GroupI32(62, 256);
      SectionEnd();
    }

    /** The four groups every table starts with: TABLE, its name, a fresh handle and the declared record count. */
    method TableStart(name: string, count: int)
      requires Valid()
      modifies this
      ensures Valid()
      ensures groups == TableStartOnto(old(groups), name, old(nextHandle), count)
      ensures sections == old(sections) && !EndsWithOpener(groups)
      ensures nextHandle == old(nextHandle) + 1 && RegistryKept()
    {
      GroupStr(0, "TABLE");
      GroupStr(2, name);
      assert sections == old(sections);
      WriteHandle();
      GroupI32(70, count);
    }

    /** `write_style_table`: the one text style, STANDARD. */
    method WriteStyleTable()
      requires Valid()
      modifies this
      ensures Valid()
      ensures groups == StyleTableOnto(old(groups), formatReal, old(nextHandle))
      ensures sections == old(sections) && !EndsWithOpener(groups)
      ensures nextHandle == old(nextHandle) + 2 && RegistryKept()
    {
      TableStart("STYLE", 1);
      WriteStyleRecord();
      GroupStr(0, "ENDTAB");
    }

    /** The STANDARD record of `write_style_table`. */
    method WriteStyleRecord()
      requires Valid()
      modifies this
      ensures Valid()
      ensures groups == StyleRecordOnto(old(groups), formatReal, old(nextHandle))
      ensures sections == old(sections) && !EndsWithOpener(groups)
      ensures nextHandle == old(nextHandle) + 1 && RegistryKept()
    {
      GroupStr(0, "STYLE");
      WriteHandle();
      GroupStr(2, "STANDARD");
      assert sections == old(sections);
      GroupI32(70, 0);
      GroupF64(40, 0.0);
      GroupF64(41, 1.0);
      GroupF64(50, 0.0);
      GroupI32(71, 0);
      GroupF64(42, 2.5);
      GroupStr(3, "txt");
      GroupStr(4, "");
    }

    /** One LTYPE record: name, description, pattern length and elements. */
    method WriteLtypeRecord(name: string)
      requires Valid()
      modifies this
      ensures Valid()
      ensures groups == LtypeRecordOnto(old(groups), formatReal, name, old(nextHandle))
      ensures sections == old(sections) && !EndsWithOpener(groups)
      ensures nextHandle == old(nextHandle) + 1 && RegistryKept()
    {
      var description := LineTypePattern(name).0;
      var pattern := LineTypePattern(name).1;
      var length := AbsSum(pattern);
      GroupStr(0, "LTYPE");
      WriteHandle();
      GroupStr(2, name);
      assert sections == old(sections);
      GroupI32(70, 0);
      GroupStr(3, description);
      GroupI32(72, 65);
      GroupI32(73, |pattern|);
      GroupF64(40, length);
      ghost var head := groups;
      for k := 0 to |pattern|
        invariant Valid()
        invariant groups == PatternOnto(head, formatReal, pattern[..k])
        invariant sections == old(sections) && !EndsWithOpener(groups)
        invariant nextHandle == old(nextHandle) + 1 && RegistryKept()
      {
        PatternStep(head, formatReal, pattern, k);
        GroupF64(49, pattern[k]);
      }
      Seqs.TakeAll(pattern);
    }

    /** `write_ltype_table`: every collected line type and the three standard ones, in name order. */
    method WriteLtypeTable(doc: DxfDocument)
      requires Valid()
      modifies this
      ensures Valid()
      ensures groups == LtypeTableOnto(old(groups), formatReal, LtypeNames(doc), old(nextHandle))
      ensures sections == old(sections) && !EndsWithOpener(groups)
      ensures nextHandle == old(nextHandle) + 1 + |LtypeNames(doc)| && RegistryKept()
    {
      var lineTypes := CollectLineTypes(doc);
      lineTypes := Sorted.Insert(lineTypes, "BYLAYER");
      lineTypes := Sorted.Insert(lineTypes, "BYBLOCK");
      lineTypes := Sorted.Insert(lineTypes, "CONTINUOUS");
      TableStart("LTYPE", |lineTypes|);
      WriteLtypeRecords(lineTypes);
      GroupStr(0, "ENDTAB");
    }

    /** The loop of `write_ltype_table`: one record per name, in order. */
    method WriteLtypeRecords(names: seq<string>)
      requires Valid()
      modifies this
      ensures Valid()
      ensures groups == LtypeRecordsOnto(old(groups), formatReal, names, old(nextHandle))
      ensures sections == old(sections) && (!EndsWithOpener(old(groups)) ==> !EndsWithOpener(groups))
      ensures nextHandle == old(nextHandle) + |names| && RegistryKept()
    {
      for i := 0 to |names|
        invariant Valid()
        invariant groups == LtypeRecordsOnto(old(groups), formatReal, names[..i], old(nextHandle))
        invariant sections == old(sections) && (!EndsWithOpener(old(groups)) ==> !EndsWithOpener(groups))
        invariant nextHandle == old(nextHandle) + i && RegistryKept()
      {
        LtypeRecordsStep(old(groups), formatReal, names, old(nextHandle), i);
        WriteLtypeRecord(names[i]);
      }
      Seqs.TakeAll(names);
    }

    /** One LAYER record: the escaped name, the frozen and locked flags, colour and line type. */
    method WriteLayerRecord(layer: DxfLayer)
      requires Valid()
      modifies this
      ensures Valid()
      ensures groups == LayerRecordOnto(old(groups), layer, old(nextHandle))
      ensures sections == old(sections) && !EndsWithOpener(groups)
      ensures nextHandle == old(nextHandle) + 1 && RegistryKept()
    {
      var flags := 0;
      if layer.frozen {
        flags := flags + 1;
      }
      if layer.locked {
        flags := flags + 4;
      }
      assert flags == LayerFlags(layer);
      var name := DxfEscape.EscapeUnicode(layer.name);
      GroupStr(0, "LAYER");
      WriteHandle();
      GroupStr(2, name);
      assert sections == old(sections);
      GroupI32(70, flags);
      GroupI32(62, layer.color);
      GroupStr(6, layer.lineType);
    }

    /** `write_layer_table`: layer 0, then the first layer of each name, in name order. */
    method WriteLayerTable(doc: DxfDocument)
      requires Valid()
      modifies this
      ensures Valid()
      ensures KeysIn(LayerKeys(doc.layers), FirstLayers(doc.layers))
      ensures groups == LayerTableOnto(old(groups), LayerKeys(doc.layers), FirstLayers(doc.layers), old(nextHandle))
      ensures sections == old(sections) && !EndsWithOpener(groups)
      ensures nextHandle == old(nextHandle) + 2 + |LayerKeys(doc.layers)| && RegistryKept()
    {
      var keys, entries := IndexLayers(doc.layers);
      LayerKeysInEntries(doc.layers);
      TableStart("LAYER", |keys| + 1);
      WriteLayerZero();
      WriteLayerRecords(keys, entries);
      GroupStr(0, "ENDTAB");
    }

    /** The record of layer 0 that `write_layer_table` writes first. */
    method WriteLayerZero()
      requires Valid()
      modifies this
      ensures Valid()
      ensures groups == LayerZeroOnto(old(groups), old(nextHandle))
      ensures sections == old(sections) && !EndsWithOpener(groups)
      ensures nextHandle == old(nextHandle) + 1 && RegistryKept()
    {
      GroupStr(0, "LAYER");
      WriteHandle();
      GroupStr(2, "0");
      assert sections == old(sections);
      GroupI32(70, 0);
      GroupI32(62, 7);
      GroupStr(6, "CONTINUOUS");
    }

    /** The loop of `write_layer_table` over the layer map's values, in key order. */
    method WriteLayerRecords(keys: seq<string>, entries: map<string, DxfLayer>)
      requires Valid() && KeysIn(keys, entries)
      modifies this
      ensures Valid()
      ensures groups == LayerRecordsOnto(old(groups), keys, entries, old(nextHandle))
      ensures sections == old(sections) && (!EndsWithOpener(old(groups)) ==> !EndsWithOpener(groups))
      ensures nextHandle == old(nextHandle) + |keys| && RegistryKept()
    {
      for i := 0 to |keys|
        invariant Valid()
        invariant KeysIn(keys[..i], entries)
        invariant groups == LayerRecordsOnto(old(groups), keys[..i], entries, old(nextHandle))
        invariant sections == old(sections) && (!EndsWithOpener(old(groups)) ==> !EndsWithOpener(groups))
        invariant nextHandle == old(nextHandle) + i && RegistryKept()
      {
        LayerRecordsStep(old(groups), keys, entries, old(nextHandle), i);
        WriteLayerRecord(entries[keys[i]]);
      }
      Seqs.TakeAll(keys);
    }

    /** `write_block_record_table`: one record per registered name, with its registered handle. */
    method WriteBlockRecordTable()
      requires Valid() && recordsWritten == 0
      modifies this
      ensures Valid()
      ensures KeysIn(blockRecordOrder, blockRecordHandles)
      ensures groups == BlockRecordTableOnto(old(groups), blockRecordOrder, blockRecordHandles, old(nextHandle))
      ensures sections == old(sections) && !EndsWithOpener(groups)
      ensures nextHandle == old(nextHandle) + 1
      ensures blockRecordOrder == old(blockRecordOrder) && blockRecordHandles == old(blockRecordHandles)
      ensures recordsWritten == |blockRecordOrder|
    {
      TableStart("BLOCK_RECORD", |blockRecordOrder|);
      var names := blockRecordOrder;
      WriteBlockRecords(names);
      GroupStr(0, "ENDTAB");
    }

    /** The loop of `write_block_record_table`: every registered name, in registration order. */
    method WriteBlockRecords(names: seq<string>)
      requires Valid() && recordsWritten == 0 && names == blockRecordOrder
      modifies this
      ensures Valid() && KeysIn(names, blockRecordHandles)
      ensures groups == BlockRecordsOnto(old(groups), names, blockRecordHandles)
      ensures sections == old(sections) && (!EndsWithOpener(old(groups)) ==> !EndsWithOpener(groups))
      ensures nextHandle == old(nextHandle) && recordsWritten == |names|
      ensures blockRecordOrder == old(blockRecordOrder) && blockRecordHandles == old(blockRecordHandles)
    {
      for i := 0 to |names|
        invariant Valid()
        invariant recordsWritten == i && KeysIn(names[..i], blockRecordHandles)
        invariant groups == BlockRecordsOnto(old(groups), names[..i], blockRecordHandles)
        invariant sections == old(sections) && (!EndsWithOpener(old(groups)) ==> !EndsWithOpener(groups))
        invariant nextHandle == old(nextHandle)
        invariant blockRecordOrder == names && blockRecordHandles == old(blockRecordHandles)
      {
        MarkRecordWritten();
        BlockRecordsStep(old(groups), names, blockRecordHandles, i);
        WriteBlockRecord(names[i]);
      }
      Seqs.TakeAll(names);
    }

    /** The loop body of `write_block_record_table`: one BLOCK_RECORD with the name's registered handle. */
    method WriteBlockRecord(name: string)
      requires Valid() && name in blockRecordHandles && FreshIn(State(), blockRecordHandles[name])
      modifies this
      ensures Valid() && RegistryKept()
      ensures groups == BlockRecordOnto(old(groups), name, blockRecordHandles[name])
      ensures sections == old(sections) && !EndsWithOpener(groups)
      ensures nextHandle == old(nextHandle)
    {
      var handle := blockRecordHandles[name];
      var escaped := DxfEscape.EscapeUnicode(name);
      GroupStr(0, "BLOCK_RECORD");
      GroupStr(5, handle);
      GroupStr(330, "0");
      GroupStr(100, "AcDbSymbolTableRecord");
      GroupStr(100, "AcDbBlockTableRecord");
      GroupStr(2, escaped);
      assert sections == old(sections);
    }
  
    // -------------------------------------------------------------------
    // Entities
    // -------------------------------------------------------------------

    /** `entity_header`: type, handle, owner, escaped layer, colour and line type. */
    method EntityHeader(entityType: string, layer: string, color: int, lineType: string, owner: Option<string>)
      requires Valid()
      modifies this
      ensures Valid()
      ensures groups == EntityHeaderOnto(old(groups), entityType, Style(layer, color, lineType), owner, old(nextHandle))
      ensures sections == old(sections) && !EndsWithOpener(groups)
      ensures nextHandle == old(nextHandle) + 1 && RegistryKept()
    {
      GroupStr(0, entityType);
      WriteHandle();
      if owner.Some? {
        GroupStr(330, owner.value);
      }
      var escaped := DxfEscape.EscapeUnicode(layer);
      GroupStr(8, escaped);
      GroupI32(62, color);
      GroupStr(6, lineType);
    }

    method WriteLine(v: DxfLine, owner: Option<string>)
      requires Valid()
      modifies this
      ensures Valid()
      ensures groups == LineOnto(old(groups), formatReal, v, owner, old(nextHandle))
      ensures sections == old(sections) && !EndsWithOpener(groups)
      ensures nextHandle == old(nextHandle) + 1 && RegistryKept()
    {
      EntityHeader("LINE", v.layer, v.color, v.lineType, owner);
      GroupF64(10, v.x1);
      GroupF64(20, v.y1);
      GroupF64(30, 0.0);
      GroupF64(11, v.x2);
      GroupF64(21, v.y2);
      GroupF64(31, 0.0);
    }

    method WriteCircle(v: DxfCircle, owner: Option<string>)
      requires Valid()
      modifies this
      ensures Valid()
      ensures groups == CircleOnto(old(groups), formatReal, v, owner, old(nextHandle))
      ensures sections == old(sections) && !EndsWithOpener(groups)
      ensures nextHandle == old(nextHandle) + 1 && RegistryKept()
    {
      EntityHeader("CIRCLE", v.layer, v.color, v.lineType, owner);
      GroupF64(10, v.centerX);
      GroupF64(20, v.centerY);
      GroupF64(30, 0.0);
      GroupF64(40, v.radius);
    }

    method WriteArc(v: DxfArc, owner: Option<string>)
      requires Valid()
      modifies this
      ensures Valid()
      ensures groups == ArcOnto(old(groups), formatReal, v, owner, old(nextHandle))
      ensures sections == old(sections) && !EndsWithOpener(groups)
      ensures nextHandle == old(nextHandle) + 1 && RegistryKept()
    {
      EntityHeader("ARC", v.layer, v.color, v.lineType, owner);
      GroupF64(10, v.centerX);
      GroupF64(20, v.centerY);
      GroupF64(30, 0.0);
      GroupF64(40, v.radius);
      GroupF64(50, v.startAngle);
      GroupF64(51, v.endAngle);
    }

    method WriteEllipse(v: DxfEllipse, owner: Option<string>)
      requires Valid()
      modifies this
      ensures Valid()
      ensures groups == EllipseOnto(old(groups), formatReal, v, owner, old(nextHandle))
      ensures sections == old(sections) && !EndsWithOpener(groups)
      ensures nextHandle == old(nextHandle) + 1 && RegistryKept()
    {
      EntityHeader("ELLIPSE", v.layer, v.color, v.lineType, owner);
      GroupF64(10, v.centerX);
      GroupF64(20, v.centerY);
      GroupF64(30, 0.0);
      GroupF64(11, v.majorAxisX);
      GroupF64(21, v.majorAxisY);
      GroupF64(31, 0.0);
      GroupF64(40, v.minorRatio);
      GroupF64(41, v.startParam);
      GroupF64(42, v.endParam);
    }

    method WritePoint(v: DxfPoint, owner: Option<string>)
      requires Valid()
      modifies this
      ensures Valid()
      ensures groups == PointOnto(old(groups), formatReal, v, owner, old(nextHandle))
      ensures sections == old(sections) && !EndsWithOpener(groups)
      ensures nextHandle == old(nextHandle) + 1 && RegistryKept()
    {
      EntityHeader("POINT", v.layer, v.color, v.lineType, owner);
      GroupF64(10, v.x);
      GroupF64(20, v.y);
      GroupF64(30, 0.0);
    }

    method WriteText(v: DxfText, owner: Option<string>)
      requires Valid()
      modifies this
      ensures Valid()
      ensures groups == TextOnto(old(groups), formatReal, v, owner, old(nextHandle))
      ensures sections == old(sections) && !EndsWithOpener(groups)
      ensures nextHandle == old(nextHandle) + 1 && RegistryKept()
    {
      EntityHeader("TEXT", v.layer, v.color, v.lineType, owner);
      GroupF64(10, v.x);
      GroupF64(20, v.y);
      GroupF64(30, 0.0);
      GroupF64(40, v.height);
      var content := DxfEscape.EscapeUnicode(v.content);
      GroupStr(1, content);
      GroupF64(50, v.rotation);
      var style := DxfEscape.EscapeUnicode(v.style);
      GroupStr(7, style);
    }

    method WriteSolid(v: DxfSolid, owner: Option<string>)
      requires Valid()
      modifies this
      ensures Valid()
      ensures groups == SolidOnto(old(groups), formatReal, v, owner, old(nextHandle))
      ensures sections == old(sections) && !EndsWithOpener(groups)
      ensures nextHandle == old(nextHandle) + 1 && RegistryKept()
    {
      EntityHeader("SOLID", v.layer, v.color, v.lineType, owner);
      GroupF64(10, v.x1);
      GroupF64(20, v.y1);
      GroupF64(30, 0.0);
      GroupF64(11, v.x2);
      GroupF64(21, v.y2);
      GroupF64(31, 0.0);
      GroupF64(12, v.x3);
      GroupF64(22, v.y3);
      GroupF64(32, 0.0);
      GroupF64(13, v.x4);
      GroupF64(23, v.y4);
      GroupF64(33, 0.0);
    }

    method WriteInsert(v: DxfInsert, owner: Option<string>)
      requires Valid()
      modifies this
      ensures Valid()
      ensures groups == InsertOnto(old(groups), formatReal, v, owner, old(nextHandle))
      ensures sections == old(sections) && !EndsWithOpener(groups)
      ensures nextHandle == old(nextHandle) + 1 && RegistryKept()
    {
      EntityHeader("INSERT", v.layer, v.color, v.lineType, owner);
      var blockName := DxfEscape.EscapeUnicode(v.blockName);
      GroupStr(2, blockName);
      assert sections == old(sections);
      GroupF64(10, v.x);
      GroupF64(20, v.y);
      GroupF64(30, 0.0);
      GroupF64(41, v.scaleX);
      GroupF64(42, v.scaleY);
      GroupF64(43, 1.0);
      GroupF64(50, v.rotation);
    }

    /** `write_entity`: the record's groups under its own DXF name, with one handle. */
    method WriteEntity(e: DxfEntity, owner: Option<string>)
      requires Valid()
      modifies this
      ensures Valid()
      ensures groups == EntityBy(writeEntity, old(groups), e, owner, old(nextHandle))
      ensures sections == old(sections) && !EndsWithOpener(groups)
      ensures nextHandle == old(nextHandle) + 1 && RegistryKept()
    {
      match e {
        case Line(v) => WriteLine(v, owner);
        case Circle(v) => WriteCircle(v, owner);
        case Arc(v) => WriteArc(v, owner);
        case Ellipse(v) => WriteEllipse(v, owner);
        case Point(v) => WritePoint(v, owner);
        case Text(v) => WriteText(v, owner);
        case Solid(v) => WriteSolid(v, owner);
        case Insert(v) => WriteInsert(v, owner);
      }
    }

    /** The loop `for entity in entities { write_entity(..) }` of the BLOCKS and ENTITIES writers. */
    method WriteEntityList(es: seq<DxfEntity>, owner: Option<string>)
      requires Valid()
      modifies this
      ensures Valid()
      ensures groups == EntitiesOnto(old(groups), writeEntity, es, owner, old(nextHandle))
      ensures sections == old(sections) && (!EndsWithOpener(old(groups)) ==> !EndsWithOpener(groups))
      ensures nextHandle == old(nextHandle) + |es| && RegistryKept()
    {
      for i := 0 to |es|
        invariant Valid()
        invariant groups == EntitiesOnto(old(groups), writeEntity, es[..i], owner, old(nextHandle))
        invariant sections == old(sections) && (!EndsWithOpener(old(groups)) ==> !EndsWithOpener(groups))
        invariant nextHandle == old(nextHandle) + i && RegistryKept()
      {
        EntitiesStep(old(groups), writeEntity, es, owner, old(nextHandle), i);
        WriteEntity(es[i], owner);
      }
      Seqs.TakeAll(es);
    }

    /** `write_entities`: the ENTITIES section, each record owned by the model space. */
    method WriteEntities(doc: DxfDocument)
      requires Valid()
      modifies this
      ensures Valid()
      ensures groups == EntitiesSectionOnto(old(groups), writeEntity, doc.entities, blockRecordHandles, old(nextHandle))
      ensures sections == old(sections) + [(|old(groups)|, "ENTITIES")] && !EndsWithOpener(groups)
      ensures nextHandle == old(nextHandle) + |doc.entities| && RegistryKept()
    {
      SectionStart("ENTITIES");
      var owner := OwnerOf(blockRecordHandles, "*Model_Space");
      WriteEntityList(doc.entities, owner);
      SectionEnd();
    }

    // -------------------------------------------------------------------
    // Blocks
    // -------------------------------------------------------------------

    /** `write_block_definition`: BLOCK, the records, ENDBLK, each owned by `owner` when there is one. */
    method WriteBlockDefinition(name: string, baseX: real, baseY: real, es: seq<DxfEntity>, owner: Option<string>)
      requires Valid()
      modifies this
      ensures Valid()
      ensures groups == BlockBy(writeBlock, old(groups), DxfBlock(name, baseX, baseY, es), owner, old(nextHandle))
      ensures sections == old(sections) && !EndsWithOpener(groups)
      ensures nextHandle == old(nextHandle) + 2 + |es| && RegistryKept()
    {
      ghost var g0, h0 := groups, nextHandle;
      WriteBlockBegin(name, baseX, baseY, owner);
      ghost var gB := groups;
      WriteBlockRest(es, owner);
      BlockParts(g0, formatReal, writeEntity, DxfBlock(name, baseX, baseY, es), owner, h0, gB, groups);
    }

    /** The records of `write_block_definition`, then its ENDBLK entity. */
    method WriteBlockRest(es: seq<DxfEntity>, owner: Option<string>)
      requires Valid()
      modifies this
      ensures Valid()
      ensures groups == BlockRestOnto(old(groups), writeEntity, es, owner, old(nextHandle))
      ensures sections == old(sections) && !EndsWithOpener(groups)
      ensures nextHandle == old(nextHandle) + 1 + |es| && RegistryKept()
    {
      WriteEntityList(es, owner);
      WriteBlockEnd(owner);
    }

    /** The BLOCK entity of `write_block_definition`: handle, owner, escaped name and base point. */
    method WriteBlockBegin(name: string, baseX: real, baseY: real, owner: Option<string>)
      requires Valid()
      modifies this
      ensures Valid()
      ensures groups == BlockBeginOnto(old(groups), formatReal, name, baseX, baseY, owner, old(nextHandle))
      ensures sections == old(sections) && !EndsWithOpener(groups)
      ensures nextHandle == old(nextHandle) + 1 && RegistryKept()
    {
      var blockName := DxfEscape.EscapeUnicode(name);
      GroupStr(0, "BLOCK");
      WriteHandle();
      if owner.Some? {
        GroupStr(330, owner.value);
      }
      assert groups == OwnerOnto(old(groups) + [Group(0, "BLOCK")] + [HandleGroup(old(nextHandle))], owner);
      GroupStr(100, "AcDbEntity");
      GroupStr(8, "0");
      GroupStr(100, "AcDbBlockBegin");
      GroupStr(2, blockName);
      assert sections == old(sections);
      GroupI32(70, 0);
      GroupF64(10, baseX);
      GroupF64(20, baseY);
      GroupF64(30, 0.0);
      GroupStr(3, blockName);
      GroupStr(1, "");
    }

    /** The ENDBLK entity of `write_block_definition`. */
    method WriteBlockEnd(owner: Option<string>)
      requires Valid()
      modifies this
      ensures Valid()
      ensures groups == BlockEndOnto(old(groups), owner, old(nextHandle))
      ensures sections == old(sections) && !EndsWithOpener(groups)
      ensures nextHandle == old(nextHandle) + 1 && RegistryKept()
    {
      GroupStr(0, "ENDBLK");
      WriteHandle();
      if owner.Some? {
        GroupStr(330, owner.value);
      }
      GroupStr(100, "AcDbEntity");
      GroupStr(8, "0");
      GroupStr(100, "AcDbBlockEnd");
    }

    /** The loop of `write_blocks` over the document's blocks, each owned by its own block record. */
    method WriteBlockDefs(blocks: seq<DxfBlock>)
      requires Valid()
      modifies this
      ensures Valid()
      ensures groups == BlockDefsOnto(old(groups), writeBlock, blocks, blockRecordHandles, old(nextHandle))
      ensures sections == old(sections) && (!EndsWithOpener(old(groups)) ==> !EndsWithOpener(groups))
      ensures nextHandle == old(nextHandle) + BlocksHandleCount(blocks) && RegistryKept()
    {
      for i := 0 to |blocks|
        invariant Valid()
        invariant groups == BlockDefsOnto(old(groups), writeBlock, blocks[..i], blockRecordHandles, old(nextHandle))
        invariant sections == old(sections) && (!EndsWithOpener(old(groups)) ==> !EndsWithOpener(groups))
        invariant nextHandle == old(nextHandle) + BlocksHandleCount(blocks[..i]) && RegistryKept()
      {
        BlockDefsStep(old(groups), writeBlock, blocks, blockRecordHandles, old(nextHandle), i);
        var b := blocks[i];
        var owner := OwnerOf(blockRecordHandles, b.name);
        WriteBlockDefinition(b.name, b.baseX, b.baseY, b.entities, owner);
      }
      Seqs.TakeAll(blocks);
    }

    /** `write_blocks`: the BLOCKS section, the two layouts first. */
    method WriteBlocks(doc: DxfDocument)
      requires Valid()
      modifies this
      ensures Valid()
      ensures groups == BlocksSectionOnto(old(groups), writeBlock, doc.blocks, blockRecordHandles, old(nextHandle))
      ensures sections == old(sections) + [(|old(groups)|, "BLOCKS")] && !EndsWithOpener(groups)
      ensures nextHandle == old(nextHandle) + 4 + BlocksHandleCount(doc.blocks) && RegistryKept()
    {
      ghost var g0, h0 := groups, nextHandle;
      SectionStart("BLOCKS");
      ghost var gS := groups;
      var modelOwner := OwnerOf(blockRecordHandles, "*Model_Space");
      WriteBlockDefinition("*Model_Space", 0.0, 0.0, [], modelOwner);
      ghost var gM := groups;
      var paperOwner := OwnerOf(blockRecordHandles, "*Paper_Space");
      WriteBlockDefinition("*Paper_Space", 0.0, 0.0, [], paperOwner);
      ghost var gP := groups;
      WriteBlockDefs(doc.blocks);
      ghost var gD := groups;
      SectionEnd();
      BlocksParts(g0, writeBlock, doc.blocks, blockRecordHandles, h0, gS, gM, gP, gD, groups);
    }

    // -------------------------------------------------------------------
    // The document
    // -------------------------------------------------------------------

    /** `write_objects`: the OBJECTS section with the root dictionary. */
    method WriteObjects()
      requires Valid()
      modifies this
      ensures Valid()
      ensures groups == ObjectsOnto(old(groups), old(nextHandle))
      ensures sections == old(sections) + [(|old(groups)|, "OBJECTS")] && !EndsWithOpener(groups)
      ensures nextHandle == old(nextHandle) + 1 && RegistryKept()
    {
      SectionStart("OBJECTS");
      GroupStr(0, "DICTIONARY");
      WriteHandle();
      GroupStr(330, "0");
      GroupStr(100, "AcDbDictionary");
      GroupI32(281, 1);
      SectionEnd();
    }

    /** `write_tables`: the LTYPE, LAYER, STYLE and BLOCK_RECORD tables. */
    method WriteTables(doc: DxfDocument)
      requires Valid() && recordsWritten == 0
      modifies this
      ensures Valid() && KeysIn(blockRecordOrder, blockRecordHandles) && KeysIn(LayerKeys(doc.layers), FirstLayers(doc.layers))
      ensures groups == TablesOnto(old(groups), formatReal, LtypeNames(doc), LayerKeys(doc.layers), FirstLayers(doc.layers),
                                   blockRecordOrder, blockRecordHandles, old(nextHandle))
      ensures sections == old(sections) + [(|old(groups)|, "TABLES")] && !EndsWithOpener(groups)
      ensures nextHandle == old(nextHandle) + (1 + |LtypeNames(doc)|) + (2 + |LayerKeys(doc.layers)|) + 3
      ensures blockRecordOrder == old(blockRecordOrder) && blockRecordHandles == old(blockRecordHandles)
      ensures recordsWritten == |blockRecordOrder|
    {
      ghost var g0, h0 := groups, nextHandle;
      SectionStart("TABLES");
      ghost var g1 := groups;
      WriteDocumentTables(doc);
      ghost var g2, h2 := groups, nextHandle;
      WriteFixedTables();
      ghost var g3 := groups;
      SectionEnd();
      TablesParts(g0, formatReal, LtypeNames(doc), LayerKeys(doc.layers), FirstLayers(doc.layers),
                  blockRecordOrder, blockRecordHandles, h0, g1, g2, h2, g3, groups);
    }

    /** The first two tables of `write_tables`. */
    method WriteDocumentTables(doc: DxfDocument)
      requires Valid()
      modifies this
      ensures Valid() && KeysIn(LayerKeys(doc.layers), FirstLayers(doc.layers))
      ensures groups == DocumentTablesOnto(old(groups), formatReal, LtypeNames(doc), LayerKeys(doc.layers), FirstLayers(doc.layers), old(nextHandle))
      ensures sections == old(sections) && !EndsWithOpener(groups)
      ensures nextHandle == old(nextHandle) + (1 + |LtypeNames(doc)|) + (2 + |LayerKeys(doc.layers)|) && RegistryKept()
    {
      ghost var g0, h0 := groups, nextHandle;
      WriteLtypeTable(doc);
      ghost var g1, h1 := groups, nextHandle;
      WriteLayerTable(doc);
      DocumentTablesParts(g0, formatReal, LtypeNames(doc), LayerKeys(doc.layers), FirstLayers(doc.layers), h0, g1, h1, groups);
    }

    /** The last two tables of `write_tables`. */
    method WriteFixedTables()
      requires Valid() && recordsWritten == 0
      modifies this
      ensures Valid() && KeysIn(blockRecordOrder, blockRecordHandles)
      ensures groups == FixedTablesOnto(old(groups), formatReal, blockRecordOrder, blockRecordHandles, old(nextHandle))
      ensures sections == old(sections) && !EndsWithOpener(groups)
      ensures nextHandle == old(nextHandle) + 3
      ensures blockRecordOrder == old(blockRecordOrder) && blockRecordHandles == old(blockRecordHandles)
      ensures recordsWritten == |blockRecordOrder|
    {
      WriteStyleTable();
      WriteBlockRecordTable();
    }

    /** `write_document`: the registry first, then the five sections and EOF. */
    method WriteDocument(doc: DxfDocument)
      requires Valid() && recordsWritten == 0
      modifies this
      ensures Valid()
      ensures Records() == EnsureRegistry(old(Records()), doc).(next := nextHandle)
      ensures KeysIn(blockRecordOrder, blockRecordHandles)
      ensures groups == DocumentOnto(old(groups), formatReal, writeEntity, writeBlock, doc, EnsureRegistry(old(Records()), doc))
      ensures |sections| > |old(sections)| && sections[|old(sections)|] == (|old(groups)|, "HEADER")
      ensures SectionNames(sections) == SectionNames(old(sections)) + SectionOrder
      ensures |groups| > 0 && groups[|groups| - 1] == Group(0, "EOF")
    {
      EnsureBlockRecordTable(doc);
      ghost var g0, h0, order, handles := groups, nextHandle, blockRecordOrder, blockRecordHandles;
      WriteHeader();
      ghost var gH := groups;
      WriteTables(doc);
      ghost var gT, hT := groups, nextHandle;
      WriteBlocks(doc);
      ghost var gB, hB := groups, nextHandle;
      WriteEntities(doc);
      ghost var gE, hE := groups, nextHandle;
      WriteObjects();
      ghost var gO := groups;
      GroupStr(0, "EOF");
      SectionsParts(g0, formatReal, writeEntity, writeBlock, LtypeNames(doc), LayerKeys(doc.layers), FirstLayers(doc.layers), doc.blocks, doc.entities,
                    order, handles, h0, gH, gT, hT, gB, hB, gE, hE, gO, groups);
      assert hT == BlocksStart(doc, h0) && hB == EntitiesStart(doc, h0) && hE == ObjectsStart(doc, h0);
      FiveSections(old(sections), |g0|, |gH|, |gT|, |gB|, |gE|);
    }
  }

  /** The sections of a document, in the order the writer opens them. */
  const SectionOrder: seq<string> := ["HEADER", "TABLES", "BLOCKS", "ENTITIES", "OBJECTS"]

  /**
   * `document_to_string`: a fresh writer writes the document. The text
   * starts with the HEADER section, ends with EOF, opens the five
   * sections in order, and never repeats a handle.
   */
  method DocumentToString(formatReal: real -> string, doc: DxfDocument) returns (text: string)
    ensures text == Render(DocumentGroups(formatReal, doc))
    ensures HeaderStart <= text
    ensures |text| >= |EofEnd| && text[|text| - |EofEnd|..] == EofEnd
    ensures SectionNames(SectionsOf(DocumentGroups(formatReal, doc))) == SectionOrder
    ensures Distinct(HandlesOf(DocumentGroups(formatReal, doc)))
  {
    var w := new AsciiDxfWriter(formatReal);
    w.WriteDocument(doc);
    text := w.Finish();
    DocumentText(w.groups, text);
  }

  /** The five sections' names, whatever their positions. */
  lemma FiveSections(ss: seq<(nat, string)>, p0: nat, p1: nat, p2: nat, p3: nat, p4: nat)
    ensures SectionNames(ss + [(p0, "HEADER")] + [(p1, "TABLES")] + [(p2, "BLOCKS")] + [(p3, "ENTITIES")] + [(p4, "OBJECTS")])
         == SectionNames(ss) + SectionOrder
  {
    SectionNamesAppend(ss, (p0, "HEADER"));
    SectionNamesAppend(ss + [(p0, "HEADER")], (p1, "TABLES"));
    SectionNamesAppend(ss + [(p0, "HEADER")] + [(p1, "TABLES")], (p2, "BLOCKS"));
    SectionNamesAppend(ss + [(p0, "HEADER")] + [(p1, "TABLES")] + [(p2, "BLOCKS")], (p3, "ENTITIES"));
    SectionNamesAppend(ss + [(p0, "HEADER")] + [(p1, "TABLES")] + [(p2, "BLOCKS")] + [(p3, "ENTITIES")], (p4, "OBJECTS"));
  }

  /** A text rendered from groups that open HEADER first and end with EOF starts and ends as a DXF file does. */
  lemma DocumentText(gs: seq<Group>, text: string)
    requires text == Render(gs)
    requires |SectionsOf(gs)| >= 1 && SectionsOf(gs)[0] == (0, "HEADER")
    requires |gs| > 0 && gs[|gs| - 1] == Group(0, "EOF")
    ensures HeaderStart <= text
    ensures |text| >= |EofEnd| && text[|text| - |EofEnd|..] == EofEnd
  {
    SectionOpened(gs, 0);
    RenderStart(gs);
    HeaderStartText();
    RenderEnd(gs);
  }

}

=== FILE: errors.dfy ===
/** The complete set of failures the JWW decoder reports (src/error.rs). */
module JwwErrors {

  datatype JwwError =
    | Io(message: string)                 // file-system failure; only the file helpers raise it
    | InvalidSignature                    // the data does not start with "JwwData."
    | UnexpectedEof(context: string)      // a read ran past the end; the context names what was read
    | EntityListNotFound                  // no entity-list marker in the data
    | UnknownClassPid(pid: nat)           // a class reference to a pid that was never registered
    | UnknownEntityClass(name: string)    // a registered class that is not one of the seven entity kinds

  /** The context every byte-level read reports. */
  const EofBytes := UnexpectedEof("bytes")
}

=== FILE: facade.dfy ===
/**
 * The Python facade over the extension (src/ezjww/__init__.py):
 * `Modelspace.query`, the statistics of a converted document, the
 * `max_block_nesting` check, and the `Drawing` object, which caches one
 * converted document per option pair and audits it.
 */
module Facade {
  import opened Wrappers
  import opened PyText
  import opened PyValues
  import opened Selector

  // ---------------------------------------------------------------------
  // Querying the model space
  // ---------------------------------------------------------------------

  /** `str(e.get("type", "")).upper()`. */
  function TypeName(e: PyRow): string {
    Upper(Str(Get(e, "type", PyStr(""))))
  }

  /** `str(e.get("layer", ""))`. */
  function LayerName(e: PyRow): string {
    Str(Get(e, "layer", PyStr("")))
  }

  /** `int(e.get("color", -1))`, which may raise. */
  function ColorNumber(e: PyRow): Result<int, PyError> {
    Int(Get(e, "color", PyInt(-1)))
  }

  /** `[e for e in es if str(e.get("type", "")).upper() in types]`. */
  function KeepTypes(es: seq<PyRow>, types: set<string>): seq<PyRow> {
    if es == [] then [] else (if TypeName(es[0]) in types then [es[0]] else []) + KeepTypes(es[1..], types)
  }

  /** `[e for e in es if str(e.get("layer", "")) == layer]`. */
  function KeepLayer(es: seq<PyRow>, layer: string): seq<PyRow> {
    if es == [] then [] else (if LayerName(es[0]) == layer then [es[0]] else []) + KeepLayer(es[1..], layer)
  }

  /** `[e for e in es if int(e.get("color", -1)) == color]`: the first colour that is not an integer raises. */
  function KeepColor(es: seq<PyRow>, color: int): Result<seq<PyRow>, PyError> {
    if es == [] then Ok([])
    else
      var c :- ColorNumber(es[0]);
      var rest :- KeepColor(es[1..], color);
      Ok((if c == color then [es[0]] else []) + rest)
  }

  /**
   * `Modelspace.query`: the selector is parsed first; an explicit layer or
   * colour replaces the selector's; then the entities are filtered by
   * type, by layer and by colour, in that order.
   */
  function Query(entities: seq<PyRow>, selector: Option<string>, layer: Option<string>, color: Option<int>)
    : (r: Result<seq<PyRow>, PyError>)
    ensures QuerySelector(selector).Err? ==> r == Err(QuerySelector(selector).error)
  {
    var (types, selectorLayer, selectorColor) :- QuerySelector(selector);
    var layer' := if layer.None? then selectorLayer else layer;
    var color' := if color.None? then selectorColor else color;
    Filters(entities, types, layer', color')
  }

  /** The three filters of `Modelspace.query`, each applied when it is set. */
  function Filters(entities: seq<PyRow>, types: Option<set<string>>, layer: Option<string>, color: Option<int>)
    : Result<seq<PyRow>, PyError>
  {
    var byLayer := FirstTwo(entities, types, layer);
    if color.Some? then KeepColor(byLayer, color.value) else Ok(byLayer)
  }

  predicate TypeOk(e: PyRow, types: Option<set<string>>) {
    types.None? || TypeName(e) in types.value
  }

  predicate LayerOk(e: PyRow, layer: Option<string>) {
    layer.None? || LayerName(e) == layer.value
  }

  /** `e` passes every filter that is set. */
  predicate Matches(e: PyRow, types: Option<set<string>>, layer: Option<string>, color: Option<int>) {
    && TypeOk(e, types) && LayerOk(e, layer)
    && (color.None? || ColorNumber(e) == Ok(color.value))
  }

  /** `xs` is `ys` with some elements left out, in the same order. */
  predicate IsSubsequence(xs: seq<PyRow>, ys: seq<PyRow>)
    decreases |ys|
  {
    if ys == [] then xs == []
    else (xs != [] && xs[0] == ys[0] && IsSubsequence(xs[1..], ys[1..])) || IsSubsequence(xs, ys[1..])
  }

  /** One pass keeping the entities that pass every filter, the reference for the three passes. */
  function Matching(es: seq<PyRow>, types: Option<set<string>>, layer: Option<string>, color: Option<int>)
    : (r: seq<PyRow>)
    ensures IsSubsequence(r, es)
  {
    if es == [] then []
    else
      var rest := Matching(es[1..], types, layer, color);
      if Matches(es[0], types, layer, color) then [es[0]] + rest else rest
  }

  /** The entities that are not dropped before the colour filter and whose colour is not an integer. */
  predicate ColorFails(e: PyRow, types: Option<set<string>>, layer: Option<string>) {
    TypeOk(e, types) && LayerOk(e, layer) && ColorNumber(e).Err?
  }

  /** The entities whose colour converts to `color`, in order. */
  function ColorMatching(es: seq<PyRow>, color: int): seq<PyRow> {
    if es == [] then [] else (if ColorNumber(es[0]) == Ok(color) then [es[0]] else []) + ColorMatching(es[1..], color)
  }

  /** The colour pass raises exactly when some colour is not an integer, and otherwise keeps the matching colours. */
  lemma {:induction false} KeepColorSpec(es: seq<PyRow>, color: int)
    ensures KeepColor(es, color).Err? <==> exists k :: 0 <= k < |es| && ColorNumber(es[k]).Err?
    ensures KeepColor(es, color).Ok? ==> KeepColor(es, color).value == ColorMatching(es, color)
    decreases |es|
  {
    if es != [] {
      var rest := es[1..];
      KeepColorSpec(rest, color);
      if k :| 0 <= k < |rest| && ColorNumber(rest[k]).Err? {
        assert ColorNumber(es[k + 1]).Err?;
      }
      if k :| 0 <= k < |es| && ColorNumber(es[k]).Err? {
        if k > 0 {
          assert ColorNumber(rest[k - 1]).Err?;
        }
      }
    }
  }

  /** The type and layer passes keep exactly the entities that pass those two filters. */
  lemma {:induction false} FirstTwoMatching(es: seq<PyRow>, types: Option<set<string>>, layer: Option<string>)
    ensures FirstTwo(es, types, layer) == Matching(es, types, layer, None)
    decreases |es|
  {
    if es != [] {
      FirstTwoMatching(es[1..], types, layer);
      FirstTwoStep(es, types, layer);
    }
  }

  /** Filtering by colour after the other filters is filtering by all of them. */
  lemma {:induction false} MatchingColor(es: seq<PyRow>, types: Option<set<string>>, layer: Option<string>, color: int)
    ensures Matching(es, types, layer, Some(color)) == ColorMatching(Matching(es, types, layer, None), color)
    decreases |es|
  {
    if es != [] {
      var e := es[0];
      MatchingColor(es[1..], types, layer, color);
      var m := Matching(es, types, layer, None);
      var m' := Matching(es[1..], types, layer, None);
      if TypeOk(e, types) && LayerOk(e, layer) {
        assert m == [e] + m';
        assert m[0] == e && m[1..] == m';
      } else {
        assert m == m';
      }
    }
  }

  /**
   * The three passes keep exactly the entities that pass every filter, in
   * order; they raise exactly when a colour is asked for and an entity
   * that survived the type and layer filters has a colour that is not an
   * integer.
   */
  lemma FiltersMatching(es: seq<PyRow>, types: Option<set<string>>, layer: Option<string>, color: Option<int>)
    ensures Filters(es, types, layer, color).Err? <==>
      color.Some? && exists k :: 0 <= k < |es| && ColorFails(es[k], types, layer)
    ensures Filters(es, types, layer, color).Ok? ==> Filters(es, types, layer, color).value == Matching(es, types, layer, color)
  {
    var first := FirstTwo(es, types, layer);
    FirstTwoMatching(es, types, layer);
    if color.Some? {
      KeepColorSpec(first, color.value);
      MatchingColor(es, types, layer, color.value);
      if k :| 0 <= k < |first| && ColorNumber(first[k]).Err? {
        MatchingMembers(es, types, layer, None, first[k]);
        var j :| 0 <= j < |es| && es[j] == first[k];
        assert ColorFails(es[j], types, layer);
      }
      if j :| 0 <= j < |es| && ColorFails(es[j], types, layer) {
        MatchingMembers(es, types, layer, None, es[j]);
        var k :| 0 <= k < |first| && first[k] == es[j];
        assert ColorNumber(first[k]).Err?;
      }
    }
  }

  /** The entities that survive the type and layer filters. */
  function FirstTwo(es: seq<PyRow>, types: Option<set<string>>, layer: Option<string>): seq<PyRow> {
    var byType := if types.Some? then KeepTypes(es, types.value) else es;
    if layer.Some? then KeepLayer(byType, layer.value) else byType
  }

  lemma FirstTwoStep(es: seq<PyRow>, types: Option<set<string>>, layer: Option<string>)
    requires es != []
    ensures FirstTwo(es, types, layer) ==
      (if TypeOk(es[0], types) && LayerOk(es[0], layer) then [es[0]] else []) + FirstTwo(es[1..], types, layer)
  {
    var e := es[0];
    var byType := if types.Some? then KeepTypes(es, types.value) else es;
    var byType' := if types.Some? then KeepTypes(es[1..], types.value) else es[1..];
    assert byType == (if TypeOk(e, types) then [e] else []) + byType';
    if layer.Some? {
      if TypeOk(e, types) {
        assert byType[0] == e && byType[1..] == byType';
      } else {
        assert byType == byType';
      }
    }
  }

  /** Every element of `Matching` is an entity that passes every filter, and every such entity is kept. */
  lemma {:induction false} MatchingMembers(es: seq<PyRow>, types: Option<set<string>>, layer: Option<string>, color: Option<int>, e: PyRow)
    ensures e in Matching(es, types, layer, color) <==> e in es && Matches(e, types, layer, color)
    decreases |es|
  {
    if es != [] {
      MatchingMembers(es[1..], types, layer, color, e);
      assert es == [es[0]] + es[1..];
    }
  }

  /**
   * `Modelspace.query` answers the entities, in their order, that have
   * one of the selected types, the effective layer and the effective
   * colour, where an explicit layer or colour replaces the selector's.
   */
  lemma QueryResult(entities: seq<PyRow>, selector: Option<string>, layer: Option<string>, color: Option<int>)
    requires Query(entities, selector, layer, color).Ok?
    ensures QuerySelector(selector).Ok?
    ensures
      var (types, selectorLayer, selectorColor) := QuerySelector(selector).value;
      var layer' := if layer.Some? then layer else selectorLayer;
      var color' := if color.Some? then color else selectorColor;
      var r := Query(entities, selector, layer, color).value;
      && IsSubsequence(r, entities)
      && (forall e :: e in r <==> e in entities && Matches(e, types, layer', color'))
  {
    var (types, selectorLayer, selectorColor) := QuerySelector(selector).value;
    var layer' := if layer.Some? then layer else selectorLayer;
    var color' := if color.Some? then color else selectorColor;
    FiltersMatching(entities, types, layer', color');
    forall e {
      MatchingMembers(entities, types, layer', color', e);
    }
  }

  // ---------------------------------------------------------------------
  // Statistics
  // ---------------------------------------------------------------------

  /** The `by_type` key of an entity: its type upper-cased, `UNKNOWN` when empty. */
  function TypeKey(e: PyRow): (k: string)
    ensures k != []
  {
    var t := Upper(Str(Get(e, "type", PyStr(""))));
    if t == [] then "UNKNOWN" else t
  }

  /** The `by_layer` key of an entity: its layer, `0` when missing or empty. */
  function LayerKey(e: PyRow): (k: string)
    ensures k != []
  {
    var l := Str(Get(e, "layer", PyStr("0")));
    if l == [] then "0" else l
  }

  /** The `by_color` key of an entity: its colour as an integer, 256 (BYLAYER) when missing or not an integer. */
  function ColorKey(e: PyRow): int {
    match Int(Get(e, "color", PyInt(256)))
    case Ok(c) => c
    case Err(_) => 256
  }

  /** The key of each entity, in order. */
  function KeysOf<K>(es: seq<PyRow>, key: PyRow -> K): (r: seq<K>)
    ensures |r| == |es| && forall i :: 0 <= i < |es| ==> r[i] == key(es[i])
  {
    if es == [] then [] else KeysOf(es[..|es| - 1], key) + [key(es[|es| - 1])]
  }

  function TypeKeys(es: seq<PyRow>): seq<string> {
    KeysOf(es, TypeKey)
  }

  function LayerKeys(es: seq<PyRow>): seq<string> {
    KeysOf(es, LayerKey)
  }

  function ColorKeys(es: seq<PyRow>): seq<int> {
    KeysOf(es, ColorKey)
  }

  /** `counter[key] += 1`. */
  function Bump<K>(counter: map<K, nat>, key: K): map<K, nat> {
    counter[key := if key in counter then counter[key] + 1 else 1]
  }

  /** A `Counter` fed the keys in order. */
  function Tally<K>(keys: seq<K>): (counter: map<K, nat>)
    ensures forall k :: k in counter ==> 1 <= counter[k] <= |keys|
  {
    if keys == [] then map[] else Bump(Tally(keys[..|keys| - 1]), keys[|keys| - 1])
  }

  /** The sum of the counts of a counter. */
  ghost function MapSum<K>(m: map<K, nat>): nat
    decreases |m|
  {
    if m == map[] then 0
    else
      var k := PickKey(m);
      assert |m - {k}| < |m| by {
        assert (m - {k}).Keys == m.Keys - {k};
      }
      m[k] + MapSum(m - {k})
  }

  ghost function PickKey<K>(m: map<K, nat>): (k: K)
    requires m != map[]
    ensures k in m
  {
    assert m.Keys != {} by {
      var k :| k in m;
    }
    var k :| k in m.Keys; k
  }

  /** Any key may be counted first. */
  lemma {:induction false} MapSumRemove<K>(m: map<K, nat>, k: K)
    requires k in m
    ensures MapSum(m) == m[k] + MapSum(m - {k})
    decreases |m|
  {
    var j := PickKey(m);
    if j != k {
      var mj := m - {j};
      var mk := m - {k};
      assert (mj).Keys == m.Keys - {j};
      assert (mk).Keys == m.Keys - {k};
      MapSumRemove(mj, k);
      MapSumRemove(mk, j);
      assert mj - {k} == mk - {j};
    }
  }

  /** Counting one more key adds one to the sum. */
  lemma BumpSum<K>(m: map<K, nat>, key: K)
    ensures MapSum(Bump(m, key)) == MapSum(m) + 1
  {
    var b := Bump(m, key);
    MapSumRemove(b, key);
    if key in m {
      MapSumRemove(m, key);
      assert b - {key} == m - {key};
    } else {
      assert b - {key} == m;
    }
  }

  /**
   * `counter` is the `Counter` of `keys`: it holds exactly the keys, each
   * with the number of times it occurs, and its counts sum to the number
   * of keys.
   */
  ghost predicate CountsOf<K(!new)>(counter: map<K, nat>, keys: seq<K>) {
    && (forall k :: k in counter <==> k in keys)
    && (forall k :: k in counter ==> counter[k] == multiset(keys)[k])
    && MapSum(counter) == |keys|
  }

  /** Feeding the keys one by one to a `Counter` counts them. */
  lemma {:induction false} TallySpec<K(!new)>(keys: seq<K>)
    ensures CountsOf(Tally(keys), keys)
    decreases |keys|
  {
    if keys != [] {
      var init := keys[..|keys| - 1];
      var last := keys[|keys| - 1];
      TallySpec(init);
      BumpSum(Tally(init), last);
      assert keys == init + [last];
      assert multiset(keys) == multiset(init) + multiset{last};
    }
  }

  /** A `Counter` holds exactly the keys it was fed. */
  lemma TallyKeys<K(!new)>(keys: seq<K>)
    ensures forall k :: k in Tally(keys) <==> k in keys
  {
    TallySpec(keys);
  }

  /** What `_dxf_stats` answers; the key order of its dictionaries is not modelled. */
  datatype Stats = Stats(
    entityCount: nat,
    typeCount: nat,
    layerCount: nat,
    colorCount: nat,
    byType: map<string, nat>,
    byLayer: map<string, nat>,
    byColor: map<int, nat>)

  /** The statistics of a list of entities. */
  function StatsOf(es: seq<PyRow>): Stats {
    var byType := Tally(TypeKeys(es));
    var byLayer := Tally(LayerKeys(es));
    var byColor := Tally(ColorKeys(es));
    Stats(|es|, |byType|, |byLayer|, |byColor|, byType, byLayer, byColor)
  }

  /** Counting one more entity bumps each counter by that entity's key. */
  lemma StatsStep(es: seq<PyRow>, i: nat)
    requires i < |es|
    ensures Tally(TypeKeys(es[..i + 1])) == Bump(Tally(TypeKeys(es[..i])), TypeKey(es[i]))
    ensures Tally(LayerKeys(es[..i + 1])) == Bump(Tally(LayerKeys(es[..i])), LayerKey(es[i]))
    ensures Tally(ColorKeys(es[..i + 1])) == Bump(Tally(ColorKeys(es[..i])), ColorKey(es[i]))
  {
    var prefix := es[..i + 1];
    assert prefix[..i] == es[..i];
    assert TypeKeys(prefix) == TypeKeys(es[..i]) + [TypeKey(es[i])];
    assert LayerKeys(prefix) == LayerKeys(es[..i]) + [LayerKey(es[i])];
    assert ColorKeys(prefix) == ColorKeys(es[..i]) + [ColorKey(es[i])];
  }

  /** `_dxf_stats`: one pass over the entities, bumping three counters. */
  method DxfStats(es: seq<PyRow>) returns (s: Stats)
    ensures s == StatsOf(es)
  {
    var byType: map<string, nat> := map[];
    var byLayer: map<string, nat> := map[];
    var byColor: map<int, nat> := map[];
    var i := 0;
    while i < |es|
      invariant 0 <= i <= |es|
      invariant byType == Tally(TypeKeys(es[..i]))
      invariant byLayer == Tally(LayerKeys(es[..i]))
      invariant byColor == Tally(ColorKeys(es[..i]))
    {
      var e := es[i];
      StatsStep(es, i);
      byType := Bump(byType, TypeKey(e));
      byLayer := Bump(byLayer, LayerKey(e));
      byColor := Bump(byColor, ColorKey(e));
      i := i + 1;
    }
    assert es[..i] == es;
    return Stats(|es|, |byType|, |byLayer|, |byColor|, byType, byLayer, byColor);
  }


  /**
   * `_dxf_stats` counts every entity once under its type, once under its
   * layer and once under its colour: each counter sums to the number of
   * entities.
   */
  lemma StatsCounts(es: seq<PyRow>)
    ensures StatsOf(es).entityCount == |es|
    ensures CountsOf(StatsOf(es).byType, TypeKeys(es))
    ensures CountsOf(StatsOf(es).byLayer, LayerKeys(es))
    ensures CountsOf(StatsOf(es).byColor, ColorKeys(es))
  {
    TallySpec(TypeKeys(es));
    TallySpec(LayerKeys(es));
    TallySpec(ColorKeys(es));
  }

  /** No entity counts under an empty type: a missing or empty type counts as `UNKNOWN`. */
  lemma StatsTypeKeys(es: seq<PyRow>)
    ensures "" !in StatsOf(es).byType
    ensures forall i :: 0 <= i < |es| && Upper(Str(Get(es[i], "type", PyStr("")))) == "" ==> "UNKNOWN" in StatsOf(es).byType
  {
    var keys := TypeKeys(es);
    TallyKeys(keys);
    forall i | 0 <= i < |es| && Upper(Str(Get(es[i], "type", PyStr("")))) == "" ensures "UNKNOWN" in keys {
      assert keys[i] == "UNKNOWN";
    }
  }

  /** No entity counts under an empty layer: a missing or empty layer counts as `0`. */
  lemma StatsLayerKeys(es: seq<PyRow>)
    ensures "" !in StatsOf(es).byLayer
    ensures forall i :: 0 <= i < |es| && Str(Get(es[i], "layer", PyStr("0"))) == "" ==> "0" in StatsOf(es).byLayer
  {
    var keys := LayerKeys(es);
    TallyKeys(keys);
    forall i | 0 <= i < |es| && Str(Get(es[i], "layer", PyStr("0"))) == "" ensures "0" in keys {
      assert keys[i] == "0";
    }
  }

  /** A colour that is missing or not an integer counts as 256. */
  lemma StatsColorKeys(es: seq<PyRow>)
    ensures forall i :: 0 <= i < |es| && Int(Get(es[i], "color", PyInt(256))).Err? ==> 256 in StatsOf(es).byColor
  {
    var keys := ColorKeys(es);
    TallyKeys(keys);
    forall i | 0 <= i < |es| && Int(Get(es[i], "color", PyInt(256))).Err? ensures 256 in keys {
      assert keys[i] == 256;
    }
  }

  // ---------------------------------------------------------------------
  // The nesting option
  // ---------------------------------------------------------------------

  /** `_normalize_max_block_nesting`: the value, or `ValueError` when it is below 1. */
  function NormalizeMaxBlockNesting(value: int): (r: Result<int, PyError>)
    ensures r.Ok? <==> value >= 1
    ensures r.Ok? ==> r.value == value
    ensures r.Err? ==> r.error == ValueError(MaxBlockNestingBelowOne)
  {
    if value < 1 then Err(ValueError(MaxBlockNestingBelowOne)) else Ok(value)
  }

  // ---------------------------------------------------------------------
  // The drawing
  // ---------------------------------------------------------------------

  /** A converted document as the extension returns it. */
  datatype PyDxf = PyDxf(layers: seq<PyRow>, entities: seq<PyRow>, blocks: seq<PyRow>, unsupported: seq<string>)

  /** The document of a drawing that has no source file. */
  const EmptyDxf := PyDxf([], [], [], [])

  /** The default options, under which a given document is cached. */
  const DefaultKey: (bool, int) := (false, 32)

  /** `read_dxf_document(path, explode_inserts, nesting)`, the extension's conversion, which may raise. */
  type Reader = (string, bool, int) -> Result<PyDxf, PyError>

  /**
   * The cache step of `Drawing.to_dxf`: the answer and the cache after it.
   * The option is checked first; a missing entry is the empty document
   * without a source, or the conversion of the source; a conversion that
   * raises leaves the cache as it was.
   */
  function CacheLookup(cache: map<(bool, int), PyDxf>, source: Option<string>, explode: bool, maxNesting: int, read: Reader)
    : (Result<PyDxf, PyError>, map<(bool, int), PyDxf>)
  {
    match NormalizeMaxBlockNesting(maxNesting)
    case Err(e) => (Err(e), cache)
    case Ok(nesting) =>
      var key := (explode, nesting);
      if key in cache then (Ok(cache[key]), cache)
      else if source.None? then (Ok(EmptyDxf), cache[key := EmptyDxf])
      else
        match read(source.value, explode, nesting)
        case Err(e) => (Err(e), cache)
        case Ok(doc) => (Ok(doc), cache[key := doc])
  }

  /**
   * A lookup keeps every cached entry, adds at most its own key, with a
   * nesting of at least 1, and on success answers what the new cache
   * holds under that key.
   */
  lemma CacheLookupKeeps(cache: map<(bool, int), PyDxf>, source: Option<string>, explode: bool, maxNesting: int, read: Reader)
    ensures var (r, cache') := CacheLookup(cache, source, explode, maxNesting, read);
      && (forall key :: key in cache ==> key in cache' && cache'[key] == cache[key])
      && (forall key :: key in cache' && key !in cache ==> key == (explode, maxNesting) && maxNesting >= 1)
      && (r.Ok? ==> (explode, maxNesting) in cache' && r.value == cache'[(explode, maxNesting)])
  {
  }

  /**
   * Asking again with the same options answers the same document from the
   * cache, without converting, whatever the conversion would now do.
   */
  lemma CacheLookupRepeat(cache: map<(bool, int), PyDxf>, source: Option<string>, explode: bool, maxNesting: int, read: Reader, read': Reader)
    requires CacheLookup(cache, source, explode, maxNesting, read).0.Ok?
    ensures var (r, cache') := CacheLookup(cache, source, explode, maxNesting, read);
      CacheLookup(cache', source, explode, maxNesting, read') == (r, cache')
  {
  }

  /** Without a source, a cache of empty documents answers the empty document for every valid option and stays so. */
  lemma CacheLookupNoSource(cache: map<(bool, int), PyDxf>, explode: bool, maxNesting: int, read: Reader)
    requires forall key :: key in cache ==> cache[key] == EmptyDxf
    ensures var (r, cache') := CacheLookup(cache, None, explode, maxNesting, read);
      && (maxNesting >= 1 ==> r == Ok(EmptyDxf))
      && (maxNesting < 1 ==> r == Err(ValueError(MaxBlockNestingBelowOne)))
      && (forall key :: key in cache' ==> cache'[key] == EmptyDxf)
  {
  }

  /** The validation summary of a JW_CAD document: the unresolved definition numbers and the reference counts. */
  datatype Validation = Validation(unresolved: seq<int>, totalReferences: int, resolvedReferences: int)

  /** What `Drawing.audit` answers. */
  datatype AuditReport = AuditReport(
    sourcePath: Option<string>,
    totalReferences: int,
    resolvedReferences: int,
    unresolved: seq<int>,
    unresolvedCount: nat,
    unsupported: seq<string>,
    unsupportedCount: nat,
    issueCodes: seq<string>,
    hasIssues: bool,
    warnings: seq<string>)

  const UnresolvedCode := "UNRESOLVED_BLOCK_REFERENCES"
  const UnsupportedCode := "UNSUPPORTED_DXF_ENTITIES"
  const UnresolvedWarning := "unresolved block references detected"
  const UnsupportedWarning := "unsupported entities exist for DXF conversion"

  /**
   * The report of `Drawing.audit` for a converted document and the
   * validation of the drawing's JW_CAD document (none for a drawing
   * without one): the issue codes name the unresolved references first
   * and the unsupported entities second, one warning per code.
   */
  function AuditOf(sourcePath: Option<string>, validation: Option<Validation>, dxf: PyDxf): (a: AuditReport)
    ensures a.hasIssues <==> a.unresolved != [] || a.unsupported != []
    ensures a.hasIssues <==> a.issueCodes != []
    ensures UnresolvedCode in a.issueCodes <==> a.unresolved != []
    ensures UnsupportedCode in a.issueCodes <==> a.unsupported != []
    ensures a.unresolved != [] ==> a.issueCodes[0] == UnresolvedCode
    ensures |a.issueCodes| <= 2 && |a.warnings| == |a.issueCodes|
    ensures forall i :: 0 <= i < |a.issueCodes| ==>
      a.warnings[i] == (if a.issueCodes[i] == UnresolvedCode then UnresolvedWarning else UnsupportedWarning)
    ensures a.unresolvedCount == |a.unresolved| && a.unsupportedCount == |a.unsupported|
    ensures a.unsupported == dxf.unsupported
    ensures validation.None? ==> a.unresolved == [] && a.totalReferences == 0 && a.resolvedReferences == 0
    ensures validation.Some? ==> a.unresolved == validation.value.unresolved
  {
    var (unresolved, total, resolved) :=
      if validation.Some? then (validation.value.unresolved, validation.value.totalReferences, validation.value.resolvedReferences)
      else ([], 0, 0);
    var unsupported := dxf.unsupported;
    var codes := (if unresolved != [] then [UnresolvedCode] else []) + (if unsupported != [] then [UnsupportedCode] else []);
    var warnings := (if unresolved != [] then [UnresolvedWarning] else []) + (if unsupported != [] then [UnsupportedWarning] else []);
    AuditReport(sourcePath, total, resolved, unresolved, |unresolved|, unsupported, |unsupported|, codes, unresolved != [] || unsupported != [], warnings)
  }

  /**
   * A drawing: the path it was read from (none for a new one), the
   * validation of its JW_CAD document (none without one), and the
   * converted documents it has cached per `(explode_inserts, nesting)`.
   */
  class Drawing {
    const sourcePath: Option<string>
    const validation: Option<Validation>
    var cache: map<(bool, int), PyDxf>

    /** Every cached document is under a nesting of at least 1. */
    ghost predicate Valid()
      reads this
    {
      forall key :: key in cache ==> key.1 >= 1
    }

    /** `Drawing.__init__`: a given converted document is cached under the default options. */
    constructor (sourcePath: Option<string>, validation: Option<Validation>, dxf: Option<PyDxf>)
      ensures this.sourcePath == sourcePath && this.validation == validation
      ensures cache == if dxf.Some? then map[DefaultKey := dxf.value] else map[]
      ensures Valid()
    {
      this.sourcePath := sourcePath;
      this.validation := validation;
      cache := if dxf.Some? then map[DefaultKey := dxf.value] else map[];
    }

    /** `Drawing.new`: no source, no JW_CAD document, and an empty document cached. */
    static method New() returns (d: Drawing)
      ensures fresh(d) && d.Valid()
      ensures d.sourcePath.None? && d.validation.None?
      ensures d.cache == map[DefaultKey := EmptyDxf]
    {
      d := new Drawing(None, None, Some(EmptyDxf));
    }

    /** `Drawing.to_dxf`: the cached document for the options, converting it on a miss. */
    method ToDxf(explode: bool, maxNesting: int, read: Reader) returns (r: Result<PyDxf, PyError>)
      requires Valid()
      modifies this
      ensures Valid()
      ensures (r, cache) == CacheLookup(old(cache), sourcePath, explode, maxNesting, read)
    {
      var nesting := NormalizeMaxBlockNesting(maxNesting);
      if nesting.Err? {
        return Err(nesting.error);
      }
      var key := (explode, nesting.value);
      if key !in cache {
        if sourcePath.None? {
          cache := cache[key := EmptyDxf];
        } else {
          var doc := read(sourcePath.value, explode, nesting.value);
          if doc.Err? {
            return Err(doc.error);
          }
          cache := cache[key := doc.value];
        }
      }
      return Ok(cache[key]);
    }

    /** `Drawing.modelspace`: the entities of the cached document. */
    method Modelspace(explode: bool, maxNesting: int, read: Reader) returns (r: Result<seq<PyRow>, PyError>)
      requires Valid()
      modifies this
      ensures Valid()
      ensures var (doc, cache') := CacheLookup(old(cache), sourcePath, explode, maxNesting, read);
        && cache == cache'
        && r == (if doc.Ok? then Ok(doc.value.entities) else Err(doc.error))
    {
      var doc := ToDxf(explode, maxNesting, read);
      if doc.Err? {
        return Err(doc.error);
      }
      return Ok(doc.value.entities);
    }

    /** `Drawing.audit`: the report of the cached document. */
    method Audit(explode: bool, maxNesting: int, read: Reader) returns (r: Result<AuditReport, PyError>)
      requires Valid()
      modifies this
      ensures Valid()
      ensures var (doc, cache') := CacheLookup(old(cache), sourcePath, explode, maxNesting, read);
        && cache == cache'
        && r == (if doc.Ok? then Ok(AuditOf(sourcePath, validation, doc.value)) else Err(doc.error))
    {
      var doc := ToDxf(explode, maxNesting, read);
      if doc.Err? {
        return Err(doc.error);
      }
      return Ok(AuditOf(sourcePath, validation, doc.value));
    }

    /** `Drawing.stats`: the statistics of the cached document. */
    method Stats(explode: bool, maxNesting: int, read: Reader) returns (r: Result<Stats, PyError>)
      requires Valid()
      modifies this
      ensures Valid()
      ensures var (doc, cache') := CacheLookup(old(cache), sourcePath, explode, maxNesting, read);
        && cache == cache'
        && r == (if doc.Ok? then Ok(StatsOf(doc.value.entities)) else Err(doc.error))
    {
      var doc := ToDxf(explode, maxNesting, read);
      if doc.Err? {
        return Err(doc.error);
      }
      var s := DxfStats(doc.value.entities);
      return Ok(s);
    }
  }

  /** A new drawing answers the empty document, with no issues, for every valid option, however often it is asked. */
  lemma NewDrawingEmpty(cache: map<(bool, int), PyDxf>, explode: bool, maxNesting: int, read: Reader)
    requires forall key :: key in cache ==> cache[key] == EmptyDxf
    requires maxNesting >= 1
    ensures CacheLookup(cache, None, explode, maxNesting, read).0 == Ok(EmptyDxf)
    ensures !AuditOf(None, None, EmptyDxf).hasIssues
    ensures StatsOf(EmptyDxf.entities).entityCount == 0 && StatsOf(EmptyDxf.entities).byType == map[]
  {
    CacheLookupNoSource(cache, explode, maxNesting, read);
  }
}

=== FILE: format.dfy ===
/**
 * The text renderings of integers the converter and the writer use:
 * Rust's `{}` (decimal), `{:X}` (upper-case hexadecimal, no leading zeros),
 * `{:04X}` (zero-padded to four digits) and `{:>3}` (right-aligned to
 * width three), each with the parser that inverts it.
 */
module Format {

  predicate IsDigit(c: char) { '0' <= c <= '9' }

  predicate IsHexUpperDigit(c: char) { '0' <= c <= '9' || 'A' <= c <= 'F' }

  function HexDigit(d: nat): (c: char)
    requires d < 16
    ensures IsHexUpperDigit(c)
    ensures HexDigitValue(c) == d
  {
    if d < 10 then '0' + d as char else 'A' + (d - 10) as char
  }

  function HexDigitValue(c: char): (d: nat)
    requires IsHexUpperDigit(c)
    ensures d < 16
  {
    if c <= '9' then (c - '0') as nat else (c - 'A') as nat + 10
  }

  /** Value of a string of upper-case hexadecimal digits, most significant first. */
  function HexValue(s: string): nat
    requires forall i :: 0 <= i < |s| ==> IsHexUpperDigit(s[i])
  {
    if s == [] then 0 else 16 * HexValue(s[..|s| - 1]) + HexDigitValue(s[|s| - 1])
  }

  /** `format!("{:X}", n)`: at least one digit, no leading zero unless the value is zero. */
  function HexUpper(n: nat): (s: string)
    ensures |s| >= 1
    ensures forall i :: 0 <= i < |s| ==> IsHexUpperDigit(s[i])
    ensures s[0] == '0' <==> n == 0
    ensures |s| == 1 <==> n < 16
  {
    if n < 16 then [HexDigit(n)] else HexUpper(n / 16) + [HexDigit(n % 16)]
  }

  /** Reading the hexadecimal rendering back gives the number. */
  lemma {:induction false} HexUpperRoundTrip(n: nat)
    ensures HexValue(HexUpper(n)) == n
  {
    if n >= 16 {
      var s := HexUpper(n);
      assert s[..|s| - 1] == HexUpper(n / 16);
      HexUpperRoundTrip(n / 16);
    }
  }

  /** Distinct numbers have distinct hexadecimal renderings (the writer's handles never clash). */
  lemma HexUpperInjective(m: nat, n: nat)
    requires HexUpper(m) == HexUpper(n)
    ensures m == n
  {
    HexUpperRoundTrip(m);
    HexUpperRoundTrip(n);
  }

  function Zeros(k: nat): (s: string)
    ensures |s| == k && forall i :: 0 <= i < k ==> s[i] == '0'
  {
    if k == 0 then "" else "0" + Zeros(k - 1)
  }

  lemma {:induction false} HexValueLeadingZeros(k: nat, s: string)
    requires forall i :: 0 <= i < |s| ==> IsHexUpperDigit(s[i])
    ensures HexValue(Zeros(k) + s) == HexValue(s)
    decreases |s|
  {
    if s == [] {
      ZerosValue(k);
      assert Zeros(k) + s == Zeros(k);
    } else {
      var t := Zeros(k) + s;
      assert t[..|t| - 1] == Zeros(k) + s[..|s| - 1];
      HexValueLeadingZeros(k, s[..|s| - 1]);
    }
  }

  lemma {:induction false} ZerosValue(k: nat)
    ensures HexValue(Zeros(k)) == 0
  {
    if k > 0 {
      assert Zeros(k)[..k - 1] == Zeros(k - 1);
      ZerosValue(k - 1);
    }
  }

  /** `format!("{:04X}", n)`: four digits or more, same value. */
  function Hex4(n: nat): (s: string)
    ensures |s| == if |HexUpper(n)| < 4 then 4 else |HexUpper(n)|
    ensures forall i :: 0 <= i < |s| ==> IsHexUpperDigit(s[i])
    ensures HexValue(s) == n
  {
    var h := HexUpper(n);
    HexUpperRoundTrip(n);
    HexValueLeadingZeros(if |h| < 4 then 4 - |h| else 0, h);
    Zeros(if |h| < 4 then 4 - |h| else 0) + h
  }

  /** Value of a non-empty string of decimal digits. */
  function DecimalValue(s: string): nat
    requires forall i :: 0 <= i < |s| ==> IsDigit(s[i])
  {
    if s == [] then 0
    else
      assert IsDigit(s[|s| - 1]);
      10 * DecimalValue(s[..|s| - 1]) + (s[|s| - 1] as int - '0' as int)
  }

  /** `format!("{}", n)` for a non-negative number. */
  function NatToString(n: nat): (s: string)
    ensures |s| >= 1
    ensures forall i :: 0 <= i < |s| ==> IsDigit(s[i])
    ensures s[0] == '0' <==> n == 0
  {
    if n < 10 then ['0' + n as char] else NatToString(n / 10) + ['0' + (n % 10) as char]
  }

  lemma {:induction false} NatToStringRoundTrip(n: nat)
    ensures DecimalValue(NatToString(n)) == n
  {
    if n >= 10 {
      var s := NatToString(n);
      assert s[..|s| - 1] == NatToString(n / 10);
      NatToStringRoundTrip(n / 10);
    }
  }

  /** `format!("{}", i)` for any integer: a minus sign in front of negative values. */
  function IntToString(i: int): (s: string)
    ensures |s| >= 1 && (i < 0 <==> s[0] == '-')
    ensures i < 0 ==> s[1..] == NatToString(-i)
    ensures i >= 0 ==> s == NatToString(i)
  {
    if i < 0 then "-" + NatToString(-i) else NatToString(i)
  }

  /** Parsing the decimal rendering back: the inverse of IntToString. */
  function ParseInt(s: string): (r: int)
    requires |s| >= 1
    requires forall i :: 0 <= i < |s| ==> IsDigit(s[i]) || (i == 0 && s[i] == '-' && |s| >= 2)
  {
    if s[0] == '-' then -(DecimalValue(s[1..]) as int) else DecimalValue(s)
  }

  lemma IntToStringRoundTrip(i: int)
    ensures ParseInt(IntToString(i)) == i
  {
    if i < 0 {
      NatToStringRoundTrip(-i);
    } else {
      NatToStringRoundTrip(i);
    }
  }

  lemma IntToStringInjective(i: int, j: int)
    requires IntToString(i) == IntToString(j)
    ensures i == j
  {
    IntToStringRoundTrip(i);
    IntToStringRoundTrip(j);
  }

  /** `format!("{:>w}", s)`: spaces in front up to width `w`, never truncating. */
  function PadLeft(s: string, w: nat): (r: string)
    ensures |r| == if |s| < w then w else |s|
    ensures r[|r| - |s|..] == s
    ensures forall i :: 0 <= i < |r| - |s| ==> r[i] == ' '
  {
    if |s| < w then seq(w - |s|, _ => ' ') + s else s
  }

  /** Unicode White_Space, the characters `str::trim` removes. */
  predicate IsWhitespace(c: char) {
    c == ' ' || '\t' <= c <= '\r' || c == '\U{0085}' || c == '\U{00A0}' || c == '\U{1680}'
    || '\U{2000}' <= c <= '\U{200A}' || c == '\U{2028}' || c == '\U{2029}' || c == '\U{202F}'
    || c == '\U{205F}' || c == '\U{3000}'
  }

  /** `trim_start`: the suffix left after the leading white space. */
  function TrimStart(s: string): (r: string)
    ensures |r| <= |s| && r == s[|s| - |r|..]
    ensures r == [] || !IsWhitespace(r[0])
    ensures forall i :: 0 <= i < |s| - |r| ==> IsWhitespace(s[i])
  {
    if s != [] && IsWhitespace(s[0]) then TrimStart(s[1..]) else s
  }

  /** `trim_end`: the prefix left before the trailing white space. */
  function TrimEnd(s: string): (r: string)
    ensures |r| <= |s| && r == s[..|r|]
    ensures r == [] || !IsWhitespace(r[|r| - 1])
    ensures forall i :: |r| <= i < |s| ==> IsWhitespace(s[i])
  {
    if s != [] && IsWhitespace(s[|s| - 1]) then TrimEnd(s[..|s| - 1]) else s
  }

  /** `trim`: white space removed at both ends; empty exactly when `s` is all white space. */
  function Trim(s: string): (r: string)
    ensures r == [] || (!IsWhitespace(r[0]) && !IsWhitespace(r[|r| - 1]))
    ensures r == [] <==> forall i :: 0 <= i < |s| ==> IsWhitespace(s[i])
    ensures |r| <= |s|
  {
    var front := TrimStart(s);
    var r := TrimEnd(front);
    r
  }
}

=== FILE: header.dfy ===
/**
 * The JWW file header (src/header.rs): the "JwwData." signature, the fixed
 * layout of version, memo, paper size and the 16 x 16 layer table, and the
 * recovery of group and layer names with deterministic defaults.
 */
module JwwHeader {
  import opened Bytes
  import opened Wrappers
  import opened JwwErrors
  import opened JwwReader
  import Format

  datatype LayerHeader = LayerHeader(state: u32, protect: u32, name: string)

  datatype LayerGroupHeader = LayerGroupHeader(
    state: u32,
    writeLayer: u32,
    scale: real,
    protect: u32,
    layers: seq<LayerHeader>,
    name: string)

  datatype JwwHeader = JwwHeader(
    version: u32,
    memo: string,
    paperSize: u32,
    writeLayerGroup: u32,
    layerGroups: seq<LayerGroupHeader>)

  /** "JwwData." in ASCII. */
  const Signature: seq<u8> := [0x4A, 0x77, 0x77, 0x44, 0x61, 0x74, 0x61, 0x2E]

  /** Bytes of one group record: state, write layer, scale and protect (4 + 4 + 8 + 4), then 16 x (state, protect). */
  const GroupRecordSize: nat := 148

  /** Bytes of the layer table: 16 group records of 148 bytes. */
  const LayerTableSize: nat := 2368

  /** Bytes between the end of the memo and the end of the layer table: paper size and write layer group (4 + 4), then the table. */
  const FixedPartSize: nat := 2376

  /**
   * Bytes skipped between the layer table and the first layer name:
   * (14 + 5 + 1 + 1) DWORDs, then 16 + 8 + 4 + 4 + 8 + 16 + 16 bytes of
   * printer and grid settings.
   */
  const NamesGap: nat := 156

  const DefaultLayer := LayerHeader(0, 0, "")
  const DefaultLayers: seq<LayerHeader> := [
    DefaultLayer, DefaultLayer, DefaultLayer, DefaultLayer, DefaultLayer, DefaultLayer, DefaultLayer, DefaultLayer,
    DefaultLayer, DefaultLayer, DefaultLayer, DefaultLayer, DefaultLayer, DefaultLayer, DefaultLayer, DefaultLayer]
  const DefaultGroup := LayerGroupHeader(0, 0, 0.0, 0, DefaultLayers, "")

  predicate IsJwwSignature(data: seq<u8>) {
    |data| >= |Signature| && data[..|Signature|] == Signature
  }

  /** 16 groups of 16 layers each. */
  ghost predicate WellShaped(groups: seq<LayerGroupHeader>) {
    |groups| == 16 && forall g :: 0 <= g < 16 ==> |groups[g].layers| == 16
  }

  function DefaultGroupName(g: nat): (s: string)
    ensures |s| > 0
  {
    "Group" + Format.HexUpper(g)
  }

  function DefaultLayerName(g: nat, l: nat): (s: string)
    ensures |s| > 0
  {
    Format.HexUpper(g) + "-" + Format.HexUpper(l)
  }

  /** Within the 16 x 16 table the default layer names never clash. */
  lemma DefaultLayerNamesDistinct(g: nat, l: nat, g': nat, l': nat)
    requires g < 16 && l < 16 && g' < 16 && l' < 16
    requires DefaultLayerName(g, l) == DefaultLayerName(g', l')
    ensures g == g' && l == l'
  {
    var s, s' := DefaultLayerName(g, l), DefaultLayerName(g', l');
    assert [s[0]] == Format.HexUpper(g) && [s'[0]] == Format.HexUpper(g');
    assert [s[2]] == Format.HexUpper(l) && [s'[2]] == Format.HexUpper(l');
    Format.HexUpperInjective(g, g');
    Format.HexUpperInjective(l, l');
  }

  /** Every group and layer of a well-shaped table carries a non-empty name. */
  ghost predicate NamesComplete(groups: seq<LayerGroupHeader>)
    requires WellShaped(groups)
  {
    forall g :: 0 <= g < 16 ==>
      groups[g].name != "" && forall l :: 0 <= l < 16 ==> groups[g].layers[l].name != ""
  }

  /** Two groups agree on everything except names: what the fixed layer table determines. */
  ghost predicate SameTable(a: LayerGroupHeader, b: LayerGroupHeader) {
    a.state == b.state && a.writeLayer == b.writeLayer && a.scale == b.scale && a.protect == b.protect
    && |a.layers| == |b.layers|
    && forall l :: 0 <= l < |a.layers| ==> a.layers[l].state == b.layers[l].state && a.layers[l].protect == b.layers[l].protect
  }

  /** `layer`'s (state, protect) pair is the one stored at `o`. */
  ghost predicate LayerRecordAt(layer: LayerHeader, data: seq<u8>, o: nat) {
    o + 8 <= |data| && layer.state == LeU32(data[o..o + 4]) && layer.protect == LeU32(data[o + 4..o + 8])
  }

  /** The fixed fields of `group` and of its 16 layers are those of the group record stored at `o`. */
  ghost predicate GroupRecordAt(group: LayerGroupHeader, codecs: Codecs, data: seq<u8>, o: nat) {
    o + 148 <= |data|
    && group.state == LeU32(data[o..o + 4])
    && group.writeLayer == LeU32(data[o + 4..o + 8])
    && group.scale == F64At(codecs, data, o + 8)
    && group.protect == LeU32(data[o + 16..o + 20])
    && |group.layers| == 16
    && forall l :: 0 <= l < 16 ==> LayerRecordAt(group.layers[l], data, o + 20 + 8 * l)
  }

  /** The fixed fields of all 16 groups are those of the 16 records stored from `start` on. */
  ghost predicate TableRecordsAt(groups: seq<LayerGroupHeader>, codecs: Codecs, data: seq<u8>, start: nat) {
    |groups| == 16 && forall g :: 0 <= g < 16 ==> GroupRecordAt(groups[g], codecs, data, start + g * 148)
  }

  /** Renaming does not change what a group record says. */
  lemma GroupRecordAtSameTable(a: LayerGroupHeader, b: LayerGroupHeader, codecs: Codecs, data: seq<u8>, o: nat)
    requires SameTable(a, b) && GroupRecordAt(b, codecs, data, o)
    ensures GroupRecordAt(a, codecs, data, o)
  {
    forall l | 0 <= l < 16
      ensures LayerRecordAt(a.layers[l], data, o + 20 + 8 * l)
    {
      assert LayerRecordAt(b.layers[l], data, o + 20 + 8 * l);
    }
  }

  /** The stored bytes of `n` consecutive CStrings starting at `p`, and the position after them. */
  function CStringsAt(data: seq<u8>, p: nat, n: nat): (r: Result<(seq<seq<u8>>, nat), JwwError>)
    ensures r.Ok? ==> |r.value.0| == n && p <= r.value.1 <= |data| + (if n == 0 then p else 0)
  {
    if n == 0 then Ok(([], p))
    else
      var prev :- CStringsAt(data, p, n - 1);
      var s :- CStringBytesAt(data, prev.1);
      Ok((prev.0 + [s.0], s.1))
  }

  /** Once a run of CStrings fails, every longer run fails too. */
  lemma {:induction false} CStringsAtFailureSticks(data: seq<u8>, p: nat, k: nat, n: nat)
    requires k <= n && CStringsAt(data, p, k).Err?
    ensures CStringsAt(data, p, n).Err?
    decreases n
  {
    if k < n {
      CStringsAtFailureSticks(data, p, k, n - 1);
    }
  }

  /** Nothing can be read at a position past the end of the data. */
  lemma CStringsPastEnd(data: seq<u8>, p: nat, n: nat)
    requires p > |data| && n > 0
    ensures CStringsAt(data, p, n).Err?
  {
    assert CStringsAt(data, p, 1).Err?;
    CStringsAtFailureSticks(data, p, 1, n);
  }

  /** CStringsAt grows by one CString at a time. */
  lemma CStringsAtStep(data: seq<u8>, p: nat, n: nat, raws: seq<seq<u8>>, q: nat, raw: seq<u8>, q': nat)
    requires CStringsAt(data, p, n) == Ok((raws, q)) && CStringBytesAt(data, q) == Ok((raw, q'))
    ensures CStringsAt(data, p, n + 1) == Ok((raws + [raw], q'))
  {
  }

  /** A CString that cannot be read ends every longer run. */
  lemma CStringsAtStepFails(data: seq<u8>, p: nat, n: nat, raws: seq<seq<u8>>, q: nat, m: nat)
    requires CStringsAt(data, p, n) == Ok((raws, q)) && CStringBytesAt(data, q).Err? && n < m
    ensures CStringsAt(data, p, m).Err?
  {
    assert CStringsAt(data, p, n + 1).Err?;
    CStringsAtFailureSticks(data, p, n + 1, m);
  }

  /** The name section at `p`, as stored bytes: 256 layer names in group-major order, then 16 group names. */
  function NameSection(data: seq<u8>, p: nat): Result<(seq<seq<u8>>, seq<seq<u8>>), JwwError> {
    var layerNames :- CStringsAt(data, p, 256);
    var groupNames :- CStringsAt(data, layerNames.1, 16);
    Ok((layerNames.0, groupNames.0))
  }

  /** The layer names and group names of a name section, as stored bytes, if it was read. */
  type StoredNameSection = Option<(seq<seq<u8>>, seq<seq<u8>>)>

  /** Position right after the memo CString (the memo starts at byte 12). */
  function MemoEnd(data: seq<u8>): nat
    requires CStringBytesAt(data, 12).Ok?
  {
    CStringBytesAt(data, 12).value.1
  }

  /** Whether the signature, version, memo and fixed layer table all fit. */
  predicate HeaderFits(data: seq<u8>) {
    IsJwwSignature(data) && CStringBytesAt(data, 12).Ok? && MemoEnd(data) + FixedPartSize <= |data|
  }

  /** The stored names of the section after a layer table ending at `p`, when the version has one and all of it can be read. */
  function StoredNamesAt(data: seq<u8>, p: nat, version: u32): StoredNameSection {
    if version < 300 then None
    else match NameSection(data, p + NamesGap)
      case Ok(names) => Some(names)
      case Err(_) => None
  }

  /** The stored names of a header that fits. */
  function StoredNames(data: seq<u8>, version: u32): StoredNameSection
    requires HeaderFits(data)
  {
    StoredNamesAt(data, MemoEnd(data) + FixedPartSize, version)
  }

  /** Reads the 16 group records, each with its 16 layer records, into `groups`. */
  method ReadLayerTable(rd: Reader, groups: array<LayerGroupHeader>) returns (r: Result<(), JwwError>)
    requires rd.Valid() && groups.Length == 16
    modifies rd, groups
    ensures rd.Valid()
    ensures r.Ok? <==> old(rd.pos) + LayerTableSize <= |rd.data|
    ensures r.Err? ==> r.error == EofBytes
    ensures r.Ok? ==> rd.pos == old(rd.pos) + LayerTableSize
    ensures r.Ok? ==> TableRecordsAt(groups[..], rd.codecs, rd.data, old(rd.pos))
  {
    var start := rd.pos;
    for g := 0 to 16
      invariant rd.Valid() && rd.pos == start + g * 148
      invariant forall g' :: 0 <= g' < g ==> GroupRecordAt(groups[g'], rd.codecs, rd.data, start + g' * 148)
      invariant start + g * 148 <= |rd.data|
    {
      r := ReadGroupRecord(rd, groups, g);
      if r.Err? {
        return;
      }
    }
    return Ok(());
  }

  /** Reads the 16 layer records (state, protect) of one group. */
  method ReadLayerRecords(rd: Reader) returns (r: Result<seq<LayerHeader>, JwwError>)
    requires rd.Valid()
    modifies rd
    ensures rd.Valid()
    ensures r.Ok? <==> old(rd.pos) + 128 <= |rd.data|
    ensures r.Err? ==> r.error == EofBytes
    ensures r.Ok? ==> rd.pos == old(rd.pos) + 128 && |r.value| == 16
    ensures r.Ok? ==> forall l :: 0 <= l < 16 ==> LayerRecordAt(r.value[l], rd.data, old(rd.pos) + 8 * l)
  {
    var o := rd.pos;
    var layers := DefaultLayers;
    for l := 0 to 16
      invariant rd.Valid() && rd.pos == o + 8 * l
      invariant |layers| == 16
      invariant forall l' :: 0 <= l' < l ==> LayerRecordAt(layers[l'], rd.data, o + 8 * l')
    {
      var layerState :- rd.ReadU32();
      var layerProtect :- rd.ReadU32();
      layers := layers[l := LayerHeader(layerState, layerProtect, "")];
    }
    return Ok(layers);
  }

  /** One group record into `groups[g]`; the other entries are untouched. */
  method ReadGroupRecord(rd: Reader, groups: array<LayerGroupHeader>, g: nat) returns (r: Result<(), JwwError>)
    requires rd.Valid() && g < groups.Length
    modifies rd, groups
    ensures rd.Valid()
    ensures r.Ok? <==> old(rd.pos) + GroupRecordSize <= |rd.data|
    ensures r.Err? ==> r.error == EofBytes
    ensures r.Ok? ==> rd.pos == old(rd.pos) + GroupRecordSize
                      && GroupRecordAt(groups[g], rd.codecs, rd.data, old(rd.pos))
    ensures forall i :: 0 <= i < groups.Length && i != g ==> groups[i] == old(groups[i])
  {
    var o := rd.pos;
    var state :- rd.ReadU32();
    var writeLayer :- rd.ReadU32();
    var scale :- rd.ReadF64();
    var protect :- rd.ReadU32();
    var layers :- ReadLayerRecords(rd);
    groups[g] := LayerGroupHeader(state, writeLayer, scale, protect, layers, "");
    return Ok(());
  }

  /** Two tables agree group by group on everything except names. */
  ghost predicate SameTables(a: seq<LayerGroupHeader>, b: seq<LayerGroupHeader>) {
    |a| == |b| && forall g :: 0 <= g < |a| ==> SameTable(a[g], b[g])
  }

  /** The layers of group `g` with their names set to "{g:X}-{l:X}" (only the empty ones when `onlyBlanks`). */
  method DefaultLayerNamesOfGroup(layers: seq<LayerHeader>, g: nat, onlyBlanks: bool) returns (out: seq<LayerHeader>)
    ensures |out| == |layers|
    ensures forall l :: 0 <= l < |out| ==>
      out[l].state == layers[l].state && out[l].protect == layers[l].protect
      && out[l].name == if onlyBlanks && layers[l].name != "" then layers[l].name else DefaultLayerName(g, l)
  {
    out := layers;
    for l := 0 to |layers|
      invariant |out| == |layers|
      invariant forall j :: 0 <= j < |out| ==> out[j].state == layers[j].state && out[j].protect == layers[j].protect
      invariant forall j :: 0 <= j < |out| ==>
        out[j].name == if l <= j || (onlyBlanks && layers[j].name != "") then layers[j].name else DefaultLayerName(g, j)
    {
      if !onlyBlanks || out[l].name == "" {
        out := out[l := out[l].(name := DefaultLayerName(g, l))];
      }
    }
  }

  /** Reads the CString that extends a run of `n` CStrings from `p` by one. */
  method ReadNextCString(rd: Reader, ghost p: nat, ghost n: nat, ghost raws: seq<seq<u8>>)
    returns (r: Result<string, JwwError>, ghost raw: seq<u8>)
    requires rd.Valid() && CStringsAt(rd.data, p, n) == Ok((raws, rd.pos))
    modifies rd
    ensures rd.Valid()
    ensures r.Ok? ==> CStringsAt(rd.data, p, n + 1) == Ok((raws + [raw], rd.pos)) && r.value == DecodeCString(rd.codecs, raw)
    ensures r.Err? ==> forall m :: m > n ==> CStringsAt(rd.data, p, m).Err?
  {
    raw := [];
    ghost var q := rd.pos;
    ghost var bytes := CStringBytesAt(rd.data, q);
    r := rd.ReadCString();
    if r.Ok? {
      raw := bytes.value.0;
      CStringsAtStep(rd.data, p, n, raws, q, raw, rd.pos);
    } else {
      forall m | m > n
        ensures CStringsAt(rd.data, p, m).Err?
      {
        CStringsAtStepFails(rd.data, p, n, raws, q, m);
      }
    }
  }

  /** The 16 layers of `group` carry the decoded names `raws[base..base + 16]`. */
  ghost predicate LayerNamesAre(group: LayerGroupHeader, codecs: Codecs, raws: seq<seq<u8>>, base: nat) {
    |group.layers| == 16 && base + 16 <= |raws|
    && forall l :: 0 <= l < 16 ==> group.layers[l].name == DecodeCString(codecs, raws[base + l])
  }

  /** Extending the run of names read so far keeps what an earlier group's layers were named from. */
  lemma LayerNamesAreExtend(group: LayerGroupHeader, codecs: Codecs, raws: seq<seq<u8>>, raws': seq<seq<u8>>, base: nat)
    requires LayerNamesAre(group, codecs, raws, base) && |raws| <= |raws'| && raws'[..|raws|] == raws
    ensures LayerNamesAre(group, codecs, raws', base)
  {
    forall i | base <= i < base + 16
      ensures raws'[i] == raws[i]
    {
      assert raws'[..|raws|][i] == raws'[i];
    }
  }

  /** The 16 layer names of one group, continuing a run of `n` CStrings from `p`. */
  method ReadGroupLayerNames(rd: Reader, layers: seq<LayerHeader>, ghost p: nat, ghost n: nat, ghost raws: seq<seq<u8>>)
    returns (r: Result<seq<LayerHeader>, JwwError>, ghost raws': seq<seq<u8>>)
    requires rd.Valid() && |layers| == 16
    requires CStringsAt(rd.data, p, n) == Ok((raws, rd.pos))
    modifies rd
    ensures rd.Valid()
    ensures r.Err? ==> forall m :: m >= n + 16 ==> CStringsAt(rd.data, p, m).Err?
    ensures r.Ok? ==> CStringsAt(rd.data, p, n + 16) == Ok((raws', rd.pos)) && raws'[..n] == raws
    ensures r.Ok? ==> |r.value| == 16
    ensures r.Ok? ==> forall j :: 0 <= j < 16 ==> r.value[j].state == layers[j].state && r.value[j].protect == layers[j].protect
    ensures r.Ok? ==> forall j :: 0 <= j < 16 ==> r.value[j].name == DecodeCString(rd.codecs, raws'[n + j])
  {
    var out := layers;
    raws' := raws;
    ghost var k := n;
    for l := 0 to 16
      invariant rd.Valid() && |out| == 16 && k == n + l
      invariant CStringsAt(rd.data, p, k) == Ok((raws', rd.pos))
      invariant raws'[..n] == raws
      invariant forall j :: 0 <= j < 16 ==> out[j].state == layers[j].state && out[j].protect == layers[j].protect
      invariant forall j :: 0 <= j < l ==> out[j].name == DecodeCString(rd.codecs, raws'[n + j])
    {
      var name;
      ghost var raw;
      name, raw := ReadNextCString(rd, p, k, raws');
      if name.Err? {
        return Err(name.error), raws';
      }
      raws', k := raws' + [raw], k + 1;
      out := out[l := out[l].(name := name.value)];
    }
    return Ok(out), raws';
  }

  /** Groups `0..g` carry the layer names of the run `raws`, group-major. */
  ghost predicate LayerNamesUpTo(groups: seq<LayerGroupHeader>, codecs: Codecs, raws: seq<seq<u8>>, g: nat) {
    g <= |groups| && forall i :: 0 <= i < g ==> LayerNamesAre(groups[i], codecs, raws, 16 * i)
  }

  /** Naming group `g` from the extended run keeps the groups before it named. */
  lemma LayerNamesUpToStep(before: seq<LayerGroupHeader>, after: seq<LayerGroupHeader>, codecs: Codecs,
                           raws: seq<seq<u8>>, raws': seq<seq<u8>>, g: nat)
    requires g < |before| && |after| == |before| && forall i :: 0 <= i < g ==> after[i] == before[i]
    requires LayerNamesUpTo(before, codecs, raws, g) && LayerNamesAre(after[g], codecs, raws', 16 * g)
    requires |raws| <= |raws'| && raws'[..|raws|] == raws
    ensures LayerNamesUpTo(after, codecs, raws', g + 1)
  {
    forall i | 0 <= i < g
      ensures LayerNamesAre(after[i], codecs, raws', 16 * i)
    {
      LayerNamesAreExtend(before[i], codecs, raws, raws', 16 * i);
    }
  }

  /** The 256 layer names, group by group, as CStringsAt describes them. */
  method ReadLayerNames(rd: Reader, groups: array<LayerGroupHeader>) returns (r: Result<(), JwwError>)
    requires rd.Valid() && groups.Length == 16 && WellShaped(groups[..])
    modifies rd, groups
    ensures rd.Valid() && WellShaped(groups[..]) && SameTables(groups[..], old(groups[..]))
    ensures forall i :: 0 <= i < 16 ==> groups[i].name == old(groups[i].name)
    ensures r.Ok? <==> CStringsAt(rd.data, old(rd.pos), 256).Ok?
    ensures r.Ok? ==> rd.pos == CStringsAt(rd.data, old(rd.pos), 256).value.1
    ensures r.Ok? ==> LayerNamesUpTo(groups[..], rd.codecs, CStringsAt(rd.data, old(rd.pos), 256).value.0, 16)
  {
    ghost var p := rd.pos;
    ghost var raws: seq<seq<u8>> := [];
    ghost var k := 0;
    for g := 0 to 16
      invariant rd.Valid() && WellShaped(groups[..]) && SameTables(groups[..], old(groups[..]))
      invariant forall i :: 0 <= i < 16 ==> groups[i].name == old(groups[i].name)
      invariant k == 16 * g && CStringsAt(rd.data, p, k) == Ok((raws, rd.pos))
      invariant LayerNamesUpTo(groups[..], rd.codecs, raws, g)
    {
      var layers;
      ghost var raws';
      layers, raws' := ReadGroupLayerNames(rd, groups[g].layers, p, k, raws);
      if layers.Err? {
        return Err(layers.error);
      }
      ghost var before := groups[..];
      groups[g] := groups[g].(layers := layers.value);
      LayerNamesUpToStep(before, groups[..], rd.codecs, raws, raws', g);
      raws, k := raws', k + 16;
    }
    return Ok(());
  }

  /** The 16 group names, as CStringsAt describes them. */
  method ReadGroupNames(rd: Reader, groups: array<LayerGroupHeader>) returns (r: Result<(), JwwError>)
    requires rd.Valid() && groups.Length == 16 && WellShaped(groups[..])
    modifies rd, groups
    ensures rd.Valid() && WellShaped(groups[..]) && SameTables(groups[..], old(groups[..]))
    ensures forall i :: 0 <= i < 16 ==> groups[i].layers == old(groups[i].layers)
    ensures r.Ok? <==> CStringsAt(rd.data, old(rd.pos), 16).Ok?
    ensures r.Ok? ==> forall g :: 0 <= g < 16 ==>
      groups[g].name == DecodeCString(rd.codecs, CStringsAt(rd.data, old(rd.pos), 16).value.0[g])
  {
    ghost var q := rd.pos;
    ghost var raws: seq<seq<u8>> := [];
    for g := 0 to 16
      invariant rd.Valid() && WellShaped(groups[..]) && SameTables(groups[..], old(groups[..]))
      invariant forall i :: 0 <= i < 16 ==> groups[i].layers == old(groups[i].layers)
      invariant CStringsAt(rd.data, q, g) == Ok((raws, rd.pos))
      invariant forall g' :: 0 <= g' < g ==> groups[g'].name == DecodeCString(rd.codecs, raws[g'])
    {
      var name;
      ghost var raw;
      name, raw := ReadNextCString(rd, q, g, raws);
      if name.Err? {
        return Err(name.error);
      }
      raws := raws + [raw];
      groups[g] := groups[g].(name := name.value);
    }
    return Ok(());
  }

  /**
   * Reads the name section that follows the layer table: two skipped blocks,
   * then the layer names and the group names. Versions below 300 have no
   * readable name section.
   */
  method ParseLayerNames(rd: Reader, version: u32, groups: array<LayerGroupHeader>) returns (r: Result<(), JwwError>)
    requires rd.Valid() && groups.Length == 16 && WellShaped(groups[..])
    modifies rd, groups
    ensures rd.Valid() && WellShaped(groups[..]) && SameTables(groups[..], old(groups[..]))
    ensures version < 300 ==> r == Err(UnexpectedEof("layer names"))
    ensures r.Ok? <==> version >= 300 && NameSection(rd.data, old(rd.pos) + NamesGap).Ok?
    ensures r.Ok? ==>
      var names := NameSection(rd.data, old(rd.pos) + NamesGap).value;
      LayerNamesUpTo(groups[..], rd.codecs, names.0, 16)
      && forall g :: 0 <= g < 16 ==> groups[g].name == DecodeCString(rd.codecs, names.1[g])
  {
    if version < 300 {
      return Err(UnexpectedEof("layer names"));
    }
    ghost var p := rd.pos + NamesGap;
    var skipped := rd.Skip((14 + 5 + 1 + 1) * 4);
    if skipped.Err? {
      CStringsPastEnd(rd.data, p, 256);
      return skipped;
    }
    skipped := rd.Skip(16 + 8 + 4 + 4 + 8 + 16 + 16);
    if skipped.Err? {
      CStringsPastEnd(rd.data, p, 256);
      return skipped;
    }
    assert rd.pos == p;
    r := ReadLayerNames(rd, groups);
    if r.Err? {
      return;
    }
    r := ReadGroupNames(rd, groups);
  }

  /** Agreeing on everything but names is transitive. */
  lemma SameTablesTrans(a: seq<LayerGroupHeader>, b: seq<LayerGroupHeader>, c: seq<LayerGroupHeader>)
    requires SameTables(a, b) && SameTables(b, c)
    ensures SameTables(a, c)
  {
  }

  /** Every group named "Group{g:X}" and every layer "{g:X}-{l:X}". */
  method ApplyDefaultLayerNames(groups: array<LayerGroupHeader>)
    requires groups.Length == 16 && WellShaped(groups[..])
    modifies groups
    ensures WellShaped(groups[..]) && SameTables(groups[..], old(groups[..]))
    ensures forall g :: 0 <= g < 16 ==> groups[g].name == DefaultGroupName(g)
    ensures forall g, l :: 0 <= g < 16 && 0 <= l < 16 ==> groups[g].layers[l].name == DefaultLayerName(g, l)
  {
    for g := 0 to 16
      invariant WellShaped(groups[..]) && SameTables(groups[..], old(groups[..]))
      invariant forall i :: g <= i < 16 ==> groups[i] == old(groups[i])
      invariant forall g' :: 0 <= g' < g ==> groups[g'].name == DefaultGroupName(g')
      invariant forall g', l :: 0 <= g' < g && 0 <= l < 16 ==> groups[g'].layers[l].name == DefaultLayerName(g', l)
    {
      var layers := DefaultLayerNamesOfGroup(groups[g].layers, g, false);
      groups[g] := groups[g].(name := DefaultGroupName(g), layers := layers);
    }
  }

  /** Only the empty names are replaced by their defaults; names read from the file stay. */
  method ApplyDefaultLayerNamesForBlanks(groups: array<LayerGroupHeader>)
    requires groups.Length == 16 && WellShaped(groups[..])
    modifies groups
    ensures WellShaped(groups[..]) && SameTables(groups[..], old(groups[..]))
    ensures forall g :: 0 <= g < 16 ==>
      groups[g].name == (if old(groups[g].name) == "" then DefaultGroupName(g) else old(groups[g].name))
    ensures forall g, l :: 0 <= g < 16 && 0 <= l < 16 ==>
      groups[g].layers[l].name == (if old(groups[g].layers[l].name) == "" then DefaultLayerName(g, l) else old(groups[g].layers[l].name))
  {
    for g := 0 to 16
      invariant WellShaped(groups[..]) && SameTables(groups[..], old(groups[..]))
      invariant forall i :: g <= i < 16 ==> groups[i] == old(groups[i])
      invariant forall g' :: 0 <= g' < g ==>
        groups[g'].name == (if old(groups[g'].name) == "" then DefaultGroupName(g') else old(groups[g'].name))
      invariant forall g', l :: 0 <= g' < g && 0 <= l < 16 ==>
        groups[g'].layers[l].name == (if old(groups[g'].layers[l].name) == "" then DefaultLayerName(g', l) else old(groups[g'].layers[l].name))
    {
      if groups[g].name == "" {
        groups[g] := groups[g].(name := DefaultGroupName(g));
      }
      var layers := DefaultLayerNamesOfGroup(groups[g].layers, g, true);
      groups[g] := groups[g].(layers := layers);
    }
  }

  /** Group `g`'s final name: the stored one when there is one and it is not empty, else "Group{g:X}". */
  function ResolvedGroupName(codecs: Codecs, stored: StoredNameSection, g: nat): (s: string)
    ensures s != ""
    ensures stored.None? ==> s == DefaultGroupName(g)
  {
    var name := if stored.Some? && g < |stored.value.1| then DecodeCString(codecs, stored.value.1[g]) else "";
    if name == "" then DefaultGroupName(g) else name
  }

  /** Layer `l` of group `g`: the stored name when there is one and it is not empty, else "{g:X}-{l:X}". */
  function ResolvedLayerName(codecs: Codecs, stored: StoredNameSection, g: nat, l: nat): (s: string)
    ensures s != ""
    ensures stored.None? ==> s == DefaultLayerName(g, l)
  {
    var name := if stored.Some? && 16 * g + l < |stored.value.0| then DecodeCString(codecs, stored.value.0[16 * g + l]) else "";
    if name == "" then DefaultLayerName(g, l) else name
  }

  /** The names of group `g` and of its 16 layers are the resolved ones. */
  ghost predicate ResolvedNamesOf(group: LayerGroupHeader, codecs: Codecs, stored: StoredNameSection, g: nat) {
    |group.layers| == 16 && group.name == ResolvedGroupName(codecs, stored, g)
    && forall l :: 0 <= l < 16 ==> group.layers[l].name == ResolvedLayerName(codecs, stored, g, l)
  }

  /** Every group and layer of the table carries its resolved name. */
  ghost predicate ResolvedNames(groups: seq<LayerGroupHeader>, codecs: Codecs, stored: StoredNameSection) {
    |groups| == 16 && forall g :: 0 <= g < 16 ==> ResolvedNamesOf(groups[g], codecs, stored, g)
  }

  /**
   * Reads the name section after the layer table; when any of it cannot be
   * read every name takes its default, otherwise only the empty ones do.
   */
  method ReadNamesOrDefaults(rd: Reader, version: u32, groups: array<LayerGroupHeader>, ghost stored: StoredNameSection)
    requires rd.Valid() && groups.Length == 16 && WellShaped(groups[..])
    requires stored == StoredNamesAt(rd.data, rd.pos, version)
    modifies rd, groups
    ensures rd.Valid() && WellShaped(groups[..]) && SameTables(groups[..], old(groups[..]))
    ensures ResolvedNames(groups[..], rd.codecs, stored)
  {
    ghost var before := groups[..];
    var names := ParseLayerNames(rd, version, groups);
    ghost var named := groups[..];
    if names.Err? {
      assert stored.None?;
      ApplyDefaultLayerNames(groups);
    } else {
      ApplyDefaultLayerNamesForBlanks(groups);
      forall g | 0 <= g < 16
        ensures ResolvedNamesOf(groups[g], rd.codecs, stored, g)
      {
        assert LayerNamesAre(named[g], rd.codecs, stored.value.0, 16 * g);
      }
    }
    SameTablesTrans(groups[..], named, before);
  }

  /** Renaming the groups of a table read from `start` keeps their records. */
  lemma RenamedTableRecords(groups: seq<LayerGroupHeader>, read: seq<LayerGroupHeader>, codecs: Codecs, data: seq<u8>, start: nat)
    requires SameTables(groups, read) && TableRecordsAt(read, codecs, data, start)
    ensures TableRecordsAt(groups, codecs, data, start)
  {
    forall g | 0 <= g < 16
      ensures GroupRecordAt(groups[g], codecs, data, start + g * 148)
    {
      GroupRecordAtSameTable(groups[g], read[g], codecs, data, start + g * 148);
    }
  }

  /** A fresh table of 16 default groups. */
  method NewLayerGroups() returns (groups: array<LayerGroupHeader>)
    ensures fresh(groups) && groups.Length == 16
    ensures forall g :: 0 <= g < 16 ==> groups[g] == DefaultGroup
  {
    groups := new LayerGroupHeader[16];
    for i := 0 to 16
      invariant forall j :: 0 <= j < i ==> groups[j] == DefaultGroup
    {
      groups[i] := DefaultGroup;
    }
  }

  /**
   * The 16 x 16 layer table at the cursor, then the names that follow it, or
   * their defaults; `stored` names what the name section holds.
   */
  method ReadLayerGroups(rd: Reader, version: u32, ghost start: nat, ghost stored: StoredNameSection)
    returns (r: Result<seq<LayerGroupHeader>, JwwError>)
    requires rd.Valid() && rd.pos == start
    requires stored == StoredNamesAt(rd.data, start + LayerTableSize, version)
    modifies rd
    ensures rd.Valid()
    ensures r.Ok? <==> start + LayerTableSize <= |rd.data|
    ensures r.Err? ==> r.error == EofBytes
    ensures r.Ok? ==> WellShaped(r.value) && NamesComplete(r.value)
    ensures r.Ok? ==> TableRecordsAt(r.value, rd.codecs, rd.data, start)
    ensures r.Ok? ==> ResolvedNames(r.value, rd.codecs, stored)
  {
    var groups := NewLayerGroups();
    var table := ReadLayerTable(rd, groups);
    if table.Err? {
      return Err(table.error);
    }
    ghost var read := groups[..];
    ReadNamesOrDefaults(rd, version, groups, stored);
    RenamedTableRecords(groups[..], read, rd.codecs, rd.data, start);
    return Ok(groups[..]);
  }

  /**
   * The header `data` holds: version, memo, paper size and write layer group
   * at their offsets, a 16 x 16 layer table matching the stored records, and
   * names taken from the name section where it supplies them.
   */
  ghost predicate HeaderOf(h: JwwHeader, codecs: Codecs, data: seq<u8>)
    requires HeaderFits(data)
  {
    var m := MemoEnd(data);
    && h.version == LeU32(data[8..12])
    && h.memo == DecodeCString(codecs, CStringBytesAt(data, 12).value.0)
    && h.paperSize == LeU32(data[m..m + 4])
    && h.writeLayerGroup == LeU32(data[m + 4..m + 8])
    && WellShaped(h.layerGroups) && NamesComplete(h.layerGroups)
    && TableRecordsAt(h.layerGroups, codecs, data, m + 8)
    && ResolvedNames(h.layerGroups, codecs, StoredNames(data, h.version))
  }

  /**
   * `parse_header`: the signature, the version, the memo, paper size and
   * write layer group, the 16 x 16 layer table, then the optional name
   * section with defaults for whatever it does not supply.
   */
  method ParseHeader(codecs: Codecs, data: seq<u8>) returns (r: Result<JwwHeader, JwwError>)
    ensures !IsJwwSignature(data) ==> r == Err(InvalidSignature)
    ensures IsJwwSignature(data) ==> (r.Ok? <==> HeaderFits(data))
    ensures IsJwwSignature(data) && !HeaderFits(data) ==> r == Err(EofBytes)
    ensures r.Ok? ==> HeaderFits(data) && HeaderOf(r.value, codecs, data)
  {
    if !IsJwwSignature(data) {
      return Err(InvalidSignature);
    }
    var rd := new Reader(data, codecs);
    // The signature check guarantees these bytes, so this skip cannot fail.
    var _ := rd.Skip(|Signature|);
    var version :- rd.ReadU32();
    var memo :- rd.ReadCString();
    var paperSize :- rd.ReadU32();
    var writeLayerGroup :- rd.ReadU32();
    ghost var m := MemoEnd(data);
    var groups :- ReadLayerGroups(rd, version, m + 8, StoredNamesAt(data, m + FixedPartSize, version));
    return Ok(JwwHeader(version, memo, paperSize, writeLayerGroup, groups));
  }
}

=== FILE: layout.dfy ===
/**
 * The byte layout of the entity and block-definition streams
 * (src/parser.rs), as pure functions of the data: each returns the decoded
 * value and the position after it, or the error together with the position
 * the cursor is left at, since a read that fails never moves the cursor.
 */
module JwwLayout {
  import opened Bytes
  import opened Wrappers
  import opened JwwErrors
  import opened JwwReader
  import opened JwwModel

  /** A failed decode: the error and where the cursor stopped. */
  datatype Stop = Stop(error: JwwError, at: nat)

  type Parsed<T> = Result<(T, nat), Stop>

  /** What a method that decodes from a cursor must do: the spec's value and end, or its error and stop. */
  predicate Follows<T(==)>(r: Result<T, JwwError>, pos: nat, spec: Parsed<T>) {
    match spec
    case Ok((v, q)) => r == Ok(v) && pos == q
    case Err(stop) => r == Err(stop.error) && pos == stop.at
  }

  // ---------------------------------------------------------------------
  // Primitive fields
  // ---------------------------------------------------------------------

  function U8At(data: seq<u8>, p: nat): Parsed<u8> {
    if p + 1 <= |data| then Ok((data[p], p + 1)) else Err(Stop(EofBytes, p))
  }

  function U16At(data: seq<u8>, p: nat): Parsed<u16> {
    if p + 2 <= |data| then Ok((LeU16(data[p..p + 2]), p + 2)) else Err(Stop(EofBytes, p))
  }

  function U32At(data: seq<u8>, p: nat): Parsed<u32> {
    if p + 4 <= |data| then Ok((LeU32(data[p..p + 4]), p + 4)) else Err(Stop(EofBytes, p))
  }

  function RealAt(codecs: Codecs, data: seq<u8>, p: nat): Parsed<real> {
    if p + 8 <= |data| then Ok((F64At(codecs, data, p), p + 8)) else Err(Stop(EofBytes, p))
  }

  function BytesAt(data: seq<u8>, p: nat, n: nat): Parsed<seq<u8>> {
    if p + n <= |data| then Ok((data[p..p + n], p + n)) else Err(Stop(EofBytes, p))
  }

  function CStrAt(codecs: Codecs, data: seq<u8>, p: nat): Parsed<string> {
    match CStringBytesAt(data, p)
    case Ok((raw, q)) => Ok((DecodeCString(codecs, raw), q))
    case Err(e) => Err(Stop(e, CStringStop(data, p)))
  }
  /** Four consecutive f64 fields. */
  function Reals4At(codecs: Codecs, data: seq<u8>, p: nat): (r: Parsed<(real, real, real, real)>)
    ensures r.Ok? ==> r.value.1 == p + 32
    ensures r.Err? ==> r.error.error == EofBytes
  {
    var a :- RealAt(codecs, data, p);
    var b :- RealAt(codecs, data, p + 8);
    var c :- RealAt(codecs, data, p + 16);
    var d :- RealAt(codecs, data, p + 24);
    Ok(((a.0, b.0, c.0, d.0), p + 32))
  }


  // ---------------------------------------------------------------------
  // Entity records
  // ---------------------------------------------------------------------

  /** Bytes of the common attributes: the pen width is stored only from version 3.51 on. */
  function BaseSize(version: u32): nat {
    if version >= 351 then 15 else 13
  }

  function BaseAt(data: seq<u8>, p: nat, version: u32): Parsed<EntityBase> {
    var group :- U32At(data, p);
    var penStyle :- U8At(data, p + 4);
    var penColor :- U16At(data, p + 5);
    var penWidth :- if version >= 351 then U16At(data, p + 7) else Ok((0, p + 7));
    var q := penWidth.1;
    var layer :- U16At(data, q);
    var layerGroup :- U16At(data, q + 2);
    var flag :- U16At(data, q + 4);
    Ok((EntityBase(group.0, penStyle.0, penColor.0, penWidth.0, layer.0, layerGroup.0, flag.0), q + 6))
  }


  function LineAt(codecs: Codecs, data: seq<u8>, p: nat, version: u32): Parsed<Line> {
    var base :- BaseAt(data, p, version);
    var ends :- Reals4At(codecs, data, base.1);
    var (startX, startY, endX, endY) := ends.0;
    Ok((Line(base.0, startX, startY, endX, endY), ends.1))
  }



  function ArcAt(codecs: Codecs, data: seq<u8>, p: nat, version: u32): Parsed<Arc> {
    var base :- BaseAt(data, p, version);
    var first :- Reals4At(codecs, data, base.1);
    var (centerX, centerY, radius, startAngle) := first.0;
    var q := first.1;
    var arcAngle :- RealAt(codecs, data, q);
    var tiltAngle :- RealAt(codecs, data, q + 8);
    var flatness :- RealAt(codecs, data, q + 16);
    var fullCircle :- U32At(data, q + 24);
    Ok((Arc(base.0, centerX, centerY, radius, startAngle, arcAngle.0, tiltAngle.0, flatness.0, fullCircle.0 != 0),
        q + 28))
  }



  /** A point: position and temporary flag, then code, angle and scale only for pen style 100. */
  function PointAt(codecs: Codecs, data: seq<u8>, p: nat, version: u32): Parsed<Point> {
    var base :- BaseAt(data, p, version);
    var q := base.1;
    var x :- RealAt(codecs, data, q);
    var y :- RealAt(codecs, data, q + 8);
    var temporary :- U32At(data, q + 16);
    if base.0.penStyle == 100 then
      var code :- U32At(data, q + 20);
      var angle :- RealAt(codecs, data, q + 24);
      var scale :- RealAt(codecs, data, q + 32);
      Ok((Point(base.0, x.0, y.0, temporary.0 != 0, code.0, angle.0, scale.0), q + 40))
    else
      Ok((Point(base.0, x.0, y.0, temporary.0 != 0, 0, 0.0, 0.0), q + 20))
  }


  /** The fixed-size part of a text record: every field but the two strings, which are left empty. */
  function TextFixedAt(codecs: Codecs, data: seq<u8>, p: nat, version: u32): Parsed<Text> {
    var base :- BaseAt(data, p, version);
    var ends :- Reals4At(codecs, data, base.1);
    var (startX, startY, endX, endY) := ends.0;
    var textType :- U32At(data, ends.1);
    var metrics :- Reals4At(codecs, data, textType.1);
    var (sizeX, sizeY, spacing, angle) := metrics.0;
    Ok((Text(base.0, startX, startY, endX, endY, textType.0, sizeX, sizeY, spacing, angle, "", ""), metrics.1))
  }


  /** A text record: the fixed-size fields, then the font name and the content as CStrings. */
  function TextAt(codecs: Codecs, data: seq<u8>, p: nat, version: u32): Parsed<Text> {
    var fixed :- TextFixedAt(codecs, data, p, version);
    var fontName :- CStrAt(codecs, data, fixed.1);
    var content :- CStrAt(codecs, data, fontName.1);
    Ok((fixed.0.(fontName := fontName.0, content := content.0), content.1))
  }



  /** A solid: corners stored in the order 1, 4, 2, 3, then a colour only for pen colour 10. */
  function SolidAt(codecs: Codecs, data: seq<u8>, p: nat, version: u32): Parsed<Solid> {
    var base :- BaseAt(data, p, version);
    var first :- Reals4At(codecs, data, base.1);
    var (p1x, p1y, p4x, p4y) := first.0;
    var second :- Reals4At(codecs, data, first.1);
    var (p2x, p2y, p3x, p3y) := second.0;
    if base.0.penColor == 10 then
      var color :- U32At(data, second.1);
      Ok((Solid(base.0, p1x, p1y, p2x, p2y, p3x, p3y, p4x, p4y, Some(color.0)), color.1))
    else
      Ok((Solid(base.0, p1x, p1y, p2x, p2y, p3x, p3y, p4x, p4y, None), second.1))
  }



  function BlockAt(codecs: Codecs, data: seq<u8>, p: nat, version: u32): Parsed<Block> {
    var base :- BaseAt(data, p, version);
    var first :- Reals4At(codecs, data, base.1);
    var (refX, refY, scaleX, scaleY) := first.0;
    var rotation :- RealAt(codecs, data, first.1);
    var defNumber :- U32At(data, rotation.1);
    Ok((Block(base.0, refX, refY, scaleX, scaleY, rotation.0, defNumber.0), defNumber.1))
  }



  /** `n` consecutive line records. */
  /** `n` records of one kind, back to back; the first failure fails them all. */
  function RepeatAt<T>(field: nat -> Parsed<T>, p: nat, n: nat): Parsed<seq<T>> {
    if n == 0 then Ok(([], p))
    else
      var init :- RepeatAt(field, p, n - 1);
      var last :- field(init.1);
      Ok((init.0 + [last.0], last.1))
  }

  function LineField(codecs: Codecs, data: seq<u8>, version: u32): nat -> Parsed<Line> {
    (q: nat) => LineAt(codecs, data, q, version)
  }

  function PointField(codecs: Codecs, data: seq<u8>, version: u32): nat -> Parsed<Point> {
    (q: nat) => PointAt(codecs, data, q, version)
  }

  function LinesAt(codecs: Codecs, data: seq<u8>, p: nat, version: u32, n: nat): Parsed<seq<Line>> {
    RepeatAt(LineField(codecs, data, version), p, n)
  }

  function PointsAt(codecs: Codecs, data: seq<u8>, p: nat, version: u32, n: nat): Parsed<seq<Point>> {
    RepeatAt(PointField(codecs, data, version), p, n)
  }

  /** A dimension: its line and text; from version 4.20 on also an SXF mode, 2 auxiliary lines and 4 auxiliary points. */
  function DimensionAt(codecs: Codecs, data: seq<u8>, p: nat, version: u32): Parsed<Dimension> {
    var base :- BaseAt(data, p, version);
    var line :- LineAt(codecs, data, base.1, version);
    var text :- TextAt(codecs, data, line.1, version);
    if version >= 420 then
      var sxfMode :- U16At(data, text.1);
      var auxLines :- LinesAt(codecs, data, sxfMode.1, version, 2);
      var auxPoints :- PointsAt(codecs, data, auxLines.1, version, 4);
      Ok((Dimension(base.0, line.0, text.0, Some(sxfMode.0), auxLines.0, auxPoints.0), auxPoints.1))
    else
      Ok((Dimension(base.0, line.0, text.0, None, [], []), text.1))
  }

  // ---------------------------------------------------------------------
  // Object tags and the entity list
  // ---------------------------------------------------------------------

  /** The class tag announcing a new class: schema, name length and name follow. */
  const NewClassTag: u16 := 0xFFFF
  /** The class tag of a null object. */
  const NullTag: u16 := 0x8000

  /** The pid a class-reference tag refers to: its low 15 bits. */
  function ClassPid(tag: u16): nat { tag % 0x8000 }

  /** The seven entity classes, by their MFC class names. */
  predicate IsEntityClass(name: string) {
    name in {"CDataSen", "CDataEnko", "CDataTen", "CDataMoji", "CDataSolid", "CDataBlock", "CDataSunpou"}
  }

  /** The class-tracking state of a stream: the registered names by id, and the id the next object takes. */
  datatype ClassTable = ClassTable(names: map<nat, string>, next: nat)

  /** A newly announced class: its name bytes as lossy UTF-8, and the position after them. */
  function ClassNameAt(codecs: Codecs, data: seq<u8>, p: nat): Parsed<string> {
    var schema :- U16At(data, p);
    var nameLen :- U16At(data, schema.1);
    var name :- BytesAt(data, nameLen.1, nameLen.0);
    Ok((codecs.utf8Lossy(name.0), name.1))
  }

  /** The record of class `name` at `p`; an unknown class aborts the parse. */
  function RecordAt(codecs: Codecs, data: seq<u8>, p: nat, version: u32, name: string): Parsed<Entity> {
    if name == "CDataSen" then var v :- LineAt(codecs, data, p, version); Ok((LineEntity(v.0), v.1))
    else if name == "CDataEnko" then var v :- ArcAt(codecs, data, p, version); Ok((ArcEntity(v.0), v.1))
    else if name == "CDataTen" then var v :- PointAt(codecs, data, p, version); Ok((PointEntity(v.0), v.1))
    else if name == "CDataMoji" then var v :- TextAt(codecs, data, p, version); Ok((TextEntity(v.0), v.1))
    else if name == "CDataSolid" then var v :- SolidAt(codecs, data, p, version); Ok((SolidEntity(v.0), v.1))
    else if name == "CDataBlock" then var v :- BlockAt(codecs, data, p, version); Ok((BlockEntity(v.0), v.1))
    else if name == "CDataSunpou" then var v :- DimensionAt(codecs, data, p, version); Ok((DimensionEntity(v.0), v.1))
    else Err(Stop(UnknownEntityClass(name), p))
  }

  /** Decodes the record of a named class in some data at some position. */
  type RecordDecoder = (seq<u8>, nat, string) -> Parsed<Entity>

  /** The record decoder of a document with these codecs and this version. */
  function Records(codecs: Codecs, version: u32): RecordDecoder {
    (d: seq<u8>, q: nat, name: string) => RecordAt(codecs, d, q, version, name)
  }

  /** `records` decodes every record exactly as RecordAt does for these codecs and this version. */
  ghost predicate DecodesRecords(records: RecordDecoder, codecs: Codecs, version: u32) {
    forall d, q, name {:trigger RecordAt(codecs, d, q, version, name)} ::
      records(d, q, name) == RecordAt(codecs, d, q, version, name)
  }

  lemma RecordsDecode(codecs: Codecs, version: u32)
    ensures DecodesRecords(Records(codecs, version), codecs, version)
  {
  }

  /**
   * The class an object tag names, read from `q` on: a new-class tag
   * announces a name, registered at the next pid; the null tag names none;
   * any other tag names the registered pid in its low 15 bits.
   */
  function ClassOfTag(codecs: Codecs, data: seq<u8>, tag: u16, q: nat, t: ClassTable)
    : Parsed<Option<(string, ClassTable)>>
  {
    if tag == NewClassTag then
      var name :- ClassNameAt(codecs, data, q);
      Ok((Some((name.0, ClassTable(t.names[t.next := name.0], t.next + 1))), name.1))
    else if tag == NullTag then
      Ok((None, q))
    else if ClassPid(tag) !in t.names then
      Err(Stop(UnknownClassPid(ClassPid(tag)), q))
    else
      Ok((Some((t.names[ClassPid(tag)], t)), q))
  }

  /** One tagged object: its class, then, unless the tag is null, its record, which takes one more pid. */
  function EntityAt(codecs: Codecs, data: seq<u8>, p: nat, records: RecordDecoder, t: ClassTable)
    : Parsed<(Option<Entity>, ClassTable)>
  {
    var tag :- U16At(data, p);
    var cls :- ClassOfTag(codecs, data, tag.0, tag.1, t);
    match cls.0
    case None => Ok(((None, t), cls.1))
    case Some((name, named)) =>
      var record :- records(data, cls.1, name);
      Ok(((Some(record.0), ClassTable(named.names, named.next + 1)), record.1))
  }


  // ---------------------------------------------------------------------
  // Streams of objects
  // ---------------------------------------------------------------------

  /** Decodes one object of a stream at a position, from a state: maybe a value, and the next state. */
  type Stepper<!S, T> = (nat, S) -> Parsed<(Option<T>, S)>

  function OptionToSeq<T>(o: Option<T>): seq<T> {
    if o.Some? then [o.value] else []
  }

  /** `n` objects in stream order; the first failure fails the whole run. */
  function RunAll<S, T>(step: Stepper<S, T>, p: nat, n: nat, s: S): Parsed<seq<T>>
    decreases n
  {
    if n == 0 then Ok(([], p))
    else
      var first :- step(p, s);
      var rest :- RunAll(step, first.1, n - 1, first.0.1);
      Ok((OptionToSeq(first.0.0) + rest.0, rest.1))
  }

  /** Up to `n` objects in stream order; the first failure ends the run and keeps what came before. */
  function RunUntilFailure<S, T>(step: Stepper<S, T>, p: nat, n: nat, s: S): seq<T>
    decreases n
  {
    if n == 0 then []
    else
      match step(p, s)
      case Err(_) => []
      case Ok(((v, s'), q)) => OptionToSeq(v) + RunUntilFailure(step, q, n - 1, s')
  }

  /** The values decoded so far, followed by what the rest of a run decodes to. */
  function Prepend<T>(done: seq<T>, rest: Parsed<seq<T>>): Parsed<seq<T>> {
    match rest
    case Ok((vs, q)) => Ok((done + vs, q))
    case Err(stop) => Err(stop)
  }
  lemma PrependNothing<T>(rest: Parsed<seq<T>>, q: nat, done: seq<T>)
    ensures Prepend([], rest) == rest
    ensures Prepend(done, Ok(([], q))) == Ok((done, q))
  {
    if rest.Ok? {
      assert [] + rest.value.0 == rest.value.0;
    }
    assert done + [] == done;
  }


  function EntityStepper(codecs: Codecs, data: seq<u8>, records: RecordDecoder): Stepper<ClassTable, Entity> {
    (q: nat, t: ClassTable) => EntityAt(codecs, data, q, records, t)
  }

  /** `step` decodes objects exactly as EntityAt does in this data with this record decoder. */
  ghost predicate StepsEntities(step: Stepper<ClassTable, Entity>, codecs: Codecs, data: seq<u8>, records: RecordDecoder) {
    forall q, t {:trigger EntityAt(codecs, data, q, records, t)} :: step(q, t) == EntityAt(codecs, data, q, records, t)
  }

  lemma EntityStepperSteps(codecs: Codecs, data: seq<u8>, records: RecordDecoder)
    ensures StepsEntities(EntityStepper(codecs, data, records), codecs, data, records)
  {
  }

  /** The state every entity list starts from: no classes, next pid 1. */
  const FreshClasses := ClassTable(map[], 1)

  /** An entity list: a u16 count, then that many objects with a fresh class table. */
  function EntityListAt(codecs: Codecs, data: seq<u8>, p: nat, records: RecordDecoder): Parsed<seq<Entity>> {
    var count :- U16At(data, p);
    RunAll(EntityStepper(codecs, data, records), count.1, count.0, FreshClasses)
  }

  // ---------------------------------------------------------------------
  // Block definitions
  // ---------------------------------------------------------------------

  /** `saturating_add(1)` on a u16 id. */
  function SaturatingInc(n: nat): nat {
    if n >= 0xFFFF then n else n + 1
  }

  /** A decoder of whole entity lists: the data and a position to the list and the position after it. */
  type ListDecoder = (seq<u8>, nat) -> Parsed<seq<Entity>>

  /** EntityListAt with the codecs and record decoder fixed. */
  function Lists(codecs: Codecs, records: RecordDecoder): ListDecoder {
    (d: seq<u8>, q: nat) => EntityListAt(codecs, d, q, records)
  }

  /** `lists` decodes entity lists exactly as EntityListAt does. */
  ghost predicate DecodesLists(lists: ListDecoder, codecs: Codecs, records: RecordDecoder) {
    forall d, q {:trigger EntityListAt(codecs, d, q, records)} :: lists(d, q) == EntityListAt(codecs, d, q, records)
  }

  lemma ListsDecode(codecs: Codecs, records: RecordDecoder)
    ensures DecodesLists(Lists(codecs, records), codecs, records)
  {
  }

  /** The nested entity list of a definition; a broken one counts as empty, but the cursor stays where it stopped. */
  function NestedEntitiesAt(lists: ListDecoder, data: seq<u8>, p: nat): (seq<Entity>, nat) {
    match lists(data, p)
    case Ok((es, q)) => (es, q)
    case Err(stop) => ([], stop.at)
  }

  /** The fields of a definition after its tag: attributes, number, referenced flag, a 4-byte time stamp, name, entities. */
  function BlockDefBodyAt(codecs: Codecs, data: seq<u8>, p: nat, version: u32, lists: ListDecoder)
    : Parsed<BlockDef>
  {
    var base :- BaseAt(data, p, version);
    var number :- U32At(data, base.1);
    var referenced :- U32At(data, number.1);
    var time :- BytesAt(data, referenced.1, 4);
    var name :- CStrAt(codecs, data, time.1);
    var entities := NestedEntitiesAt(lists, data, name.1);
    Ok((BlockDef(base.0, number.0, referenced.0 != 0, name.0, entities.0), entities.1))
  }

  /**
   * One block definition. A new-class tag registers its name at the next id,
   * which then saturates at 0xFFFF; a null tag yields nothing; any other tag
   * is not looked up at all.
   */
  function BlockDefAt(codecs: Codecs, data: seq<u8>, p: nat, version: u32, lists: ListDecoder, t: ClassTable)
    : Parsed<(Option<BlockDef>, ClassTable)>
  {
    var tag :- U16At(data, p);
    if tag.0 == NewClassTag then
      var name :- ClassNameAt(codecs, data, tag.1);
      var body :- BlockDefBodyAt(codecs, data, name.1, version, lists);
      Ok(((Some(body.0), ClassTable(t.names[t.next := name.0], SaturatingInc(t.next))), body.1))
    else if tag.0 == NullTag then
      Ok(((None, t), tag.1))
    else
      var body :- BlockDefBodyAt(codecs, data, tag.1, version, lists);
      Ok(((Some(body.0), t), body.1))
  }

  function BlockDefStepper(codecs: Codecs, data: seq<u8>, version: u32, lists: ListDecoder)
    : Stepper<ClassTable, BlockDef>
  {
    (q: nat, t: ClassTable) => BlockDefAt(codecs, data, q, version, lists, t)
  }

  /** `step` decodes block definitions exactly as BlockDefAt does. */
  ghost predicate StepsBlockDefs(step: Stepper<ClassTable, BlockDef>, codecs: Codecs, data: seq<u8>, version: u32,
                                 lists: ListDecoder)
  {
    forall q, t {:trigger BlockDefAt(codecs, data, q, version, lists, t)} ::
      step(q, t) == BlockDefAt(codecs, data, q, version, lists, t)
  }

  lemma BlockDefStepperSteps(codecs: Codecs, data: seq<u8>, version: u32, lists: ListDecoder)
    ensures StepsBlockDefs(BlockDefStepper(codecs, data, version, lists), codecs, data, version, lists)
  {
  }

  /** The most block definitions a list may announce. */
  const MaxBlockDefs: nat := 10000

  /**
   * A block definition list decoded by `step`: a u32 count, empty when
   * unreadable or above 10000, then the definitions from id 1.
   */
  function BlockDefListAt(step: Stepper<ClassTable, BlockDef>, data: seq<u8>): seq<BlockDef> {
    match U32At(data, 0)
    case Err(_) => []
    case Ok((count, p)) =>
      if count > MaxBlockDefs then [] else RunUntilFailure(step, p, count, FreshClasses)
  }

  // ---------------------------------------------------------------------
  // Locating the entity list
  // ---------------------------------------------------------------------

  /** "CData" in ASCII. */
  const CDataPrefix: seq<u8> := [0x43, 0x44, 0x61, 0x74, 0x61]

  /**
   * At `i` (scanned while `i + 20` is inside the data): FF FF, the version's
   * two low bytes, then a u16 name length in 8..=32 and a class name, inside
   * the data, that starts with "CData".
   */
  predicate IsEntityListMarker(data: seq<u8>, version: u32, i: nat) {
    && i + 20 < |data|
    && data[i] == 0xFF && data[i + 1] == 0xFF
    && data[i + 2] == version % 0x100 && data[i + 3] == (version / 0x100) % 0x100
    && var nameLen := LeU16(data[i + 4..i + 6]);
    && 8 <= nameLen <= 32 && i + 6 + nameLen <= |data|
    && data[i + 6..i + 11] == CDataPrefix
  }

  /** The first marker at `i` or later. */
  function FirstMarkerFrom(data: seq<u8>, version: u32, i: nat): (r: Option<nat>)
    ensures r.Some? ==> i <= r.value && r.value + 20 < |data|
    decreases |data| - i
  {
    if i + 20 >= |data| then None
    else if IsEntityListMarker(data, version, i) then Some(i)
    else FirstMarkerFrom(data, version, i + 1)
  }

  /** Where the entity list starts: two bytes before the first marker at 100 or later, in data of at least 128 bytes. */
  function EntityListOffset(data: seq<u8>, version: u32): (r: Option<nat>)
    ensures r.Some? ==> r.value + 22 < |data|
  {
    if |data| < 128 then None
    else match FirstMarkerFrom(data, version, 100)
      case None => None
      case Some(i) => Some(i - 2)
  }

  /**
   * The two streams of a document whose header declares `version`: the
   * entity list read from the start of its own slice, then, when bytes
   * remain after it, the block definition list read from another slice.
   */
  function StreamsAt(codecs: Codecs, data: seq<u8>, version: u32): Result<(seq<Entity>, seq<BlockDef>), JwwError> {
    match EntityListOffset(data, version)
    case None => Err(EntityListNotFound)
    case Some(off) =>
      match EntityListAt(codecs, data[off..], 0, Records(codecs, version))
      case Err(stop) => Err(stop.error)
      case Ok((entities, used)) =>
        var blockStart := off + used;
        if blockStart < |data| then
          var rest := data[blockStart..];
          var blockDefs := BlockDefStepper(codecs, rest, version, Lists(codecs, Records(codecs, version)));
          Ok((entities, BlockDefListAt(blockDefs, rest)))
        else Ok((entities, []))
  }

  // ---------------------------------------------------------------------
  // Properties of the layout
  // ---------------------------------------------------------------------

  /** The common attributes take 13 bytes, or 15 from version 3.51 on; a short read is an end-of-data error. */
  lemma BaseAtSize(data: seq<u8>, p: nat, version: u32)
    ensures BaseAt(data, p, version).Ok? <==> p + BaseSize(version) <= |data|
    ensures BaseAt(data, p, version).Ok? ==>
      var (b, q) := BaseAt(data, p, version).value;
      && q == p + BaseSize(version)
      && b.penStyle == data[p + 4] && b.penColor == LeU16(data[p + 5..p + 7])
      && (version < 351 ==> b.penWidth == 0)
    ensures BaseAt(data, p, version).Err? ==> BaseAt(data, p, version).error.error == EofBytes
  {
  }

  /** A line record is the attributes and four coordinates. */
  lemma LineAtSize(codecs: Codecs, data: seq<u8>, p: nat, version: u32)
    ensures LineAt(codecs, data, p, version).Ok? <==> p + BaseSize(version) + 32 <= |data|
    ensures LineAt(codecs, data, p, version).Ok? ==> LineAt(codecs, data, p, version).value.1 == p + BaseSize(version) + 32
    ensures LineAt(codecs, data, p, version).Err? ==> LineAt(codecs, data, p, version).error.error == EofBytes
  {
    BaseAtSize(data, p, version);
  }

  /** A point record carries code, angle and scale (20 more bytes) exactly when its pen style is 100. */
  lemma PointAtSize(codecs: Codecs, data: seq<u8>, p: nat, version: u32)
    ensures PointAt(codecs, data, p, version).Ok? ==>
      var (pt, q) := PointAt(codecs, data, p, version).value;
      q == p + BaseSize(version) + (if pt.base.penStyle == 100 then 40 else 20)
      && (pt.base.penStyle != 100 ==> pt.code == 0 && pt.angle == 0.0 && pt.scale == 0.0)
    ensures PointAt(codecs, data, p, version).Err? ==> PointAt(codecs, data, p, version).error.error == EofBytes
  {
    BaseAtSize(data, p, version);
  }

  /** A solid record carries a colour (4 more bytes) exactly when its pen colour is 10. */
  lemma SolidAtSize(codecs: Codecs, data: seq<u8>, p: nat, version: u32)
    ensures SolidAt(codecs, data, p, version).Ok? ==>
      var (so, q) := SolidAt(codecs, data, p, version).value;
      (so.color.Some? <==> so.base.penColor == 10)
      && q == p + BaseSize(version) + (if so.base.penColor == 10 then 68 else 64)
    ensures SolidAt(codecs, data, p, version).Err? ==> SolidAt(codecs, data, p, version).error.error == EofBytes
  {
    BaseAtSize(data, p, version);
  }

  /** Repeated records come out exactly as many as asked for. */
  lemma {:induction false} RepeatAtCount<T>(field: nat -> Parsed<T>, p: nat, n: nat)
    ensures RepeatAt(field, p, n).Ok? ==> |RepeatAt(field, p, n).value.0| == n
  {
    if n > 0 {
      RepeatAtCount(field, p, n - 1);
    }
  }

  /** Once repeated records fail, reading more of them fails the same way. */
  lemma {:induction false} RepeatAtFailed<T>(field: nat -> Parsed<T>, p: nat, m: nat, n: nat)
    requires m <= n && RepeatAt(field, p, m).Err?
    ensures RepeatAt(field, p, n) == RepeatAt(field, p, m)
    decreases n
  {
    if m < n {
      RepeatAtFailed(field, p, m, n - 1);
    }
  }

  /** From version 4.20 on a dimension has an SXF mode, 2 auxiliary lines and 4 auxiliary points; before, none of them. */
  lemma DimensionAtShape(codecs: Codecs, data: seq<u8>, p: nat, version: u32)
    ensures DimensionAt(codecs, data, p, version).Ok? ==>
      var d := DimensionAt(codecs, data, p, version).value.0;
      && (d.sxfMode.Some? <==> version >= 420)
      && |d.auxLines| == (if version >= 420 then 2 else 0)
      && |d.auxPoints| == (if version >= 420 then 4 else 0)
  {
    var r := DimensionAt(codecs, data, p, version);
    if r.Ok? && version >= 420 {
      var base := BaseAt(data, p, version).value;
      var line := LineAt(codecs, data, base.1, version).value;
      var text := TextAt(codecs, data, line.1, version).value;
      var sxfMode := U16At(data, text.1).value;
      RepeatAtCount(LineField(codecs, data, version), sxfMode.1, 2);
      var auxLines := LinesAt(codecs, data, sxfMode.1, version, 2).value;
      RepeatAtCount(PointField(codecs, data, version), auxLines.1, 4);
    }
  }

  /**
   * Class tracking: a new-class tag registers the name at the next pid and
   * uses two pids in all; a reference to a registered pid uses one; the null
   * tag yields nothing and changes nothing; an unregistered pid is an error
   * naming its low 15 bits.
   */
  lemma EntityAtClassTracking(codecs: Codecs, data: seq<u8>, p: nat, records: RecordDecoder, t: ClassTable)
    requires p + 2 <= |data|
    ensures var tag := LeU16(data[p..p + 2]);
      var r := EntityAt(codecs, data, p, records, t);
      && (tag == NewClassTag && r.Ok? ==>
            var name := ClassNameAt(codecs, data, p + 2).value.0;
            r.value.0.1 == ClassTable(t.names[t.next := name], t.next + 2) && r.value.0.0.Some?)
      && (tag == NullTag ==> r == Ok(((None, t), p + 2)))
      && (tag != NewClassTag && tag != NullTag && ClassPid(tag) !in t.names ==>
            r == Err(Stop(UnknownClassPid(ClassPid(tag)), p + 2)))
      && (tag != NewClassTag && tag != NullTag && ClassPid(tag) in t.names && r.Ok? ==>
            r.value.0.1 == ClassTable(t.names, t.next + 1) && r.value.0.0.Some?)
  {
  }

  /** Only the seven entity classes decode; any other registered name aborts the parse where its record would start. */
  lemma RecordAtClasses(codecs: Codecs, data: seq<u8>, p: nat, version: u32, name: string)
    ensures !IsEntityClass(name) ==> RecordAt(codecs, data, p, version, name) == Err(Stop(UnknownEntityClass(name), p))
    ensures name == "CDataSen" ==> RecordAt(codecs, data, p, version, name).Ok? ==>
      RecordAt(codecs, data, p, version, name).value.0.LineEntity?
  {
  }

  /** A run yields at most one value per object: never more than announced. */
  lemma {:induction false} RunAllCount<S, T>(step: Stepper<S, T>, p: nat, n: nat, s: S)
    ensures RunAll(step, p, n, s).Ok? ==> |RunAll(step, p, n, s).value.0| <= n
    decreases n
  {
    if n > 0 && step(p, s).Ok? {
      var ((_, s'), q) := step(p, s).value;
      RunAllCount(step, q, n - 1, s');
    }
  }

  /** One more object decoded from the current state moves it from the rest of the run into the values done. */
  lemma RunAllStep<S, T>(step: Stepper<S, T>, p: nat, n: nat, s: S, done: seq<T>)
    requires n > 0
    ensures step(p, s).Err? ==> Prepend(done, RunAll(step, p, n, s)) == Err(step(p, s).error)
    ensures step(p, s).Ok? ==>
      var ((v, s'), q) := step(p, s).value;
      Prepend(done, RunAll(step, p, n, s)) == Prepend(done + OptionToSeq(v), RunAll(step, q, n - 1, s'))
  {
    if step(p, s).Ok? {
      var ((v, s'), q) := step(p, s).value;
      var rest := RunAll(step, q, n - 1, s');
      if rest.Ok? {
        assert done + (OptionToSeq(v) + rest.value.0) == (done + OptionToSeq(v)) + rest.value.0;
      }
    }
  }

  /** One more object of a run that stops at the first failure: a failure ends it, a success moves one object into the values done. */
  lemma RunUntilFailureStep<S, T>(step: Stepper<S, T>, p: nat, n: nat, s: S, done: seq<T>)
    requires n > 0
    ensures step(p, s).Err? ==> done + RunUntilFailure(step, p, n, s) == done
    ensures step(p, s).Ok? ==>
      var ((v, s'), q) := step(p, s).value;
      done + RunUntilFailure(step, p, n, s) == (done + OptionToSeq(v)) + RunUntilFailure(step, q, n - 1, s')
  {
    assert done + [] == done;
  }

  lemma PrefixAfterSame<T>(a: seq<T>, b: seq<T>, c: seq<T>)
    requires b <= c
    ensures a + b <= a + c
  {
    assert (a + c)[..|a + b|] == a + c[..|b|];
  }

  /** Reading fewer objects from the same place gives a prefix: stopping early keeps the ones before. */
  lemma {:induction false} RunUntilFailurePrefix<S, T>(step: Stepper<S, T>, p: nat, m: nat, n: nat, s: S)
    requires m <= n
    ensures RunUntilFailure(step, p, m, s) <= RunUntilFailure(step, p, n, s)
    decreases m
  {
    if m > 0 && step(p, s).Ok? {
      var ((v, s'), q) := step(p, s).value;
      RunUntilFailurePrefix(step, q, m - 1, n - 1, s');
      PrefixAfterSame(OptionToSeq(v), RunUntilFailure(step, q, m - 1, s'), RunUntilFailure(step, q, n - 1, s'));
    }
  }

  lemma {:induction false} RunUntilFailureCount<S, T>(step: Stepper<S, T>, p: nat, n: nat, s: S)
    ensures |RunUntilFailure(step, p, n, s)| <= n
    decreases n
  {
    if n > 0 && step(p, s).Ok? {
      var ((_, s'), q) := step(p, s).value;
      RunUntilFailureCount(step, q, n - 1, s');
    }
  }

  /** An entity list never holds more entities than its count announces. */
  lemma EntityListAtCount(codecs: Codecs, data: seq<u8>, p: nat, records: RecordDecoder)
    ensures EntityListAt(codecs, data, p, records).Ok? ==>
      p + 2 <= |data| && |EntityListAt(codecs, data, p, records).value.0| <= LeU16(data[p..p + 2])
  {
    if U16At(data, p).Ok? {
      RunAllCount(EntityStepper(codecs, data, records), p + 2, LeU16(data[p..p + 2]), FreshClasses);
    }
  }

  /** A block definition list never holds more than the count it announces, nor more than 10000. */
  lemma BlockDefListAtBounds(step: Stepper<ClassTable, BlockDef>, data: seq<u8>)
    ensures |BlockDefListAt(step, data)| <= MaxBlockDefs
    ensures |data| < 4 ==> BlockDefListAt(step, data) == []
    ensures |data| >= 4 ==> |BlockDefListAt(step, data)| <= LeU32(data[..4])
    ensures |data| >= 4 && LeU32(data[..4]) > MaxBlockDefs ==> BlockDefListAt(step, data) == []
  {
    if U32At(data, 0).Ok? {
      var (count, p) := U32At(data, 0).value;
      RunUntilFailureCount(step, p, count, FreshClasses);
    }
  }

  /** The scan finds the first marker: none before it, and none at all when it finds nothing. */
  lemma {:induction false} FirstMarkerFromSpec(data: seq<u8>, version: u32, i: nat)
    ensures var r := FirstMarkerFrom(data, version, i);
      && (r.Some? ==> IsEntityListMarker(data, version, r.value)
                      && forall j :: i <= j < r.value ==> !IsEntityListMarker(data, version, j))
      && (r.None? ==> forall j :: i <= j ==> !IsEntityListMarker(data, version, j))
    decreases |data| - i
  {
    if i + 20 < |data| && !IsEntityListMarker(data, version, i) {
      FirstMarkerFromSpec(data, version, i + 1);
    }
  }

  /**
   * The entity list starts two bytes before the first marker at or after
   * byte 100, and there is none in data shorter than 128 bytes.
   */
  lemma EntityListOffsetSpec(data: seq<u8>, version: u32)
    ensures |data| < 128 ==> EntityListOffset(data, version).None?
    ensures EntityListOffset(data, version).Some? ==>
      var r := EntityListOffset(data, version).value;
      && r + 2 >= 100 && IsEntityListMarker(data, version, r + 2)
      && forall j :: 100 <= j < r + 2 ==> !IsEntityListMarker(data, version, j)
    ensures |data| >= 128 && EntityListOffset(data, version).None? ==>
      forall j :: 100 <= j ==> !IsEntityListMarker(data, version, j)
  {
    FirstMarkerFromSpec(data, version, 100);
  }
}

=== FILE: lookup.dfy ===
/**
 * Queries over a decoded document (src/parser.rs): counts per entity type,
 * the block-definition name lookups, and the validation of block references
 * against the definitions.
 */
module JwwLookup {
  import opened Bytes
  import opened Wrappers
  import opened JwwModel

  // ---------------------------------------------------------------------
  // Entity counts
  // ---------------------------------------------------------------------

  /** How many entities carry the type tag `tag`. */
  function CountOf(entities: seq<Entity>, tag: string): nat {
    if entities == [] then 0
    else CountOf(entities[..|entities| - 1], tag) + (if EntityType(entities[|entities| - 1]) == tag then 1 else 0)
  }

  /** `entity_counts`: one entry per type tag that occurs, holding how often it occurs. */
  method EntityCounts(entities: seq<Entity>) returns (counts: map<string, nat>)
    ensures forall tag :: tag in counts <==> CountOf(entities, tag) > 0
    ensures forall tag :: tag in counts ==> counts[tag] == CountOf(entities, tag)
  {
    counts := map[];
    for i := 0 to |entities|
      invariant forall tag :: tag in counts <==> CountOf(entities[..i], tag) > 0
      invariant forall tag :: tag in counts ==> counts[tag] == CountOf(entities[..i], tag)
    {
      assert entities[..i + 1][..i] == entities[..i];
      var tag := EntityType(entities[i]);
      counts := counts[tag := if tag in counts then counts[tag] + 1 else 1];
    }
    assert entities[..|entities|] == entities;
  }

  /** The count of the eight tags together, so every value of `entity_counts` together, is the number of entities. */
  lemma {:induction false} CountsSumToLength(entities: seq<Entity>)
    ensures CountOf(entities, "LINE") + CountOf(entities, "ARC") + CountOf(entities, "CIRCLE")
          + CountOf(entities, "POINT") + CountOf(entities, "TEXT") + CountOf(entities, "SOLID")
          + CountOf(entities, "BLOCK") + CountOf(entities, "DIMENSION") == |entities|
  {
    if entities != [] {
      CountsSumToLength(entities[..|entities| - 1]);
    }
  }

  /** A tag that is not one of the eight is never counted. */
  lemma {:induction false} CountOfOtherTag(entities: seq<Entity>, tag: string)
    requires !IsEntityTypeTag(tag)
    ensures CountOf(entities, tag) == 0
  {
    if entities != [] {
      CountOfOtherTag(entities[..|entities| - 1], tag);
    }
  }

  // ---------------------------------------------------------------------
  // Block definition lookups
  // ---------------------------------------------------------------------

  /** Some definition carries `number`. */
  predicate Defined(defs: seq<BlockDef>, number: u32) {
    exists i :: 0 <= i < |defs| && defs[i].number == number
  }

  /** The last definition carrying `number`: the one a map filled in list order keeps. */
  function LastDefOf(defs: seq<BlockDef>, number: u32): (r: Option<BlockDef>)
    ensures r.None? <==> !Defined(defs, number)
    ensures r.Some? ==> exists i :: 0 <= i < |defs| && defs[i] == r.value && r.value.number == number
                                   && forall j :: i < j < |defs| ==> defs[j].number != number
  {
    if defs == [] then None
    else if defs[|defs| - 1].number == number then Some(defs[|defs| - 1])
    else
      var prefix := defs[..|defs| - 1];
      var r := LastDefOf(prefix, number);
      assert forall i :: 0 <= i < |prefix| ==> prefix[i] == defs[i];
      r
  }

  /** `block_def_name_map`: every defined number, mapped to the name of its last definition. */
  method BlockDefNameMap(defs: seq<BlockDef>) returns (names: map<u32, string>)
    ensures forall number :: number in names <==> Defined(defs, number)
    ensures forall number :: number in names ==> names[number] == LastDefOf(defs, number).value.name
  {
    names := map[];
    for i := 0 to |defs|
      invariant forall number :: number in names <==> Defined(defs[..i], number)
      invariant forall number :: number in names ==> names[number] == LastDefOf(defs[..i], number).value.name
    {
      assert defs[..i + 1][..i] == defs[..i];
      assert defs[..i + 1][i] == defs[i];
      names := names[defs[i].number := defs[i].name];
    }
    assert defs[..|defs|] == defs;
  }

  /** `resolve_block_name`: the name of the first definition carrying `number`. */
  function ResolveBlockName(number: u32, defs: seq<BlockDef>): (r: Option<string>)
    ensures r.None? <==> !Defined(defs, number)
    ensures r.Some? ==> exists i :: 0 <= i < |defs| && defs[i].number == number && defs[i].name == r.value
                                   && forall j :: 0 <= j < i ==> defs[j].number != number
  {
    if defs == [] then None
    else if defs[0].number == number then Some(defs[0].name)
    else
      var r := ResolveBlockName(number, defs[1..]);
      assert forall i :: 0 <= i < |defs| - 1 ==> defs[1..][i] == defs[i + 1];
      assert Defined(defs[1..], number) <==> Defined(defs, number);
      r
  }

  /** Numbers carried by one definition each: the first and the last definition are the same one, so both lookups agree. */
  lemma ResolveAgreesWithNameMap(defs: seq<BlockDef>, number: u32)
    requires forall i, j :: 0 <= i < j < |defs| ==> defs[i].number != defs[j].number
    ensures ResolveBlockName(number, defs).Some? <==> LastDefOf(defs, number).Some?
    ensures ResolveBlockName(number, defs).Some? ==> ResolveBlockName(number, defs).value == LastDefOf(defs, number).value.name
  {
    var first, last := ResolveBlockName(number, defs), LastDefOf(defs, number);
    if first.Some? {
      var i :| 0 <= i < |defs| && defs[i].number == number && defs[i].name == first.value;
      var k :| 0 <= k < |defs| && defs[k] == last.value && last.value.number == number
               && forall j :: k < j < |defs| ==> defs[j].number != number;
      assert i == k;
    }
  }

  /** The lookups of `block_def_map_works`: numbers 3 and 7 named A and B, number 10 undefined. */
  lemma LookupExample()
    ensures var defs := [BlockDef(DefaultBase, 3, false, "A", []), BlockDef(DefaultBase, 7, true, "B", [])];
      && LastDefOf(defs, 3) == Some(defs[0]) && LastDefOf(defs, 7) == Some(defs[1])
      && ResolveBlockName(10, defs) == None && ResolveBlockName(7, defs) == Some("B")
  {
    var defs := [BlockDef(DefaultBase, 3, false, "A", []), BlockDef(DefaultBase, 7, true, "B", [])];
    assert defs[..1] == [defs[0]];
    assert LastDefOf(defs, 3) == Some(defs[0]);
    assert LastDefOf(defs, 7) == Some(defs[1]);
  }

  // ---------------------------------------------------------------------
  // Block reference validation
  // ---------------------------------------------------------------------

  /** The definition numbers of the block references among `entities`, in order. */
  function BlockRefNumbers(entities: seq<Entity>): (r: seq<u32>)
    ensures |r| <= |entities|
  {
    if entities == [] then []
    else
      var last := entities[|entities| - 1];
      BlockRefNumbers(entities[..|entities| - 1]) + (if last.BlockEntity? then [last.block.defNumber] else [])
  }

  /**
   * One number per block reference: as many as `entity_counts` gives for
   * BLOCK, and a number is collected exactly when some reference carries it.
   */
  lemma {:induction false} BlockRefNumbersFromBlocks(entities: seq<Entity>, n: u32)
    ensures |BlockRefNumbers(entities)| == CountOf(entities, "BLOCK")
    ensures n in BlockRefNumbers(entities) <==>
      exists i :: 0 <= i < |entities| && entities[i].BlockEntity? && entities[i].block.defNumber == n
  {
    if entities != [] {
      var prefix := entities[..|entities| - 1];
      BlockRefNumbersFromBlocks(prefix, n);
      assert forall i :: 0 <= i < |prefix| ==> prefix[i] == entities[i];
    }
  }

  /** `collect_block_ref_numbers`: appends the definition numbers of the block references to `out`. */
  method CollectBlockRefNumbers(entities: seq<Entity>, out: seq<u32>) returns (r: seq<u32>)
    ensures r == out + BlockRefNumbers(entities)
  {
    r := out;
    for i := 0 to |entities|
      invariant r == out + BlockRefNumbers(entities[..i])
    {
      assert entities[..i + 1][..i] == entities[..i];
      if entities[i].BlockEntity? {
        r := r + [entities[i].block.defNumber];
      }
    }
    assert entities[..|entities|] == entities;
  }

  /** The references inside the definitions, definition by definition. */
  function DefRefNumbers(defs: seq<BlockDef>): seq<u32> {
    if defs == [] then [] else DefRefNumbers(defs[..|defs| - 1]) + BlockRefNumbers(defs[|defs| - 1].entities)
  }

  /** Every block reference of a document: the top-level ones, then those inside each definition. */
  function DocumentRefNumbers(doc: JwwDocument): seq<u32> {
    BlockRefNumbers(doc.entities) + DefRefNumbers(doc.blockDefs)
  }

  /** How many of `refs` name a defined number. */
  function ResolvedCount(refs: seq<u32>, defs: seq<BlockDef>): nat {
    if refs == [] then 0
    else ResolvedCount(refs[..|refs| - 1], defs) + (if Defined(defs, refs[|refs| - 1]) then 1 else 0)
  }

  predicate StrictlyIncreasing(s: seq<u32>) {
    forall i, j :: 0 <= i < j < |s| ==> s[i] < s[j]
  }

  /** `BTreeSet::insert` on the ascending sequence of a set's elements. */
  function InsertSorted(s: seq<u32>, x: u32): (r: seq<u32>)
    requires StrictlyIncreasing(s)
    ensures StrictlyIncreasing(r)
    ensures forall y :: y in r <==> y in s || y == x
    ensures |r| <= |s| + 1
  {
    if s == [] then [x]
    else if x < s[0] then
      assert forall i :: 0 < i < |s| ==> s[0] < s[i];
      [x] + s
    else if x == s[0] then s
    else
      var rest := InsertSorted(s[1..], x);
      assert forall y :: y in s <==> y == s[0] || y in s[1..];
      assert forall y :: y in s[1..] ==> s[0] < y;
      assert forall j :: 0 <= j < |rest| ==> rest[j] in rest;
      [s[0]] + rest
  }

  datatype BlockReferenceValidation = BlockReferenceValidation(
    totalReferences: nat,
    resolvedReferences: nat,
    unresolvedDefNumbers: seq<u32>)
  {
    /** `has_unresolved`. */
    predicate HasUnresolved() {
      unresolvedDefNumbers != []
    }
  }

  /** The first half of `validate_block_references`: the top-level references, then those of each definition. */
  method CollectDocumentRefs(doc: JwwDocument) returns (refs: seq<u32>)
    ensures refs == DocumentRefNumbers(doc)
  {
    refs := CollectBlockRefNumbers(doc.entities, []);
    ghost var top := BlockRefNumbers(doc.entities);
    for k := 0 to |doc.blockDefs|
      invariant refs == top + DefRefNumbers(doc.blockDefs[..k])
    {
      ghost var before := DefRefNumbers(doc.blockDefs[..k]);
      ghost var inner := BlockRefNumbers(doc.blockDefs[k].entities);
      assert DefRefNumbers(doc.blockDefs[..k + 1]) == before + inner by {
        assert doc.blockDefs[..k + 1][..k] == doc.blockDefs[..k];
      }
      refs := CollectBlockRefNumbers(doc.blockDefs[k].entities, refs);
      assert refs == top + (before + inner);
    }
    assert doc.blockDefs[..|doc.blockDefs|] == doc.blockDefs;
  }

  /**
   * The second half of `validate_block_references`: a reference whose number
   * is a key of the name map is resolved, any other number goes into the
   * ascending set of unresolved numbers.
   */
  method TallyReferences(refs: seq<u32>, defs: seq<BlockDef>, nameMap: map<u32, string>)
    returns (resolved: nat, unresolved: seq<u32>)
    requires forall n :: n in nameMap <==> Defined(defs, n)
    ensures resolved == ResolvedCount(refs, defs)
    ensures StrictlyIncreasing(unresolved)
    ensures forall n :: n in unresolved <==> n in refs && !Defined(defs, n)
    ensures resolved + |unresolved| <= |refs|
  {
    resolved, unresolved := 0, [];
    for i := 0 to |refs|
      invariant resolved == ResolvedCount(refs[..i], defs)
      invariant StrictlyIncreasing(unresolved)
      invariant forall n :: n in unresolved <==> n in refs[..i] && n !in nameMap
      invariant resolved + |unresolved| <= i
    {
      assert refs[..i + 1][..i] == refs[..i];
      assert forall n :: n in refs[..i + 1] <==> n in refs[..i] || n == refs[i];
      if refs[i] in nameMap {
        resolved := resolved + 1;
      } else {
        unresolved := InsertSorted(unresolved, refs[i]);
      }
    }
    assert refs[..|refs|] == refs;
  }

  /**
   * `validate_block_references`: all references counted, those naming a
   * defined number counted as resolved, and the other numbers collected
   * once each in ascending order.
   */
  method ValidateBlockReferences(doc: JwwDocument) returns (v: BlockReferenceValidation)
    ensures v.totalReferences == |DocumentRefNumbers(doc)|
    ensures v.resolvedReferences == ResolvedCount(DocumentRefNumbers(doc), doc.blockDefs)
    ensures StrictlyIncreasing(v.unresolvedDefNumbers)
    ensures forall n :: n in v.unresolvedDefNumbers <==> n in DocumentRefNumbers(doc) && !Defined(doc.blockDefs, n)
    ensures v.HasUnresolved() <==> exists n :: n in DocumentRefNumbers(doc) && !Defined(doc.blockDefs, n)
    ensures v.resolvedReferences + |v.unresolvedDefNumbers| <= v.totalReferences
  {
    var refs := CollectDocumentRefs(doc);
    var nameMap := BlockDefNameMap(doc.blockDefs);
    var resolved, unresolved := TallyReferences(refs, doc.blockDefs, nameMap);
    v := BlockReferenceValidation(|refs|, resolved, unresolved);
    if v.HasUnresolved() {
      assert unresolved[0] in refs && !Defined(doc.blockDefs, unresolved[0]);
    }
  }
}

=== FILE: model.dfy ===
/**
 * The decoded drawing (src/model.rs): the entity records, the entity type
 * tags, the control points each entity carries explicitly, and their
 * min/max bounding box. Binary64 coordinates are carried as reals.
 */
module JwwModel {
  import opened Bytes
  import opened Wrappers
  import JwwHeader

  datatype EntityBase = EntityBase(
    group: u32,
    penStyle: u8,
    penColor: u16,
    penWidth: u16,
    layer: u16,
    layerGroup: u16,
    flag: u16)

  const DefaultBase := EntityBase(0, 0, 0, 0, 0, 0, 0)

  datatype Coord2D = Coord2D(x: real, y: real)

  datatype Line = Line(base: EntityBase, startX: real, startY: real, endX: real, endY: real)

  datatype Arc = Arc(
    base: EntityBase,
    centerX: real,
    centerY: real,
    radius: real,
    startAngle: real,
    arcAngle: real,
    tiltAngle: real,
    flatness: real,
    isFullCircle: bool)

  datatype Point = Point(
    base: EntityBase,
    x: real,
    y: real,
    isTemporary: bool,
    code: u32,
    angle: real,
    scale: real)

  datatype Text = Text(
    base: EntityBase,
    startX: real,
    startY: real,
    endX: real,
    endY: real,
    textType: u32,
    sizeX: real,
    sizeY: real,
    spacing: real,
    angle: real,
    fontName: string,
    content: string)

  datatype Solid = Solid(
    base: EntityBase,
    point1X: real,
    point1Y: real,
    point2X: real,
    point2Y: real,
    point3X: real,
    point3Y: real,
    point4X: real,
    point4Y: real,
    color: Option<u32>)

  datatype Block = Block(
    base: EntityBase,
    refX: real,
    refY: real,
    scaleX: real,
    scaleY: real,
    rotation: real,
    defNumber: u32)

  datatype Dimension = Dimension(
    base: EntityBase,
    line: Line,
    text: Text,
    sxfMode: Option<u16>,
    auxLines: seq<Line>,
    auxPoints: seq<Point>)

  datatype Entity =
    | LineEntity(line: Line)
    | ArcEntity(arc: Arc)
    | PointEntity(point: Point)
    | TextEntity(text: Text)
    | SolidEntity(solid: Solid)
    | BlockEntity(block: Block)
    | DimensionEntity(dimension: Dimension)

  datatype BlockDef = BlockDef(
    base: EntityBase,
    number: u32,
    isReferenced: bool,
    name: string,
    entities: seq<Entity>)

  datatype JwwDocument = JwwDocument(
    header: JwwHeader.JwwHeader,
    entities: seq<Entity>,
    blockDefs: seq<BlockDef>)

  /** The eight type tags an entity can carry. */
  predicate IsEntityTypeTag(s: string) {
    s in {"LINE", "ARC", "CIRCLE", "POINT", "TEXT", "SOLID", "BLOCK", "DIMENSION"}
  }

  /** `Entity::entity_type`: an arc is a CIRCLE exactly when it is a full circle; every other kind has one fixed tag. */
  function EntityType(e: Entity): (t: string)
    ensures IsEntityTypeTag(t)
    ensures t == "CIRCLE" <==> e.ArcEntity? && e.arc.isFullCircle
    ensures t == "ARC" <==> e.ArcEntity? && !e.arc.isFullCircle
    ensures t == "LINE" <==> e.LineEntity?
    ensures t == "POINT" <==> e.PointEntity?
    ensures t == "TEXT" <==> e.TextEntity?
    ensures t == "SOLID" <==> e.SolidEntity?
    ensures t == "BLOCK" <==> e.BlockEntity?
    ensures t == "DIMENSION" <==> e.DimensionEntity?
  {
    match e
    case LineEntity(_) => "LINE"
    case ArcEntity(a) => if a.isFullCircle then "CIRCLE" else "ARC"
    case PointEntity(_) => "POINT"
    case TextEntity(_) => "TEXT"
    case SolidEntity(_) => "SOLID"
    case BlockEntity(_) => "BLOCK"
    case DimensionEntity(_) => "DIMENSION"
  }

  /** `Entity::base`: the common attributes of whichever record the entity holds. */
  function Base(e: Entity): EntityBase {
    match e
    case LineEntity(v) => v.base
    case ArcEntity(v) => v.base
    case PointEntity(v) => v.base
    case TextEntity(v) => v.base
    case SolidEntity(v) => v.base
    case BlockEntity(v) => v.base
    case DimensionEntity(v) => v.base
  }

  /** Start then end point of each line, in order. */
  function LinePoints(lines: seq<Line>): (ps: seq<Coord2D>)
    ensures |ps| == 2 * |lines|
    ensures forall i :: 0 <= i < |lines| ==>
      ps[2 * i] == Coord2D(lines[i].startX, lines[i].startY) && ps[2 * i + 1] == Coord2D(lines[i].endX, lines[i].endY)
  {
    if lines == [] then []
    else [Coord2D(lines[0].startX, lines[0].startY), Coord2D(lines[0].endX, lines[0].endY)] + LinePoints(lines[1..])
  }

  /** The position of each point, in order. */
  function PointPositions(points: seq<Point>): (ps: seq<Coord2D>)
    ensures |ps| == |points|
    ensures forall i :: 0 <= i < |points| ==> ps[i] == Coord2D(points[i].x, points[i].y)
  {
    if points == [] then [] else [Coord2D(points[0].x, points[0].y)] + PointPositions(points[1..])
  }

  /** How many control points each kind carries: the reference count the coordinates must match. */
  function CoordinateCount(e: Entity): nat {
    match e
    case LineEntity(_) => 2
    case ArcEntity(_) => 1
    case PointEntity(_) => 1
    case TextEntity(_) => 2
    case SolidEntity(_) => 4
    case BlockEntity(_) => 1
    case DimensionEntity(d) => 4 + 2 * |d.auxLines| + |d.auxPoints|
  }

  /**
   * `Entity::common_coordinates`: the points explicit in the record; for a
   * dimension its line, its text, then each auxiliary line and point.
   */
  function CommonCoordinates(e: Entity): (ps: seq<Coord2D>)
    ensures |ps| == CoordinateCount(e)
    ensures e.DimensionEntity? ==>
      ps[..4] == [Coord2D(e.dimension.line.startX, e.dimension.line.startY),
                  Coord2D(e.dimension.line.endX, e.dimension.line.endY),
                  Coord2D(e.dimension.text.startX, e.dimension.text.startY),
                  Coord2D(e.dimension.text.endX, e.dimension.text.endY)]
      && ps[4..4 + 2 * |e.dimension.auxLines|] == LinePoints(e.dimension.auxLines)
      && ps[4 + 2 * |e.dimension.auxLines|..] == PointPositions(e.dimension.auxPoints)
  {
    match e
    case LineEntity(v) => [Coord2D(v.startX, v.startY), Coord2D(v.endX, v.endY)]
    case ArcEntity(v) => [Coord2D(v.centerX, v.centerY)]
    case PointEntity(v) => [Coord2D(v.x, v.y)]
    case TextEntity(v) => [Coord2D(v.startX, v.startY), Coord2D(v.endX, v.endY)]
    case SolidEntity(v) =>
      [Coord2D(v.point1X, v.point1Y), Coord2D(v.point2X, v.point2Y),
       Coord2D(v.point3X, v.point3Y), Coord2D(v.point4X, v.point4Y)]
    case BlockEntity(v) => [Coord2D(v.refX, v.refY)]
    case DimensionEntity(v) =>
      var fixed := [Coord2D(v.line.startX, v.line.startY), Coord2D(v.line.endX, v.line.endY),
                    Coord2D(v.text.startX, v.text.startY), Coord2D(v.text.endX, v.text.endY)];
      var withLines := fixed + LinePoints(v.auxLines);
      assert withLines[..4] == fixed;
      withLines + PointPositions(v.auxPoints)
  }

  /** `Entity::first_coordinate`: every kind carries a point, so there always is a first one. */
  function FirstCoordinate(e: Entity): (c: Option<Coord2D>)
    ensures c.Some?
    ensures e.LineEntity? ==> c.value == Coord2D(e.line.startX, e.line.startY)
    ensures e.ArcEntity? ==> c.value == Coord2D(e.arc.centerX, e.arc.centerY)
    ensures e.BlockEntity? ==> c.value == Coord2D(e.block.refX, e.block.refY)
    ensures e.DimensionEntity? ==> c.value == Coord2D(e.dimension.line.startX, e.dimension.line.startY)
  {
    var ps := CommonCoordinates(e);
    if |ps| == 0 then None else Some(ps[0])
  }

  /** The in-order concatenation of the entities' control points. */
  function AllCoordinates(entities: seq<Entity>): seq<Coord2D> {
    if entities == [] then [] else AllCoordinates(entities[..|entities| - 1]) + CommonCoordinates(entities[|entities| - 1])
  }

  function TotalCoordinateCount(entities: seq<Entity>): nat {
    if entities == [] then 0 else TotalCoordinateCount(entities[..|entities| - 1]) + CoordinateCount(entities[|entities| - 1])
  }

  /**
   * Each entity's points follow, in order, right after the points of the
   * entities before it: the collected points of a prefix are a prefix.
   */
  lemma {:induction false} AllCoordinatesPrefix(entities: seq<Entity>, j: nat)
    requires j <= |entities|
    ensures AllCoordinates(entities[..j]) <= AllCoordinates(entities)
  {
    if j < |entities| {
      var init := entities[..|entities| - 1];
      AllCoordinatesPrefix(init, j);
      assert init[..j] == entities[..j];
    } else {
      assert entities[..j] == entities;
    }
  }

  lemma EntityCoordinatesInPlace(entities: seq<Entity>, i: nat)
    requires i < |entities|
    ensures AllCoordinates(entities[..i]) + CommonCoordinates(entities[i]) <= AllCoordinates(entities)
  {
    var upto := entities[..i + 1];
    assert upto[..|upto| - 1] == entities[..i] && upto[|upto| - 1] == entities[i];
    assert AllCoordinates(upto) == AllCoordinates(entities[..i]) + CommonCoordinates(entities[i]);
    AllCoordinatesPrefix(entities, i + 1);
  }

  /** The collected points are as many as the entities carry. */
  lemma {:induction false} AllCoordinatesCount(entities: seq<Entity>)
    ensures |AllCoordinates(entities)| == TotalCoordinateCount(entities)
  {
    if entities != [] {
      AllCoordinatesCount(entities[..|entities| - 1]);
    }
  }

  /** `collect_entity_coordinates`: extends one vector with each entity's points in turn. */
  method CollectEntityCoordinates(entities: seq<Entity>) returns (points: seq<Coord2D>)
    ensures points == AllCoordinates(entities)
  {
    points := [];
    for i := 0 to |entities|
      invariant points == AllCoordinates(entities[..i])
    {
      assert entities[..i + 1][..i] == entities[..i];
      points := points + CommonCoordinates(entities[i]);
    }
    assert entities[..|entities|] == entities;
  }

  /** `min` and `max` on coordinates; NaN is not a real and does not arise here. */
  function Min(a: real, b: real): real { if b < a then b else a }
  function Max(a: real, b: real): real { if b > a then b else a }

  /** `min` and `max` bound every point and are each attained by one of them. */
  ghost predicate IsBbox(points: seq<Coord2D>, min: Coord2D, max: Coord2D) {
    && (forall i :: 0 <= i < |points| ==> min.x <= points[i].x <= max.x && min.y <= points[i].y <= max.y)
    && (exists i :: 0 <= i < |points| && points[i].x == min.x)
    && (exists i :: 0 <= i < |points| && points[i].y == min.y)
    && (exists i :: 0 <= i < |points| && points[i].x == max.x)
    && (exists i :: 0 <= i < |points| && points[i].y == max.y)
  }

  /** `coordinates_bbox`: none for no points, else the componentwise minimum and maximum. */
  method CoordinatesBbox(points: seq<Coord2D>) returns (r: Option<(Coord2D, Coord2D)>)
    ensures r.None? <==> |points| == 0
    ensures r.Some? ==> IsBbox(points, r.value.0, r.value.1)
  {
    if |points| == 0 {
      return None;
    }
    var minX, minY, maxX, maxY := points[0].x, points[0].y, points[0].x, points[0].y;
    ghost var iMinX, iMinY, iMaxX, iMaxY := 0, 0, 0, 0;
    for k := 1 to |points|
      invariant forall i :: 0 <= i < k ==> minX <= points[i].x <= maxX && minY <= points[i].y <= maxY
      invariant iMinX < k && points[iMinX].x == minX && iMinY < k && points[iMinY].y == minY
      invariant iMaxX < k && points[iMaxX].x == maxX && iMaxY < k && points[iMaxY].y == maxY
    {
      var p := points[k];
      if p.x < minX { iMinX := k; }
      if p.y < minY { iMinY := k; }
      if p.x > maxX { iMaxX := k; }
      if p.y > maxY { iMaxY := k; }
      minX, minY, maxX, maxY := Min(minX, p.x), Min(minY, p.y), Max(maxX, p.x), Max(maxY, p.y);
    }
    return Some((Coord2D(minX, minY), Coord2D(maxX, maxY)));
  }

  /** `Entity::common_coordinate_bbox`: the box of the entity's own control points, which always exists. */
  method CommonCoordinateBbox(e: Entity) returns (r: Option<(Coord2D, Coord2D)>)
    ensures r.Some? && IsBbox(CommonCoordinates(e), r.value.0, r.value.1)
  {
    r := CoordinatesBbox(CommonCoordinates(e));
  }

  /** The line of the unit test: its box runs from its start (1, 2) to its end (4, 6). */
  method LineBboxExample() returns (r: Option<(Coord2D, Coord2D)>)
    ensures r == Some((Coord2D(1.0, 2.0), Coord2D(4.0, 6.0)))
  {
    var line := LineEntity(Line(DefaultBase, 1.0, 2.0, 4.0, 6.0));
    r := CommonCoordinateBbox(line);
    ghost var ps := CommonCoordinates(line);
    assert ps[0] == Coord2D(1.0, 2.0) && ps[1] == Coord2D(4.0, 6.0);
  }
}

=== FILE: parser.dfy ===
/**
 * The entity and block-definition decoders of src/parser.rs, driving a
 * Reader step by step. Each decoder is proved to follow the pure layout of
 * JwwLayout: it yields that layout's value and leaves the cursor after it,
 * or fails with that layout's error and leaves the cursor where it stopped.
 */
module JwwParser {
  import opened Bytes
  import opened Wrappers
  import opened JwwErrors
  import opened JwwReader
  import opened JwwModel
  import opened JwwLayout
  import JwwHeader

  method ParseEntityBase(rd: Reader, version: u32) returns (r: Result<EntityBase, JwwError>)
    requires rd.Valid()
    modifies rd
    ensures rd.Valid()
    ensures Follows(r, rd.pos, BaseAt(rd.data, old(rd.pos), version))
  {
    var group :- rd.ReadU32();
    var penStyle :- rd.ReadU8();
    var penColor :- rd.ReadU16();
    var penWidth: u16 := 0;
    if version >= 351 {
      penWidth :- rd.ReadU16();
    }
    var layer :- rd.ReadU16();
    var layerGroup :- rd.ReadU16();
    var flag :- rd.ReadU16();
    return Ok(EntityBase(group, penStyle, penColor, penWidth, layer, layerGroup, flag));
  }

  /** Four `read_f64` calls in a row. */
  method ParseReals4(rd: Reader) returns (r: Result<(real, real, real, real), JwwError>)
    requires rd.Valid()
    modifies rd
    ensures rd.Valid()
    ensures Follows(r, rd.pos, Reals4At(rd.codecs, rd.data, old(rd.pos)))
  {
    var a :- rd.ReadF64();
    var b :- rd.ReadF64();
    var c :- rd.ReadF64();
    var d :- rd.ReadF64();
    return Ok((a, b, c, d));
  }

  method ParseLine(rd: Reader, version: u32) returns (r: Result<Line, JwwError>)
    requires rd.Valid()
    modifies rd
    ensures rd.Valid()
    ensures Follows(r, rd.pos, LineAt(rd.codecs, rd.data, old(rd.pos), version))
  {
    var base :- ParseEntityBase(rd, version);
    var ends :- ParseReals4(rd);
    var (startX, startY, endX, endY) := ends;
    return Ok(Line(base, startX, startY, endX, endY));
  }


  method ParseArc(rd: Reader, version: u32) returns (r: Result<Arc, JwwError>)
    requires rd.Valid()
    modifies rd
    ensures rd.Valid()
    ensures Follows(r, rd.pos, ArcAt(rd.codecs, rd.data, old(rd.pos), version))
  {
    var base :- ParseEntityBase(rd, version);
    var first :- ParseReals4(rd);
    var (centerX, centerY, radius, startAngle) := first;
    var arcAngle :- rd.ReadF64();
    var tiltAngle :- rd.ReadF64();
    var flatness :- rd.ReadF64();
    var fullCircle :- rd.ReadU32();
    return Ok(Arc(base, centerX, centerY, radius, startAngle, arcAngle, tiltAngle, flatness, fullCircle != 0));
  }


  method ParsePoint(rd: Reader, version: u32) returns (r: Result<Point, JwwError>)
    requires rd.Valid()
    modifies rd
    ensures rd.Valid()
    ensures Follows(r, rd.pos, PointAt(rd.codecs, rd.data, old(rd.pos), version))
  {
    var base :- ParseEntityBase(rd, version);
    var x :- rd.ReadF64();
    var y :- rd.ReadF64();
    var temporary :- rd.ReadU32();
    var code: u32, angle: real, scale: real := 0, 0.0, 0.0;
    if base.penStyle == 100 {
      code :- rd.ReadU32();
      angle :- rd.ReadF64();
      scale :- rd.ReadF64();
    }
    return Ok(Point(base, x, y, temporary != 0, code, angle, scale));
  }

  /** The fields of a text record before its two strings. */
  method ParseTextFixed(rd: Reader, version: u32) returns (r: Result<Text, JwwError>)
    requires rd.Valid()
    modifies rd
    ensures rd.Valid()
    ensures Follows(r, rd.pos, TextFixedAt(rd.codecs, rd.data, old(rd.pos), version))
  {
    var base :- ParseEntityBase(rd, version);
    var ends :- ParseReals4(rd);
    var (startX, startY, endX, endY) := ends;
    var textType :- rd.ReadU32();
    var metrics :- ParseReals4(rd);
    var (sizeX, sizeY, spacing, angle) := metrics;
    return Ok(Text(base, startX, startY, endX, endY, textType, sizeX, sizeY, spacing, angle, "", ""));
  }


  method ParseText(rd: Reader, version: u32) returns (r: Result<Text, JwwError>)
    requires rd.Valid()
    modifies rd
    ensures rd.Valid()
    ensures Follows(r, rd.pos, TextAt(rd.codecs, rd.data, old(rd.pos), version))
  {
    var fixed :- ParseTextFixed(rd, version);
    var fontName :- rd.ReadCString();
    var content :- rd.ReadCString();
    return Ok(fixed.(fontName := fontName, content := content));
  }


  method ParseSolid(rd: Reader, version: u32) returns (r: Result<Solid, JwwError>)
    requires rd.Valid()
    modifies rd
    ensures rd.Valid()
    ensures Follows(r, rd.pos, SolidAt(rd.codecs, rd.data, old(rd.pos), version))
  {
    var base :- ParseEntityBase(rd, version);
    var first :- ParseReals4(rd);
    var (p1x, p1y, p4x, p4y) := first;
    var second :- ParseReals4(rd);
    var (p2x, p2y, p3x, p3y) := second;
    var color: Option<u32> := None;
    if base.penColor == 10 {
      var c :- rd.ReadU32();
      color := Some(c);
    }
    return Ok(Solid(base, p1x, p1y, p2x, p2y, p3x, p3y, p4x, p4y, color));
  }


  method ParseBlock(rd: Reader, version: u32) returns (r: Result<Block, JwwError>)
    requires rd.Valid()
    modifies rd
    ensures rd.Valid()
    ensures Follows(r, rd.pos, BlockAt(rd.codecs, rd.data, old(rd.pos), version))
  {
    var base :- ParseEntityBase(rd, version);
    var first :- ParseReals4(rd);
    var (refX, refY, scaleX, scaleY) := first;
    var rotation :- rd.ReadF64();
    var defNumber :- rd.ReadU32();
    return Ok(Block(base, refX, refY, scaleX, scaleY, rotation, defNumber));
  }


  /** The `for _ in 0..n` loop of a dimension's auxiliary lines. */
  method ParseLines(rd: Reader, version: u32, n: nat) returns (r: Result<seq<Line>, JwwError>)
    requires rd.Valid()
    modifies rd
    ensures rd.Valid()
    ensures Follows(r, rd.pos, LinesAt(rd.codecs, rd.data, old(rd.pos), version, n))
  {
    ghost var field := LineField(rd.codecs, rd.data, version);
    ghost var start := rd.pos;
    var lines: seq<Line> := [];
    for k := 0 to n
      invariant rd.Valid()
      invariant RepeatAt(field, start, k) == Ok((lines, rd.pos))
    {
      var line := ParseLine(rd, version);
      if line.Err? {
        RepeatAtFailed(field, start, k + 1, n);
        return Err(line.error);
      }
      lines := lines + [line.value];
    }
    return Ok(lines);
  }

  /** The `for _ in 0..n` loop of a dimension's auxiliary points. */
  method ParsePoints(rd: Reader, version: u32, n: nat) returns (r: Result<seq<Point>, JwwError>)
    requires rd.Valid()
    modifies rd
    ensures rd.Valid()
    ensures Follows(r, rd.pos, PointsAt(rd.codecs, rd.data, old(rd.pos), version, n))
  {
    ghost var field := PointField(rd.codecs, rd.data, version);
    ghost var start := rd.pos;
    var points: seq<Point> := [];
    for k := 0 to n
      invariant rd.Valid()
      invariant RepeatAt(field, start, k) == Ok((points, rd.pos))
    {
      var point := ParsePoint(rd, version);
      if point.Err? {
        RepeatAtFailed(field, start, k + 1, n);
        return Err(point.error);
      }
      points := points + [point.value];
    }
    return Ok(points);
  }

  method ParseDimension(rd: Reader, version: u32) returns (r: Result<Dimension, JwwError>)
    requires rd.Valid()
    modifies rd
    ensures rd.Valid()
    ensures Follows(r, rd.pos, DimensionAt(rd.codecs, rd.data, old(rd.pos), version))
  {
    var base :- ParseEntityBase(rd, version);
    var line :- ParseLine(rd, version);
    var text :- ParseText(rd, version);
    var sxfMode: Option<u16> := None;
    var auxLines: seq<Line> := [];
    var auxPoints: seq<Point> := [];
    if version >= 420 {
      var mode :- rd.ReadU16();
      sxfMode := Some(mode);
      auxLines :- ParseLines(rd, version, 2);
      auxPoints :- ParsePoints(rd, version, 4);
    }
    return Ok(Dimension(base, line, text, sxfMode, auxLines, auxPoints));
  }

  // ---------------------------------------------------------------------
  // Object streams
  // ---------------------------------------------------------------------

  /**
   * The class-name dispatch of `parse_entity_with_pid_tracking`, as the
   * record decoder `records` of this version describes it.
   */
  method ParseRecord(rd: Reader, version: u32, ghost records: RecordDecoder, name: string)
    returns (r: Result<Entity, JwwError>)
    requires rd.Valid() && DecodesRecords(records, rd.codecs, version)
    modifies rd
    ensures rd.Valid()
    ensures Follows(r, rd.pos, records(rd.data, old(rd.pos), name))
  {
    assert records(rd.data, rd.pos, name) == RecordAt(rd.codecs, rd.data, rd.pos, version, name);
    if name == "CDataSen" {
      var v :- ParseLine(rd, version);
      return Ok(LineEntity(v));
    } else if name == "CDataEnko" {
      var v :- ParseArc(rd, version);
      return Ok(ArcEntity(v));
    } else if name == "CDataTen" {
      var v :- ParsePoint(rd, version);
      return Ok(PointEntity(v));
    } else if name == "CDataMoji" {
      var v :- ParseText(rd, version);
      return Ok(TextEntity(v));
    } else if name == "CDataSolid" {
      var v :- ParseSolid(rd, version);
      return Ok(SolidEntity(v));
    } else if name == "CDataBlock" {
      var v :- ParseBlock(rd, version);
      return Ok(BlockEntity(v));
    } else if name == "CDataSunpou" {
      var v :- ParseDimension(rd, version);
      return Ok(DimensionEntity(v));
    }
    return Err(UnknownEntityClass(name));
  }

  /** A new class announcement after its tag: schema, name length, name bytes read as lossy UTF-8. */
  method ParseClassName(rd: Reader) returns (r: Result<string, JwwError>)
    requires rd.Valid()
    modifies rd
    ensures rd.Valid()
    ensures Follows(r, rd.pos, ClassNameAt(rd.codecs, rd.data, old(rd.pos)))
  {
    var schema :- rd.ReadU16();
    var nameLen :- rd.ReadU16();
    var bytes :- rd.ReadBytes(nameLen);
    return Ok(rd.codecs.utf8Lossy(bytes));
  }

  /** The class a tag names, registering a new one; `None` for the null tag. */
  method ParseClassOfTag(rd: Reader, tag: u16, table: ClassTable)
    returns (r: Result<Option<(string, ClassTable)>, JwwError>)
    requires rd.Valid()
    modifies rd
    ensures rd.Valid()
    ensures Follows(r, rd.pos, ClassOfTag(rd.codecs, rd.data, tag, old(rd.pos), table))
  {
    if tag == NewClassTag {
      var name :- ParseClassName(rd);
      return Ok(Some((name, ClassTable(table.names[table.next := name], table.next + 1))));
    } else if tag == NullTag {
      return Ok(None);
    }
    var pid := ClassPid(tag);
    if pid !in table.names {
      return Err(UnknownClassPid(pid));
    }
    return Ok(Some((table.names[pid], table)));
  }

  /**
   * One tagged entity. `table` is the stream's pid-to-class-name map with
   * its `next_pid`; the updated pair is returned with the entity.
   */
  method ParseEntityWithPidTracking(rd: Reader, version: u32, ghost records: RecordDecoder, table: ClassTable)
    returns (r: Result<(Option<Entity>, ClassTable), JwwError>)
    requires rd.Valid() && DecodesRecords(records, rd.codecs, version)
    modifies rd
    ensures rd.Valid()
    ensures Follows(r, rd.pos, EntityAt(rd.codecs, rd.data, old(rd.pos), records, table))
  {
    var tag :- rd.ReadU16();
    var cls :- ParseClassOfTag(rd, tag, table);
    if cls.None? {
      return Ok((None, table));
    }
    var (name, named) := cls.value;
    var entity :- ParseRecord(rd, version, records, name);
    return Ok((Some(entity), ClassTable(named.names, named.next + 1)));
  }


  /** `parse_entity_list`: a u16 count, then that many tagged objects with a fresh pid table. */
  method ParseEntityList(rd: Reader, version: u32, ghost records: RecordDecoder, ghost lists: ListDecoder)
    returns (r: Result<seq<Entity>, JwwError>)
    requires rd.Valid() && DecodesRecords(records, rd.codecs, version) && DecodesLists(lists, rd.codecs, records)
    modifies rd
    ensures rd.Valid()
    ensures Follows(r, rd.pos, lists(rd.data, old(rd.pos)))
  {
    assert lists(rd.data, rd.pos) == EntityListAt(rd.codecs, rd.data, rd.pos, records);
    var count :- rd.ReadU16();
    EntityStepperSteps(rd.codecs, rd.data, records);
    r := ParseEntityRun(rd, version, records, EntityStepper(rd.codecs, rd.data, records), count);
  }

  /** The loop of `parse_entity_list`: `count` objects, each updating the pid table, stopping at the first error. */
  method ParseEntityRun(rd: Reader, version: u32, ghost records: RecordDecoder, ghost step: Stepper<ClassTable, Entity>,
                        count: nat)
    returns (r: Result<seq<Entity>, JwwError>)
    requires rd.Valid() && DecodesRecords(records, rd.codecs, version)
    requires StepsEntities(step, rd.codecs, rd.data, records)
    modifies rd
    ensures rd.Valid()
    ensures Follows(r, rd.pos, RunAll(step, old(rd.pos), count, FreshClasses))
  {
    ghost var start := rd.pos;
    var entities: seq<Entity> := [];
    var table := FreshClasses;
    PrependNothing(RunAll(step, start, count, table), start, entities);
    for i := 0 to count
      invariant rd.Valid()
      invariant Prepend(entities, RunAll(step, rd.pos, count - i, table)) == RunAll(step, start, count, FreshClasses)
    {
      RunAllStep(step, rd.pos, count - i, table, entities);
      var parsed := ParseEntityWithPidTracking(rd, version, records, table);
      if parsed.Err? {
        return Err(parsed.error);
      }
      var (entity, next) := parsed.value;
      table := next;
      entities := entities + OptionToSeq(entity);
    }
    PrependNothing(RunAll(step, start, count, table), rd.pos, entities);
    return Ok(entities);
  }


  /** The fields of a block definition after its tag; a broken nested entity list becomes an empty one. */
  method ParseBlockDefBody(rd: Reader, version: u32, ghost records: RecordDecoder, ghost lists: ListDecoder)
    returns (r: Result<BlockDef, JwwError>)
    requires rd.Valid() && DecodesRecords(records, rd.codecs, version) && DecodesLists(lists, rd.codecs, records)
    modifies rd
    ensures rd.Valid()
    ensures Follows(r, rd.pos, BlockDefBodyAt(rd.codecs, rd.data, old(rd.pos), version, lists))
  {
    var base :- ParseEntityBase(rd, version);
    var number :- rd.ReadU32();
    var referenced :- rd.ReadU32();
    var timeStamp :- rd.Skip(4);
    var name :- rd.ReadCString();
    var listed := ParseEntityList(rd, version, records, lists);
    var entities := if listed.Ok? then listed.value else [];
    return Ok(BlockDef(base, number, referenced != 0, name, entities));
  }

  /**
   * `parse_block_def_with_tracking`: a new-class tag registers its name at
   * the next id, the null tag yields nothing, and any other tag goes straight
   * to the definition's fields.
   */
  method ParseBlockDefWithTracking(rd: Reader, version: u32, ghost records: RecordDecoder, ghost lists: ListDecoder,
                                   ghost step: Stepper<ClassTable, BlockDef>, table: ClassTable)
    returns (r: Result<(Option<BlockDef>, ClassTable), JwwError>)
    requires rd.Valid() && DecodesRecords(records, rd.codecs, version) && DecodesLists(lists, rd.codecs, records)
    requires StepsBlockDefs(step, rd.codecs, rd.data, version, lists)
    modifies rd
    ensures rd.Valid()
    ensures Follows(r, rd.pos, step(old(rd.pos), table))
  {
    assert step(rd.pos, table) == BlockDefAt(rd.codecs, rd.data, rd.pos, version, lists, table);
    var tag :- rd.ReadU16();
    var next := table;
    if tag == NewClassTag {
      var name :- ParseClassName(rd);
      next := ClassTable(table.names[table.next := name], SaturatingInc(table.next));
    } else if tag == NullTag {
      return Ok((None, table));
    }
    var body :- ParseBlockDefBody(rd, version, records, lists);
    return Ok((Some(body), next));
  }

  /**
   * `parse_block_def_list`: a u32 count, nothing when unreadable or above the
   * maximum, else definitions with ids from 1 until the first failure.
   */
  method ParseBlockDefList(codecs: Codecs, data: seq<u8>, version: u32, ghost records: RecordDecoder,
                           ghost lists: ListDecoder, ghost step: Stepper<ClassTable, BlockDef>)
    returns (defs: seq<BlockDef>)
    requires DecodesRecords(records, codecs, version) && DecodesLists(lists, codecs, records)
    requires StepsBlockDefs(step, codecs, data, version, lists)
    ensures defs == BlockDefListAt(step, data)
  {
    var rd := new Reader(data, codecs);
    var counted := rd.ReadU32();
    if counted.Err? {
      return [];
    }
    var count := counted.value;
    if count > MaxBlockDefs {
      return [];
    }
    defs := ParseBlockDefRun(rd, version, records, lists, step, count);
  }

  /** The loop of `parse_block_def_list`: at most `count` definitions, ids from 1, ending quietly at the first failure. */
  method ParseBlockDefRun(rd: Reader, version: u32, ghost records: RecordDecoder, ghost lists: ListDecoder,
                          ghost step: Stepper<ClassTable, BlockDef>, count: nat)
    returns (defs: seq<BlockDef>)
    requires rd.Valid() && DecodesRecords(records, rd.codecs, version) && DecodesLists(lists, rd.codecs, records)
    requires StepsBlockDefs(step, rd.codecs, rd.data, version, lists)
    modifies rd
    ensures defs == RunUntilFailure(step, old(rd.pos), count, FreshClasses)
  {
    ghost var start := rd.pos;
    defs := [];
    var table := FreshClasses;
    assert defs + RunUntilFailure(step, start, count, table) == RunUntilFailure(step, start, count, FreshClasses);
    for i := 0 to count
      invariant rd.Valid()
      invariant defs + RunUntilFailure(step, rd.pos, count - i, table) == RunUntilFailure(step, start, count, FreshClasses)
    {
      RunUntilFailureStep(step, rd.pos, count - i, table, defs);
      var parsed := ParseBlockDefWithTracking(rd, version, records, lists, step, table);
      if parsed.Err? {
        return defs;
      }
      var (def, next) := parsed.value;
      table := next;
      defs := defs + OptionToSeq(def);
    }
    assert defs + [] == defs;
  }

  /**
   * `find_entity_list_offset`: scans from byte 100 for the first entity-list
   * marker and answers two bytes before it; data shorter than 128 bytes has none.
   */
  method FindEntityListOffset(data: seq<u8>, version: u32) returns (r: Option<nat>)
    ensures r == EntityListOffset(data, version)
  {
    var schemaLow, schemaHigh := version % 0x100, (version / 0x100) % 0x100;
    if |data| < 128 {
      return None;
    }
    var i := 100;
    while i + 20 < |data|
      invariant 100 <= i
      invariant FirstMarkerFrom(data, version, i) == FirstMarkerFrom(data, version, 100)
      decreases |data| - i
    {
      if data[i] == 0xFF && data[i + 1] == 0xFF && data[i + 2] == schemaLow && data[i + 3] == schemaHigh {
        var nameLen := LeU16([data[i + 4], data[i + 5]]);
        assert data[i + 4..i + 6] == [data[i + 4], data[i + 5]];
        if 8 <= nameLen <= 32 && i + 6 + nameLen <= |data| {
          var className := data[i + 6..i + 6 + nameLen];
          assert data[i + 6..i + 11] == className[..5];
          if className[..5] == CDataPrefix && i >= 2 {
            return Some(i - 2);
          }
        }
      }
      assert !IsEntityListMarker(data, version, i);
      i := i + 1;
    }
    return None;
  }

  /**
   * `parse_document`: the header, then the entity list read from its own
   * slice at the located offset, then, when bytes remain after it, the block
   * definition list read from the rest.
   */
  method ParseDocument(codecs: Codecs, data: seq<u8>) returns (r: Result<JwwDocument, JwwError>)
    ensures !JwwHeader.IsJwwSignature(data) ==> r == Err(InvalidSignature)
    ensures JwwHeader.IsJwwSignature(data) && !JwwHeader.HeaderFits(data) ==> r == Err(EofBytes)
    ensures JwwHeader.IsJwwSignature(data) && JwwHeader.HeaderFits(data) ==>
      var streams := StreamsAt(codecs, data, LeU32(data[8..12]));
      && (streams.Err? ==> r == Err(streams.error))
      && (streams.Ok? ==> r.Ok? && r.value.entities == streams.value.0 && r.value.blockDefs == streams.value.1
                          && JwwHeader.HeaderOf(r.value.header, codecs, data))
  {
    var header :- JwwHeader.ParseHeader(codecs, data);
    var version := header.version;
    var offset := FindEntityListOffset(data, version);
    if offset.None? {
      return Err(EntityListNotFound);
    }
    var off := offset.value;
    ghost var records := Records(codecs, version);
    ghost var lists := Lists(codecs, records);
    RecordsDecode(codecs, version);
    ListsDecode(codecs, records);
    var rd := new Reader(data[off..], codecs);
    var entities :- ParseEntityList(rd, version, records, lists);
    var blockStart := off + rd.BytesRead();
    var blockDefs := [];
    if blockStart < |data| {
      ghost var step := BlockDefStepper(codecs, data[blockStart..], version, lists);
      BlockDefStepperSteps(codecs, data[blockStart..], version, lists);
      blockDefs := ParseBlockDefList(codecs, data[blockStart..], version, records, lists, step);
    }
    return Ok(JwwDocument(header, entities, blockDefs));
  }
}

=== FILE: plot.dfy ===
/**
 * The pure helpers of the plotting module (src/ezjww/plot.py): the layer
 * filter a caller passes, the colour of an AutoCAD colour index and the
 * matplotlib line style of a DXF line type.
 */
module Plot {
  import opened Wrappers
  import opened PyText

  // ---------------------------------------------------------------------
  // Layer filter
  // ---------------------------------------------------------------------

  /** `{layer.strip() for layer in layers if layer.strip()}`. */
  function StrippedNames(layers: seq<string>): set<string> {
    if layers == [] then {}
    else (if Strip(layers[0]) != [] then {Strip(layers[0])} else {}) + StrippedNames(layers[1..])
  }

  /**
   * `_normalize_layer_filter`: no filter for none; otherwise the stripped
   * names that are not blank, and no filter when none is left.
   */
  function NormalizeLayerFilter(layers: Option<seq<string>>): (r: Option<set<string>>)
    ensures layers.None? ==> r.None?
    ensures r.Some? ==> r.value != {}
  {
    if layers.None? then None
    else
      var names := StrippedNames(layers.value);
      if names == {} then None else Some(names)
  }

  /** A name is kept exactly when it is what some given name strips to, and is not blank. */
  lemma {:induction false} StrippedNamesMembers(layers: seq<string>, name: string)
    ensures name in StrippedNames(layers) <==> name != [] && exists k :: 0 <= k < |layers| && Strip(layers[k]) == name
  {
    if layers != [] {
      StrippedNamesMembers(layers[1..], name);
      if exists k :: 0 <= k < |layers[1..]| && Strip(layers[1..][k]) == name {
        var k :| 0 <= k < |layers[1..]| && Strip(layers[1..][k]) == name;
        assert Strip(layers[k + 1]) == name;
      }
      if exists k :: 0 <= k < |layers| && Strip(layers[k]) == name {
        var k :| 0 <= k < |layers| && Strip(layers[k]) == name;
        if k > 0 {
          assert Strip(layers[1..][k - 1]) == name;
        }
      }
    }
  }

  /**
   * The filter holds exactly the non-blank stripped names, each of which
   * has no white space left at either end.
   */
  lemma NormalizeLayerFilterMembers(layers: seq<string>, name: string)
    requires NormalizeLayerFilter(Some(layers)).Some?
    ensures name in NormalizeLayerFilter(Some(layers)).value <==> name != [] && exists k :: 0 <= k < |layers| && Strip(layers[k]) == name
    ensures name in NormalizeLayerFilter(Some(layers)).value ==> Strip(name) == name
  {
    StrippedNamesMembers(layers, name);
    if name in NormalizeLayerFilter(Some(layers)).value {
      var k :| 0 <= k < |layers| && Strip(layers[k]) == name;
      StripIdempotent(layers[k]);
    }
  }

  /** There is no filter exactly when every given name is blank. */
  lemma NormalizeLayerFilterNone(layers: seq<string>)
    ensures NormalizeLayerFilter(Some(layers)).None? <==> forall k :: 0 <= k < |layers| ==> Strip(layers[k]) == []
  {
    if k :| 0 <= k < |layers| && Strip(layers[k]) != [] {
      StrippedNamesMembers(layers, Strip(layers[k]));
    } else if StrippedNames(layers) != {} {
      var n :| n in StrippedNames(layers);
      StrippedNamesMembers(layers, n);
    }
  }

  /** Normalising the names of a filter once more gives the same filter. */
  lemma NormalizeLayerFilterIdempotent(layers: seq<string>, again: seq<string>)
    requires NormalizeLayerFilter(Some(layers)).Some?
    requires forall n :: n in again <==> n in NormalizeLayerFilter(Some(layers)).value
    ensures NormalizeLayerFilter(Some(again)) == NormalizeLayerFilter(Some(layers))
  {
    var first := StrippedNames(layers);
    var names := StrippedNames(again);
    forall n | n in first ensures n in names {
      NormalizeLayerFilterMembers(layers, n);
      var k :| 0 <= k < |again| && again[k] == n;
      StrippedNamesMembers(again, n);
    }
    forall n | n in names ensures n in first {
      StrippedNamesMembers(again, n);
      var k :| 0 <= k < |again| && Strip(again[k]) == n;
      NormalizeLayerFilterMembers(layers, again[k]);
    }
    assert names == first;
  }

  // ---------------------------------------------------------------------
  // Colour index
  // ---------------------------------------------------------------------

  /**
   * A matplotlib colour: a hex string, or a 3-tuple of floats, which
   * matplotlib reads as red, green and blue.
   */
  datatype PlotColor = Hex(code: string) | Rgb(red: real, green: real, blue: real)

  const Black := "#000000"

  /** The fixed colours of indices 1 to 9. */
  function StandardColor(aci: int): (code: Option<string>)
    ensures code.Some? <==> 1 <= aci <= 9
    ensures code.Some? ==> IsHexColor(code.value)
  {
    match aci
    case 1 => Some("#ff0000")
    case 2 => Some("#ffff00")
    case 3 => Some("#00ff00")
    case 4 => Some("#00ffff")
    case 5 => Some("#0000ff")
    case 6 => Some("#ff00ff")
    case 7 => Some(Black)
    case 8 => Some("#808080")
    case 9 => Some("#c0c0c0")
    case _ => None
  }

  /**
   * `_aci_to_color`: the fixed colour of indices 1 to 9, black for an
   * index of 0 or less and for 256 (BYLAYER), and otherwise the 3-tuple
   * `((aci % 255) / 255, 0.7, 0.9)`, which matplotlib reads as RGB (the
   * source calls the first component a hue, but it is the red channel).
   */
  function AciToColor(aci: int): (c: PlotColor)
    ensures (1 <= aci <= 9 && aci != 7) <==> (c.Hex? && c.code != Black)
    ensures (aci <= 0 || aci == 256) ==> c == Hex(Black)
    ensures c.Rgb? <==> aci > 9 && aci != 256
    ensures StandardColor(aci).Some? ==> c == Hex(StandardColor(aci).value)
  {
    match StandardColor(aci)
    case Some(code) => Hex(code)
    case None =>
      if aci <= 0 || aci == 256 then Hex(Black)
      else Rgb((aci % 255) as real / 255.0, 0.7, 0.9)
  }

  /** A hex colour is `#` and six lower-case hex digits. */
  predicate IsHexColor(code: string) {
    |code| == 7 && code[0] == '#' && forall i :: 1 <= i < 7 ==> '0' <= code[i] <= '9' || 'a' <= code[i] <= 'f'
  }

  /**
   * Every colour is well formed: a hex colour, or an RGB triple whose red
   * channel is in [0, 1) and is `aci % 255` parts of 255, with green 0.7
   * and blue 0.9.
   */
  lemma AciToColorWellFormed(aci: int)
    ensures AciToColor(aci).Hex? ==> IsHexColor(AciToColor(aci).code)
    ensures AciToColor(aci).Rgb? ==>
      && 0.0 <= AciToColor(aci).red < 1.0
      && AciToColor(aci).red * 255.0 == (aci % 255) as real
      && AciToColor(aci).green == 0.7 && AciToColor(aci).blue == 0.9
  {
  }

  /** Indices that differ by a multiple of 255 above 9 get the same generated colour. */
  lemma AciToColorPeriodic(aci: int)
    requires aci > 9 && aci != 256 && aci + 255 != 256
    ensures AciToColor(aci + 255) == AciToColor(aci)
  {
    assert (aci + 255) % 255 == aci % 255;
  }

  /** Index 1 is red, index 7 black, and 200 a generated triple. */
  lemma AciToColorExamples()
    ensures AciToColor(1) == Hex("#ff0000")
    ensures AciToColor(7) == Hex("#000000")
    ensures AciToColor(200).Rgb?
  {
  }

  // ---------------------------------------------------------------------
  // Line style
  // ---------------------------------------------------------------------

  /** `_line_style`: the matplotlib style of a DXF line type name, in any case. */
  function LineStyle(lineType: string): (style: string)
    ensures style in {"-", "--", "-.", ":"}
    ensures Upper(lineType) == "CONTINUOUS" ==> style == "-"
    ensures Upper(lineType) in {"DASHED", "DASHED2"} ==> style == "--"
    ensures Upper(lineType) == "DASHDOT" ==> style == "-."
    ensures Upper(lineType) == "DOT" ==> style == ":"
    ensures Upper(lineType) !in {"CONTINUOUS", "DASHED", "DASHED2", "DASHDOT", "DOT"} ==> style == "-"
  {
    var name := Upper(lineType);
    if name == "CONTINUOUS" then "-"
    else if name == "DASHED" || name == "DASHED2" then "--"
    else if name == "DASHDOT" then "-."
    else if name == "DOT" then ":"
    else "-"
  }

  /** The style does not depend on the case the name is written in. */
  lemma LineStyleIgnoresCase(lineType: string)
    ensures LineStyle(Lower(lineType)) == LineStyle(lineType)
    ensures LineStyle(Upper(lineType)) == LineStyle(lineType)
  {
    UpperOfLower(lineType);
    UpperIdempotent(lineType);
  }

  /** A dashed line type named in lower case. */
  lemma LineStyleLowerCaseExample()
    ensures LineStyle("dashed") == "--"
  {
    assert Upper("dashed") == "DASHED";
  }

  /** A name the mapping does not know draws a solid line. */
  lemma LineStyleUnknownExample()
    ensures LineStyle("unknown") == "-"
  {
    assert Upper("unknown")[0] == 'U';
  }

  /** Only the dashed, dash-dot and dotted names give anything but a solid line. */
  lemma LineStyleSolid(lineType: string)
    ensures LineStyle(lineType) != "-" <==> Upper(lineType) in {"DASHED", "DASHED2", "DASHDOT", "DOT"}
  {
  }
}

=== FILE: py_text.dfy ===
/**
 * The Python string operations the facade and the plot helpers build on:
 * `str.strip`, `str.split()` with no separator, `str.upper`/`str.lower`
 * on ASCII letters, `int(str)` on a decimal literal, and `str(value)`.
 */
module PyText {
  import opened Wrappers
  import Format

  /** `str.isspace` for one character: Unicode White_Space and the four information separators. */
  predicate IsSpace(c: char) {
    Format.IsWhitespace(c) || '\U{001C}' <= c <= '\U{001F}'
  }

  function StripStart(s: string): (r: string)
    ensures |r| <= |s| && r == s[|s| - |r|..]
    ensures r == [] || !IsSpace(r[0])
    ensures forall i :: 0 <= i < |s| - |r| ==> IsSpace(s[i])
  {
    if s != [] && IsSpace(s[0]) then StripStart(s[1..]) else s
  }

  function StripEnd(s: string): (r: string)
    ensures |r| <= |s| && r == s[..|r|]
    ensures r == [] || !IsSpace(r[|r| - 1])
    ensures forall i :: |r| <= i < |s| ==> IsSpace(s[i])
  {
    if s != [] && IsSpace(s[|s| - 1]) then StripEnd(s[..|s| - 1]) else s
  }

  /** `str.strip()`: white space removed at both ends; empty exactly when `s` is all white space. */
  function Strip(s: string): (r: string)
    ensures r == [] || (!IsSpace(r[0]) && !IsSpace(r[|r| - 1]))
    ensures r == [] <==> forall i :: 0 <= i < |s| ==> IsSpace(s[i])
    ensures |r| <= |s|
  {
    StripEnd(StripStart(s))
  }

  /** Stripping twice strips nothing more. */
  lemma StripIdempotent(s: string)
    ensures Strip(Strip(s)) == Strip(s)
  {
    var r := Strip(s);
    assert StripStart(r) == r;
    assert StripEnd(r) == r;
  }

  // ---------------------------------------------------------------------
  // Splitting on white space
  // ---------------------------------------------------------------------

  /** The length of the word `s` starts with. */
  function WordLength(s: string): (n: nat)
    requires s != [] && !IsSpace(s[0])
    ensures 1 <= n <= |s|
    ensures forall i :: 0 <= i < n ==> !IsSpace(s[i])
    ensures n == |s| || IsSpace(s[n])
  {
    if |s| == 1 || IsSpace(s[1]) then 1 else 1 + WordLength(s[1..])
  }

  /** `str.split()`: the maximal runs of non-space characters, in order. */
  function Words(s: string): seq<string>
    decreases |s|
  {
    if s == [] then []
    else if IsSpace(s[0]) then Words(s[1..])
    else
      var n := WordLength(s);
      [s[..n]] + Words(s[n..])
  }

  /** The characters of `s` that are not white space, in order. */
  function NonSpace(s: string): string
    decreases |s|
  {
    if s == [] then [] else (if IsSpace(s[0]) then [] else [s[0]]) + NonSpace(s[1..])
  }

  function Concat(words: seq<string>): string {
    if words == [] then [] else words[0] + Concat(words[1..])
  }

  lemma {:induction false} NonSpaceAppend(a: string, b: string)
    ensures NonSpace(a + b) == NonSpace(a) + NonSpace(b)
    decreases |a|
  {
    if a == [] {
      assert a + b == b;
    } else {
      assert (a + b)[1..] == a[1..] + b;
      NonSpaceAppend(a[1..], b);
    }
  }

  lemma {:induction false} NonSpaceWord(w: string)
    requires forall i :: 0 <= i < |w| ==> !IsSpace(w[i])
    ensures NonSpace(w) == w
    decreases |w|
  {
    if w != [] {
      NonSpaceWord(w[1..]);
    }
  }

  /**
   * The words are non-empty and hold no white space, and together they
   * are exactly the text with its white space removed.
   */
  lemma {:induction false} WordsSpec(s: string)
    ensures forall k :: 0 <= k < |Words(s)| ==> Words(s)[k] != []
    ensures forall k, i :: 0 <= k < |Words(s)| && 0 <= i < |Words(s)[k]| ==> !IsSpace(Words(s)[k][i])
    ensures Concat(Words(s)) == NonSpace(s)
    decreases |s|
  {
    if s != [] {
      if IsSpace(s[0]) {
        WordsSpec(s[1..]);
      } else {
        var n := WordLength(s);
        WordsSpec(s[n..]);
        var ws := Words(s);
        assert ws == [s[..n]] + Words(s[n..]);
        assert ws[1..] == Words(s[n..]);
        assert s == s[..n] + s[n..];
        NonSpaceAppend(s[..n], s[n..]);
        NonSpaceWord(s[..n]);
      }
    }
  }

  /** `s.replace(",", " ")`. */
  function CommasToSpaces(s: string): (r: string)
    ensures |r| == |s|
    ensures forall i :: 0 <= i < |s| ==> r[i] == (if s[i] == ',' then ' ' else s[i])
  {
    if s == [] then [] else [if s[0] == ',' then ' ' else s[0]] + CommasToSpaces(s[1..])
  }

  // ---------------------------------------------------------------------
  // Case
  // ---------------------------------------------------------------------

  function UpperChar(c: char): char {
    if 'a' <= c <= 'z' then (c as int - 32) as char else c
  }

  function LowerChar(c: char): char {
    if 'A' <= c <= 'Z' then (c as int + 32) as char else c
  }

  /** `str.upper()`, on ASCII letters. */
  function Upper(s: string): (r: string)
    ensures |r| == |s| && forall i :: 0 <= i < |s| ==> r[i] == UpperChar(s[i])
  {
    if s == [] then [] else [UpperChar(s[0])] + Upper(s[1..])
  }

  /** `str.lower()`, on ASCII letters. */
  function Lower(s: string): (r: string)
    ensures |r| == |s| && forall i :: 0 <= i < |s| ==> r[i] == LowerChar(s[i])
  {
    if s == [] then [] else [LowerChar(s[0])] + Lower(s[1..])
  }

  /** Upper-casing forgets what lower-casing did. */
  lemma UpperOfLower(s: string)
    ensures Upper(Lower(s)) == Upper(s)
  {
    assert forall i :: 0 <= i < |s| ==> UpperChar(LowerChar(s[i])) == UpperChar(s[i]);
  }

  lemma UpperIdempotent(s: string)
    ensures Upper(Upper(s)) == Upper(s)
  {
    assert forall i :: 0 <= i < |s| ==> UpperChar(UpperChar(s[i])) == UpperChar(s[i]);
  }

  /** Only `*` upper-cases to `*`. */
  lemma UpperStar(t: string)
    ensures Upper(t) == "*" <==> t == "*"
  {
    if Upper(t) == "*" {
      assert UpperChar(t[0]) == '*';
    }
  }

  // ---------------------------------------------------------------------
  // Integers
  // ---------------------------------------------------------------------

  predicate AllDigits(s: string) {
    forall i :: 0 <= i < |s| ==> Format.IsDigit(s[i])
  }

  /**
   * `int(s)` for a string: white space around an optional sign and at
   * least one decimal digit; anything else raises.
   */
  function IntLiteral(s: string): (r: Option<int>)
  {
    var t := Strip(s);
    if t == [] then None
    else if (t[0] == '-' || t[0] == '+') && |t| >= 2 && AllDigits(t[1..]) then
      Some(if t[0] == '-' then -(Format.DecimalValue(t[1..]) as int) else Format.DecimalValue(t[1..]) as int)
    else if AllDigits(t) then Some(Format.DecimalValue(t) as int)
    else None
  }

  /** Text with no white space at either end is its own strip. */
  lemma StripUnchanged(s: string)
    requires s != [] && !IsSpace(s[0]) && !IsSpace(s[|s| - 1])
    ensures Strip(s) == s
  {
    assert StripStart(s) == s;
    assert StripEnd(s) == s;
  }

  lemma IntLiteralOfDigits(t: string)
    requires t != [] && AllDigits(t)
    ensures IntLiteral(t) == Some(Format.DecimalValue(t) as int)
  {
    assert Format.IsDigit(t[0]) && Format.IsDigit(t[|t| - 1]);
    StripUnchanged(t);
  }

  lemma IntLiteralOfNegative(t: string)
    requires |t| >= 2 && t[0] == '-' && AllDigits(t[1..])
    ensures IntLiteral(t) == Some(-(Format.DecimalValue(t[1..]) as int))
  {
    assert Format.IsDigit(t[1..][|t| - 2]);
    StripUnchanged(t);
  }

  /** `int(str(i))` gives `i` back. */
  lemma IntLiteralRoundTrip(i: int)
    ensures IntLiteral(Format.IntToString(i)) == Some(i)
  {
    var s := Format.IntToString(i);
    if i < 0 {
      var n: nat := -i;
      var digits := Format.NatToString(n);
      Format.NatToStringRoundTrip(n);
      assert s[1..] == digits;
      IntLiteralOfNegative(s);
    } else {
      var n: nat := i;
      Format.NatToStringRoundTrip(n);
      IntLiteralOfDigits(s);
    }
  }
}

=== FILE: py_values.dfy ===
/**
 * The Python values the facade reads out of the dictionaries the
 * extension returns: an entity is a `dict` from keys to strings,
 * integers or `None`; `str(...)` and `int(...)` convert them, and
 * `int(...)` may raise.
 */
module PyValues {
  import opened Wrappers
  import Format
  import PyText

  datatype PyValue = PyStr(s: string) | PyInt(i: int) | PyNone

  /** One row of a converted document: an entity, a layer or a block, as a dictionary. */
  type PyRow = map<string, PyValue>

  /** Why a facade function raised. */
  datatype Reason =
    | InvalidQuerySelector
    | DuplicateLayerFilter
    | DuplicateColorFilter
    | UnsupportedQueryFilter
    | InvalidIntLiteral
    | IntOfNone
    | MaxBlockNestingBelowOne

  /** A Python exception: its class and why it was raised; a failed read carries its message. */
  datatype PyError = ValueError(reason: Reason) | TypeError(reason: Reason) | ReadError(message: string)

  /** `row.get(key, default)`. */
  function Get(row: PyRow, key: string, default: PyValue): (v: PyValue)
    ensures key in row ==> v == row[key]
    ensures key !in row ==> v == default
  {
    if key in row then row[key] else default
  }

  /** `str(v)`. */
  function Str(v: PyValue): string {
    match v
    case PyStr(s) => s
    case PyInt(i) => Format.IntToString(i)
    case PyNone => "None"
  }

  /** `int(v)`: an integer as it is, a string as a decimal literal; `int(None)` raises `TypeError`. */
  function Int(v: PyValue): (r: Result<int, PyError>)
    ensures v.PyNone? ==> r == Err(TypeError(IntOfNone))
    ensures v.PyInt? ==> r == Ok(v.i)
  {
    match v
    case PyInt(i) => Ok(i)
    case PyStr(s) =>
      (match PyText.IntLiteral(s)
       case Some(i) => Ok(i)
       case None => Err(ValueError(InvalidIntLiteral)))
    case PyNone => Err(TypeError(IntOfNone))
  }

  /** An integer written out as text converts back to the same integer. */
  lemma IntOfStr(i: int)
    ensures Int(PyStr(Str(PyInt(i)))) == Ok(i)
  {
    PyText.IntLiteralRoundTrip(i);
  }
}

=== FILE: reader.dfy ===
/**
 * The bounds-checked little-endian cursor over a JWW byte buffer
 * (src/reader.rs), together with the pure description of each read.
 */
module JwwReader {
  import opened Bytes
  import opened Wrappers
  import opened JwwErrors

  /**
   * The decoders the reader hands bytes to and does not itself define:
   * Shift-JIS text decoding, IEEE-754 binary64 decoding (carried as a real)
   * and lossy UTF-8 decoding of class names.
   */
  datatype Codecs = Codecs(
    shiftJis: seq<u8> -> string,
    f64FromLe: seq<u8> -> real,
    utf8Lossy: seq<u8> -> string)

  // ---------------------------------------------------------------------
  // Pure description of the reads: value and position after it.
  // ---------------------------------------------------------------------

  /** The binary64 value stored little-endian at `q`. */
  function F64At(codecs: Codecs, data: seq<u8>, q: nat): real
    requires q + 8 <= |data|
  {
    codecs.f64FromLe(data[q..q + 8])
  }

  /**
   * The MFC CString length prefix at `p` and the position after it: one
   * byte below 0xFF, else a u16 below 0xFFFF after that byte, else a u32
   * after both.
   */
  function CStringLength(data: seq<u8>, p: nat): (r: Result<(nat, nat), JwwError>)
    ensures r.Err? ==> r.error == EofBytes
    ensures r.Ok? ==> p < r.value.1 <= |data|
  {
    if p + 1 > |data| then Err(EofBytes)
    else if data[p] < 0xFF then Ok((data[p] as nat, p + 1))
    else if p + 3 > |data| then Err(EofBytes)
    else if LeU16(data[p + 1..p + 3]) < 0xFFFF then Ok((LeU16(data[p + 1..p + 3]) as nat, p + 3))
    else if p + 7 > |data| then Err(EofBytes)
    else Ok((LeU32(data[p + 3..p + 7]) as nat, p + 7))
  }

  predicate EndsWithNul(s: string) { |s| > 0 && s[|s| - 1] == '\0' }

  /** `trim_end_matches('\0')`: the longest prefix that does not end in NUL. */
  function TrimEndNul(s: string): string {
    if EndsWithNul(s) then TrimEndNul(s[..|s| - 1]) else s
  }

  /** The trimmed text is a prefix of the original that does not end in NUL, and only NULs were cut. */
  lemma {:induction false} TrimEndNulSpec(s: string)
    ensures TrimEndNul(s) <= s
    ensures !EndsWithNul(TrimEndNul(s))
    ensures forall i :: |TrimEndNul(s)| <= i < |s| ==> s[i] == '\0'
  {
    if EndsWithNul(s) {
      TrimEndNulSpec(s[..|s| - 1]);
    }
  }

  /**
   * The stored bytes of the CString at `p` (its length prefix, then that
   * many bytes) and the position after it; a zero length reads nothing more.
   */
  function CStringBytesAt(data: seq<u8>, p: nat): (r: Result<(seq<u8>, nat), JwwError>)
    ensures r.Err? ==> r.error == EofBytes
    ensures r.Ok? ==> p < r.value.1 <= |data|
  {
    match CStringLength(data, p)
    case Err(e) => Err(e)
    case Ok((len, q)) =>
      if q + len > |data| then Err(EofBytes)
      else Ok((data[q..q + len], q + len))
  }

  /**
   * Where a failing CString read leaves the cursor: after the prefix bytes
   * it could read, or after the whole prefix when the text itself is cut off.
   */
  function CStringStop(data: seq<u8>, p: nat): nat {
    match CStringLength(data, p)
    case Ok((_, q)) => q
    case Err(_) => if p + 1 > |data| then p else if p + 3 > |data| then p + 1 else p + 3
  }

  /** The text of stored CString bytes: empty for none, else Shift-JIS decoded and stripped of trailing NULs. */
  function DecodeCString(codecs: Codecs, raw: seq<u8>): string {
    if |raw| == 0 then "" else TrimEndNul(codecs.shiftJis(raw))
  }

  /** The CString at `p`, decoded, and the position after it. */
  function CStringAt(codecs: Codecs, data: seq<u8>, p: nat): (r: Result<(string, nat), JwwError>)
    ensures r.Err? <==> CStringBytesAt(data, p).Err?
    ensures r.Err? ==> r.error == EofBytes
    ensures r.Ok? ==> p < r.value.1 <= |data|
  {
    match CStringBytesAt(data, p)
    case Err(e) => Err(e)
    case Ok((raw, q)) => Ok((DecodeCString(codecs, raw), q))
  }

  /**
   * The length prefix escalates: one byte below 0xFF; else a u16 below 0xFFFF
   * after that byte; else a u32 after both. Its size is 1, 3 or 7 bytes.
   */
  lemma CStringLengthPrefix(data: seq<u8>, p: nat)
    ensures CStringLength(data, p).Ok? <==>
      p < |data| && (data[p] < 0xFF || (p + 3 <= |data| && (LeU16(data[p + 1..p + 3]) < 0xFFFF || p + 7 <= |data|)))
    ensures CStringLength(data, p).Ok? ==>
      var (len, q) := CStringLength(data, p).value;
      && (q == p + 1 <==> data[p] < 0xFF)
      && (q == p + 3 <==> data[p] == 0xFF && LeU16(data[p + 1..p + 3]) < 0xFFFF)
      && (q == p + 7 <==> data[p] == 0xFF && LeU16(data[p + 1..p + 3]) == 0xFFFF)
      && (q == p + 1 || q == p + 3 || q == p + 7)
      && len < 0x1_0000_0000
  {
  }

  /**
   * A CString is read exactly when its length prefix and that many further
   * bytes exist; it consumes the prefix plus the length; a zero length is the
   * empty string; the decoded text never ends with NUL.
   */
  lemma CStringAtLayout(codecs: Codecs, data: seq<u8>, p: nat)
    ensures var r := CStringAt(codecs, data, p);
      var len := CStringLength(data, p);
      && (r.Ok? <==> len.Ok? && len.value.1 + len.value.0 <= |data|)
      && (r.Ok? ==> r.value.1 == len.value.1 + len.value.0)
      && (r.Ok? ==> !EndsWithNul(r.value.0))
      && (r.Ok? && len.value.0 == 0 ==> r.value.0 == "")
  {
    var len := CStringLength(data, p);
    if len.Ok? && len.value.0 > 0 && len.value.1 + len.value.0 <= |data| {
      TrimEndNulSpec(codecs.shiftJis(data[len.value.1..len.value.1 + len.value.0]));
    }
  }

  /** The reader's example: a zero length prefix is the empty string and uses one byte. */
  lemma CStringEmptyExample(codecs: Codecs)
    ensures CStringAt(codecs, [0], 0) == Ok(("", 1))
  {
  }

  // ---------------------------------------------------------------------
  // The cursor.
  // ---------------------------------------------------------------------

  class Reader {
    const data: seq<u8>
    const codecs: Codecs
    var pos: nat

    ghost predicate Valid()
      reads this
    {
      pos <= |data|
    }

    constructor (data: seq<u8>, codecs: Codecs)
      ensures Valid()
      ensures this.data == data && this.codecs == codecs && pos == 0
    {
      this.data := data;
      this.codecs := codecs;
      pos := 0;
    }

    /** Number of bytes consumed so far; never more than the data holds. */
    function BytesRead(): (n: nat)
      requires Valid()
      reads this
      ensures n <= |data|
      ensures n + |data[n..]| == |data|
    {
      pos
    }

    /** Advances by `len`, or fails and stays put when that passes the end. */
    method Skip(len: nat) returns (r: Result<(), JwwError>)
      requires Valid()
      modifies this
      ensures Valid()
      ensures old(pos) + len <= |data| ==> r.Ok? && pos == old(pos) + len
      ensures old(pos) + len > |data| ==> r == Err(EofBytes) && pos == old(pos)
    {
      var newPos := pos + len;
      if newPos > |data| {
        return Err(EofBytes);
      }
      pos := newPos;
      return Ok(());
    }

    /** Fills `buf` with the next `buf.Length` bytes, or fails leaving both untouched. */
    method ReadExactInto(buf: array<u8>) returns (r: Result<(), JwwError>)
      requires Valid()
      modifies this, buf
      ensures Valid()
      ensures old(pos) + buf.Length <= |data| ==>
                r.Ok? && buf[..] == data[old(pos)..old(pos) + buf.Length] && pos == old(pos) + buf.Length
      ensures old(pos) + buf.Length > |data| ==>
                r == Err(EofBytes) && pos == old(pos) && buf[..] == old(buf[..])
    {
      var end := pos + buf.Length;
      if end > |data| {
        return Err(EofBytes);
      }
      var start, k := pos, 0;
      while k < buf.Length
        invariant 0 <= k <= buf.Length
        invariant pos == start
        invariant buf[..k] == data[start..start + k]
      {
        buf[k] := data[start + k];
        k := k + 1;
      }
      assert buf[..] == buf[..buf.Length];
      pos := end;
      return Ok(());
    }

    method ReadExact(n: nat) returns (r: Result<seq<u8>, JwwError>)
      requires Valid()
      modifies this
      ensures Valid()
      ensures old(pos) + n <= |data| ==> r == Ok(data[old(pos)..old(pos) + n]) && pos == old(pos) + n
      ensures old(pos) + n > |data| ==> r == Err(EofBytes) && pos == old(pos)
    {
      var buf := new u8[n](_ => 0);
      var ok := ReadExactInto(buf);
      if ok.Err? {
        return Err(ok.error);
      }
      return Ok(buf[..]);
    }

    method ReadU8() returns (r: Result<u8, JwwError>)
      requires Valid()
      modifies this
      ensures Valid()
      ensures old(pos) + 1 <= |data| ==> r == Ok(data[old(pos)]) && pos == old(pos) + 1
      ensures old(pos) + 1 > |data| ==> r == Err(EofBytes) && pos == old(pos)
    {
      var b :- ReadExact(1);
      return Ok(b[0]);
    }

    method ReadU16() returns (r: Result<u16, JwwError>)
      requires Valid()
      modifies this
      ensures Valid()
      ensures old(pos) + 2 <= |data| ==> r == Ok(LeU16(data[old(pos)..old(pos) + 2])) && pos == old(pos) + 2
      ensures old(pos) + 2 > |data| ==> r == Err(EofBytes) && pos == old(pos)
    {
      var b :- ReadExact(2);
      return Ok(LeU16(b));
    }

    method ReadU32() returns (r: Result<u32, JwwError>)
      requires Valid()
      modifies this
      ensures Valid()
      ensures old(pos) + 4 <= |data| ==> r == Ok(LeU32(data[old(pos)..old(pos) + 4])) && pos == old(pos) + 4
      ensures old(pos) + 4 > |data| ==> r == Err(EofBytes) && pos == old(pos)
    {
      var b :- ReadExact(4);
      return Ok(LeU32(b));
    }

    method ReadF64() returns (r: Result<real, JwwError>)
      requires Valid()
      modifies this
      ensures Valid()
      ensures old(pos) + 8 <= |data| ==> r == Ok(F64At(codecs, data, old(pos))) && pos == old(pos) + 8
      ensures old(pos) + 8 > |data| ==> r == Err(EofBytes) && pos == old(pos)
    {
      var b :- ReadExact(8);
      return Ok(codecs.f64FromLe(b));
    }

    method ReadBytes(len: nat) returns (r: Result<seq<u8>, JwwError>)
      requires Valid()
      modifies this
      ensures Valid()
      ensures old(pos) + len <= |data| ==> r == Ok(data[old(pos)..old(pos) + len]) && pos == old(pos) + len
      ensures old(pos) + len > |data| ==> r == Err(EofBytes) && pos == old(pos)
    {
      r := ReadExact(len);
    }

    /** Reads one CString exactly as CStringBytesAt and DecodeCString describe it. */
    method ReadCString() returns (r: Result<string, JwwError>)
      requires Valid()
      modifies this
      ensures Valid()
      ensures CStringBytesAt(data, old(pos)).Ok? ==>
                r == Ok(DecodeCString(codecs, CStringBytesAt(data, old(pos)).value.0))
                && pos == CStringBytesAt(data, old(pos)).value.1
      ensures CStringBytesAt(data, old(pos)).Err? ==> r == Err(EofBytes) && pos == CStringStop(data, old(pos))
    {
      var lenByte :- ReadU8();
      var len: nat;
      if lenByte < 0xFF {
        len := lenByte;
      } else {
        var wordLen :- ReadU16();
        if wordLen < 0xFFFF {
          len := wordLen;
        } else {
          var dwordLen :- ReadU32();
          len := dwordLen;
        }
      }
      if len == 0 {
        return Ok("");
      }
      var bytes :- ReadBytes(len);
      return Ok(TrimEndNul(codecs.shiftJis(bytes)));
    }
  }
}

=== FILE: selector.dfy ===
/**
 * The query-selector language of `Modelspace.query`
 * (src/ezjww/__init__.py:562-640): `TYPES[FILTERS]`, where TYPES is a
 * list of entity types separated by white space or commas (or `*`) and
 * FILTERS is a list of `layer=="name"` and `color==n` conditions
 * separated by `,`, `&&` or the word `and`. The regular expressions of
 * the source are written out as the scans they perform.
 */
module Selector {
  import opened Wrappers
  import Format
  import opened PyText
  import opened PyValues

  // ---------------------------------------------------------------------
  // Entity types
  // ---------------------------------------------------------------------

  predicate IsAsciiLetter(c: char) {
    'A' <= c <= 'Z' || 'a' <= c <= 'z'
  }

  /** A character `\w` matches, on ASCII. */
  predicate IsWordChar(c: char) {
    IsAsciiLetter(c) || Format.IsDigit(c) || c == '_'
  }

  /** `^[A-Za-z_][A-Za-z0-9_]*$`, matched in full. */
  predicate IsIdentifier(t: string) {
    && |t| >= 1
    && (IsAsciiLetter(t[0]) || t[0] == '_')
    && forall i :: 1 <= i < |t| ==> IsWordChar(t[i])
  }

  /**
   * `_parse_selector_types`: nothing (every type) for an empty part or
   * `*`; otherwise the upper-cased tokens, each of which must be an
   * identifier, with `*` allowed only alone.
   */
  function SelectorTypes(entityPart: string): (r: Result<Option<set<string>>, PyError>)
    ensures r.Err? ==> r.error == ValueError(InvalidQuerySelector)
    ensures r.Ok? && r.value.Some? ==> r.value.value != {}
  {
    if entityPart == "" || entityPart == "*" then Ok(None)
    else
      var tokens := Words(CommasToSpaces(entityPart));
      if tokens == [] then Ok(None)
      else if "*" in tokens then
        if |tokens| == 1 then Ok(None) else Err(ValueError(InvalidQuerySelector))
      else if forall k :: 0 <= k < |tokens| ==> IsIdentifier(tokens[k]) then
        assert Upper(tokens[0]) in UpperSet(tokens);
        Ok(Some(UpperSet(tokens)))
      else Err(ValueError(InvalidQuerySelector))
  }

  /** The tokens, upper-cased, as a set. */
  function UpperSet(tokens: seq<string>): set<string> {
    set t | t in tokens :: Upper(t)
  }

  /** The loop of `_parse_selector_types`: token by token, returning early on `*` or a bad token. */
  method ParseSelectorTypes(entityPart: string) returns (r: Result<Option<set<string>>, PyError>)
    ensures r == SelectorTypes(entityPart)
  {
    if entityPart == "" || entityPart == "*" {
      return Ok(None);
    }
    var tokens := Words(CommasToSpaces(entityPart));
    if tokens == [] {
      return Ok(None);
    }
    var types: set<string> := {};
    var i := 0;
    while i < |tokens|
      invariant 0 <= i <= |tokens|
      invariant forall k :: 0 <= k < i ==> tokens[k] != "*" && IsIdentifier(tokens[k])
      invariant types == UpperSet(tokens[..i])
    {
      var token := tokens[i];
      var upper := Upper(token);
      UpperStar(token);
      if upper == "*" {
        if |tokens| > 1 {
          return Err(ValueError(InvalidQuerySelector));
        }
        return Ok(None);
      }
      if !IsIdentifier(token) {
        if "*" in tokens {
          assert token in tokens;
        }
        return Err(ValueError(InvalidQuerySelector));
      }
      assert tokens[..i + 1] == tokens[..i] + [token];
      assert UpperSet(tokens[..i + 1]) == UpperSet(tokens[..i]) + {upper};
      types := types + {upper};
      i := i + 1;
    }
    assert tokens[..i] == tokens;
    assert forall k :: 0 <= k < |tokens| ==> IsIdentifier(tokens[k]);
    return Ok(Some(types));
  }

  /** Every type in the answer is an upper-case identifier taken from the selector's tokens. */
  lemma SelectorTypesUpper(entityPart: string)
    requires SelectorTypes(entityPart).Ok? && SelectorTypes(entityPart).value.Some?
    ensures forall t :: t in SelectorTypes(entityPart).value.value ==>
      Upper(t) == t && IsIdentifier(t) && exists w :: w in Words(CommasToSpaces(entityPart)) && Upper(w) == t
  {
    var tokens := Words(CommasToSpaces(entityPart));
    forall t | t in SelectorTypes(entityPart).value.value
      ensures Upper(t) == t && IsIdentifier(t) && exists w :: w in tokens && Upper(w) == t
    {
      var w :| w in tokens && Upper(w) == t;
      UpperIdempotent(w);
      var k :| 0 <= k < |tokens| && tokens[k] == w;
      assert IsIdentifier(w);
    }
  }

  // ---------------------------------------------------------------------
  // Filters
  // ---------------------------------------------------------------------

  /**
   * The length of the separator `\s*(?:,|&&|\band\b)\s*` finds at `i`,
   * without the white space around it (the parts are stripped
   * afterwards), or 0 when none starts there; `and` in any case, as a
   * whole word.
   */
  function SeparatorAt(s: string, i: nat): (n: nat)
    requires i < |s|
    ensures n <= |s| - i
  {
    if s[i] == ',' then 1
    else if s[i] == '&' && i + 1 < |s| && s[i + 1] == '&' then 2
    else if i + 3 <= |s| && LowerChar(s[i]) == 'a' && LowerChar(s[i + 1]) == 'n' && LowerChar(s[i + 2]) == 'd'
            && (i == 0 || !IsWordChar(s[i - 1])) && (i + 3 == |s| || !IsWordChar(s[i + 3]))
    then 3
    else 0
  }

  /** The pieces of `s[start..]` between separators, the current piece starting at `start`. */
  function SplitFrom(s: string, start: nat, i: nat): (r: seq<string>)
    requires start <= i <= |s|
    ensures |r| >= 1
    decreases |s| - i
  {
    if i == |s| then [s[start..]]
    else
      var n := SeparatorAt(s, i);
      if n == 0 then SplitFrom(s, start, i + 1)
      else [s[start..i]] + SplitFrom(s, i + n, i + n)
  }

  /** `_FILTER_SPLIT_RE.split(s)`. */
  function Pieces(s: string): seq<string> {
    SplitFrom(s, 0, 0)
  }

  /** Each piece, stripped, when something is left of it. */
  function NonBlank(pieces: seq<string>): seq<string> {
    if pieces == [] then []
    else
      var p := Strip(pieces[0]);
      (if p == [] then [] else [p]) + NonBlank(pieces[1..])
  }

  /** `[part.strip() for part in _FILTER_SPLIT_RE.split(expr) if part.strip()]`. */
  function FilterParts(expr: string): seq<string> {
    NonBlank(Pieces(expr))
  }

  /** The parts are non-empty and already stripped. */
  lemma {:induction false} NonBlankStripped(pieces: seq<string>)
    ensures forall k :: 0 <= k < |NonBlank(pieces)| ==> NonBlank(pieces)[k] != [] && Strip(NonBlank(pieces)[k]) == NonBlank(pieces)[k]
    decreases |pieces|
  {
    if pieces != [] {
      var p := Strip(pieces[0]);
      var rest := NonBlank(pieces[1..]);
      NonBlankStripped(pieces[1..]);
      if p != [] {
        StripIdempotent(pieces[0]);
        var r := NonBlank(pieces);
        assert r == [p] + rest;
        forall k | 0 <= k < |r| ensures r[k] != [] && Strip(r[k]) == r[k] {
          if k > 0 {
            assert r[k] == rest[k - 1];
          }
        }
      }
    }
  }

  /** `p` is the slice of `s` at `a`, and no separator starts inside it. */
  ghost predicate CleanSlice(s: string, a: int, p: string) {
    && 0 <= a <= |s| - |p| && p == s[a..a + |p|]
    && forall j :: a <= j < a + |p| ==> SeparatorAt(s, j) == 0
  }

  ghost predicate IsCleanSlice(s: string, p: string) {
    exists a :: CleanSlice(s, a, p)
  }

  /** Every piece is a slice of the text inside which no separator starts. */
  lemma {:induction false} SplitFromClean(s: string, start: nat, i: nat)
    requires start <= i <= |s|
    requires forall j :: start <= j < i ==> SeparatorAt(s, j) == 0
    ensures forall k :: 0 <= k < |SplitFrom(s, start, i)| ==> IsCleanSlice(s, SplitFrom(s, start, i)[k])
    decreases |s| - i
  {
    var r := SplitFrom(s, start, i);
    if i == |s| {
      assert CleanSlice(s, start, r[0]);
    } else if SeparatorAt(s, i) == 0 {
      SplitFromClean(s, start, i + 1);
    } else {
      var n := SeparatorAt(s, i);
      SplitFromClean(s, i + n, i + n);
      var rest := SplitFrom(s, i + n, i + n);
      assert r == [s[start..i]] + rest;
      assert CleanSlice(s, start, r[0]);
      forall k | 1 <= k < |r| ensures IsCleanSlice(s, r[k]) {
        assert r[k] == rest[k - 1];
      }
    }
  }

  /** No piece of the split holds a comma or `&&`. */
  lemma PiecesHaveNoSeparators(s: string)
    ensures forall k :: 0 <= k < |Pieces(s)| ==> ',' !in Pieces(s)[k]
    ensures forall k, j :: 0 <= k < |Pieces(s)| && 0 <= j < |Pieces(s)[k]| - 1 ==> !(Pieces(s)[k][j] == '&' && Pieces(s)[k][j + 1] == '&')
  {
    SplitFromClean(s, 0, 0);
    var ps := Pieces(s);
    forall k | 0 <= k < |ps|
      ensures ',' !in ps[k]
      ensures forall j :: 0 <= j < |ps[k]| - 1 ==> !(ps[k][j] == '&' && ps[k][j + 1] == '&')
    {
      assert IsCleanSlice(s, ps[k]);
      var a :| CleanSlice(s, a, ps[k]);
      forall j | 0 <= j < |ps[k]| ensures ps[k][j] != ',' {
        assert SeparatorAt(s, a + j) == 0;
      }
      forall j | 0 <= j < |ps[k]| - 1 ensures !(ps[k][j] == '&' && ps[k][j + 1] == '&') {
        assert SeparatorAt(s, a + j) == 0;
      }
    }
  }

  /** The separators the scan of SplitFrom meets from `i` on, in order, each as the slice of `s` it covers. */
  function Separators(s: string, i: nat): (seps: seq<string>)
    requires i <= |s|
    ensures forall k :: 0 <= k < |seps| ==> seps[k] != []
    decreases |s| - i
  {
    if i == |s| then []
    else
      var n := SeparatorAt(s, i);
      if n == 0 then Separators(s, i + 1)
      else [s[i..i + n]] + Separators(s, i + n)
  }

  /** The pieces with the separators put back between them. */
  function Interleave(pieces: seq<string>, seps: seq<string>): (r: string)
    requires |pieces| == |seps| + 1
    ensures |r| >= |pieces[0]|
    decreases |seps|
  {
    if seps == [] then pieces[0]
    else pieces[0] + seps[0] + Interleave(pieces[1..], seps[1..])
  }

  /** A piece and a separator put in front of pieces that make up `s[j..]` make up `s[start..]`. */
  lemma InterleaveFront(s: string, start: nat, i: nat, j: nat, rest: seq<string>, seps: seq<string>)
    requires start <= i <= j <= |s|
    requires |rest| == |seps| + 1 && Interleave(rest, seps) == s[j..]
    ensures Interleave([s[start..i]] + rest, [s[i..j]] + seps) == s[start..]
  {
    assert ([s[start..i]] + rest)[1..] == rest;
    assert ([s[i..j]] + seps)[1..] == seps;
    assert s[start..i] + s[i..j] + s[j..] == s[start..];
  }

  /** At the end of the text the last piece is what is left from `start`. */
  lemma CoverAtEnd(s: string, start: nat)
    requires start <= |s|
    ensures |SplitFrom(s, start, |s|)| == |Separators(s, |s|)| + 1
    ensures Interleave(SplitFrom(s, start, |s|), Separators(s, |s|)) == s[start..]
  {
    assert SplitFrom(s, start, |s|) == [s[start..]];
    assert Separators(s, |s|) == [];
  }

  /** At a character that starts no separator, the cover of the rest of the scan is the cover from here. */
  lemma CoverPastCharacter(s: string, start: nat, i: nat)
    requires start <= i < |s| && SeparatorAt(s, i) == 0
    requires |SplitFrom(s, start, i + 1)| == |Separators(s, i + 1)| + 1
    requires Interleave(SplitFrom(s, start, i + 1), Separators(s, i + 1)) == s[start..]
    ensures |SplitFrom(s, start, i)| == |Separators(s, i)| + 1
    ensures Interleave(SplitFrom(s, start, i), Separators(s, i)) == s[start..]
  {
    assert SplitFrom(s, start, i) == SplitFrom(s, start, i + 1);
    assert Separators(s, i) == Separators(s, i + 1);
  }

  /** At a separator of length `n`, the piece so far and the separator go in front of the cover of the rest. */
  lemma CoverAtSeparator(s: string, start: nat, i: nat, n: nat)
    requires start <= i < |s| && n == SeparatorAt(s, i) && n > 0
    requires |SplitFrom(s, i + n, i + n)| == |Separators(s, i + n)| + 1
    requires Interleave(SplitFrom(s, i + n, i + n), Separators(s, i + n)) == s[i + n..]
    ensures |SplitFrom(s, start, i)| == |Separators(s, i)| + 1
    ensures Interleave(SplitFrom(s, start, i), Separators(s, i)) == s[start..]
  {
    assert SplitFrom(s, start, i) == [s[start..i]] + SplitFrom(s, i + n, i + n);
    assert Separators(s, i) == [s[i..i + n]] + Separators(s, i + n);
    InterleaveFront(s, start, i, i + n, SplitFrom(s, i + n, i + n), Separators(s, i + n));
  }

  /** Putting the separators back between the pieces gives the text from `start` again. */
  lemma {:induction false} SplitFromCovers(s: string, start: nat, i: nat)
    requires start <= i <= |s|
    ensures |SplitFrom(s, start, i)| == |Separators(s, i)| + 1
    ensures Interleave(SplitFrom(s, start, i), Separators(s, i)) == s[start..]
    decreases |s| - i
  {
    if i == |s| {
      CoverAtEnd(s, start);
    } else if SeparatorAt(s, i) == 0 {
      SplitFromCovers(s, start, i + 1);
      CoverPastCharacter(s, start, i);
    } else {
      var n := SeparatorAt(s, i);
      SplitFromCovers(s, i + n, i + n);
      CoverAtSeparator(s, start, i, n);
    }
  }

  /** The split loses nothing: the pieces and the separators between them make up the whole text. */
  lemma PiecesCover(s: string)
    ensures |Pieces(s)| == |Separators(s, 0)| + 1
    ensures Interleave(Pieces(s), Separators(s, 0)) == s
  {
    SplitFromCovers(s, 0, 0);
  }

  /** The first position at or after `i` that is not white space. */
  function SkipSpaces(p: string, i: nat): (j: nat)
    requires i <= |p|
    ensures i <= j <= |p|
    ensures forall k :: i <= k < j ==> IsSpace(p[k])
    ensures j == |p| || !IsSpace(p[j])
    decreases |p| - i
  {
    if i < |p| && IsSpace(p[i]) then SkipSpaces(p, i + 1) else i
  }

  /** Where the value of `KEY\s*==\s*` starts, when `p` begins so (`KEY` in any case). */
  function ValueStart(p: string, key: string): (r: Option<nat>)
    requires |key| == 5
    ensures r.Some? ==> r.value <= |p|
  {
    if |p| < 5 || Lower(p[..5]) != key then None
    else
      var i := SkipSpaces(p, 5);
      if i + 2 > |p| || p[i..i + 2] != "==" then None
      else Some(SkipSpaces(p, i + 2))
  }

  /**
   * `_LAYER_FILTER_RE.fullmatch(p)`: `layer == "value"` or
   * `layer == 'value'`; the value runs to the quote that ends the part
   * and holds no line feed.
   */
  function LayerFilterValue(p: string): Option<string> {
    match ValueStart(p, "layer")
    case None => None
    case Some(j) =>
      if j >= |p| || (p[j] != '\'' && p[j] != '"') then None
      else if |p| < j + 2 || p[|p| - 1] != p[j] then None
      else if '\n' in p[j + 1..|p| - 1] then None
      else Some(p[j + 1..|p| - 1])
  }

  /** The value of `-?\d+`, matched in full. */
  function SignedDecimal(t: string): Option<int> {
    if |t| >= 2 && t[0] == '-' && AllDigits(t[1..]) then Some(-(Format.DecimalValue(t[1..]) as int))
    else if |t| >= 1 && AllDigits(t) then Some(Format.DecimalValue(t) as int)
    else None
  }

  /** `_COLOR_FILTER_RE.fullmatch(p)`: `color == n` with an optional minus sign. */
  function ColorFilterValue(p: string): Option<int> {
    match ValueStart(p, "color")
    case None => None
    case Some(j) => SignedDecimal(p[j..])
  }

  /** A part is a layer filter or a colour filter, never both. */
  lemma LayerNotColor(p: string)
    ensures LayerFilterValue(p).Some? ==> ColorFilterValue(p).None?
  {
  }

  /** Writing a layer filter out and reading it back gives the layer name. */
  lemma LayerFilterRoundTrip(name: string, quote: char)
    requires quote == '"' || quote == '\''
    requires '\n' !in name
    ensures LayerFilterValue("layer==" + [quote] + name + [quote]) == Some(name)
  {
    var p := "layer==" + [quote] + name + [quote];
    assert p[..5] == "layer";
    assert Lower("layer") == "layer";
    assert SkipSpaces(p, 5) == 5;
    assert p[5..7] == "==";
    assert SkipSpaces(p, 7) == 7;
    assert p[8..|p| - 1] == name;
  }

  /** An integer written out is read back by `-?\d+`. */
  lemma SignedDecimalRoundTrip(color: int)
    ensures SignedDecimal(Format.IntToString(color)) == Some(color)
  {
    var digits := Format.IntToString(color);
    if color < 0 {
      var n: nat := -color;
      Format.NatToStringRoundTrip(n);
      assert digits[1..] == Format.NatToString(n);
    } else {
      var n: nat := color;
      Format.NatToStringRoundTrip(n);
    }
  }

  /** `color==` followed by text that starts with no white space has its value right after `==`. */
  lemma ColorValueStart(rest: string)
    requires rest != [] && !IsSpace(rest[0])
    ensures ValueStart("color==" + rest, "color") == Some(7)
  {
    var p := "color==" + rest;
    assert p[..5] == "color";
    assert Lower("color") == "color";
    assert SkipSpaces(p, 5) == 5;
    assert p[5..7] == "==";
    assert p[7] == rest[0];
  }

  /** Writing a colour filter out and reading it back gives the colour. */
  lemma ColorFilterRoundTrip(color: int)
    ensures ColorFilterValue("color==" + Format.IntToString(color)) == Some(color)
  {
    var digits := Format.IntToString(color);
    var p := "color==" + digits;
    assert !IsSpace(digits[0]) by {
      if color < 0 {
        assert digits[0] == '-';
      } else {
        assert Format.IsDigit(digits[0]);
      }
    }
    ColorValueStart(digits);
    assert p[7..] == digits;
    SignedDecimalRoundTrip(color);
  }

  /**
   * The loop of `_parse_selector_filters` from part `parts[0]` on, with
   * the layer and colour found so far: each part must be a filter, and
   * each kind may appear once.
   */
  function FiltersFrom(parts: seq<string>, layer: Option<string>, color: Option<int>)
    : (r: Result<(Option<string>, Option<int>), PyError>)
    ensures r.Err? ==> r.error in {ValueError(DuplicateLayerFilter), ValueError(DuplicateColorFilter), ValueError(UnsupportedQueryFilter)}
    decreases |parts|
  {
    if parts == [] then Ok((layer, color))
    else
      match LayerFilterValue(parts[0])
      case Some(v) =>
        if layer.Some? then Err(ValueError(DuplicateLayerFilter)) else FiltersFrom(parts[1..], Some(v), color)
      case None =>
        match ColorFilterValue(parts[0])
        case Some(c) =>
          if color.Some? then Err(ValueError(DuplicateColorFilter)) else FiltersFrom(parts[1..], layer, Some(c))
        case None => Err(ValueError(UnsupportedQueryFilter))
  }

  /** `_parse_selector_filters`: no filters for an empty expression; otherwise at least one part. */
  function SelectorFilters(expr: string): (r: Result<(Option<string>, Option<int>), PyError>)
    ensures r.Err? ==> r.error.ValueError?
    ensures r.Err? && r.error.reason == InvalidQuerySelector ==> FilterParts(expr) == []
  {
    if expr == "" then Ok((None, None))
    else
      var parts := FilterParts(expr);
      if parts == [] then Err(ValueError(InvalidQuerySelector)) else FiltersFrom(parts, None, None)
  }

  /** The loop of `_parse_selector_filters`, updating `layer` and `color` part by part. */
  method ParseSelectorFilters(expr: string) returns (r: Result<(Option<string>, Option<int>), PyError>)
    ensures r == SelectorFilters(expr)
  {
    if expr == "" {
      return Ok((None, None));
    }
    var parts := FilterParts(expr);
    if parts == [] {
      return Err(ValueError(InvalidQuerySelector));
    }
    var layer: Option<string> := None;
    var color: Option<int> := None;
    var i := 0;
    while i < |parts|
      invariant 0 <= i <= |parts|
      invariant FiltersFrom(parts, None, None) == FiltersFrom(parts[i..], layer, color)
    {
      var part := parts[i];
      assert parts[i..][1..] == parts[i + 1..];
      var layerMatch := LayerFilterValue(part);
      if layerMatch.Some? {
        if layer.Some? {
          return Err(ValueError(DuplicateLayerFilter));
        }
        layer := layerMatch;
        i := i + 1;
        continue;
      }
      var colorMatch := ColorFilterValue(part);
      if colorMatch.Some? {
        if color.Some? {
          return Err(ValueError(DuplicateColorFilter));
        }
        color := colorMatch;
        i := i + 1;
        continue;
      }
      return Err(ValueError(UnsupportedQueryFilter));
    }
    return Ok((layer, color));
  }

  /** How many parts are layer filters. */
  function LayerCount(parts: seq<string>): nat {
    if parts == [] then 0 else (if LayerFilterValue(parts[0]).Some? then 1 else 0) + LayerCount(parts[1..])
  }

  /** How many parts are colour filters. */
  function ColorCount(parts: seq<string>): nat {
    if parts == [] then 0 else (if ColorFilterValue(parts[0]).Some? then 1 else 0) + ColorCount(parts[1..])
  }

  predicate IsFilter(p: string) {
    LayerFilterValue(p).Some? || ColorFilterValue(p).Some?
  }

  function Count1(o: Option<string>): nat { if o.Some? then 1 else 0 }

  function Count2(o: Option<int>): nat { if o.Some? then 1 else 0 }

  /**
   * The filter loop succeeds exactly when every part is a filter and
   * neither kind appears twice, counting the one it started with.
   */
  lemma {:induction false} FiltersFromOk(parts: seq<string>, layer: Option<string>, color: Option<int>)
    ensures FiltersFrom(parts, layer, color).Ok? <==>
      && (forall k :: 0 <= k < |parts| ==> IsFilter(parts[k]))
      && LayerCount(parts) + Count1(layer) <= 1
      && ColorCount(parts) + Count2(color) <= 1
    decreases |parts|
  {
    if parts != [] {
      var p := parts[0];
      var rest := parts[1..];
      LayerNotColor(p);
      assert forall k :: 1 <= k < |parts| ==> parts[k] == rest[k - 1];
      match LayerFilterValue(p)
      case Some(v) =>
        FiltersFromOk(rest, Some(v), color);
        assert LayerCount(parts) == 1 + LayerCount(rest);
        assert ColorCount(parts) == ColorCount(rest);
        assert IsFilter(parts[0]);
      case None =>
        match ColorFilterValue(p)
        case Some(c) =>
          FiltersFromOk(rest, layer, Some(c));
          assert LayerCount(parts) == LayerCount(rest);
          assert ColorCount(parts) == 1 + ColorCount(rest);
          assert IsFilter(parts[0]);
        case None =>
          assert !IsFilter(parts[0]);
    }
  }

  /** A layer or colour the loop starts with is kept to the end. */
  lemma {:induction false} FiltersFromKeeps(parts: seq<string>, layer: Option<string>, color: Option<int>)
    requires FiltersFrom(parts, layer, color).Ok?
    ensures layer.Some? ==> FiltersFrom(parts, layer, color).value.0 == layer
    ensures color.Some? ==> FiltersFrom(parts, layer, color).value.1 == color
    decreases |parts|
  {
    if parts != [] {
      var rest := parts[1..];
      match LayerFilterValue(parts[0])
      case Some(v) =>
        FiltersFromKeeps(rest, Some(v), color);
      case None =>
        match ColorFilterValue(parts[0])
        case Some(c) =>
          FiltersFromKeeps(rest, layer, Some(c));
        case None =>
    }
  }

  /**
   * When the filter loop succeeds it answers the value of the layer
   * filter and of the colour filter among the parts, or what it started
   * with when there is none.
   */
  lemma {:induction false} FiltersFromValues(parts: seq<string>, layer: Option<string>, color: Option<int>)
    requires FiltersFrom(parts, layer, color).Ok?
    ensures
      var (l, c) := FiltersFrom(parts, layer, color).value;
      && (forall k :: 0 <= k < |parts| && LayerFilterValue(parts[k]).Some? ==> l == LayerFilterValue(parts[k]))
      && (forall k :: 0 <= k < |parts| && ColorFilterValue(parts[k]).Some? ==> c == ColorFilterValue(parts[k]))
      && (LayerCount(parts) == 0 ==> l == layer)
      && (ColorCount(parts) == 0 ==> c == color)
    decreases |parts|
  {
    if parts != [] {
      var p := parts[0];
      var rest := parts[1..];
      var r := FiltersFrom(parts, layer, color);
      LayerNotColor(p);
      assert forall k :: 1 <= k < |parts| ==> parts[k] == rest[k - 1];
      match LayerFilterValue(p)
      case Some(v) =>
        assert r == FiltersFrom(rest, Some(v), color);
        FiltersFromValues(rest, Some(v), color);
        FiltersFromKeeps(rest, Some(v), color);
        assert ColorFilterValue(p).None?;
        assert LayerCount(parts) > 0;
        assert ColorCount(parts) == ColorCount(rest);
      case None =>
        match ColorFilterValue(p)
        case Some(c) =>
          assert r == FiltersFrom(rest, layer, Some(c));
          FiltersFromValues(rest, layer, Some(c));
          FiltersFromKeeps(rest, layer, Some(c));
          assert ColorCount(parts) > 0;
          assert LayerCount(parts) == LayerCount(rest);
        case None =>
    }
  }

  // ---------------------------------------------------------------------
  // The whole selector
  // ---------------------------------------------------------------------

  function Count(s: string, c: char): (n: nat)
    ensures n == 0 <==> c !in s
  {
    if s == [] then 0 else (if s[0] == c then 1 else 0) + Count(s[1..], c)
  }

  /** The position of the first `c` in `s`. */
  function IndexOf(s: string, c: char): (k: nat)
    requires c in s
    ensures k < |s| && s[k] == c
    ensures forall j :: 0 <= j < k ==> s[j] != c
  {
    if s[0] == c then 0 else 1 + IndexOf(s[1..], c)
  }

  /** What a selector asks for: the entity types, the layer and the colour (each optional). */
  type Query = (Option<set<string>>, Option<string>, Option<int>)

  function Assemble(types: Result<Option<set<string>>, PyError>, filters: Result<(Option<string>, Option<int>), PyError>)
    : Result<Query, PyError>
  {
    var t :- types;
    var lc :- filters;
    Ok((t, lc.0, lc.1))
  }

  /** `TYPES[FILTERS]`: the types before the one `[` and the filters up to the closing `]`. */
  function BracketQuery(text: string): (r: Result<Query, PyError>)
    requires '[' in text && text[|text| - 1] == ']'
    ensures r.Err? ==> r.error.ValueError?
  {
    var k := IndexOf(text, '[');
    assert k < |text| - 1 by {
      assert text[k] == '[';
    }
    var entityPart := text[..k];
    var filterExpr := text[k + 1..|text| - 1];
    Assemble(SelectorTypes(Strip(entityPart)), SelectorFilters(Strip(filterExpr)))
  }

  /**
   * `_parse_query_selector`: the selector stripped; with one `[` it must
   * end in `]`, the types come before the bracket and the filters inside
   * it; the types are parsed first.
   */
  function QuerySelector(selector: Option<string>): (r: Result<Query, PyError>)
    ensures r.Err? ==> r.error.ValueError?
  {
    if selector.None? then Ok((None, None, None)) else QueryText(Strip(selector.value))
  }

  /** The selector once stripped. */
  function QueryText(text: string): (r: Result<Query, PyError>)
    ensures r.Err? ==> r.error.ValueError?
    ensures r.Ok? && '[' !in text ==> r.value.1.None? && r.value.2.None?
  {
    if text == [] then Ok((None, None, None))
    else if '[' in text then
      if Count(text, '[') != 1 || text[|text| - 1] != ']' then Err(ValueError(InvalidQuerySelector))
      else BracketQuery(text)
    else Assemble(SelectorTypes(Strip(text)), SelectorFilters(""))
  }

  /** No selector, or a blank one, asks for nothing. */
  lemma QuerySelectorBlank(selector: Option<string>)
    requires selector.None? || Strip(selector.value) == []
    ensures QuerySelector(selector) == Ok((None, None, None))
  {
  }

  /** More than one `[`, or a `[` without a closing `]` at the end, raises `ValueError`. */
  lemma QuerySelectorBadBrackets(selector: string)
    requires Count(Strip(selector), '[') > 1 || ('[' in Strip(selector) && Strip(selector)[|Strip(selector)| - 1] != ']')
    ensures QuerySelector(Some(selector)) == Err(ValueError(InvalidQuerySelector))
  {
    var text := Strip(selector);
    assert text != [] && '[' in text;
    assert QueryText(text) == Err(ValueError(InvalidQuerySelector));
  }

  /** Without a bracket the selector names types only. */
  lemma QuerySelectorTypesOnly(selector: string)
    requires '[' !in Strip(selector) && Strip(selector) != []
    requires SelectorTypes(Strip(selector)).Ok?
    ensures QuerySelector(Some(selector)) == Ok((SelectorTypes(Strip(selector)).value, None, None))
  {
    StripIdempotent(selector);
  }
}

=== FILE: seqs.dfy ===
/** Sequence helpers shared by the converter and the writer. */
module Seqs {

  /** `f` applied to every element, the results concatenated in order. */
  function FlatMap<A, B>(f: A -> seq<B>, xs: seq<A>): seq<B> {
    if xs == [] then [] else FlatMap(f, xs[..|xs| - 1]) + f(xs[|xs| - 1])
  }

  lemma {:induction false} FlatMapAppend<A, B>(f: A -> seq<B>, xs: seq<A>, ys: seq<A>)
    ensures FlatMap(f, xs + ys) == FlatMap(f, xs) + FlatMap(f, ys)
    decreases |ys|
  {
    if ys == [] {
      assert xs + ys == xs;
    } else {
      assert (xs + ys)[..|xs + ys| - 1] == xs + ys[..|ys| - 1];
      assert (xs + ys)[|xs + ys| - 1] == ys[|ys| - 1];
      FlatMapAppend(f, xs, ys[..|ys| - 1]);
    }
  }

  /** A property every image has holds for every element of the concatenation. */
  lemma {:induction false} FlatMapAll<A, B>(f: A -> seq<B>, xs: seq<A>, P: B -> bool)
    requires forall i, k :: 0 <= i < |xs| && 0 <= k < |f(xs[i])| ==> P(f(xs[i])[k])
    ensures forall k :: 0 <= k < |FlatMap(f, xs)| ==> P(FlatMap(f, xs)[k])
  {
    if xs != [] {
      var prefix := xs[..|xs| - 1];
      assert forall i :: 0 <= i < |prefix| ==> prefix[i] == xs[i];
      FlatMapAll(f, prefix, P);
      var last := f(xs[|xs| - 1]);
      assert forall k :: 0 <= k < |last| ==> P(last[k]) by {
        forall k | 0 <= k < |last| ensures P(last[k]) {
          assert P(f(xs[|xs| - 1])[k]);
        }
      }
    }
  }

  lemma AppendAssoc<A>(xs: seq<A>, ys: seq<A>, zs: seq<A>)
    ensures (xs + ys) + zs == xs + (ys + zs)
  {
  }

  /** The prefix one element longer, cut back, is the shorter prefix. */
  lemma TakeStep<A>(xs: seq<A>, k: nat)
    requires k < |xs|
    ensures xs[..k + 1][..k] == xs[..k]
    ensures xs[..k + 1] == xs[..k] + [xs[k]]
  {
  }

  lemma TakeAll<A>(xs: seq<A>)
    ensures xs[..|xs|] == xs
  {
  }
}

=== FILE: sorted.dfy ===
/**
 * The ordered containers the writer iterates: Rust's `BTreeSet<String>`
 * and `BTreeMap<String, _>` visit their keys in ascending order, and
 * `String`'s order is lexicographic over code points (UTF-8 byte order
 * agrees with code point order). A set is modelled as the strictly
 * increasing sequence of its elements; `insert` keeps it so.
 */
module Sorted {

  /** Lexicographic order on strings; a proper prefix comes first. */
  predicate Less(a: string, b: string)
    decreases |a|
  {
    if a == [] then b != []
    else if b == [] then false
    else a[0] < b[0] || (a[0] == b[0] && Less(a[1..], b[1..]))
  }

  lemma {:induction false} LessIrreflexive(a: string)
    ensures !Less(a, a)
    decreases |a|
  {
    if a != [] {
      LessIrreflexive(a[1..]);
    }
  }

  lemma {:induction false} LessTransitive(a: string, b: string, c: string)
    requires Less(a, b) && Less(b, c)
    ensures Less(a, c)
    decreases |a|
  {
    if a != [] && a[0] == b[0] && b[0] == c[0] {
      LessTransitive(a[1..], b[1..], c[1..]);
    }
  }

  lemma {:induction false} LessTotal(a: string, b: string)
    requires a != b
    ensures Less(a, b) || Less(b, a)
    decreases |a|
  {
    if a != [] && b != [] && a[0] == b[0] {
      assert a == [a[0]] + a[1..] && b == [b[0]] + b[1..];
      LessTotal(a[1..], b[1..]);
    }
  }

  /** Strictly increasing under `Less`: sorted and without duplicates. */
  predicate Increasing(xs: seq<string>) {
    forall i, j :: 0 <= i < j < |xs| ==> Less(xs[i], xs[j])
  }

  /** `BTreeSet::insert`: `x` in its place, or nothing when it is already there. */
  function Insert(xs: seq<string>, x: string): (r: seq<string>)
    ensures |r| <= |xs| + 1
    decreases |xs|
  {
    if xs == [] then [x]
    else if x == xs[0] then xs
    else if Less(x, xs[0]) then [x] + xs
    else [xs[0]] + Insert(xs[1..], x)
  }

  /** After `insert`, the set holds exactly the old elements and `x`. */
  lemma {:induction false} InsertMembers(xs: seq<string>, x: string)
    ensures forall y :: y in Insert(xs, x) <==> y in xs || y == x
    decreases |xs|
  {
    if xs != [] && x != xs[0] && !Less(x, xs[0]) {
      InsertMembers(xs[1..], x);
      assert xs == [xs[0]] + xs[1..];
    }
  }

  /** Inserting keeps a set strictly increasing. */
  lemma {:induction false} InsertIncreasing(xs: seq<string>, x: string)
    requires Increasing(xs)
    ensures Increasing(Insert(xs, x))
    decreases |xs|
  {
    if xs == [] || x == xs[0] {
    } else if Less(x, xs[0]) {
      var r := [x] + xs;
      forall i, j | 0 <= i < j < |r| ensures Less(r[i], r[j]) {
        if i == 0 && j > 1 {
          LessTransitive(x, xs[0], xs[j - 1]);
        }
      }
    } else {
      LessTotal(x, xs[0]);
      InsertIncreasing(xs[1..], x);
      InsertMembers(xs[1..], x);
      var rest := Insert(xs[1..], x);
      var r := [xs[0]] + rest;
      forall i, j | 0 <= i < j < |r| ensures Less(r[i], r[j]) {
        if i == 0 {
          assert r[j] in rest;
          assert r[j] in xs[1..] || r[j] == x;
        }
      }
    }
  }

  lemma SameElementsEmpty(xs: seq<string>, ys: seq<string>)
    requires forall z :: z in xs <==> z in ys
    ensures xs == [] <==> ys == []
  {
    if xs != [] {
      assert xs[0] in xs;
    }
    if ys != [] {
      assert ys[0] in ys;
    }
  }

  lemma HeadNotLess(xs: seq<string>, ys: seq<string>)
    requires Increasing(ys) && xs != [] && ys != []
    requires forall z :: z in xs <==> z in ys
    ensures !Less(xs[0], ys[0])
  {
    if Less(xs[0], ys[0]) {
      assert xs[0] in ys;
      var k :| 0 <= k < |ys| && ys[k] == xs[0];
      LessIrreflexive(xs[0]);
      if k > 0 {
        LessTransitive(xs[0], ys[0], ys[k]);
      }
    }
  }

  lemma TailElement(xs: seq<string>, ys: seq<string>, y: string)
    requires Increasing(xs) && xs != [] && ys != [] && xs[0] == ys[0]
    requires forall z :: z in xs <==> z in ys
    requires y in xs[1..]
    ensures y in ys[1..]
  {
    var j :| 0 <= j < |xs| - 1 && xs[1..][j] == y;
    assert xs[j + 1] == y;
    LessIrreflexive(y);
    assert y != xs[0];
    assert y in ys;
    var m :| 0 <= m < |ys| && ys[m] == y;
    assert ys[1..][m - 1] == y;
  }

  /** Two strictly increasing sequences with the same elements are the same sequence. */
  lemma {:induction false} IncreasingUnique(xs: seq<string>, ys: seq<string>)
    requires Increasing(xs) && Increasing(ys)
    requires forall y :: y in xs <==> y in ys
    ensures xs == ys
    decreases |xs|
  {
    if xs != [] && ys != [] {
      HeadNotLess(xs, ys);
      HeadNotLess(ys, xs);
      if xs[0] != ys[0] {
        LessTotal(xs[0], ys[0]);
        assert false;
      }
      forall y ensures y in xs[1..] <==> y in ys[1..] {
        if y in xs[1..] {
          TailElement(xs, ys, y);
        }
        if y in ys[1..] {
          TailElement(ys, xs, y);
        }
      }
      IncreasingUnique(xs[1..], ys[1..]);
    } else {
      SameElementsEmpty(xs, ys);
    }
  }
}

=== FILE: wrappers.dfy ===
/** Option and Result: the failure-compatible wrappers the rest of the model returns. */
module Wrappers {

  datatype Option<+T> = None | Some(value: T) {
    predicate IsFailure() { None? }

    function PropagateFailure<U>(): Option<U>
      requires None?
    {
      None
    }

    function Extract(): T
      requires Some?
    {
      value
    }
  }

  datatype Result<+T, +E> = Ok(value: T) | Err(error: E) {
    predicate IsFailure() { Err? }

    function PropagateFailure<U>(): Result<U, E>
      requires Err?
    {
      Err(error)
    }

    function Extract(): T
      requires Ok?
    {
      value
    }
  }
}
